=== FILE: README.md ===
# A verified model of the bel-20 indexer core

This project models, in Dafny, the deterministic core of a Rust indexer for
BEL-20 (BRC-20 style) tokens on Bellscoin and related chains, and proves
properties of that model. The model covers four parts of the indexer.

- **Token ledger.**
  - `TokenCache` reads inscriptions as deploy, mint and transfer
    operations, queues them as token actions and applies them to tick
    metadata and per-address balances (`balance`, `transferable_balance`,
    `transfers_count`).
  - `ReorgCache` keeps an undo log per recent block and replays it when
    blocks are disconnected.
  - `RuntimeTokenState` keeps valid transfers with a secondary index by
    owner and outpoint.
- **Inscription extraction.**
  - Push-data decoding and the multi-script "ord" parser.
  - Taproot envelopes and their fields.
  - Satoshi-offset arithmetic, and leaked inscriptions that land on the
    coinbase.
  - The per-block walk that moves and creates inscriptions.
  - The bounded prevout cache, and the history-id assignment of the block
    handler.
- **Key/value encodings.**
  - The `Pebble` byte layouts and the composite keys.
  - `Partials`, and the search ranges.
  - `RocksTable` modelled as a byte-ordered map with its `range`
    semantics.
- **Block-file parsing and chain tracking.**
  - CompactSize and Bitcoin Core's VARINT.
  - Header, transaction and Merkle-branch layouts, with the segwit marker
    and flag (BIP 144).
  - XOR de-obfuscation of block files.
  - The block-index readers of both parser versions.
  - The `CheckPoint` chain and the live synchronisation loop.
  - The Merkle root, the height range and the coin table.

## How it is modelled

Each Rust module is a Dafny module of its own, with datatypes for its
structs and enums and pure functions for its operations.

- **Integers.**
  - Fixed-width integers are subset types of `int` (`u8` … `u64`).
  - `Fixed128` amounts are natural numbers of 10^-18 units.
  - Sums that the code keeps in `u64` are unbounded here (see Left out).
- **Maps and collections.**
  - Database tables and `HashMap`s are Dafny maps.
  - Queues and ordered iterations are sequences.
  - A `HashSet` whose iteration order matters is a duplicate-free sequence
    in insertion order.
- **Errors and panics.**
  - A panic the code can reach on untrusted input (block bytes, database
    content, an `unwrap` of a missing entry) is an `Err` value carrying
    the panic message.
  - A panic that only a wrong caller could cause is a precondition.
- **Foreign code.** Everything the indexer calls in libraries outside this
  code is a function-typed parameter:
  - sha256 and double sha256;
  - bech32 and Base58Check;
  - `serde_json`;
  - the script tokenizer and `Tag::take`;
  - `Fixed128::from_str` and `scale`;
  - the node's RPC answers.

The `## Findings` section lists places where the code as written does not
do what its own surroundings evidently intend. For each one the model keeps
a member that behaves as written, with a lemma exhibiting the input, and a
corrected member with the intended property proved. Which of the two each
pipeline runs:

- Inscription parsing takes the reading of PUSHDATA2/4 lengths as a
  parameter (`InscriptionParser.ParserEnv.pushLengths`, of type
  `Inscriptions.LengthReading`). The indexer's own reading is `AsWritten`;
  every property of the pipeline is stated for either reading.
- The reorg replay takes a `Reorg.Replay`. The indexer's own replay is
  `AsWritten`, which takes back only the last meta update of a tick and
  loads the burn address's account; `Corrected` does neither. The
  properties of `Restore`, `RestoreBlock` and `RestoreAll` hold for both.
- The block-index readers (`BlockIndex.GetBlockIndex`,
  `OldBlockIndex.OldGetBlockIndex`) take the entry reader as a parameter.
  The code's reader is `BlockIndex.ParseRecordAsWritten`, and
  `BlockIndex.ParseRecord` is the corrected one; the agreement lemmas
  relate the two indexes.
- The byte decoding of `Partials` is called by nothing else in the model,
  which reads the table as decoded values. It is modelled twice, side by
  side: `Partials.DecodePartialsAsWritten` is the code's decoder and
  `Partials.DecodePartials` the corrected one.
- The live pass of the block reader is likewise a top-level operation,
  modelled twice: `ChainSync.LivePassAsWritten` is the code's pass and
  `ChainSync.LivePass` the corrected one. They agree when the tip is still
  confirmed and was the last block sent
  (`ChainSync.LivePassAgreesWithoutRollback`).

## Model

| member | source | states |
|---|---|---|
| AddressEncoder.DecoderParams | src/utils/address_encoder.rs:150-238 | a decoder carries the version bytes of its library; Bellscoin uses the human-readable parts `bel`, `tbel` and `bcrt`, Dogecoin `bc`, `tb` and `bcrt` |
| AddressEncoder.ConfigOf | src/utils/address_encoder.rs:49-71 | mainnet takes the main prefixes; every other network takes the test prefixes; testnet and signet share the test part, regtest has its own |
| AddressEncoder.HrpCandidate | src/utils/address_encoder.rs:80-83 | the candidate part is a prefix of the address ending just before its last `1`, or the whole address when there is no `1` |
| AddressEncoder.DecodeBech32 | src/utils/address_encoder.rs:86-114 | a bech32 address decodes only to a witness program of version at most 16, written in the variant its version requires |
| AddressEncoder.DecodeBase58 | src/utils/address_encoder.rs:116-145 | texts over 50 characters fail with length `len*11/15`; a success is a 20-byte P2PKH or P2SH hash chosen by the version byte (P2PKH tried first); any other version byte is the `InvalidAddressVersion` error |
| AddressEncoder.Decode | src/utils/address_encoder.rs:78-147 | an address whose candidate part equals the network's part goes only to bech32, every other address only to Base58Check; a witness program never comes from Base58Check |
| AddressEncoder.Base58RoundTrip | src/utils/address_encoder.rs:116-145 | a legacy payload encoded with the network's version byte decodes back to the same payload when the two prefixes differ |
| BlkFiles.ParseIndex | packages/new-blk-parser/src/blockchain/parser/blk_file.rs:111-118 | a name is a block file exactly when it has the prefix, the extension and a u64 between them; a name too short for both makes the slice panic |
| BlkFiles.BlkNeverPanics | packages/new-blk-parser/src/blockchain/parser/blk_file.rs:70-71 | with `blk` and `.dat` no file name can reach the slice panic |
| BlkFiles.IndexOfName | packages/new-blk-parser/src/blockchain/parser/blk_file.rs:111-118 | `blk`, any number of zeros, the decimal form of `n` and `.dat` name file `n` |
| BlkFiles.PaddedNamesCollide | packages/new-blk-parser/src/blockchain/parser/blk_file.rs:111-118 | `blk1.dat` and `blk00001.dat` both name file 1 |
| BlkFiles.NotBlockFiles | packages/new-blk-parser/src/blockchain/parser/blk_file.rs:111-118 | `rev00001.dat`, `blk00001.idx`, `blk.dat` and `blkx1.dat` are not block files |
| BlkFiles.Collect | packages/new-blk-parser/src/blockchain/parser/blk_file.rs:48-83 | every collected entry is the file of its index; the scan fails exactly when no listed name is a block file |
| BlkFiles.CollectFrom | packages/new-blk-parser/src/blockchain/parser/blk_file.rs:52-80 | the loop keeps earlier entries and only adds block files under their own index |
| BlkUtils.NewRange | packages/new-blk-parser/src/utils/range.rs:10-15 | a range is refused exactly when an end is given that is not above the start, and otherwise keeps both bounds |
| BlkUtils.RangeDisplayRoundTrip | packages/new-blk-parser/src/utils/range.rs:18-25 | the displayed `start..end` or `start..HEAD` text reads back to the same range |
| BlkUtils.FirstDotAfterDigits | packages/new-blk-parser/src/utils/range.rs:24 | in the displayed text the first `.` follows the start's digits |
| BlkUtils.EndRoundTrip | packages/new-blk-parser/src/utils/range.rs:20-23 | the displayed end, digits or `HEAD`, reads back to the same optional end |
| BlkUtils.FullPairs | packages/new-blk-parser/src/utils/mod.rs:23-27 | hashing the full pairs halves the count, rounding down |
| BlkUtils.Level | packages/new-blk-parser/src/utils/mod.rs:21-34 | one round of the loop halves the count, rounding up |
| BlkUtils.LevelIsPairUp | packages/new-blk-parser/src/utils/mod.rs:21-34 | one round equals the textbook Merkle level, where a lone last hash is paired with itself |
| BlkUtils.MerkleRoot | packages/new-blk-parser/src/utils/mod.rs:18-37 | no hashes is the panic; otherwise the loop ends at the root of the level-by-level definition |
| BlkUtils.SingleRoot | packages/new-blk-parser/src/utils/mod.rs:21 | a single hash is its own root |
| BlkUtils.DuplicateLastSameRoot | packages/new-blk-parser/src/utils/mod.rs:29-33 | appending a copy of the last hash to an odd list longer than one keeps the root unchanged |
| BlkUtils.PairsPrefix | packages/new-blk-parser/src/utils/mod.rs:23-27 | the full pairs of an odd list with one more hash are the old pairs plus the pair of the last two |
| BlockIndex.ToSmall | packages/new-blk-parser/src/blockchain/parser/index.rs:108-116 | the small record keeps the hash, file number and data position |
| BlockIndex.Varint | packages/new-blk-parser/src/blockchain/parser/index.rs:279-297 | `read_varint` succeeds exactly when Bitcoin Core's VARINT decoding does, with the same value and rest |
| BlockIndex.SkipMweb | packages/new-blk-parser/src/blockchain/parser/index.rs:299-317 | skipping the MWEB extension consumes input |
| BlockIndex.ReadCounts | packages/new-blk-parser/src/blockchain/parser/index.rs:123-126 | the four leading numbers consume input |
| BlockIndex.ReadPositions | packages/new-blk-parser/src/blockchain/parser/index.rs:128-142 | a data position is read exactly when the status has block data |
| BlockIndex.ReadFields | packages/new-blk-parser/src/blockchain/parser/index.rs:119-149 | an entry yields fields only when its status has block or undo data, and a data position exactly when it has block data |
| BlockIndex.ParseRecordAsWritten | packages/new-blk-parser/src/blockchain/parser/index.rs:119-158 | a key that is not 32 bytes is the malformed-hash panic |
| BlockIndex.ParseRecord | packages/new-blk-parser/src/blockchain/parser/index.rs:119-158 | a key that is not 32 bytes is the malformed-hash panic; every parsed record has block data and the key as its hash |
| BlockIndex.ParseRecordAgrees | packages/new-blk-parser/src/blockchain/parser/index.rs:150-157 | the corrected reading agrees wherever the code as written succeeds, and fails only where it fails |
| BlockIndex.UndoOnlyPanics | packages/new-blk-parser/src/blockchain/parser/index.rs:128-155 | an entry with undo data but no block data makes the code as written panic in `data_offset.unwrap()`; the correction skips it |
| BlockIndex.ScanAgrees | packages/new-blk-parser/src/blockchain/parser/index.rs:128-233 | a scan reading entries as written gives the corrected scan's records whenever it succeeds, and fails wherever the corrected scan fails |
| BlockIndex.Scan | packages/new-blk-parser/src/blockchain/parser/index.rs:203-233 | for any entry reader, every record the scan returns passes the filter: in range, with block data, not failed, validated up to the transactions |
| BlockIndex.ScanStops | packages/new-blk-parser/src/blockchain/parser/index.rs:206-211 | the scan ends at the first key outside the `b` entries, and nothing after it matters |
| BlockIndex.ScanSound | packages/new-blk-parser/src/blockchain/parser/index.rs:206-233 | every kept record was parsed from some `b` entry |
| BlockIndex.ScanComplete | packages/new-blk-parser/src/blockchain/parser/index.rs:206-233 | every `b` entry before the run ends that parses to a record passing the filter is kept |
| BlockIndex.Group | packages/new-blk-parser/src/blockchain/parser/index.rs:232 | grouping puts every record under its height, and no group is empty |
| BlockIndex.AtHeight | packages/new-blk-parser/src/blockchain/parser/index.rs:232 | the records of one height all have that height and come from the input |
| BlockIndex.GroupIsAtHeight | packages/new-blk-parser/src/blockchain/parser/index.rs:232 | each group holds exactly the records of its height, in arrival order |
| BlockIndex.GroupWellGrouped | packages/new-blk-parser/src/blockchain/parser/index.rs:232 | every record in a group has that group's height |
| BlockIndex.InsertDesc | packages/new-blk-parser/src/blockchain/parser/index.rs:235-237 | inserting a height keeps the list strictly decreasing and adds exactly that height |
| BlockIndex.HeightsDesc | packages/new-blk-parser/src/blockchain/parser/index.rs:235-237 | the known heights come strictly decreasing and are exactly the group keys |
| BlockIndex.Window | packages/new-blk-parser/src/blockchain/parser/index.rs:180-186 | the heights visited lie below the current record and not below the minimum |
| BlockIndex.Find | packages/new-blk-parser/src/blockchain/parser/index.rs:188 | the first record with the parent hash, or none when no record has it |
| BlockIndex.Walk | packages/new-blk-parser/src/blockchain/parser/index.rs:174-196 | a successful link is a chain of parents taken from the groups, one for each known height between the minimum and the start |
| BlockIndex.WalkComplete | packages/new-blk-parser/src/blockchain/parser/index.rs:174-196 | with hashes unique per height, any linked chain of grouped records over that window is the one found |
| BlockIndex.ToMap | packages/new-blk-parser/src/blockchain/parser/index.rs:265 | every record's height is a key, and each key holds a record of that height from the chain |
| BlockIndex.ToMapDistinct | packages/new-blk-parser/src/blockchain/parser/index.rs:265 | with pairwise different heights each record keeps its own entry |
| BlockIndex.Insert | packages/new-blk-parser/src/blockchain/parser/index.rs:247-260 | inserting a candidate adds exactly that record |
| BlockIndex.InsertSorted | packages/new-blk-parser/src/blockchain/parser/index.rs:248-260 | inserting keeps the candidates in preference order |
| BlockIndex.SortCandidates | packages/new-blk-parser/src/blockchain/parser/index.rs:246-260 | the candidates come as a permutation in preference order: higher validity level, then lower file, then lower offset |
| BlockIndex.FirstLinking | packages/new-blk-parser/src/blockchain/parser/index.rs:262-268 | the first candidate whose link succeeds; none exactly when every candidate fails |
| BlockIndex.Top | packages/new-blk-parser/src/blockchain/parser/index.rs:241 | the top height is a known height and no kept record is higher |
| BlockIndex.TopCandidates | packages/new-blk-parser/src/blockchain/parser/index.rs:246-260 | the top candidates are the records of the top height, sorted by preference |
| BlockIndex.BestChain | packages/new-blk-parser/src/blockchain/parser/index.rs:237-271 | no kept record gives the empty index; a failure is exactly the linking error |
| BlockIndex.BestChainLinked | packages/new-blk-parser/src/blockchain/parser/index.rs:174-196 | the chain starts at the top height, links each record to its parent, comes from the index, and below the top has one record for each known height down to one below the start |
| BlockIndex.BestChainPreferred | packages/new-blk-parser/src/blockchain/parser/index.rs:246-268 | the chosen start is preferred to every other top candidate that links |
| BlockIndex.BestChainFails | packages/new-blk-parser/src/blockchain/parser/index.rs:262-271 | the error comes exactly when no top candidate links |
| BlockIndex.FirstFailsAll | packages/new-blk-parser/src/blockchain/parser/index.rs:262-271 | trying a permutation of the candidates finds none exactly when none links |
| BlockIndex.SmallMap | packages/new-blk-parser/src/blockchain/parser/index.rs:265 | the map holds every record of the chain in small form under its height, and no other height |
| BlockIndex.GetBlockIndex | packages/new-blk-parser/src/blockchain/parser/index.rs:198-272 | for any entry reader (the code's is the one as written), a scan error is an error; no kept record is the empty map; any other failure is the linking error |
| BlockIndex.GetBlockIndexIsChain | packages/new-blk-parser/src/blockchain/parser/index.rs:262-267 | for any entry reader, the index holds exactly the best chain's records, each under its own height |
| BlockIndex.GetBlockIndexAgrees | packages/new-blk-parser/src/blockchain/parser/index.rs:128-272 | the index read as written, when it succeeds, is the index the corrected reader gives |
| BlockIndex.UndoOnlyIndexPanics | packages/new-blk-parser/src/blockchain/parser/index.rs:128-233 | a leading entry with undo data but no block data makes the index as written fail with the `unwrap` panic, whatever follows, while the corrected scan skips it |
| BlockIndex.ChainHeightsDistinct | packages/new-blk-parser/src/blockchain/parser/index.rs:174-196 | the heights of the chosen chain are pairwise different |
| BlockIndex.TopThenWindowDistinct | packages/new-blk-parser/src/blockchain/parser/index.rs:174-196 | a top record followed by records at the heights of a window below it has pairwise different heights |
| BlockIndex.MaxByBlk | packages/new-blk-parser/src/blockchain/parser/index.rs:44-56 | each file holding a block maps to the highest height among its blocks, and no other file appears |
| BlockIndex.MaxKnown | packages/new-blk-parser/src/blockchain/parser/index.rs:58 | the highest known height, or 0 for an empty index |
| BlockIndex.NewChainIndex | packages/new-blk-parser/src/blockchain/parser/index.rs:35-69 | no index directory gives an empty index; the stop height is the range end when that is lower than the highest known height, and otherwise that height |
| BlockIndex.MaxHeightByBlk | packages/new-blk-parser/src/blockchain/parser/index.rs:85-87 | a file with no block of the chain is the `unwrap` panic |
| BlockIndex.MaxHeightByBlkIsMax | packages/new-blk-parser/src/blockchain/parser/index.rs:44-87 | a file has an answer exactly when it holds a block of the chain, and the answer is the highest height in it |
| BlockReader.ReadExact | packages/new-blk-parser/src/blockchain/parser/reader.rs:23-27 | reading `n` bytes fails exactly when fewer remain, and otherwise splits the input at `n` |
| BlockReader.ReadU8 | packages/new-blk-parser/src/blockchain/parser/reader.rs:75 | one byte, failing only on empty input |
| BlockReader.ReadU32 | packages/new-blk-parser/src/blockchain/parser/reader.rs:46-51 | four little-endian bytes, failing exactly on shorter input |
| BlockReader.ReadU64 | packages/new-blk-parser/src/blockchain/parser/reader.rs:134 | eight little-endian bytes, failing exactly on shorter input |
| BlockReader.ReadHash | packages/new-blk-parser/src/blockchain/parser/reader.rs:16-20 | 32 bytes, failing exactly on shorter input |
| BlockReader.U32RoundTrip | packages/new-blk-parser/src/blockchain/parser/reader.rs:46 | the little-endian bytes of a u32 read back to it |
| BlockReader.U64RoundTrip | packages/new-blk-parser/src/blockchain/parser/reader.rs:134 | the little-endian bytes of a u64 read back to it |
| BlockReader.HeaderBytes | packages/new-blk-parser/src/blockchain/parser/reader.rs:45-61 | a header occupies 80 bytes |
| BlockReader.ReadHeader | packages/new-blk-parser/src/blockchain/parser/reader.rs:45-61 | reading a header fails exactly when fewer than 80 bytes remain, and otherwise consumes the header's layout |
| BlockReader.HeaderRoundTrip | packages/new-blk-parser/src/blockchain/parser/reader.rs:45-61 | a header's bytes read back to the same header and rest |
| BlockReader.HeaderBytesInjective | packages/new-blk-parser/src/blockchain/parser/reader.rs:45-61 | equal byte strings starting with two headers hold the same header and rest |
| BlockReader.ReadOutPoint | packages/new-blk-parser/src/blockchain/parser/reader.rs:103-111 | an outpoint is its 32-byte txid and little-endian vout, failing exactly on fewer than 36 bytes |
| BlockReader.ReadInput | packages/new-blk-parser/src/blockchain/parser/reader.rs:116-126 | an input starts with an empty witness, its script has the truncated 32-bit length, and it consumes exactly its serialized form |
| BlockReader.ReadInputs | packages/new-blk-parser/src/blockchain/parser/reader.rs:113-129 | exactly `n` inputs, in order, without witnesses, consuming their serialized forms |
| BlockReader.ReadOutput | packages/new-blk-parser/src/blockchain/parser/reader.rs:134-141 | an output's script has the truncated length, and it consumes exactly its serialized form |
| BlockReader.ReadOutputs | packages/new-blk-parser/src/blockchain/parser/reader.rs:131-144 | exactly `n` outputs, in order, consuming their serialized forms |
| BlockReader.ReadWitnesses | packages/new-blk-parser/src/blockchain/parser/reader.rs:85-89 | the witness loop changes only the witness of each input |
| BlockReader.ReadTxHead | packages/new-blk-parser/src/blockchain/parser/reader.rs:69-77 | after the version a non-zero input count is taken as it is, with flag 0 |
| BlockReader.ReadTxBody | packages/new-blk-parser/src/blockchain/parser/reader.rs:78-100 | the inputs and outputs match their counts, and without the witness flag no input has a witness |
| BlockReader.ReadTxFlags | packages/new-blk-parser/src/blockchain/parser/reader.rs:68-101 | the inputs and outputs match their counts; without the witness flag no input has a witness; a non-zero first count means no marker |
| BlockReader.ReadTx | packages/new-blk-parser/src/blockchain/parser/reader.rs:68-101 | the inputs and outputs match their counts |
| BlockReader.ParsedReads | packages/new-blk-parser/src/blockchain/proto/varuint.rs:17-40 | the bytes of a CompactSize read back as the same value and bytes |
| BlockReader.InputRoundTrip | packages/new-blk-parser/src/blockchain/parser/reader.rs:113-129 | a witness-free input with a length below 2^32 reads back from its serialized form |
| BlockReader.OutPointReadRoundTrip | packages/new-blk-parser/src/blockchain/parser/reader.rs:103-111 | an outpoint's 36 bytes read back to it |
| BlockReader.InputsRoundTrip | packages/new-blk-parser/src/blockchain/parser/reader.rs:113-129 | a list of plain inputs reads back from its serialized form |
| BlockReader.OutputRoundTrip | packages/new-blk-parser/src/blockchain/parser/reader.rs:131-144 | a plain output reads back from its serialized form |
| BlockReader.OutputsRoundTrip | packages/new-blk-parser/src/blockchain/parser/reader.rs:131-144 | a list of plain outputs reads back from its serialized form |
| BlockReader.HeadRoundTrip | packages/new-blk-parser/src/blockchain/parser/reader.rs:69-77 | a version followed by a non-zero input count reads back with flag 0 |
| BlockReader.BodyRoundTrip | packages/new-blk-parser/src/blockchain/parser/reader.rs:78-100 | the inputs, outputs and locktime of a plain transaction read back |
| BlockReader.TxRoundTrip | packages/new-blk-parser/src/blockchain/parser/reader.rs:68-101 | a legacy-layout transaction serialized by `to_bytes` reads back to itself |
| BlockReader.MarkerThenFlag | packages/new-blk-parser/src/blockchain/parser/reader.rs:73-77 | after the version a zero byte is the segwit marker, and the next byte is taken as the flag (BIP 144) |
| BlockReader.HeadFlag | packages/new-blk-parser/src/blockchain/parser/reader.rs:73-77 | a zero count is followed by the flag byte |
| BlockReader.HashesBytes | packages/new-blk-parser/src/blockchain/parser/reader.rs:150-152 | n hashes occupy 32n bytes |
| BlockReader.ReadHashes | packages/new-blk-parser/src/blockchain/parser/reader.rs:150-152 | reading n hashes fails exactly on fewer than 32n bytes |
| BlockReader.ReadMerkleBranch | packages/new-blk-parser/src/blockchain/parser/reader.rs:148-155 | a branch is a count, that many hashes and a side mask, consuming exactly those bytes |
| BlockReader.HashesRoundTrip | packages/new-blk-parser/src/blockchain/parser/reader.rs:150-152 | hashes read back from their bytes |
| BlockReader.MerkleBranchRoundTrip | packages/new-blk-parser/src/blockchain/parser/reader.rs:148-155 | a branch reads back from its bytes |
| BlockReader.ReadTxs | packages/new-blk-parser/src/blockchain/parser/reader.rs:63-65 | exactly the counted transactions |
| BlockReader.ReadBlock | packages/new-blk-parser/src/blockchain/parser/reader.rs:30-43 | the block has the header read first, AuxPoW data exactly when the coin uses merged mining and version bit 8 is set, and as many transactions as its count |
| Bytes.Zeros | packages/rocksdb-wrapper/src/item.rs:113-123 | n zero bytes |
| Bytes.Ones | packages/rocksdb-wrapper/src/item.rs:113-123 | n bytes 0xFF |
| Bytes.BeBytes | packages/rocksdb-wrapper/src/item.rs:158-160 | the big-endian layout of a number below 256^n has n bytes |
| Bytes.BeValueBound | packages/rocksdb-wrapper/src/item.rs:162-164 | the value of an n-byte big-endian string is below 256^n |
| Bytes.BeRoundTrip | packages/rocksdb-wrapper/src/item.rs:158-164 | decoding a big-endian layout gives back the number |
| Bytes.BeBytesOfValue | packages/rocksdb-wrapper/src/item.rs:158-164 | encoding the value of a byte string gives back the same bytes |
| Bytes.BeBytesInjective | packages/rocksdb-wrapper/src/item.rs:158-160 | different numbers have different big-endian layouts |
| Bytes.LeBytes | packages/new-blk-parser/src/blockchain/parser/reader.rs:46-51 | the little-endian layout of a number below 256^n has n bytes |
| Bytes.LeValueBound | packages/new-blk-parser/src/blockchain/parser/reader.rs:46-51 | the value of an n-byte little-endian string is below 256^n |
| Bytes.LeRoundTrip | packages/new-blk-parser/src/blockchain/parser/reader.rs:46-51 | decoding a little-endian layout gives back the number |
| Bytes.LeBytesOfValue | packages/new-blk-parser/src/blockchain/parser/reader.rs:46-51 | encoding the value of a byte string gives back the same bytes |
| Bytes.LexIrreflexive | packages/rocksdb-wrapper/src/storage.rs:238-255 | no key sorts before itself in the database's byte order |
| Bytes.LexAsymmetric | packages/rocksdb-wrapper/src/storage.rs:238-255 | two keys never sort before each other |
| Bytes.LexTransitive | packages/rocksdb-wrapper/src/storage.rs:238-255 | the byte order is transitive |
| Bytes.LexConnected | packages/rocksdb-wrapper/src/storage.rs:238-255 | any two different keys are ordered one way or the other |
| Bytes.LexLeTransitive | packages/rocksdb-wrapper/src/storage.rs:238-255 | the non-strict byte order is transitive |
| Bytes.LexPrefixDecides | packages/rocksdb-wrapper/src/storage.rs:238-255 | keys starting with prefixes of the same length compare by the prefixes when those differ, and otherwise by the rest |
| Bytes.LexSnoc | packages/rocksdb-wrapper/src/storage.rs:238-255 | keys differing only in a last byte compare by the rest first and then by that byte |
| Bytes.BeOrder | packages/rocksdb-wrapper/src/item.rs:158-160 | fixed-width big-endian layouts sort in numeric order |
| Bytes.ZerosLeast | packages/rocksdb-wrapper/src/item.rs:113-123 | a run of zero bytes is the smallest key of its length |
| Bytes.OnesGreatest | packages/rocksdb-wrapper/src/item.rs:113-123 | a run of 0xFF bytes is the largest key of its length |
| ChainSync.CheckOrdering | packages/new-blk-parser/src/lib.rs:76-81 | a header passes exactly when it names the last sent hash as its parent, and its own hash becomes the last sent hash; otherwise the panic names both hashes |
| ChainSync.SendChecked | packages/new-blk-parser/src/lib.rs:69-72 | the ordering is checked before the send, so a header out of order panics whether or not the channel is open |
| ChainSync.SendAll | packages/new-blk-parser/src/lib.rs:76-126 | a sequence of headers passes exactly when it forms a chain from the last sent hash, which then ends at the last header's hash |
| ChainSync.ChainedPairwise | packages/new-blk-parser/src/lib.rs:76-81 | forming a chain means the first header names the last sent hash and every other header names the one before it |
| ChainSync.SendAllFailsAt | packages/new-blk-parser/src/lib.rs:76-81 | the first header that breaks the chain is the one the panic reports |
| ChainSync.StartHeight | packages/new-blk-parser/src/lib.rs:91-94 | the stream resumes one above the last indexed block, except that a last height of 0 starts at the genesis block |
| ChainSync.ReplayCount | packages/new-blk-parser/src/lib.rs:107-114 | the replay sends at most the blocks available and never passes the maximum height |
| ChainSync.Replay | packages/new-blk-parser/src/lib.rs:107-126 | the replay succeeds exactly when the blocks it reaches chain from the last indexed hash, with one event per block at consecutive heights, reorg length 0 and tip the maximum height |
| ChainSync.ReplayResumes | packages/new-blk-parser/src/lib.rs:91-126 | the first replayed event is the block above the last indexed one (or genesis) and names the last indexed hash as its parent |
| ChainSync.StaleTop | packages/new-blk-parser/src/lib.rs:149-167 | the run of blocks at the top that the node no longer confirms, and the block below it is confirmed |
| ChainSync.Rollback | packages/new-blk-parser/src/lib.rs:149-167 | the walk ends on a confirmed tip, keeps a prefix of the checkpoint, drops one block per counted step within the maximum length, and otherwise fails with the length panic or the `prev` panic |
| ChainSync.RollbackDropsStale | packages/new-blk-parser/src/lib.rs:149-167 | with a confirmed block below the stale run the walk drops exactly that run when it fits the maximum length, and otherwise panics with "Reorg chain is too long" |
| ChainSync.RollbackResult | packages/new-blk-parser/src/lib.rs:149-167 | the walk's result is the checkpoint without its stale blocks, with the counter raised by their number |
| ChainSync.RollbackAllStale | packages/new-blk-parser/src/lib.rs:149-167 | when every block is stale the walk panics: on the length guard if it fires first, else on `prev().unwrap()` at the base |
| ChainSync.InsertOnTop | packages/new-blk-parser/src/lib.rs:189-192 | inserting a block above the tip appends it |
| ChainSync.AppendAbove | packages/new-blk-parser/src/lib.rs:189-192 | a block above the tip extends a valid checkpoint and becomes its tip |
| ChainSync.Fetch | packages/new-blk-parser/src/lib.rs:171-195 | fetching k heights gives k events, and only the ordering check can fail |
| ChainSync.Fetched | packages/new-blk-parser/src/lib.rs:172-174 | one header for each of the k heights |
| ChainSync.FetchChained | packages/new-blk-parser/src/lib.rs:171-195 | the fetch completes exactly when the fetched headers chain from the last sent hash, which then is the last header's hash |
| ChainSync.FetchEvents | packages/new-blk-parser/src/lib.rs:175-194 | each event is the block at its height with its header, the reorg length on the first event only, heading for the best height |
| ChainSync.StackAbove | packages/new-blk-parser/src/lib.rs:189-192 | consecutive heights stacked above the tip keep the checkpoint valid |
| ChainSync.CatchUp | packages/new-blk-parser/src/lib.rs:171-195 | catching up appends one block per height from above the tip to the best height, in height order, and only the ordering check can fail |
| ChainSync.LivePassAsWritten | packages/new-blk-parser/src/lib.rs:144-203 | a pass with the best hash at the tip changes nothing; a completed pass leaves a valid checkpoint at or above the best height |
| ChainSync.LivePass | packages/new-blk-parser/src/lib.rs:144-203 | the same as the pass as written, with the last sent hash reset to the kept tip after the walk |
| ChainSync.LivePassAgreesWithoutRollback | packages/new-blk-parser/src/lib.rs:144-203 | with a confirmed tip that was the last block sent, the pass as written and the corrected pass agree |
| ChainSync.LivePassAsWrittenPanics | packages/new-blk-parser/src/lib.rs:144-194 | after a walk that dropped blocks, the pass as written panics on the first fetched block when that block builds on the kept tip |
| ChainSync.CatchUpFirstFails | packages/new-blk-parser/src/lib.rs:171-187 | the catch-up fails at its first block when that block's parent is not the last sent hash |
| ChainSync.LivePassCatchesUp | packages/new-blk-parser/src/lib.rs:144-198 | the corrected pass succeeds exactly when the fetched headers chain from the kept tip, appends them to the kept blocks, and reports the number of dropped blocks on the first event |
| ChainSync.CatchUpChained | packages/new-blk-parser/src/lib.rs:171-195 | the catch-up succeeds exactly when the fetched headers chain from the last sent hash, and its first event is the block above the tip with the reorg length |
| ChainSync.TestChain | packages/new-blk-parser/src/lib.rs:221-230 | an example, the chain of `test_reorg`: the test chain holds six blocks at heights 0 to 5 |
| ChainSync.TestStaleTop | packages/new-blk-parser/src/lib.rs:228-250 | an example from `test_reorg`: with distinct hashes the test chain is a valid checkpoint whose top three blocks are stale |
| ChainSync.ReorgScenario | packages/new-blk-parser/src/lib.rs:228-278 | an example, the single scenario of `test_reorg`: in the situation of `test_reorg` the walk drops three blocks and keeps heights 0 to 2; the corrected pass sends the new block at height 3 with reorg length 3, while the pass as written panics on it |
| Checkpoints.DefaultBlockId | packages/new-blk-parser/src/blockchain/block_id.rs:12-19 | the default id is height 0 with the all-zero hash |
| Checkpoints.TupleRoundTrip | packages/new-blk-parser/src/blockchain/block_id.rs:21-31 | the two tuple conversions are inverse to each other |
| Checkpoints.BlockIdOrder | packages/new-blk-parser/src/blockchain/block_id.rs:4 | the derived order, by height and then hash, is a strict total order |
| Checkpoints.New | packages/new-blk-parser/src/blockchain/checkpoint.rs:61-63 | a new list is valid and has the given block as its tip |
| Checkpoints.Push | packages/new-blk-parser/src/blockchain/checkpoint.rs:91-100 | a push succeeds exactly for a block above the tip, which then becomes the tip; otherwise the list comes back unchanged |
| Checkpoints.Prev | packages/new-blk-parser/src/blockchain/checkpoint.rs:130-132 | the list without its tip, absent exactly at the base |
| Checkpoints.RisesAscending | packages/new-blk-parser/src/blockchain/checkpoint.rs:106-112 | appending blocks keeps the heights ascending exactly when each rises above the one before it |
| Checkpoints.Extend | packages/new-blk-parser/src/blockchain/checkpoint.rs:106-112 | extending succeeds exactly when the blocks rise from the tip, appends them all, and otherwise gives back the original list |
| Checkpoints.ExtendFrom | packages/new-blk-parser/src/blockchain/checkpoint.rs:106-112 | the loop either appends all blocks or stops at the first one not above the list reached so far |
| Checkpoints.StoppedShift | packages/new-blk-parser/src/blockchain/checkpoint.rs:108-110 | stopping after one pushed block is stopping from the list before it |
| Checkpoints.FromBlockIds | packages/new-blk-parser/src/blockchain/checkpoint.rs:65-85 | no ids is `Err(None)`; the list is built exactly when the ids ascend strictly, and is then the ids; otherwise the error is the proper prefix built before the first id that does not rise |
| Checkpoints.StoppedFromFirst | packages/new-blk-parser/src/blockchain/checkpoint.rs:79-84 | the list built before a failure is a proper prefix of the ids, and the next id does not rise above it |
| Checkpoints.Iter | packages/new-blk-parser/src/blockchain/checkpoint.rs:134-203 | iteration yields the blocks from the tip down |
| Checkpoints.IterDescending | packages/new-blk-parser/src/blockchain/checkpoint.rs:134-203 | iteration starts at the tip and yields strictly falling heights |
| Checkpoints.EqualIffSame | packages/new-blk-parser/src/blockchain/checkpoint.rs:51-57 | two lists are equal by their iterated ids exactly when they are the same list |
| Checkpoints.Walk | packages/new-blk-parser/src/blockchain/checkpoint.rs:154-172 | the downward walk stops on a valid base or at one of the three panics |
| Checkpoints.Insert | packages/new-blk-parser/src/blockchain/checkpoint.rs:151-176 | inserting keeps the list valid |
| Checkpoints.Reattach | packages/new-blk-parser/src/blockchain/checkpoint.rs:174-175 | reattaching succeeds exactly when the new block and the passed blocks rise from the base, and appends them in height order |
| Checkpoints.Below | packages/new-blk-parser/src/blockchain/checkpoint.rs:154-172 | the number of blocks below a height, all of them at the start of the list |
| Checkpoints.BelowInit | packages/new-blk-parser/src/blockchain/checkpoint.rs:166-171 | dropping a tip at or above the height keeps that number |
| Checkpoints.OnlyTipAtTop | packages/new-blk-parser/src/blockchain/checkpoint.rs:155 | in a rising list only the tip is at the tip's height |
| Checkpoints.WalkAtHeight | packages/new-blk-parser/src/blockchain/checkpoint.rs:155-164 | with a block already at the height, the walk stops there: as the same block, as the genesis panic, as the base panic, or at the list below it |
| Checkpoints.WalkPasses | packages/new-blk-parser/src/blockchain/checkpoint.rs:166-171 | with no block at the height, the walk passes every block above it; nothing below is the `prev` panic |
| Checkpoints.InsertAscending | packages/new-blk-parser/src/blockchain/checkpoint.rs:174 | a block placed between the lower and higher blocks keeps the list rising |
| Checkpoints.InsertAtHeight | packages/new-blk-parser/src/blockchain/checkpoint.rs:155-164 | the same block leaves the list unchanged; a different block cuts the list there and becomes the tip, except at genesis or at the base |
| Checkpoints.ReattachOnTop | packages/new-blk-parser/src/blockchain/checkpoint.rs:174 | with nothing passed, the new block goes on top of a lower base |
| Checkpoints.InsertBetween | packages/new-blk-parser/src/blockchain/checkpoint.rs:166-176 | at a height the list lacks, the new block goes between the lower and higher blocks, all kept; a block below the base is a panic |
| Checkpoints.ReattachBetween | packages/new-blk-parser/src/blockchain/checkpoint.rs:174-175 | reattaching the passed blocks above a block between them rebuilds the list with the block inserted |
| Checkpoints.AboveAfterBelow | packages/new-blk-parser/src/blockchain/checkpoint.rs:166-171 | with no block at the height, every block from that point on is above it |
| Envelopes.ReadBody | src/inscriptions/envelope.rs:137-178 | the payload loop never reads past the script and, when it finds an envelope, has consumed at least its closing OP_ENDIF |
| Envelopes.ReadBodyStep | src/inscriptions/envelope.rs:140-170 | a push or a PUSHNUM opcode inside the envelope is appended to the payload (PUSHNUM as its own byte, raising the pushnum flag) and reading continues |
| Envelopes.ReadBodyShape | src/inscriptions/envelope.rs:137-178 | an envelope that closes ends with OP_ENDIF, holds only pushes and PUSHNUM opcodes before it, and its payload and pushnum flag are exactly those of the enclosed instructions |
| Envelopes.ReadBodyOf | src/inscriptions/envelope.rs:137-178 | conversely, any run of pushes and PUSHNUM opcodes closed by OP_ENDIF is read whole into the payload |
| Envelopes.FromInstructions | src/inscriptions/envelope.rs:119-179 | the envelope carries the input, offset and stutter it was called with; a stutter is only reported when the next instruction is another empty push |
| Envelopes.EnvelopeOf | src/inscriptions/envelope.rs:127-178 | OP_IF, the "ord" push, enclosed instructions and OP_ENDIF produce exactly one envelope with their payload and pushnum flag, and reading resumes after OP_ENDIF |
| Envelopes.EnvelopeBody | src/inscriptions/envelope.rs:137-163 | the body of such an envelope is read from the empty payload up to its OP_ENDIF |
| Envelopes.FromInstructionsRead | src/inscriptions/envelope.rs:127-163 | after OP_IF and the "ord" push, the envelope is whatever the payload loop reads |
| Envelopes.EnvelopeShape | src/inscriptions/envelope.rs:127-178 | every envelope found starts with OP_IF and the "ord" push, ends with OP_ENDIF and holds only pushes and PUSHNUM opcodes, whose payload and pushnum flag it records |
| Envelopes.Scan | src/inscriptions/envelope.rs:82-105 | envelopes already found are kept in order and every new one carries the input index and its position among the envelopes as offset |
| Envelopes.FromTapscript | src/inscriptions/envelope.rs:82-105 | a script that fails to tokenize is an error; otherwise the i-th envelope has the given input and offset i |
| Envelopes.SingleEnvelopeFound | src/inscriptions/envelope.rs:82-179 | a script made of an empty push and one well-formed envelope yields exactly that envelope at offset 0 without stutter |
| Envelopes.BodyStart | src/inscriptions/envelope.rs:20-24 | the body separator is the first empty push at an even position of the payload, and there is none when no even position holds an empty push |
| Envelopes.Pairs | src/inscriptions/envelope.rs:26-30 | the header is read as consecutive (tag, value) pairs, a trailing odd push being left over |
| Envelopes.CollectValues | src/inscriptions/envelope.rs:30-35 | the field map holds a tag exactly when some pair has it, with all that tag's values in header order |
| Envelopes.OneValue | src/inscriptions/envelope.rs:30-35 | a tag has a value in the field map exactly when some header pair carries that tag |
| Envelopes.TwoValues | src/inscriptions/envelope.rs:30-37 | a tag has two or more values exactly when two different header pairs carry it |
| Envelopes.Parsed | src/inscriptions/envelope.rs:18-79 | parsing keeps the envelope's input, offset, pushnum and stutter; there is a body exactly when some even payload position is an empty push, and then it is the concatenation of everything after it; a field is incomplete exactly when the header has odd length |
| Envelopes.DuplicateFieldIff | src/inscriptions/envelope.rs:37 | duplicate_field is set exactly when two header pairs share a tag |
| Envelopes.FromParts | src/inscriptions/structs.rs:30-54 | one part is read as a taproot script and gives no inscription exactly when it fails to tokenize, otherwise one inscription per envelope; several parts are never read as a taproot script and go to the legacy parse with the given length reading |
| Indexer.Inc | src/inscriptions/indexer.rs:123 | the history counter steps by one and wraps to zero past u64::MAX |
| Indexer.EntriesOf | src/inscriptions/indexer.rs:122-169 | a send between two addresses becomes two entries (the sender's send under the second fresh id, the recipient's receive under the first), any other action one entry for its recipient under the next id |
| Indexer.Expand | src/inscriptions/indexer.rs:119-170 | the block's history has one entry per action plus one more per send |
| Indexer.EntriesNumbered | src/inscriptions/indexer.rs:122-166 | the entries of one action use exactly the ids after the previous counter up to the new counter, each once |
| Indexer.ExpandNumbered | src/inscriptions/indexer.rs:119-170 | without wrap-around, the block's entries use exactly the ids from the stored counter + 1 to the final counter, each once |
| Indexer.SendsPaired | src/inscriptions/indexer.rs:134-157 | every send entry is immediately followed by the matching receive of the same token and amount, addressed to the send's recipient and naming its sender, with the id one below |
| Indexer.ToLoad | src/inscriptions/indexer.rs:117-136 | the addresses to look up are exactly the recipients of all actions and the senders of the sends |
| Indexer.EntriesNamesLoaded | src/inscriptions/indexer.rs:126-136 | every address an action's entries name is one that was queued for lookup |
| Indexer.ToLoadCons | src/inscriptions/indexer.rs:127-136 | the lookup set holds the first action's addresses and everything the later actions queue |
| Indexer.ExpandNamesLoaded | src/inscriptions/indexer.rs:117-170 | every address named in the block's history is in the lookup set |
| Indexer.BlockAddressesKeys | src/inscriptions/indexer.rs:64-74 | the block's address map is keyed exactly by the SHA-256 of the script of every output that has an address |
| Indexer.BlockAddressesLastWins | src/inscriptions/indexer.rs:64-74 | for scripts hashing alike, the map keeps the address of the last such output |
| Indexer.RestAddresses | src/inscriptions/indexer.rs:172-181 | the address map sent with the proof holds the block's own addresses, overriding, plus the stored addresses of the queued hashes the block does not have |
| Indexer.RestAddressesCover | src/inscriptions/indexer.rs:117-181 | when every queued hash is known to the block or the store, that map names every address in the block's history |
| Indexer.PrevProof | src/inscriptions/indexer.rs:61-62 | the previous proof is the stored proof at height - 1 (at 0 for the first block), or the default hash when none is stored |
| Indexer.TransfersToRemove | src/inscriptions/indexer.rs:102-106 | the transfers to remove are exactly the loaded transfers, each keyed by its owner and location |
| Indexer.HandleBlock | src/inscriptions/indexer.rs:47-211 | below the first inscription block only the addresses are written; a coinbase-only block writes the addresses and block info with the proof of an empty history; a full block fails exactly when loading the tokens, processing the token actions or the proof fails, and otherwise writes the addresses, the history of the processed actions with its last id, the processed token state and the block info, returns the processed reorg cache, and emits one new-block event |
| Indexer.HandledIdsFresh | src/inscriptions/indexer.rs:119-189 | a fully handled block writes the same history it reports, numbered from the stored last id to the written last id without gaps or reuse, as long as the counter does not wrap |
| Indexer.HandledTokensGood | src/inscriptions/indexer.rs:98-200 | the token state a handled block writes has an empty action queue and keeps every supply within its maximum and no account for the burn address, when the loaded state and its queued actions did |
| Inscriptions.Pad8 | src/inscriptions/structs.rs:71-80 | the pointer bytes are the field's first eight bytes, missing ones read as zero |
| Inscriptions.Pointer | src/inscriptions/structs.rs:64-83 | there is a pointer exactly when the field is present and every byte after the eighth is zero |
| Inscriptions.PointerIsLeValue | src/inscriptions/structs.rs:64-83 | the pointer is the little-endian value of the whole field |
| Inscriptions.PointerOfLeBytes | src/inscriptions/structs.rs:64-83 | a value written as at most eight little-endian bytes is read back as the pointer |
| Inscriptions.ContentType | src/inscriptions/structs.rs:60-62 | the content type is present exactly when the field is present and valid UTF-8, and then it is the text those bytes encode |
| Inscriptions.PushDataLength | src/inscriptions/structs.rs:249-277 | the little-endian reading takes the 2 or 4 bytes after the opcode; the reading as written is the little-endian value of the window starting at the opcode byte itself, one byte too early |
| Inscriptions.NextPush | src/inscriptions/structs.rs:208-279 | a push that can be read consumes at least one byte and no more than the script has, for either reading of the PUSHDATA2/4 length |
| Inscriptions.Pushes | src/inscriptions/structs.rs:204-283 | a decoded script yields at most one push per byte, and no push exactly when the script is empty |
| Inscriptions.PushesAppend | src/inscriptions/structs.rs:204-283 | encoded pushes followed by any bytes decode to those pushes followed by whatever the bytes decode to — with the indexer's length reading when every push is at most 255 bytes (so no PUSHDATA2/4 is used), with the little-endian reading always |
| Inscriptions.DecodePushDatas | src/inscriptions/structs.rs:204-283 | the loop returns the pushes of the whole script, or nothing as soon as one opcode is not a push or a push runs past the end, for either reading of the PUSHDATA2/4 length |
| Inscriptions.PushesRoundTrip | src/inscriptions/structs.rs:204-283 | decoding the shortest-push encoding of a list of data gives the list back — with the indexer's length reading when every push is at most 255 bytes (so no PUSHDATA2/4 is used), with the little-endian reading always |
| Inscriptions.NextPushOfEncoded | src/inscriptions/structs.rs:208-279 | one encoded push is read back whole and consumes exactly its encoding — with the indexer's length reading when every push is at most 255 bytes (so no PUSHDATA2/4 is used), with the little-endian reading always |
| Inscriptions.PushData2AsWrittenRejects | src/inscriptions/structs.rs:249-260 | a one-byte PUSHDATA2 push is rejected by the length as written and read correctly with the little-endian length |
| Inscriptions.PushData2PieceLost | src/inscriptions/structs.rs:89-283 | a one-piece inscription whose piece is pushed with PUSHDATA2 gives no inscription with the indexer's length reading, and the inscription with the little-endian one |
| Inscriptions.PushNumber | src/inscriptions/structs.rs:285-303 | a number is read exactly from data of at most eight bytes |
| Inscriptions.PushDataToNumber | src/inscriptions/structs.rs:285-303 | the shift-and-add loop yields the little-endian value of the data, zero for empty data and nothing for more than eight bytes |
| Inscriptions.CounterReads | src/inscriptions/structs.rs:285-303 | a piece counter written as eight little-endian bytes reads back as its number |
| Inscriptions.TakeChunks | src/inscriptions/structs.rs:137-174 | taking pieces never raises the number still missing and only appends to the body |
| Inscriptions.TakeCounted | src/inscriptions/structs.rs:157-173 | pieces numbered downwards from the expected counter are all taken, in order, their data appended to the body |
| Inscriptions.ReadPieces | src/inscriptions/structs.rs:135-201 | a completed inscription carries the content type and a body that extends what was already collected, and the legacy format never yields several inscriptions, whichever length reading decodes the later scripts |
| Inscriptions.Parse | src/inscriptions/structs.rs:89-202 | for either length reading, anything but no inscription needs a first script of at least three pushes opening with "ord" and a non-zero piece count, and a complete inscription has the third push as content type |
| Inscriptions.OpeningFits | src/inscriptions/structs.rs:89-126 | an opening script built from "ord", the piece count, the content type and numbered pieces decodes to those pushes — with the indexer's length reading when every push is at most 255 bytes (so no PUSHDATA2/4 is used), with the little-endian reading always |
| Inscriptions.OneScriptParses | src/inscriptions/structs.rs:89-155 | an inscription whose pieces all sit in one script parses to its content type and the concatenated pieces — with the indexer's length reading when every push is at most 255 bytes (so no PUSHDATA2/4 is used), with the little-endian reading always |
| Inscriptions.OpeningReads | src/inscriptions/structs.rs:89-174 | after the opening script's pieces are taken, the parse continues with the pieces still missing and their data as body — with the indexer's length reading when every push is at most 255 bytes (so no PUSHDATA2/4 is used), with the little-endian reading always |
| Inscriptions.OpeningAlonePartial | src/inscriptions/structs.rs:176-178 | with pieces still missing and no further script the result is a partial inscription — with the indexer's length reading when every push is at most 255 bytes (so no PUSHDATA2/4 is used), with the little-endian reading always |
| Inscriptions.ClosingCompletes | src/inscriptions/structs.rs:180-201 | a later script holding exactly the missing pieces, correctly numbered, completes the body — with the indexer's length reading when every push is at most 255 bytes (so no PUSHDATA2/4 is used), with the little-endian reading always |
| Inscriptions.TwoScriptsParse | src/inscriptions/structs.rs:89-201 | an inscription split over two scripts parses to its content type and all pieces in order — with the indexer's length reading when every push is at most 255 bytes (so no PUSHDATA2/4 is used), with the little-endian reading always |
| Inscriptions.MismatchedCounterRejects | src/inscriptions/structs.rs:191-198 | a second script whose first counter is not the next expected one gives no inscription — with the indexer's length reading when every push is at most 255 bytes (so no PUSHDATA2/4 is used), with the little-endian reading always |
| InscriptionParser.TxOuts | src/inscriptions/parser.rs:59 | the outputs the searcher reads are the block's prevouts, outpoint by outpoint, with their values |
| InscriptionParser.Load | src/inscriptions/parser.rs:205-223 | a table read for the spent outpoints holds exactly the stored entries whose outpoint is spent in the block, unchanged |
| InscriptionParser.InsertOffset | src/inscriptions/parser.rs:77 | inserting an offset adds exactly that (outpoint, offset) pair, reports whether it was new, and keeps every set free of duplicates |
| InscriptionParser.ConvertToTemplate | src/inscriptions/parser.rs:243-302 | an inscription is placed exactly when its input's first satoshi reaches an output, on the output holding the satoshi its pointer names (or that first satoshi) and owned by that output's script hash or the burn address; otherwise it is recorded as a leaked creation |
| InscriptionParser.ConvertAll | src/inscriptions/parser.rs:234-239 | converting an input's envelopes keeps at most one template per envelope, all with the partials' genesis and not leaked, and leaves the tracker's totals alone |
| InscriptionParser.ConvertAllUniform | src/inscriptions/parser.rs:234-239 | the envelopes of one input are either all placed or all leaked as creations under one key |
| InscriptionParser.ParseInscription | src/inscriptions/parser.rs:225-241 | the parse result is partial or many exactly when the parts read as such, single exactly when they read as one inscription that lands, and a failed or partial parse leaks nothing; the parts are read with the environment's push-length reading, which for the indexer is the one as written |
| InscriptionParser.Number | src/inscriptions/parser.rs:148-164 | inscriptions begun in this transaction are numbered consecutively from the counter (as u32), which advances by their count; others are left as they are |
| InscriptionParser.QueuedTrans | src/inscriptions/parser.rs:184 | handing actions to the token cache one after another still only queues |
| InscriptionParser.Create | src/inscriptions/parser.rs:167-185 | every created template's offset is claimed, no other offset is added or lost, the sets stay duplicate-free, and the token cache only receives actions |
| InscriptionParser.CreateSkipsNone | src/inscriptions/parser.rs:173-181 | at or after the jubilee, and on Bells at any height, every template reaches the token cache in order |
| InscriptionParser.OccupiedSkipped | src/inscriptions/parser.rs:168-181 | before the jubilee on other coins, a non-leaked inscription on an offset already taken leaves the token cache unchanged |
| InscriptionParser.MoveOne | src/inscriptions/parser.rs:64-99 | an inscription on the spent outpoint moves to the output and offset holding its satoshi, a tracked transfer going to the burn or to the new owner; when the satoshi reaches no output it leaks as a move and a tracked transfer goes back to the spent output's owner |
| InscriptionParser.MoveAll | src/inscriptions/parser.rs:63-101 | the move loop changes no outpoint of another transaction and keeps the tracker's totals and the token cache's settled state |
| InscriptionParser.MovesLand | src/inscriptions/parser.rs:72-77 | every moved offset that reaches an output is afterwards held by that output of the spending transaction |
| InscriptionParser.MovesKeep | src/inscriptions/parser.rs:63-101 | the move loop never loses an offset already placed |
| InscriptionParser.Settle | src/inscriptions/parser.rs:136-185 | a partial result keeps the parts on the output of the same number (when it exists), anything else keeps every other pending part, offsets are only added and the index counter only grows |
| InscriptionParser.CreateAt | src/inscriptions/parser.rs:104-186 | creation adds parts only on this transaction's own output, only adds offsets and keeps the tracker's totals |
| InscriptionParser.InputStep | src/inscriptions/parser.rs:61-187 | before the jubilee, inputs other than the first touch neither the pending parts nor the index counter |
| InscriptionParser.SpentOutpointCleared | src/inscriptions/parser.rs:63 | after its input is walked, a spent outpoint of another transaction holds no offsets |
| InscriptionParser.Inputs | src/inscriptions/parser.rs:61-187 | the input loop keeps the tracker's totals, keeps the offset sets duplicate-free and only queues token actions |
| InscriptionParser.TxStep | src/inscriptions/parser.rs:44-187 | the coinbase only starts a fresh leak tracker; another transaction fails exactly when there is no tracker yet or a prevout is missing, and otherwise adds its fee to the tracker |
| InscriptionParser.Txs | src/inscriptions/parser.rs:44-188 | walking the transactions only queues token actions and keeps the offset sets duplicate-free |
| InscriptionParser.ClaimAll | src/inscriptions/parser.rs:190-192 | every leaked location is claimed and nothing already held is lost |
| InscriptionParser.ParseBlock | src/inscriptions/parser.rs:29-203 | the partials and offsets read for the spent outpoints are the ones removed, the written offset sets are duplicate-free, and a block without a leading coinbase fails; this holds for either push-length reading, including the indexer's own |
| InscriptionParser.LeakedWritten | src/inscriptions/parser.rs:190-192 | every leaked inscription is written on an output of the coinbase |
| Keys.TickFromBytes | src/tokens/structs.rs:360-369 | a tick is made exactly from four bytes, which it keeps |
| Keys.TickFromStr | src/tokens/structs.rs:386-392 | a tick is parsed exactly from text whose UTF-8 encoding is four bytes long, and holds those bytes |
| Keys.LowerCase | src/tokens/structs.rs:617-626 | the lower-case tick has the length of the original, byte for byte folded |
| Keys.LowerCaseFacts | src/tokens/structs.rs:617-626 | folding is idempotent, leaves no upper-case ASCII letter, and identifies ticks that differ only in letter case |
| Keys.LowerCaseTickCodecIdentity | src/tokens/structs.rs:642-652 | the stored form of a lower-case tick is its bytes, read back unchanged |
| Keys.EncodeAddressToken | src/tokens/structs.rs:49-54 | the key is the 32-byte address followed by the four tick bytes |
| Keys.DecodeAddressToken | src/tokens/structs.rs:42-47 | exactly 36-byte values decode; anything else panics |
| Keys.AddressTokenRoundTrip | src/tokens/structs.rs:39-55 | decoding an encoded address-token key gives it back |
| Keys.EncodeAddressTokenId | src/tokens/structs.rs:67-74 | the history key is 44 bytes: address, tick, big-endian id |
| Keys.DecodeAddressTokenId | src/tokens/structs.rs:76-82 | exactly 44-byte values decode; shorter than 40 bytes panics on the slices, other lengths are an error |
| Keys.AddressTokenIdRoundTrip | src/tokens/structs.rs:64-83 | decoding an encoded history key gives it back |
| Keys.TokenOfTokenId | src/tokens/structs.rs:30-37 | dropping the id gives the key whose encoding is the first 36 bytes of the history key's |
| Keys.TokenIdsRoundTrip | src/tokens/structs.rs:85-101 | a list of history keys, concatenated and read back in 44-byte chunks, is recovered |
| Keys.EncodeAddressLocation | src/tokens/structs.rs:303-312 | the transfer key is 76 bytes: address, consensus outpoint, big-endian offset |
| Keys.DecodeAddressLocation | src/tokens/structs.rs:314-323 | exactly 76-byte values decode; fewer than 68 bytes panics on the outpoint slice |
| Keys.AddressLocationRoundTrip | src/tokens/structs.rs:300-324 | decoding an encoded transfer key gives it back |
| Keys.PrefixRange | packages/rocksdb-wrapper/src/storage.rs:238-259 | a key of the right length lies between prefix followed by zero bytes and prefix followed by 0xFF bytes exactly when it starts with the prefix |
| Keys.AddressTokenSearchExact | src/tokens/structs.rs:15-28 | the token range of an address holds the keys of that address and no other's |
| Keys.EncodeOutPointInjective | src/tokens/structs.rs:308 | different outpoints have different encodings |
| Keys.SearchAllExact | src/tokens/structs.rs:251-278 | without an outpoint the range holds exactly the address's transfer keys |
| Keys.SearchAtOutPointExact | src/tokens/structs.rs:280-297 | with an outpoint the range holds exactly the address's keys on that outpoint, whatever the offset |
| Keys.DbSearchFrom | src/db/structs.rs:103-152 | the stored variant with an outpoint holds the address's keys from that outpoint on in byte order, later outpoints included |
| Keys.EncodeBlockInfo | src/db/structs.rs:241-249 | the block info is 36 bytes: hash, then the big-endian creation time |
| Keys.DecodeBlockInfo | src/db/structs.rs:251-256 | exactly 36-byte values decode; fewer than 32 bytes panics on the hash slice |
| Keys.BlockInfoRoundTrip | src/db/structs.rs:238-257 | decoding an encoded block info gives it back |
| Leaked.New | src/inscriptions/leaked.rs:24-31 | a new tracker has no filed inscriptions, no fees and no reward yet |
| Leaked.AddTxFee | src/inscriptions/leaked.rs:53-66 | the transaction's fee (inputs less outputs) is added to the running total, which is returned; nothing else changes |
| Leaked.FindFeePosition | src/inscriptions/leaked.rs:111-144 | without wrap-around the fee is the inputs less the outputs and the satoshi's fee offset is its position among all inputs less the outputs |
| Leaked.FileAppends | src/inscriptions/leaked.rs:45-50 | filing appends the inscription under its key, keeps keys distinct and leaves every other key's list unchanged |
| Leaked.Add | src/inscriptions/leaked.rs:33-51 | adding files the inscription under the running total less the part of the fee past its satoshi, changing neither totals nor coinbase |
| Leaked.AddFilesByFeePosition | src/inscriptions/leaked.rs:33-51 | once the transaction's fee is counted, a satoshi in the fee is filed under the earlier fees plus its position within this fee, never above the total |
| Leaked.UpdateReward | src/inscriptions/leaked.rs:68-78 | the reward is the coinbase's outputs less the collected fees |
| Leaked.FindInscriptionVout | src/inscriptions/leaked.rs:99-109 | a position past the reward is found exactly when it lies within the coinbase's outputs, and then on the output covering it with the offset inside that output |
| Leaked.LeakedLandsInCoinbase | src/inscriptions/leaked.rs:68-109 | a key below the collected fees always lands on a coinbase output when the coinbase pays out at least the fees |
| Leaked.Expand | src/inscriptions/leaked.rs:83-86 | every filed key appears once per inscription under it |
| Leaked.LeakedLocations | src/inscriptions/leaked.rs:87-96 | at most one location per key, each on the coinbase, on the output covering that key past the reward |
| Leaked.GetLeakedInscriptions | src/inscriptions/leaked.rs:80-97 | every leaked location is on the coinbase, at most one per leaked inscription |
| Leaked.NoneLost | src/inscriptions/leaked.rs:80-109 | when every filed key lies below the collected fees and the coinbase pays out at least the fees, no leaked inscription is dropped |
| Locations.LocationZeroIsZero | core/src/types/location.rs:17-27 | the zero location is the all-zero txid, output 0, offset 0 |
| Locations.LocationOrder | core/src/types/location.rs:9-15 | the derived order on locations (txid, vout, offset) is a strict total order |
| Locations.EncodeOutPoint | src/tokens/structs.rs:308 | an outpoint is stored as 36 bytes starting with its txid |
| Locations.DecodeOutPoint | src/tokens/structs.rs:316 | exactly 36 bytes decode as an outpoint |
| Locations.OutPointRoundTrip | src/tokens/structs.rs:308-316 | decoding an encoded outpoint gives it back |
| Locations.Split | core/src/types/location.rs:42 | splitting on a separator always yields at least one piece |
| Locations.SplitPiece | core/src/types/location.rs:42 | text without the separator followed by the separator is the first piece, the rest split on |
| Locations.ParseLocation | core/src/types/location.rs:38-64 | a location is only parsed from text with at least three colon-separated pieces |
| Locations.DisplayNotParsed | core/src/types/location.rs:29-64 | the displayed form `txid i vout i offset` is never accepted back by the parser, which expects colons |
| Locations.ColonFormParses | core/src/types/location.rs:38-64 | `txid:vout:offset`, followed by any further colon pieces, parses to that location |
| Locations.ParseInscriptionId | src/tokens/structs.rs:581-611 | a non-ASCII character is reported first, then a length below 66; a parsed id had 'i' at position 64 |
| Locations.InscriptionIdRoundTrip | src/tokens/structs.rs:429-433 | parsing the displayed `txid i index` form of an id gives it back |
| Locations.IdOutPointInverse | src/tokens/structs.rs:435-450 | the conversions between inscription ids and outpoints are inverse to each other |
| OldBlockIndex.Groups | new-blk-parser/src/blockchain/parser/index.rs:206-219 | the records are grouped by height, one group per distinct height, highest height first |
| OldBlockIndex.Link | new-blk-parser/src/blockchain/parser/index.rs:214-237 | the walk emits at most one record per group below its start; with no single-record group it emits nothing; the `unwrap` on a missing parent is its only error |
| OldBlockIndex.LinkSound | new-blk-parser/src/blockchain/parser/index.rs:214-237 | each emitted record comes from the group of its position, each is the parent of the one before, and the first is the parent of the single record the walk starts from |
| OldBlockIndex.LinkFromComplete | new-blk-parser/src/blockchain/parser/index.rs:230-235 | when every lower group holds the parent (hashes unique within a group), the walk returns exactly that parent chain |
| OldBlockIndex.LinkComplete | new-blk-parser/src/blockchain/parser/index.rs:214-237 | the parent chain below the first single-record group, when present in every lower group, is exactly what the walk returns |
| OldBlockIndex.LinkFoundParent | new-blk-parser/src/blockchain/parser/index.rs:230-234 | a successful walk found the start record's parent in the next lower group |
| OldBlockIndex.LinkMissingParent | new-blk-parser/src/blockchain/parser/index.rs:230-234 | when the next lower group lacks the start record's parent, the walk panics on the `unwrap` |
| OldBlockIndex.LinkLength | new-blk-parser/src/blockchain/parser/index.rs:214-237 | a successful walk takes one record from every group below its start |
| OldBlockIndex.Index | new-blk-parser/src/blockchain/parser/index.rs:238-239 | the map has a key for every emitted record's height, and each key maps to the small form of a record of that height |
| OldBlockIndex.OldGetBlockIndex | new-blk-parser/src/blockchain/parser/index.rs:170-240 | for any entry reader (the code's is the one as written), a failed scan fails the call, a scan that keeps nothing gives the empty map, and otherwise the only error is the missing-parent panic |
| OldBlockIndex.LinkHeights | new-blk-parser/src/blockchain/parser/index.rs:206-237 | the walk's records have pairwise different heights, so no map entry overwrites another |
| OldBlockIndex.OldIndexIsChain | new-blk-parser/src/blockchain/parser/index.rs:170-240 | for any entry reader, the map holds exactly the walk's records, each under its own height |
| OldBlockIndex.OldIndexBelowStart | new-blk-parser/src/blockchain/parser/index.rs:212-239 | for any entry reader, the map covers every known height below the first single-record group and none at or above it, so the start block itself is never indexed |
| OldBlockIndex.LinkCovers | new-blk-parser/src/blockchain/parser/index.rs:212-239 | for groups at decreasing heights, the walk's map covers every height below the start and nothing at or above it |
| OldBlockIndex.OldIndexNoStart | new-blk-parser/src/blockchain/parser/index.rs:226-228 | for any entry reader, with no group of exactly one record the walk emits nothing and the map is empty |
| OldBlockIndex.OldIndexAgrees | new-blk-parser/src/blockchain/parser/index.rs:119-240 | the older index read as written, when it succeeds, is the one the corrected reader gives, and a leading entry with undo data but no block data makes it fail with the `unwrap` panic |
| Partials.EncodePart | src/inscriptions/structs.rs:382-387 | a part takes one flag byte, four length bytes and its script |
| Partials.EncodePartials | src/inscriptions/structs.rs:377-390 | the encoding starts with the big-endian inscription index and the genesis txid, 36 bytes at least |
| Partials.DecodeHeader | src/inscriptions/structs.rs:393-394 | the index and txid slices can be taken exactly when there are at least 36 bytes |
| Partials.DecodePartsAsWritten | src/inscriptions/structs.rs:396-412 | as written each part moves the offset by five bytes only, so decoding succeeds only on a multiple of five bytes, with one part per five bytes whose flag is the first of them |
| Partials.DecodePartialsAsWritten | src/inscriptions/structs.rs:392-415 | as written a decoded value has the header's index and txid and exactly one part per five bytes after the header |
| Partials.ZeroPartAsWritten | src/inscriptions/structs.rs:397-408 | as written, five zero bytes after the header read as one empty non-tapscript part |
| Partials.PartialsAsWrittenMisreads | src/inscriptions/structs.rs:392-415 | as written, the decoder never skips the script bytes: one tapscript part of five zero bytes decodes as two parts, so the round trip fails |
| Partials.DecodeParts | src/inscriptions/structs.rs:396-412 | with the offset advanced past each script, every decoded part takes at least five bytes and the first carries the first byte's flag and fits the input |
| Partials.DecodePartials | src/inscriptions/structs.rs:392-415 | fewer than 36 bytes are a slicing panic; a decoded value has the big-endian index and the txid of the first 36 bytes |
| Partials.EncodePartsSlices | src/inscriptions/structs.rs:382-387 | the first part's flag, length and script sit at the expected offsets of the encoding |
| Partials.PartsRoundTrip | src/inscriptions/structs.rs:377-415 | with the offset advanced past each script, decoding the encoded parts gives them back, for scripts whose length fits a u32 |
| Partials.PartialsRoundTrip | src/db/structs.rs:191-229 | decoding an encoded `Partials` value gives it back (the corrected decoder; both copies of the code share the defect) |
| Pebble.UnitEncoding | packages/rocksdb-wrapper/src/item.rs:15-25 | the unit value has fixed size 0, encodes to no bytes, and any bytes decode to it |
| Pebble.EncodeUnsigned | packages/rocksdb-wrapper/src/item.rs:155-160 | an unsigned integer is stored in exactly its width of bytes |
| Pebble.DecodeUnsigned | packages/rocksdb-wrapper/src/item.rs:162-164 | decoding succeeds exactly on inputs of the type's width, and the result fits that width |
| Pebble.UnsignedRoundTrip | packages/rocksdb-wrapper/src/item.rs:158-164 | decoding the big-endian bytes of an unsigned integer gives it back |
| Pebble.UnsignedOrder | packages/rocksdb-wrapper/src/item.rs:158-160 | the byte order of encoded unsigned keys is their numeric order, so range scans over them run in height order |
| Pebble.EncodeSigned | packages/rocksdb-wrapper/src/item.rs:158-160 | a signed integer is stored in exactly its width of bytes (two's complement) |
| Pebble.DecodeSigned | packages/rocksdb-wrapper/src/item.rs:162-164 | decoding succeeds exactly on inputs of the type's width, and the result lies in the signed range of that width |
| Pebble.SignedRoundTrip | packages/rocksdb-wrapper/src/item.rs:158-164 | decoding the two's-complement bytes of a signed integer gives it back |
| Pebble.DecodeString | packages/rocksdb-wrapper/src/item.rs:48-50 | decoding succeeds exactly on valid UTF-8, and the text decoded encodes back to the same bytes |
| Pebble.StringRoundTrip | packages/rocksdb-wrapper/src/item.rs:42-51 | decoding the UTF-8 bytes of a string gives it back |
| Pebble.DecodeArray | packages/rocksdb-wrapper/src/item.rs:113-123 | a byte array decodes exactly from input of its length, unchanged; any other length is the `expect` panic |
| Pebble.DecodeVec | packages/rocksdb-wrapper/src/item.rs:90-93 | an element type without a fixed size is the `expect` panic |
| Pebble.ChunksRoundTrip | packages/rocksdb-wrapper/src/item.rs:90-97 | for elements of a lawful fixed size `n`, the encoding is `n` bytes per element and chunking it decodes the same list |
| Pebble.VecRoundTrip | packages/rocksdb-wrapper/src/item.rs:87-98 | a list of fixed-size elements round-trips |
| Pebble.DecodeSet | packages/rocksdb-wrapper/src/item.rs:103-106 | an element type without a fixed size is the `expect` panic |
| Pebble.SetRoundTrip | packages/rocksdb-wrapper/src/item.rs:100-111 | decoding the elements' bytes, in any iteration order, gives back the set of those elements |
| Pebble.EncodePair | packages/rocksdb-wrapper/src/item.rs:239-245 | a pair key is the first key's bytes followed by the second key's bytes |
| Pebble.PairRoundTrip | packages/rocksdb-wrapper/src/item.rs:239-255 | when the first key has a fixed size and both keys round-trip, the pair round-trips |
| Pebble.PairShortPanics | packages/rocksdb-wrapper/src/item.rs:250-251 | an input shorter than the first key's fixed size panics on the slice |
| Pebble.GetBytesK0Into | packages/rocksdb-wrapper/src/item.rs:216-224 | whichever branch runs, the buffer ends up holding exactly the first key's bytes |
| Pebble.GetBytesK1Into | packages/rocksdb-wrapper/src/item.rs:225-228 | the buffer keeps its contents and gains the second key's bytes at its end |
| Pebble.MultiPebbleBuildsPair | packages/rocksdb-wrapper/src/item.rs:216-245 | filling a buffer with the first key and then the second builds the same bytes as the pair's `get_bytes` |
| Prevouts.NewCache | src/inscriptions/utils.rs:15-21 | a new cache is empty, consistent, and keeps the capacity it was given |
| Prevouts.WfSize | src/inscriptions/utils.rs:8-12 | in a consistent cache the map holds as many entries as the queue holds keys |
| Prevouts.Insert | src/inscriptions/utils.rs:38-50 | the capacity never changes; a key already present only has its value replaced and keeps its place in the queue |
| Prevouts.InsertNew | src/inscriptions/utils.rs:43-49 | a new key goes to the back of the queue; once the map exceeds capacity, the key at the front, the oldest, is evicted together with its entry |
| Prevouts.PopFrontWf | src/inscriptions/utils.rs:46-47 | dropping the queue's front key and its entry keeps queue and map in step |
| Prevouts.PushBackWf | src/inscriptions/utils.rs:43-44 | adding a new key to the map and to the back of the queue keeps them in step |
| Prevouts.InsertWf | src/inscriptions/utils.rs:38-50 | insertion keeps every cached key in the queue exactly once and never lets a cache within capacity grow past it |
| Prevouts.InsertThenGet | src/inscriptions/utils.rs:38-50 | after an insertion into a cache with room for at least one entry, the key holds the new value |
| Prevouts.InsertAll | src/inscriptions/utils.rs:52-59 | inserting a list of outputs keeps the capacity |
| Prevouts.InsertAllWf | src/inscriptions/utils.rs:52-59 | inserting a list of outputs keeps the cache consistent and within capacity |
| Prevouts.Spendable | src/inscriptions/utils.rs:67-85 | the records kept are exactly the block's outputs that are not provably unspendable, each with its own outpoint |
| Prevouts.Dedup | src/inscriptions/utils.rs:92 | the keys kept are pairwise different and are exactly the keys of the input |
| Prevouts.Spent | src/inscriptions/utils.rs:87-91 | the spent outpoints are exactly the inputs of the block's non-coinbase transactions |
| Prevouts.CacheSplit | src/inscriptions/utils.rs:101-108 | the hits are exactly the keys found in the cache, with the cached values; the misses are exactly the keys the cache lacks |
| Prevouts.Lookup | src/inscriptions/utils.rs:98-111 | without a cache every key is a miss; with one, the keys split into cached hits and misses |
| Prevouts.CacheInsert | src/inscriptions/utils.rs:119-128 | an insertion happens exactly when there is a cache, and keeps it consistent and within capacity |
| Prevouts.Resolve | src/inscriptions/utils.rs:113-136 | the loop fails exactly when some missed key is in neither the database nor the block; otherwise every missed key gets the database value, else the block value, earlier hits are kept, and the cache stays consistent and within capacity |
| Prevouts.LookupResolve | src/inscriptions/utils.rs:97-136 | for any keys, the two loops fail exactly when a key is nowhere, and otherwise return exactly those keys, each with the value of its first source: cache, then database, then block |
| Prevouts.ProcessPrevouts | src/inscriptions/utils.rs:62-149 | the keys queued for removal are pairwise different and are exactly the spent outpoints; the records queued for writing are the block's spendable outputs; a cache within capacity stays consistent and within capacity |
| Prevouts.ProcessPrevoutsFinds | src/inscriptions/utils.rs:62-149 | the call fails exactly when a spent outpoint is in none of cache, database and block; otherwise the result maps exactly the spent outpoints, each to the value of its first source |
| Prevouts.RecordedAreSpendable | src/inscriptions/utils.rs:79-83 | every outpoint queued for writing is an output of the block whose script is not provably unspendable |
| Transactions.InputBytes | packages/new-blk-parser/src/blockchain/proto/tx.rs:164-174 | an input serializes to its 36-byte outpoint, the script length, the script and four sequence bytes |
| Transactions.OutputBytes | packages/new-blk-parser/src/blockchain/proto/tx.rs:220-228 | an output serializes to its value as eight little-endian bytes, the script length and the script |
| Transactions.WitnessIgnored | packages/new-blk-parser/src/blockchain/proto/tx.rs:164-174 | replacing the inputs' witnesses does not change the serialized inputs |
| Transactions.OutpointBytes | packages/new-blk-parser/src/blockchain/proto/tx.rs:139-146 | an outpoint serializes to 36 bytes that decode back to it |
| Transactions.FlattenAppend | packages/new-blk-parser/src/blockchain/proto/tx.rs:94-122 | writing two lists of chunks one after the other feeds the engine their concatenation |
| Transactions.InputsStream | packages/new-blk-parser/src/blockchain/proto/tx.rs:100-109 | the chunks written for the inputs concatenate to the inputs' `to_bytes` |
| Transactions.OutputsStream | packages/new-blk-parser/src/blockchain/proto/tx.rs:113-118 | the chunks written for the outputs concatenate to the outputs' `to_bytes` |
| Transactions.HashStreamIsBytes | packages/new-blk-parser/src/blockchain/proto/tx.rs:72-122 | the hash engine sees exactly the bytes `to_bytes` produces, so the streamed txid is the hash of the serialized transaction |
| Transactions.IsCoinbase | packages/new-blk-parser/src/blockchain/proto/tx.rs:44-50 | for a transaction with as many inputs as its count, it is a coinbase exactly when it has one input and that input spends the null outpoint |
| Reorg.New | src/reorg.rs:38-44 | a new cache is empty, ordered, and holds up to 30 blocks |
| Reorg.InsertBlock | src/reorg.rs:57-60 | inserting into the height-ordered map keeps it ordered by height, and adds no height below the lowest except the new one |
| Reorg.InsertBlockKeeps | src/reorg.rs:57-60 | after insertion the new block is present, every other height keeps its block, nothing else appears, and a height already present is replaced rather than added |
| Reorg.Kept | src/reorg.rs:54-56 | a full cache drops exactly its lowest block: what is kept stays ordered, below capacity, and holds every other block |
| Reorg.NewBlock | src/reorg.rs:53-61 | the cache stays ordered and within capacity; the new block sits under its height with an empty log; a full cache loses only its lowest block, and every other block survives unless it had the new height |
| Reorg.Record | src/reorg.rs:63-125 | a recorder call fails exactly on an empty cache (the `unwrap` of `last_entry`); otherwise it appends the entry to the highest block's log and changes nothing else |
| Reorg.RecordAllAppends | src/reorg.rs:63-125 | a run of recorder calls appends the entries, in order, to the highest block's log, and fails only on an empty cache |
| Reorg.SortKeepsOrder | src/reorg.rs:144-170 | sorting the reversed log keeps the mint entries in log order, and each mint, transfer and restored transfer yields exactly one meta update |
| Reorg.CheckedSub | src/reorg.rs:283 | `checked_sub` succeeds exactly when the amount does not exceed the balance, and then gives the difference; otherwise it fails with the failure named at the call site |
| Reorg.Sub | src/reorg.rs:218-237 | `-=` on a counter succeeds exactly when the amount does not exceed it, and then gives the difference; below zero it is the debug-build overflow panic |
| Reorg.Decrement | src/reorg.rs:209-239 | undoing one meta update keeps the deploy's identity and limits and lowers the transaction count by one; a mint also gives back its amount and one mint, a transfer one transfer; a failure is only a counter's debug-build underflow panic |
| Reorg.MetaUpdatesAsWritten | src/reorg.rs:209-242 | as written, every tick the replay updates had a meta, and its new meta has exactly one transaction fewer, however many updates the tick had; a failure is only a counter's debug-build underflow panic |
| Reorg.LastUpdate | src/reorg.rs:209-242 | the last update to a tick in the log, present exactly when some update names the tick |
| Reorg.MetaUpdatesAsWrittenLast | src/reorg.rs:199-242 | as written, the replay fails exactly when some update cannot be taken back from the meta read before the loop; otherwise a tick gets a new meta exactly when it was updated, and that meta is the old one with only its last update taken back |
| Reorg.MetaUpdates | src/reorg.rs:199-242 | the corrected replay, with each update applied on top of the earlier ones: the updated metas cover exactly the deploys read; a failure is only a counter's debug-build underflow panic |
| Reorg.MetaUpdatesTakeAllBack | src/reorg.rs:209-242 | after the corrected replay, a deploy's supply is lowered by the total of its mints and its transaction count by the number of its updates |
| Reorg.MetaUpdatesAsWrittenLosesUpdates | src/reorg.rs:209-242 | as written every update starts from the meta read before the loop and the last write wins, so two mints of 3 and 4 taken back from a supply of 10 leave 6 instead of 3 |
| Reorg.AccountKeysAsWritten | src/reorg.rs:249-266 | as written the replay loads one account per mint and per transfer and two per restored transfer, the recipient's included even when it is the burn address |
| Reorg.AccountKeys | src/reorg.rs:249-266 | the corrected key list loads the same mint and transfer accounts, never more keys than the list as written, and exactly that list when no transfer was burned |
| Reorg.Minted | src/reorg.rs:250-252 | the minted accounts are the mint entries' accounts, in order |
| Reorg.TransferAccounts | src/reorg.rs:253 | the transfer accounts are the transfer entries' accounts, in order |
| Reorg.BothParties | src/reorg.rs:254-265 | as written each restored transfer contributes both its sender's and its recipient's account for the tick, two keys per transfer |
| Reorg.Parties | src/reorg.rs:303-326 | the accounts a restored transfer touches: always the sender, and the recipient only when it is not the burn address; with no burned transfer these are exactly the keys as written |
| Reorg.PartiesInBoth | src/reorg.rs:254-265 | every account the corrected replay needs for restored transfers is among those loaded as written |
| Reorg.FetchKeys | src/reorg.rs:249-266 | for either replay, the loaded keys start with the mint accounts in order and include every account the restored transfers touch |
| Reorg.FetchAccounts | src/reorg.rs:268-276 | the fetch succeeds exactly when every key is stored, and then holds exactly those keys with their stored balances |
| Reorg.BurnRestoreAsWrittenFails | src/reorg.rs:249-326 | as written, restoring a transfer that was burned fetches the burn address's account, which need not exist, so the undo fails where the corrected key list succeeds |
| Reorg.UndoMints | src/reorg.rs:280-284 | taking back the mints touches only the fetched accounts, and fails only with the error that `checked_sub(..).anyhow()?` returns |
| Reorg.UndoTransfers | src/reorg.rs:286-301 | taking back the transfers touches only the fetched accounts, and fails only by a panic: the `expect("Overflow")` on the transferable balance or the debug-build underflow of the transfer count |
| Reorg.UndoTransferred | src/reorg.rs:303-326 | restoring the transferred inscriptions touches only the fetched accounts, and fails only with the error that `checked_sub(..).anyhow()?` returns |
| Reorg.TransferLocations | src/reorg.rs:286-301 | the locations to remove are exactly the transfer entries' address and location pairs |
| Reorg.ExtendMap | src/reorg.rs:186 | `extend` leaves the map's keys plus the keys of the pairs written |
| Reorg.Restored | src/reorg.rs:332-337 | no restored transfer is written back at a location that is being removed |
| Reorg.RestoreMetas | src/reorg.rs:188-247 | for either replay, the metas left are exactly those read minus the deploys taken back, and every updated tick had a meta; it fails only with the returned "Some of deploys is not found" or a counter's underflow panic |
| Reorg.RestoreAccounts | src/reorg.rs:249-331 | for either replay, the account replay keeps exactly the set of stored accounts; it fails only with the returned "Some of accounts is not found", a returned `checked_sub` error, or one of the two panics |
| Reorg.RestoreTransfers | src/reorg.rs:332-341 | every location of a taken-back transfer is removed, and every other stored transfer stays |
| Reorg.Unwound | src/reorg.rs:131-186 | the first writes of the replay set the last block one below the height and the block's history id, drop the block's hash and its history entries, and leave metas, balances and transfers alone |
| Reorg.RestoreBlock | src/reorg.rs:129-343 | for either replay (the indexer's is the one as written), undoing a block sets the last block to one below its height and the history id to the block's, removes its hash, and keeps the set of accounts; it fails exactly when `height - 1` underflows, the metas fail or the accounts fail, and a failure keeps every write made before it (nothing on the underflow, then the unwound tables, then the metas) while balances and transfers stay untouched; every failure is one of the replay's returned errors or panics |
| Reorg.SortTransferred | src/reorg.rs:144-170 | every spent transfer recorded in the log ends up among the transfers to restore |
| Reorg.RestoreMetasAsWritten | src/reorg.rs:188-247 | as written, an updated tick's meta is its meta before the replay with only its last-recorded update taken back, and an untouched tick keeps its meta |
| Reorg.RestoreBlockAsWrittenMetas | src/reorg.rs:129-247 | undoing a block as written leaves each tick's meta equal to its stored meta with at most one update, the last recorded, taken back |
| Reorg.RestoreBlockAsWrittenBurnFails | src/reorg.rs:129-276 | undoing as written a block whose log has a transfer spent into the burn address fails whenever the burn address has no account for that tick, leaving every balance as it was; once the metas pass, it fails with "Some of accounts is not found" after the last block, the block hash and the metas have been written |
| Reorg.Restore | src/reorg.rs:127-347 | for either replay, restoring keeps the cache's capacity and never adds blocks; a failure has already popped at least one block |
| Reorg.Pop | src/reorg.rs:128-129 | the popping loop keeps the cache's capacity and never adds blocks; a stopped loop has popped the failing block |
| Reorg.PopPrefix | src/reorg.rs:128-129 | the blocks left are a prefix of the cache, every block popped is at or above the height, and the last block left is below it |
| Reorg.PopStopped | src/reorg.rs:128-129 | a stopped loop keeps a prefix of the cache, every block popped is at or above the height, and the first popped block is the one whose step failed |
| Reorg.RestoreStopped | src/reorg.rs:127-133 | a failed `restore` keeps a prefix of the cache, the failing block popped, and a database whose last block, history id and block hash already reflect that block's undo; the message is one of the replay's returned errors or panics |
| Reorg.RestorePrefix | src/reorg.rs:127-347 | for either replay, `restore` pops exactly the blocks at or above the height and leaves the lower ones in order |
| Reorg.PopKeepsLower | src/reorg.rs:128-129 | for an ordered cache, the blocks left are exactly those below the height |
| Reorg.RestoreKeepsLower | src/reorg.rs:127-347 | for either replay, after `restore` the cache holds exactly its blocks below the height |
| Reorg.KeptBelow | src/reorg.rs:128 | in an ordered cache, the prefix ending at the first height at or above the bound holds exactly the blocks below it |
| Reorg.RestoreAll | src/reorg.rs:349-355 | for either replay, `restore_all` empties the cache and keeps its capacity; on failure the cache left is a strict prefix, the half-restored database comes with the failure, and the failure is a returned error or a panic of the replay |
| Reorg.RunShutdown | src/inscriptions/mod.rs:41-49 | `run` crashes exactly when `restore_all` panics, keeping only the writes made before the panic; a success, or an error returned through `?` ("Some of deploys is not found", "Some of accounts is not found", a failed `checked_sub`), is dropped by `.ok()` and the database is flushed as the replay left it |
| RuntimeState.SwapRemove | src/tokens/runtime_state.rs:79 | `swap_remove` shortens the list by one, moves the last element into the removed slot, and leaves every other position alone |
| RuntimeState.SwapRemoveElements | src/tokens/runtime_state.rs:79 | on a duplicate-free list, `swap_remove` removes exactly the element at the position and keeps the list duplicate-free |
| RuntimeState.Position | src/tokens/runtime_state.rs:78 | `position` finds an index holding the element, and finds none exactly when the element is absent |
| RuntimeState.Shrunk | src/tokens/runtime_state.rs:77-80 | a location not in the list leaves the list unchanged |
| RuntimeState.ShrunkElements | src/tokens/runtime_state.rs:77-80 | on a duplicate-free list, exactly the location is removed and the list stays duplicate-free |
| RuntimeState.Insert | src/tokens/runtime_state.rs:87-100 | a write stores the transfer under its location with its owner, lists the location under the owner's outpoint key, and leaves every other key's list unchanged |
| RuntimeState.InsertAll | src/tokens/runtime_state.rs:87-100 | after the write loop the stored locations are the old ones plus those written, and tokens and balances are untouched |
| RuntimeState.Delete | src/tokens/runtime_state.rs:66-85 | a removal drops the location from the primary map, touches only the list under the removal's own key, and drops only that key from the index |
| RuntimeState.DeleteAll | src/tokens/runtime_state.rs:66-85 | after the removal loop the stored locations are the old ones minus those removed, and tokens and balances are untouched |
| RuntimeState.FromDb | src/tokens/runtime_state.rs:12-49 | the loaded state holds exactly the stored ticks and the stored transfer locations |
| RuntimeState.ApplyTokensDelta | src/tokens/runtime_state.rs:51-101 | ticks and balances gain the keys written, and the stored transfer locations are the old ones minus those removed, plus those written |
| RuntimeState.ExtendMapLatest | src/tokens/runtime_state.rs:58-64 | the last write of a key is the value the map ends up with |
| RuntimeState.ExtendMapKeeps | src/tokens/runtime_state.rs:58-64 | a key that no write mentions keeps its value |
| RuntimeState.DeltaOverwrites | src/tokens/runtime_state.rs:58-60 | a tick's last written meta replaces the old one, and a tick not written keeps its meta |
| RuntimeState.RemoveThenWrite | src/tokens/runtime_state.rs:66-100 | removals run before writes, so a location both removed and written ends up holding its last written transfer |
| RuntimeState.InsertAllLatest | src/tokens/runtime_state.rs:87-100 | a location written several times holds its last written transfer |
| RuntimeState.InsertIndexed | src/tokens/runtime_state.rs:87-100 | writing a location not yet stored keeps the index and the primary map describing the same transfers |
| RuntimeState.DeleteIndexed | src/tokens/runtime_state.rs:66-85 | a removal that names the stored owner keeps index and primary map consistent, empty lists included |
| RuntimeState.InsertAllIndexed | src/tokens/runtime_state.rs:87-100 | writes of fresh, pairwise different locations keep index and primary map consistent |
| RuntimeState.DeleteAllIndexed | src/tokens/runtime_state.rs:66-85 | removals that name the stored owners keep index and primary map consistent |
| RuntimeState.FromDbIndexed | src/tokens/runtime_state.rs:25-41 | loading distinct stored transfers builds a consistent index |
| RuntimeState.ApplyTokensDeltaIndexed | src/tokens/runtime_state.rs:51-101 | a delta whose removals name the stored owners and whose writes are fresh (or removed first) and pairwise different keeps index and primary map consistent |
| RuntimeState.RewriteListsTwice | src/tokens/runtime_state.rs:96-99 | writing a stored location again lists it twice, so the freshness condition is needed |
| RuntimeState.ForeignRemovalDangles | src/tokens/runtime_state.rs:66-84 | removing a transfer under another address than its owner leaves it listed under its owner, so the stored-owner condition is needed |
| Searcher.SumAppend | src/inscriptions/searcher.rs:14 | the sum of two lists of values placed end to end is the sum of their sums |
| Searcher.SumSnoc | src/inscriptions/searcher.rs:25-28 | the sum up to and including a position is the sum before it plus its value |
| Searcher.Values | src/inscriptions/searcher.rs:16 | the output values, one per output, in order |
| Searcher.WrapSub | src/inscriptions/searcher.rs:16 | the u64 subtraction gives the plain difference whenever it does not underflow |
| Searcher.InputValues | src/inscriptions/searcher.rs:12 | the collect fails exactly when some input's prevout is unknown, and otherwise gives each input's prevout value in order |
| Searcher.TrimFee | src/inscriptions/searcher.rs:17-23 | the fee is taken from the last inputs: the inputs kept are a prefix, unchanged except the last, which keeps a positive part of its value |
| Searcher.TrimFeeSum | src/inscriptions/searcher.rs:17-23 | the kept inputs sum to the total less the fee, and none are kept exactly when the fee reaches the total |
| Searcher.Running | src/inscriptions/searcher.rs:25-28 | the fold starts at zero and each entry adds the next value to the one before |
| Searcher.RunningSums | src/inscriptions/searcher.rs:25-28 | each entry of the fold is the sum of the values before it |
| Searcher.RunningMonotone | src/inscriptions/searcher.rs:25-28 | the fold's entries never decrease |
| Searcher.CalcOffsets | src/inscriptions/searcher.rs:11-33 | the offsets are missing exactly when some prevout is unknown; otherwise there is at most one per input and the first is zero |
| Searcher.CalcOffsetsArePrefixSums | src/inscriptions/searcher.rs:11-33 | each offset is the sum of the input values before that input, and the offsets never decrease |
| Searcher.CalcOffsetsCoverOutputs | src/inscriptions/searcher.rs:14-23 | when the outputs do not exceed the inputs, the inputs kept after the fee add up to exactly the total output |
| Searcher.WrappedFeeDropsEveryInput | src/inscriptions/searcher.rs:16-23 | outputs larger than inputs make the fee wrap around to a value that swallows every input, so there are no offsets at all |
| Searcher.Locate | src/inscriptions/searcher.rs:45-50 | an output found lies at or after the starting one, and the offset left is inside that output |
| Searcher.LocateFinds | src/inscriptions/searcher.rs:45-52 | nothing is found exactly when the offset is past the last output; otherwise the outputs before the one found plus the offset left make the offset |
| Searcher.OutputIndex | src/inscriptions/searcher.rs:35-53 | no offset is an error; an offset succeeds exactly when it is below the total output, and then names the output holding that satoshi and the position inside it |
| Searcher.SumPrefixMonotone | src/inscriptions/searcher.rs:45-50 | sums of longer prefixes of the values are never smaller |
| Searcher.OutputIndexUnique | src/inscriptions/searcher.rs:35-53 | at most one output and position holds a given offset, so the answer is the only one possible |
| Server.FullHashFrom | src/utils/fullhash.rs:51-73 | the conversion succeeds exactly on 32 bytes, and keeps them |
| Server.AddressStr | src/utils/address_fullhash.rs:22-32 | a stored address wins; otherwise the burn hash reads "BURNED" and any other hash "non-standard" |
| Server.AddressOf | src/utils/address_fullhash.rs:11-13 | a hash in the map resolves to its address; a hash not in it to "BURNED" when it is the burn hash, else "non-standard" |
| Server.AddressNeverEmpty | src/utils/address_fullhash.rs:11-32 | when no stored address is empty, no hash resolves to the empty string |
| Server.LoadAddresses | electrs-indexer/src/server/mod.rs:119-134 | the map has exactly the keys asked for, repetition dropped; the burn hash always reads "BURNED", any other key its stored address or "non-standard" |
| Server.LoaderAgreesWithGet | electrs-indexer/src/server/mod.rs:119-134 | the loader and the map's `get` agree on every key except a burn hash with a stored address, which the loader still reads as "BURNED" |
| Server.Serialized | src/server/mod.rs:81-98 | the buffer fails exactly when some record fails to serialise |
| Server.SerializedUnfold | src/server/mod.rs:83-98 | the buffer is the first record's JSON followed by the rest's, and succeeds exactly when both do |
| Server.SerializedAppend | src/server/mod.rs:83-98 | the buffer of two histories one after the other is the two buffers one after the other |
| Server.HistoryHash | src/server/mod.rs:78-109 | the proof is sha256 of the previous proof followed by sha256 of the records' JSON, or of DEFAULT_HASH for an empty history, and fails exactly when the JSON does |
| Server.GenerateHistoryHash | src/server/mod.rs:73-110 | the proof fails only when a record fails to serialise, since addresses always resolve; an empty history chains DEFAULT_HASH onto the previous proof |
| Server.GenerateHistoryHashElectrs | electrs-indexer/src/server/mod.rs:63-100 | a key address or counter-party missing from the map is the `unwrap` panic; an empty history chains DEFAULT_HASH |
| Server.VersionsAgree | electrs-indexer/src/server/mod.rs:63-100 | when every address the history names is in the map, both servers compute the same proof |
| Server.SameRecords | src/server/mod.rs:83-98 | when every named address is in the map, both resolvers give the same JSON records |
| Server.IntoEvent | src/server/structs.rs:65-112 | each stored record becomes the event of the same kind, with its txid, output, amount and deploy limits, and its counter-party resolved to an address string |
| Server.IntoValueEvent | src/server/structs.rs:114-121 | the event keeps the record's height, txid and output |
| Server.IntoEventInjective | src/server/structs.rs:65-112 | records whose counter-parties resolve to different addresses give different events, so the event loses only the hash behind an address |
| Server.Redacted | src/utils/redact.rs:5-10 | a secret shows as `""` when empty and `"****"` otherwise, so no character of it is shown |
| Server.RedactedHidesText | src/utils/redact.rs:5-10 | two secrets that are both empty or both non-empty show the same |
| Server.Paging | src/rest/utils.rs:3-9 | a query without a page or page size gets page 1 and page size 6, and a given value is kept |
| Server.ValidateTick | src/rest/utils.rs:11-17 | a tick is accepted exactly when its UTF-8 form is four bytes long, and is otherwise refused with "Wrong tick length" |
| Server.AsciiTickValid | src/rest/utils.rs:11-17 | for an ASCII tick, the byte length check is the four-character check |
| Server.AsciiLower | src/blockchain.rs:23 | `to_ascii_lowercase` keeps the length, lowers `A`-`Z` and leaves every other character as it is |
| Server.ParseBlockchain | src/blockchain.rs:19-33 | a name is accepted exactly when its lower-case form is one of the listed names, and selects that name's chain; otherwise "Unknown blockchain" |
| Server.ParseBlockchainCaseInsensitive | src/blockchain.rs:22-31 | lower-casing is idempotent and the parse does not depend on letter case |
| Storage.Lookup | packages/rocksdb-wrapper/src/storage.rs:131-138 | a key is found exactly when an entry holds it, and the value found is that entry's |
| Storage.LookupUnique | packages/rocksdb-wrapper/src/storage.rs:131-138 | in a table kept in key order, a stored pair is what a lookup of its key finds |
| Storage.Put | packages/rocksdb-wrapper/src/storage.rs:175-177 | a put keeps the table in key order, stores the pair, and keeps every entry of another key and nothing else |
| Storage.Delete | packages/rocksdb-wrapper/src/storage.rs:179-181 | a delete keeps the table in key order and removes exactly the entries of that key |
| Storage.Get | packages/rocksdb-wrapper/src/storage.rs:131-138 | a key without an entry reads as nothing; a value read is what the value codec decodes from the stored bytes |
| Storage.Set | packages/rocksdb-wrapper/src/storage.rs:175-177 | `set` keeps the table in key order |
| Storage.Remove | packages/rocksdb-wrapper/src/storage.rs:179-181 | `remove` keeps the table in key order and drops exactly the entries under the encoded key |
| Storage.SetThenGet | packages/rocksdb-wrapper/src/storage.rs:131-177 | after `set`, `get` of the key reads the value back, and a key with other bytes reads what it read before |
| Storage.PutLookup | packages/rocksdb-wrapper/src/storage.rs:175-177 | after a put the key maps to the new value and every other key to its old value |
| Storage.RemoveThenGet | packages/rocksdb-wrapper/src/storage.rs:131-181 | after `remove`, `get` of the key reads nothing |
| Storage.MultiGet | packages/rocksdb-wrapper/src/storage.rs:140-151 | `multi_get` answers once per key, in order, each answer what `get` would give |
| Storage.MultiGetKv | packages/rocksdb-wrapper/src/storage.rs:153-173 | every pair returned is a requested key with its stored value, every stored key requested is returned, and with `panic_if_not_exists` a missing key panics and otherwise every key is answered |
| Storage.Extend | packages/rocksdb-wrapper/src/storage.rs:299-306 | the batched puts keep the table in key order |
| Storage.ExtendLastPutWins | packages/rocksdb-wrapper/src/storage.rs:299-306 | after `extend`, a key holds the value of its last put in the batch, and a key not in the batch is untouched |
| Storage.RemoveBatch | packages/rocksdb-wrapper/src/storage.rs:308-315 | the batched deletes keep the table in key order and drop exactly the entries of the keys listed |
| Storage.Retain | packages/rocksdb-wrapper/src/storage.rs:271-289 | `retain` keeps the table in key order and deletes exactly the entries that decode and fail the test; entries that do not decode stay |
| Storage.RetainEntries | packages/rocksdb-wrapper/src/storage.rs:275-286 | the entries kept are, in order, exactly those that do not decode or pass the test |
| Storage.AtLeast | packages/rocksdb-wrapper/src/storage.rs:229-232 | a forward seek gives, in order, exactly the entries whose key is at or after the start |
| Storage.AtMost | packages/rocksdb-wrapper/src/storage.rs:229-232 | a reverse seek gives exactly the entries whose key is at or before the start |
| Storage.Reversed | packages/rocksdb-wrapper/src/storage.rs:220-224 | the reverse walk lists the entries last first |
| Storage.ReversedMonotone | packages/rocksdb-wrapper/src/storage.rs:220-224 | walking a table backwards gives the same entries in descending key order |
| Storage.SkipStart | packages/rocksdb-wrapper/src/storage.rs:238 | `skip_while` drops a prefix of the walk |
| Storage.TakeEnd | packages/rocksdb-wrapper/src/storage.rs:239-259 | `take_while` keeps a prefix of the walk |
| Storage.SeekFacts | packages/rocksdb-wrapper/src/storage.rs:220-237 | the seek walks in the requested direction and gives exactly the entries on the start's side of the start bound |
| Storage.SkipStartFacts | packages/rocksdb-wrapper/src/storage.rs:238 | skipping an excluded start removes exactly the entry at the start key and keeps the order |
| Storage.TakeEndFacts | packages/rocksdb-wrapper/src/storage.rs:239-259 | when the end test only fails past some point, `take_while` keeps exactly the entries that pass it, in order |
| Storage.EndTestClosed | packages/rocksdb-wrapper/src/storage.rs:239-259 | in walk order, once a key fails the end test every later key fails it too |
| Storage.RangeSemantics | packages/rocksdb-wrapper/src/storage.rs:192-269 | `range` gives exactly the entries whose keys lie within both bounds, ascending, or descending when `reversed` |
| Storage.KeyInRange | packages/rocksdb-wrapper/src/storage.rs:203-259 | with the bounds swapped when `reversed`, passing the seek, the skip and the end test is exactly lying within the bounds |
| Text.Decimal | src/tokens/structs.rs:429-433 | the `{}` form of an unsigned integer is a non-empty string of decimal digits without a leading zero |
| Text.ParseUint | src/tokens/structs.rs:604-608 | `parse` into an unsigned type only yields values that fit the type |
| Text.DigitsOfDecimal | src/tokens/structs.rs:429-433 | the digits printed denote the number printed |
| Text.DecimalRoundTrip | src/tokens/structs.rs:429-433 | parsing the decimal form of a value that fits gives it back |
| Text.DecimalInjective | src/tokens/structs.rs:429-433 | different numbers print differently |
| Text.LeadingZeros | core/src/types/location.rs:48-57 | `parse` accepts leading zeros: padding digits with zeros leaves their value unchanged |
| Text.Hex | packages/new-blk-parser/src/utils/mod.rs:9-14 | `arr_to_hex` writes two hexadecimal digits per byte |
| Text.FromHex | core/src/types/location.rs:46-47 | hexadecimal text decodes to half as many bytes as it has digits |
| Text.FromHexOfHex | packages/new-blk-parser/src/utils/mod.rs:9-14 | decoding the hexadecimal form of bytes gives them back |
| Text.HashHex | src/tokens/structs.rs:429-433 | a txid displays as 64 hexadecimal digits |
| Text.ParseHashHex | src/tokens/structs.rs:596-607 | a txid parses only from 64 characters |
| Text.HashHexRoundTrip | src/tokens/structs.rs:429-433 | parsing a displayed txid gives it back, byte order included |
| TokenParser.ClassifyJsonError | src/tokens/parser.rs:95-114 | a decoder failure never becomes a content-type, protocol or UTF-8 error; an unrecognised message is kept verbatim as `Unknown` |
| TokenParser.ValidateErrorsClassified | src/tokens/proto.rs:11-34 | every message `bel_20_validate` fails with lands in its error kind: a sign gives the plus/minus kind, a trailing dot the dot kind, an amount above `u64::MAX` the unknown kind |
| TokenParser.TryParse | src/tokens/parser.rs:88-138 | only `text/plain` and `application/json` media types are read; invalid UTF-8 is its own error; an operation is returned exactly when the decoder yields one that is BEL-20 with a non-zero amount (deploy: at most 18 decimals, non-zero max and limit), otherwise the wrong-protocol error |
| TokenParser.ParseTokenAction | src/tokens/parser.rs:141-212 | inscriptions owned by the burn address, leaked ones and ones without content type or body queue nothing; otherwise at most one action is appended and existing actions, tokens and balances are untouched; a transfer is queued together with a new open transfer at the inscription's location |
| TokenParser.ParsedDeploy | src/tokens/parser.rs:161-186 | a queued deploy carries the decoded tick, max and decimals, the limit defaulting to the max, zero supply and counts, one transaction, and the inscription's owner as deployer |
| TokenParser.Transferred | src/tokens/parser.rs:214-227 | a move of a transfer inscription is appended to the queue and nothing else in the cache changes |
| TokenParser.BurnedTransfer | src/tokens/parser.rs:229-236 | a move into an `OP_RETURN` output is queued as a move whose recipient is the burn address; nothing else changes |
| TokenParser.FillTickersAndUsersExact | src/tokens/parser.rs:265-321 | the ticks and accounts collected for loading are exactly those named by some queued action, in both directions |
| TokenParser.NoBurnUsers | src/tokens/parser.rs:265-321 | no account of the burn address is requested when no queued action or validated transfer belongs to it |
| TokenParser.ParsedActionsGood | src/tokens/parser.rs:141-212 | parsing keeps every queued action owned by a non-burn address, with deploys queued at zero supply |
| TokenParser.ApplyDeploy | src/tokens/parser.rs:332-363 | a deploy of an already taken lower-cased tick does nothing; otherwise the token is registered under the lower-cased tick with one history record and one undo entry |
| TokenParser.ApplyMint | src/tokens/parser.rs:364-426 | a mint of an undeployed tick, with too many decimals, above the limit or on a full supply is skipped; otherwise the owner is credited the smaller of the amount and the remaining supply, which never passes the max, mint and transaction counts rise by one, and nothing else changes |
| TokenParser.ApplyTransfer | src/tokens/parser.rs:427-488 | the open transfer is consumed even when skipped; it is skipped for an undeployed tick, too many decimals, a missing account or an insufficient balance; otherwise the amount moves from balance to transferable and the transfer becomes valid for its owner |
| TokenParser.ApplyTransferred | src/tokens/parser.rs:489-566 | a move of an unknown transfer does nothing; an undeployed tick is the "Tick must exist" panic; on success the sender held the transfer, its transferable balance is released, the recipient is credited unless it is the burn address, and the transfer stops being valid |
| TokenParser.ApplyAction | src/tokens/parser.rs:331-567 | one action leaves at most one history record and exactly one undo entry per record, and never touches the queue |
| TokenParser.RecordUndo | src/tokens/parser.rs:423-425 | undo entries reach the reorg cache only when one is kept, and a failure to record is the action's failure |
| TokenParser.Drain | src/tokens/parser.rs:330-567 | a reorg cache is present after draining exactly when it was present before |
| TokenParser.ProcessTokenActions | src/tokens/parser.rs:323-571 | after processing the action queue is empty |
| TokenParser.DrainAppend | src/tokens/parser.rs:330-567 | draining two runs of actions is draining their concatenation, with the histories concatenated |
| TokenParser.DrainHistory | src/tokens/parser.rs:330-567 | the history of a run ends with the records of its last action |
| TokenParser.DrainErrPrefix | src/tokens/parser.rs:330-567 | a panic while draining a prefix is a panic of the whole run |
| TokenParser.DeployGood | src/tokens/parser.rs:332-363 | a deploy keeps every supply within its max, every token under its lower-cased tick and the burn address without accounts |
| TokenParser.MintGood | src/tokens/parser.rs:364-426 | for an owner other than the burn address a mint never fails under these invariants and keeps them |
| TokenParser.TransferGood | src/tokens/parser.rs:427-488 | an inscribed transfer of a non-burn owner keeps the invariants |
| TokenParser.TransferredGood | src/tokens/parser.rs:489-566 | a successful spent transfer keeps the invariants, the burn address gaining no account |
| TokenParser.ApplyActionGood | src/tokens/parser.rs:331-567 | under the invariants only a spent transfer can fail, and every action keeps them |
| TokenParser.ProcessGood | src/tokens/parser.rs:323-571 | processing the queue keeps every supply within its max and never creates an account for the burn address |
| TokenParser.DrainGood | src/tokens/parser.rs:330-567 | the invariants hold after any run of well-formed actions |
| TokenParser.TransferConserves | src/tokens/parser.rs:473-475 | an inscribed transfer keeps every account's balance plus transferable, and the set of accounts |
| TokenParser.TransferredMoves | src/tokens/parser.rs:489-566 | a spent transfer takes exactly its amount from the sender's transferable balance and gives it to the recipient's balance unless burnt; every other account is unchanged |
| TokenParser.MintUndone | src/tokens/parser.rs:396-426 | replaying the undo entry of a mint through the reorg cache gives back the accounts (a fresh account stays at zero) and the token's supply and counts |
| TokenParser.TransferUndone | src/tokens/parser.rs:469-485 | replaying the undo entry of an inscribed transfer gives back the owner's account and the token's counts |
| TokenParser.TransferredUndone | src/tokens/parser.rs:543-565 | replaying the undo entry of a spent transfer reopens the sender's transferable balance, takes the amount back from the recipient and restores the token's count |
| TokenParser.CompletedTakesNoMint | src/tokens/proto.rs:161-163 | once a token is completed (supply equals max) every further mint of it is skipped and leaves the cache as it was |
| Tokens.FixedOf | src/tokens/proto.rs:26-28 | a whole-number amount in `Fixed128` units is zero exactly when the number is, and never smaller |
| Tokens.Validate | src/tokens/proto.rs:11-34 | a leading sign is refused first, then a dot at either end, then a space; otherwise the parsed value is accepted exactly when it is at most `u64::MAX` whole tokens |
| Tokens.ValidateOption | src/tokens/proto.rs:44-50 | an absent decimal stays absent; a present one is accepted exactly when it validates |
| Tokens.DecodeTick | src/tokens/proto.rs:52-64 | a tick is accepted exactly when its UTF-8 encoding is four bytes, and is those bytes |
| Tokens.AsciiTickLength | src/tokens/proto.rs:52-64 | among ASCII texts exactly the four-character ones are ticks |
| Tokens.Value | src/tokens/proto.rs:102-110 | the wrapper is returned exactly when its tag is `bel-20` on "bells" or `drc-20` on "doge" |
| Tokens.DeployToValue | src/tokens/proto.rs:251-263 | a deploy converts exactly under a supported tag, keeping tick, max and decimals, its limit defaulting to the max |
| Tokens.MintToValue | src/tokens/proto.rs:265-275 | a mint converts exactly under a supported tag, keeping tick and amount |
| Tokens.TransferToValue | src/tokens/proto.rs:277-287 | a transfer converts exactly under a supported tag, keeping tick and amount |
| Tokens.TransferFromProto | src/tokens/proto.rs:206-215 | a stored transfer is built exactly when the tag suits the blockchain |
| Tokens.TransferProtoRoundTrip | src/tokens/proto.rs:206-231 | turning a stored transfer into its protocol value and back gives it back on "bells" and "doge" and fails on any other blockchain |
| Tokens.Credit | src/tokens/parser.rs:412 | receiving tokens raises only the balance, by the amount |
| Tokens.Inscribe | src/tokens/parser.rs:473-475 | an inscribed transfer moves the amount from balance to transferable, keeps the total and opens one more transfer |
| Tokens.Release | src/tokens/parser.rs:514-520 | a spent transfer takes the amount from the transferable balance and closes one open transfer; the balance is untouched |
| Tokens.Sender | core/src/types/history_token_action.rs:61-66 | only a send has a sender |
| Tokens.CounterParty | src/tokens/structs.rs:199-205 | only a send or a receive record has a counter-party |
| Tokens.FromTokenHistoryFacts | src/tokens/structs.rs:155-218 | the stored record keeps the outpoint and amount; a send to oneself becomes `SendReceive` and any other send names its recipient; no `Receive` is ever produced |
| Utf8.EncodeChar | src/tokens/proto.rs:56-57 | a character takes one to four bytes, exactly one when it is ASCII |
| Utf8.DecodeEncode | src/tokens/parser.rs:91-93 | decoding the encoding of any text succeeds and gives the text back |
| Utf8.EncodeDecode | src/tokens/parser.rs:91-93 | a byte string that decodes is exactly the encoding of its decoding, so the decoder accepts no other byte strings |
| Utf8.EncodeAppend | src/tokens/proto.rs:56-57 | the encoding of two texts side by side is their encodings side by side |
| Utf8.AsciiByteLen | src/tokens/proto.rs:56-61 | on ASCII text the encoded length is the number of characters and each byte is the character's code |
| CoreVarInt.ReadAcc | packages/new-blk-parser/src/blockchain/parser/index.rs:279-297 | a successful read consumes at least one byte and leaves a suffix of the input |
| CoreVarInt.RoundTrip | packages/new-blk-parser/src/blockchain/parser/index.rs:279-297 | reading the written form of any u64 followed by more bytes gives the number and exactly those bytes |
| CoreVarInt.ReadIsWritten | packages/new-blk-parser/src/blockchain/parser/index.rs:279-297 | whatever is read was in its written form: the consumed bytes are the encoding of the number read |
| CoreVarInt.Unique | packages/new-blk-parser/src/blockchain/parser/index.rs:279-297 | reading yields a number and a rest exactly when the input is that number's written form followed by the rest, so every number has one form |
| CoreVarInt.TruncatedFails | packages/new-blk-parser/src/blockchain/parser/index.rs:282 | a continuation byte at the end of the input is an end-of-input error |
| VarUints.ReadLe | packages/new-blk-parser/src/blockchain/proto/varuint.rs:27-29 | a little-endian read fails exactly when fewer bytes remain than its width, and otherwise consumes exactly the encoding of the value read |
| VarUints.ReadFrom | packages/new-blk-parser/src/blockchain/proto/varuint.rs:21-33 | an empty or too short input is the end-of-input error; otherwise the kept bytes are exactly the consumed prefix, one plus the width announced by the first byte, and the value is the first byte up to 0xfc or the little-endian number that follows |
| VarUints.ReadWide | packages/new-blk-parser/src/blockchain/proto/varuint.rs:27-29 | after 0xfd, 0xfe or 0xff the read fails exactly when the announced bytes are missing and otherwise keeps them with their little-endian value |
| VarUints.PrefixDecides | packages/new-blk-parser/src/blockchain/proto/varuint.rs:21-33 | the bytes kept by a read, followed by anything, read back to the same value and leave exactly what follows |
| VarUints.FromU8RoundTrip | packages/new-blk-parser/src/blockchain/proto/varuint.rs:36-41 | a single-byte form up to 0xfc reads back to itself |
| VarUints.FromU16RoundTrip | packages/new-blk-parser/src/blockchain/proto/varuint.rs:43-50 | the 0xfd form of any u16 reads back to itself |
| VarUints.FromU32RoundTrip | packages/new-blk-parser/src/blockchain/proto/varuint.rs:52-59 | the 0xfe form of any u32 reads back to itself |
| VarUints.FromU64RoundTrip | packages/new-blk-parser/src/blockchain/proto/varuint.rs:61-68 | the 0xff form of any u64 reads back to itself |
| VarUints.NonCanonicalKept | packages/new-blk-parser/src/blockchain/proto/varuint.rs:61-75 | a small value written in the nine-byte form keeps its value and all nine bytes, so it is written back as read |
| VarUints.Display | packages/new-blk-parser/src/blockchain/proto/varuint.rs:77-82 | the displayed text reads back as the value |
| XorReaders.New | packages/new-blk-parser/src/blockchain/parser/reader.rs:192-198 | a new reader keeps the key and starts at offset 0 |
| XorReaders.XorTwice | packages/new-blk-parser/src/blockchain/parser/reader.rs:206 | applying the same key byte twice gives the byte back |
| XorReaders.XorZero | packages/new-blk-parser/src/blockchain/parser/reader.rs:206 | a zero key byte leaves the byte unchanged |
| XorReaders.Unmask | packages/new-blk-parser/src/blockchain/parser/reader.rs:204-208 | every byte read is combined with the key byte at its absolute file offset modulo the key length, and the length is kept |
| XorReaders.Read | packages/new-blk-parser/src/blockchain/parser/reader.rs:202-211 | an empty key panics on any non-empty read; otherwise the offset advances by the bytes read, which are passed through without a key and de-obfuscated with one |
| XorReaders.Seek | packages/new-blk-parser/src/blockchain/parser/reader.rs:215-218 | a seek sets the offset to the new position, reports it and keeps the key |
| XorReaders.UnmaskTwice | packages/new-blk-parser/src/blockchain/parser/reader.rs:202-211 | de-obfuscating twice from the same offset gives the file bytes back |
| XorReaders.UnmaskSplit | packages/new-blk-parser/src/blockchain/parser/reader.rs:202-211 | reading in two calls gives the same bytes as reading in one, because the offset carries over |
| XorReaders.ZeroKeyIsIdentity | packages/new-blk-parser/src/blockchain/parser/reader.rs:204-208 | an all-zero key of any length changes nothing |
| Coins.FromCoin | packages/new-blk-parser/src/blockchain/coins.rs:185-199 | every constant of a coin is carried into the coin type unchanged |
| Coins.Default | packages/new-blk-parser/src/blockchain/coins.rs:178-183 | the default coin type is Bitcoin with address prefixes 0 and 5 and bech32 prefix "bc" |
| Coins.FromStr | packages/new-blk-parser/src/blockchain/coins.rs:208-225 | exactly the ten listed lower-case names are accepted; any other name gives the "There is no implementation" error naming it |
| Coins.FromStrSelects | packages/new-blk-parser/src/blockchain/coins.rs:211-221 | each accepted name selects the coin in the same position of the table |
| Coins.FromStrCaseSensitive | packages/new-blk-parser/src/blockchain/coins.rs:211-222 | capitalised names are refused |
| Coins.MwebOnlyLitecoin | packages/new-blk-parser/src/blockchain/coins.rs:202-206 | only the two Litecoin networks carry MWEB data |
| Coins.NamesDistinct | packages/new-blk-parser/src/blockchain/coins.rs:24-161 | the display names of the coins are pairwise different |
| Coins.BellscoinConstants | packages/new-blk-parser/src/blockchain/coins.rs:109-121 | Bellscoin has address prefixes 25 and 30, bech32 prefix "bel", first inscription block 26371, jubilee height 133000 and protocol "bel-20" |
| Coins.DogecoinNeverJubilee | packages/new-blk-parser/src/blockchain/coins.rs:90-104 | the Dogecoin jubilee height is `usize::MAX`, so no lower height reaches it |

## Left out

- Input and output: reading block files (`BlkFile::read_block`, `read_xor_key`), RocksDB itself, the RPC client and the REST handlers. The model takes their results as inputs: maps for the tables, byte strings for streams, function parameters for the node's answers.
- Threads, channels, `Arc`/`Mutex`, rayon and async loops are modelled as sequential code, including the wait loop of `load_addresses` (electrs-indexer/src/server/mod.rs:109-117). The block channel is taken to stay open, and the parser thread is never cancelled.
- Foreign libraries are uninterpreted parameters, so no property depends on what they compute:
  - sha256 and double sha256;
  - bech32 and Base58Check;
  - `serde_json`;
  - the script tokenizer, `Tag::take` and script classification (packages/new-blk-parser/src/blockchain/proto/tx.rs:194-210);
  - `Fixed128::from_str` and `Fixed128::scale`;
  - `Holders`.
- `Fixed128` is a natural number of 10^-18 units. `mint_percent` is not modelled because it divides.
- `u64` overflow: the release-build wrap-around is modelled where the code relies on it, namely the fee `spend - outputs` (Searcher.WrapSub). Supplies, balances and output sums are unbounded naturals. The reorg replay instead models the debug-build overflow panic of its subtractions as an error: `height - 1` in Reorg.RestoreBlock, the `-= 1` on the meta counters in Reorg.Decrement and `transfers_count -= 1` in Reorg.UndoTransfers all fail through Reorg.Sub, where a release build would wrap. Reorg.IsPanic tells these panics, and the `expect("Overflow")` on the transferable balance (src/reorg.rs:292), apart from the errors returned through `?`, and Reorg.RunShutdown keeps that difference: only the returned errors reach `.ok()` and `flush_all`.
- Rust panics keep their cause but not always their exact text. The error that `checked_sub(..).anyhow()` returns in the reorg replay carries a message of the model's own, Reorg.CheckedSubFailed.
- `HashMap` iteration order is not modelled. Where the order of a loop over a map or set matters, the model fixes one order: insertion order, or block order for the outputs that `insert_block_outputs` puts into the prevout cache.
- `sort_by_key` stability is not modelled. The sorting steps of the block-index reader and the reorg replay are stated over already ordered input.
- Unicode is handled by ASCII only. `to_lowercase` and `from_utf8_lossy` are stated for ASCII, and a Dafny `char` is taken to be a Unicode scalar value.
- The RPC fallback of the block-index reader is not modelled: `complete()` and its call into the node (packages/new-blk-parser/src/lib.rs:128-142). The file handles of `chain.rs` are left out too.
- The LevelDB iterator is reduced to the entries at or after the key "b", in key order.
- The I/O part of the block handler `handle()` is not modelled (src/inscriptions/indexer.rs:22-45): database reads, writes and the progress counter.
- Counters: the release-build wrap-around of the history id (Indexer.Inc, modulo 2^64) and of the genesis index within a transaction (InscriptionParser.Number, modulo 2^32) is modelled; the debug-build overflow panic of either is not.
- The `tick()` and `recipient()` accessors of `HistoryTokenAction` are not separate members. They are the datatype's shared `tick` and `recipient` fields, which Dafny makes total on every variant.
- Keys.LowerCase: lower-cases ASCII letters only, where Rust's `to_lowercase` also folds non-ASCII letters.
- Envelopes.FromParts: requires at least one part. With none, `parse` indexes `sig_scripts[0]` and panics (src/inscriptions/structs.rs:89-90), and its only caller always passes the current part.
- Transactions.IsCoinbase: requires that a first input exists when the count field is one. The code unwraps it (packages/new-blk-parser/src/blockchain/proto/tx.rs:46), and the reader always builds as many inputs as the count says.
- Searcher.WrapSub: states the release-build wrap-around of `spend - outputs` (src/inscriptions/searcher.rs:16), not the debug-build overflow panic.

## Findings

| source | as written | input that shows it | evidently intended | confidence | as-written member | corrected member |
|---|---|---|---|---|---|---|
| src/inscriptions/structs.rs:392-415 | `Partials::from_bytes` reads each part's flag, length and script but never advances the offset past the script (repeated at src/db/structs.rs:206-229) | one tapscript part holding five zero bytes decodes as that part followed by an extra empty non-tapscript part | the offset moves past the script, so decoding inverts encoding | high (not executed) | Partials.PartialsAsWrittenMisreads | Partials.PartialsRoundTrip |
| src/inscriptions/structs.rs:249-277 | the PUSHDATA2 and PUSHDATA4 lengths are built from the opcode byte and the following bytes instead of only the little-endian length bytes | the script `4d 01 00 aa` is rejected as truncated (length 333) instead of reading the one-byte push `aa` | Bitcoin's little-endian push length | high (not executed) | Inscriptions.PushData2AsWrittenRejects | Inscriptions.PushesRoundTrip |
| src/reorg.rs:209-242 | each deploy-meta decrement starts from the pre-restore meta, and the batch keeps only the last update per tick | two mints of 3 and 4 against a supply of 10 restore a supply of 6 instead of 3 | the decrements add up, so the replay takes back every update | high (not executed) | Reorg.MetaUpdatesAsWrittenLosesUpdates | Reorg.MetaUpdatesTakeAllBack |
| src/reorg.rs:254-265 | the accounts fetched for a restored transfer include the recipient even when it is the burn address, which never has an account, and a missing account fails the whole restore | a block that burnt a transfer: the account fetch fails, although line 315 skips the burn address when applying | the burn address is left out of the fetch, as it is when the undo is applied | medium (not executed) | Reorg.BurnRestoreAsWrittenFails | Reorg.Parties |
| packages/new-blk-parser/src/blockchain/parser/index.rs:128-155 | a record whose status has `BLOCK_HAVE_UNDO` but not `BLOCK_HAVE_DATA` reaches `data_offset.unwrap()` and panics | an entry with status 16 and an 80-byte header | such a record is skipped, as the filter after it drops every record without block data | medium (not executed) | BlockIndex.UndoOnlyPanics | BlockIndex.ParseRecordAgrees |
| packages/new-blk-parser/src/lib.rs:144-194 | after rolling the checkpoint back over stale blocks, the last sent hash is still the dropped tip, so `check_ordering` panics on the first block fetched on the new branch | a tip that stops being confirmed, whose replacement at the next height names the kept block as its parent | the last sent hash follows the checkpoint back to the kept tip | medium (not executed) | ChainSync.LivePassAsWrittenPanics | ChainSync.LivePassCatchesUp |

=== FILE: address_encoder.dfy ===
/** Address decoding per network (src/utils/address_encoder.rs): which
    Base58Check prefixes and which bech32 human-readable part a network
    uses, and how an address string is routed to the bech32 or the
    Base58Check decoder. The codecs themselves (section "Bech32" of BIP 173,
    Base58Check) are parameters. */
module AddressEncoder {
  import opened Bytes
  import opened Wrappers

  datatype Network = Mainnet | Testnet | Signet | Regtest

  /** `EncoderParams`: the version bytes of the chain's library and its
      three human-readable parts. */
  datatype Params = Params(
    pubkeyMain: u8, scriptMain: u8, pubkeyTest: u8, scriptTest: u8,
    bech32Main: string, bech32Test: string, bech32Reg: string)

  /** The two decoders, which differ only in the library their version
      bytes come from and in their human-readable parts. */
  datatype Decoder = BellscoinDecoder | DogecoinDecoder

  /** `EncoderParams` of a decoder: the version bytes are those of its
      chain's library, given here. */
  function DecoderParams(d: Decoder, pubkeyMain: u8, scriptMain: u8, pubkeyTest: u8, scriptTest: u8): (r: Params)
    ensures r.pubkeyMain == pubkeyMain && r.scriptMain == scriptMain
    ensures r.pubkeyTest == pubkeyTest && r.scriptTest == scriptTest
    ensures d == BellscoinDecoder ==> r.bech32Main == "bel" && r.bech32Test == "tbel"
    ensures d == DogecoinDecoder ==> r.bech32Main == "bc" && r.bech32Test == "tb"
    ensures r.bech32Reg == "bcrt"
  {
    match d
    case BellscoinDecoder => Params(pubkeyMain, scriptMain, pubkeyTest, scriptTest, "bel", "tbel", "bcrt")
    case DogecoinDecoder => Params(pubkeyMain, scriptMain, pubkeyTest, scriptTest, "bc", "tb", "bcrt")
  }

  datatype Config = Config(p2pkhPrefix: u8, p2shPrefix: u8, bech32Hrp: string)

  /** `Encoder::config`. */
  function ConfigOf(p: Params, n: Network): (r: Config)
    ensures n == Mainnet ==> r.p2pkhPrefix == p.pubkeyMain && r.p2shPrefix == p.scriptMain && r.bech32Hrp == p.bech32Main
    ensures n != Mainnet ==> r.p2pkhPrefix == p.pubkeyTest && r.p2shPrefix == p.scriptTest
    ensures (n == Testnet || n == Signet) ==> r.bech32Hrp == p.bech32Test
    ensures n == Regtest ==> r.bech32Hrp == p.bech32Reg
  {
    var p2pkh := if n == Mainnet then p.pubkeyMain else p.pubkeyTest;
    var p2sh := if n == Mainnet then p.scriptMain else p.scriptTest;
    var hrp := match n
      case Mainnet => p.bech32Main
      case Testnet => p.bech32Test
      case Signet => p.bech32Test
      case Regtest => p.bech32Reg;
    Config(p2pkh, p2sh, hrp)
  }

  /** The position of the last `c` in `s`, as `rfind`. */
  function LastIndexOf(s: string, c: char): (r: Option<nat>)
    ensures r.None? <==> forall i :: 0 <= i < |s| ==> s[i] != c
    ensures r.Some? ==> r.value < |s| && s[r.value] == c && forall i :: r.value < i < |s| ==> s[i] != c
    decreases |s|
  {
    if |s| == 0 then None
    else if s[|s| - 1] == c then Some(|s| - 1)
    else LastIndexOf(s[..|s| - 1], c)
  }

  /** The candidate human-readable part: the text before the last `1`, or
      the whole address when it has none. */
  function HrpCandidate(address: string): (r: string)
    ensures r <= address
    ensures (forall i :: 0 <= i < |address| ==> address[i] != '1') ==> r == address
    ensures (exists i :: 0 <= i < |address| && address[i] == '1') ==>
      |r| < |address| && address[|r|] == '1' && forall i :: |r| < i < |address| ==> address[i] != '1'
  {
    match LastIndexOf(address, '1')
    case None => address
    case Some(sep) => address[..sep]
  }

  // ---------------------------------------------------------------------
  // Decoding
  // ---------------------------------------------------------------------

  datatype Bech32Variant = Bech32 | Bech32m

  datatype Payload =
    | PubkeyHash(hash: Bytes)
    | ScriptHash(hash: Bytes)
    | WitnessProgram(version: nat, program: Bytes)

  datatype AddressError =
    | Bech32Error(reason: string)
    | EmptyBech32Payload
    | InvalidWitnessVersion(v: nat)
    | WitnessProgramError(reason: string)
    | InvalidBech32Variant(expected: Bech32Variant, found: Bech32Variant)
    | Base58Error(reason: string)
    | Base58InvalidLength(n: nat)
    | InvalidAddressVersion(prefix: u8)

  /** The codecs: bech32 decoding into 5-bit groups and a variant, the
      5-bit to 8-bit regrouping, the witness program checks and Base58Check
      decoding. */
  datatype Codecs = Codecs(
    bech32Decode: string -> Result<(string, seq<nat>, Bech32Variant), string>,
    fromBase32: seq<nat> -> Result<Bytes, string>,
    witnessProgram: (nat, Bytes) -> Result<Bytes, string>,
    base58DecodeCheck: string -> Result<Bytes, string>)

  /** The variant a witness version must be written in: bech32 for
      version 0 and bech32m for the others (section "Specification" of
      BIP 350). */
  function ExpectedVariant(version: nat): Bech32Variant {
    if version == 0 then Bech32 else Bech32m
  }

  /** The bech32 branch of `Decoder::decode`. */
  function DecodeBech32(address: string, codecs: Codecs): (r: Result<Payload, AddressError>)
    ensures r.Ok? ==> r.value.WitnessProgram? && r.value.version <= 16
    ensures r.Ok? ==> (codecs.bech32Decode(address).Ok? &&
      ExpectedVariant(r.value.version) == codecs.bech32Decode(address).value.2)
  {
    match codecs.bech32Decode(address)
    case Err(e) => Err(Bech32Error(e))
    case Ok((_, payload, variant)) =>
      if |payload| == 0 then Err(EmptyBech32Payload)
      else if payload[0] > 16 then Err(InvalidWitnessVersion(payload[0]))
      else
        var version := payload[0];
        match codecs.fromBase32(payload[1..])
        case Err(e) => Err(Bech32Error(e))
        case Ok(program) =>
          match codecs.witnessProgram(version, program)
          case Err(e) => Err(WitnessProgramError(e))
          case Ok(checked) =>
            if ExpectedVariant(version) != variant then Err(InvalidBech32Variant(ExpectedVariant(version), variant))
            else Ok(WitnessProgram(version, checked))
  }

  /** The Base58Check branch: 21 bytes, a version byte that is the P2PKH
      prefix (tried first) or the P2SH prefix, and a 20-byte hash. */
  function DecodeBase58(address: string, config: Config, codecs: Codecs): (r: Result<Payload, AddressError>)
    ensures |address| > 50 ==> r == Err(Base58InvalidLength(|address| * 11 / 15))
    ensures r.Ok? ==> (r.value.PubkeyHash? || r.value.ScriptHash?) && |r.value.hash| == 20
    ensures r.Ok? ==> (codecs.base58DecodeCheck(address).Ok? &&
      var data := codecs.base58DecodeCheck(address).value;
      |data| == 21 && r.value.hash == data[1..] &&
      (r.value.PubkeyHash? <==> data[0] == config.p2pkhPrefix))
    ensures (|address| <= 50 && codecs.base58DecodeCheck(address).Ok? &&
             |codecs.base58DecodeCheck(address).value| == 21) ==>
      var data := codecs.base58DecodeCheck(address).value;
      (r.Err? <==> data[0] != config.p2pkhPrefix && data[0] != config.p2shPrefix) &&
      (r.Err? ==> r.error == InvalidAddressVersion(data[0]))
  {
    if |address| > 50 then Err(Base58InvalidLength(|address| * 11 / 15))
    else
      match codecs.base58DecodeCheck(address)
      case Err(e) => Err(Base58Error(e))
      case Ok(data) =>
        if |data| != 21 then Err(Base58InvalidLength(|data|))
        else if data[0] == config.p2pkhPrefix then Ok(PubkeyHash(data[1..]))
        else if data[0] == config.p2shPrefix then Ok(ScriptHash(data[1..]))
        else Err(InvalidAddressVersion(data[0]))
  }

  /** `Decoder::decode`: an address whose candidate part is the network's
      human-readable part is decoded as bech32 and never as Base58Check. */
  function Decode(address: string, config: Config, codecs: Codecs): (r: Result<Payload, AddressError>)
    ensures HrpCandidate(address) == config.bech32Hrp ==> r == DecodeBech32(address, codecs)
    ensures HrpCandidate(address) != config.bech32Hrp ==> r == DecodeBase58(address, config, codecs)
    ensures r.Ok? && r.value.WitnessProgram? ==> HrpCandidate(address) == config.bech32Hrp
  {
    if HrpCandidate(address) == config.bech32Hrp then DecodeBech32(address, codecs)
    else DecodeBase58(address, config, codecs)
  }

  /** A legacy payload written out with the network's version byte by a
      Base58Check encoder that the decoder inverts decodes back to itself,
      as long as the text is not mistaken for bech32 and fits the length
      limit. With equal P2PKH and P2SH prefixes a script hash would come
      back as a pubkey hash, so the prefixes must differ. */
  lemma Base58RoundTrip(p: Payload, config: Config, codecs: Codecs, encodeCheck: Bytes -> string)
    requires p.PubkeyHash? || p.ScriptHash?
    requires |p.hash| == 20
    requires config.p2pkhPrefix != config.p2shPrefix
    requires var data := [if p.PubkeyHash? then config.p2pkhPrefix else config.p2shPrefix] + p.hash;
      codecs.base58DecodeCheck(encodeCheck(data)) == Ok(data) &&
      |encodeCheck(data)| <= 50 && HrpCandidate(encodeCheck(data)) != config.bech32Hrp
    ensures var data := [if p.PubkeyHash? then config.p2pkhPrefix else config.p2shPrefix] + p.hash;
      Decode(encodeCheck(data), config, codecs) == Ok(p)
  {
    var data := [if p.PubkeyHash? then config.p2pkhPrefix else config.p2shPrefix] + p.hash;
    assert data[1..] == p.hash;
  }
}

=== FILE: blk_file.dfy ===
/** Recognising Bitcoin Core's block files by name (`BlkFile`): a file
    `blkNNNNN.dat` holds the blocks of file index NNNNN. The directory scan
    is reduced to the list of file names it sees, in its order. */
module BlkFiles {
  import opened Bytes
  import opened Wrappers
  import Text

  const Prefix: string := "blk"
  const Ext: string := ".dat"

  /** The panic of slicing with a start past the end. */
  const SliceOrder: string := "slice index starts after its end"

  predicate StartsWith(s: string, p: string) {
    |p| <= |s| && s[..|p|] == p
  }

  predicate EndsWith(s: string, e: string) {
    |e| <= |s| && s[|s| - |e|..] == e
  }

  /** `parse_blk_index(file_name, prefix, ext)`: the text between prefix
      and extension as a u64, or `None` when the name does not have both.
      A name shorter than prefix and extension together, which can match
      both only when they overlap, makes the slice panic. */
  function ParseIndex(name: string, prefix: string, ext: string): (r: Result<Option<u64>, string>)
    ensures r.Err? <==> StartsWith(name, prefix) && EndsWith(name, ext) && |name| < |prefix| + |ext|
    ensures r == Ok(None) <==>
      (!StartsWith(name, prefix) || !EndsWith(name, ext) ||
       (|prefix| + |ext| <= |name| && Text.ParseUint(name[|prefix|..|name| - |ext|], U64_MAX).None?))
  {
    if StartsWith(name, prefix) && EndsWith(name, ext) then
      if |name| < |prefix| + |ext| then Err(SliceOrder)
      else
        match Text.ParseUint(name[|prefix|..|name| - |ext|], U64_MAX)
        case None => Ok(None)
        case Some(n) => Ok(Some(n))
    else Ok(None)
  }

  /** With the prefix and extension the scan uses, no name can make the
      slice panic: "blk" and ".dat" cannot overlap. */
  lemma BlkNeverPanics(name: string)
    ensures ParseIndex(name, Prefix, Ext).Ok?
  {
    if StartsWith(name, Prefix) && 4 <= |name| < 7 {
      var e := |name| - 4;
      assert name[e] == Prefix[e] != Ext[0];
      assert name[e..][0] != Ext[0];
      assert !EndsWith(name, Ext);
    }
  }

  /** `blk` ‖ any number of zeros ‖ the decimal form of `n` ‖ `.dat` is
      file `n`, as `blk000042.dat` is file 42. */
  lemma IndexOfName(k: nat, n: u64)
    ensures ParseIndex(Prefix + Text.ZeroPad(k) + Text.Decimal(n) + Ext, Prefix, Ext) == Ok(Some(n))
  {
    var mid := Text.ZeroPad(k) + Text.Decimal(n);
    var name := Prefix + Text.ZeroPad(k) + Text.Decimal(n) + Ext;
    assert name == Prefix + mid + Ext;
    assert name[..3] == Prefix && name[|name| - 4..] == Ext;
    assert name[3..|name| - 4] == mid;
    Text.LeadingZeros(k, Text.Decimal(n));
    Text.DigitsOfDecimal(n);
    assert mid[0] != '+';
    assert StartsWith(name, Prefix) && EndsWith(name, Ext);
    assert Text.ParseUint(mid, U64_MAX) == Some(n);
    assert |name| >= |Prefix| + |Ext| && name[|Prefix|..|name| - |Ext|] == mid;
    assert ParseIndex(name, Prefix, Ext) == Ok(Some(n));
  }

  /** Leading zeros make different names for the same file index. */
  lemma PaddedNamesCollide()
    ensures ParseIndex("blk1.dat", Prefix, Ext) == ParseIndex("blk00001.dat", Prefix, Ext) == Ok(Some(1))
  {
    IndexOfName(0, 1);
    IndexOfName(4, 1);
    assert Prefix + Text.ZeroPad(0) + Text.Decimal(1) + Ext == "blk1.dat";
    assert Prefix + Text.ZeroPad(4) + Text.Decimal(1) + Ext == "blk00001.dat";
  }

  /** Names without the prefix, without the extension or without digits
      between them are not block files. */
  lemma NotBlockFiles()
    ensures ParseIndex("rev00001.dat", Prefix, Ext) == Ok(None)
    ensures ParseIndex("blk00001.idx", Prefix, Ext) == Ok(None)
    ensures ParseIndex("blk.dat", Prefix, Ext) == Ok(None)
    ensures ParseIndex("blkx1.dat", Prefix, Ext) == Ok(None)
  {
    assert "rev00001.dat"[..3][0] != Prefix[0];
    assert "blk00001.idx"[8..][1] != Ext[1];
    assert "blk.dat"[3..3] == "";
    assert !Text.IsDigit("blkx1.dat"[3..5][0]);
  }

  /** The index of every listed name that is a block file, as `from_path`
      collects them into its map; a later name with the same index replaces
      an earlier one. No block file at all is an error. */
  function Collect(names: seq<string>): (r: Result<map<u64, string>, string>)
    ensures r.Ok? ==> |r.value| > 0
    ensures r.Ok? ==> forall i :: i in r.value ==> ParseIndex(r.value[i], Prefix, Ext) == Ok(Some(i))
    ensures r.Err? <==> forall k :: 0 <= k < |names| ==> ParseIndex(names[k], Prefix, Ext) == Ok(None)
  {
    var m := CollectFrom(names, map[]);
    if |m| == 0 then Err("No blk files found!") else Ok(m)
  }

  function CollectFrom(names: seq<string>, acc: map<u64, string>): (r: map<u64, string>)
    requires forall i :: i in acc ==> ParseIndex(acc[i], Prefix, Ext) == Ok(Some(i))
    ensures forall i :: i in r ==> ParseIndex(r[i], Prefix, Ext) == Ok(Some(i))
    ensures acc.Keys <= r.Keys
    ensures |r| == 0 <==> |acc| == 0 && forall k :: 0 <= k < |names| ==> ParseIndex(names[k], Prefix, Ext) == Ok(None)
  {
    if |names| == 0 then acc
    else
      BlkNeverPanics(names[0]);
      var p := ParseIndex(names[0], Prefix, Ext);
      if p.Ok? && p.value.Some? then CollectFrom(names[1..], acc[p.value.value := names[0]])
      else CollectFrom(names[1..], acc)
  }
}

=== FILE: blk_utils.dfy ===
/** Helpers of the block parser: the requested height range and the
    Merkle root of a block's transaction hashes. The double SHA-256 is a
    parameter; `arr_to_hex` is `Text.Hex`. */
module BlkUtils {
  import opened Bytes
  import opened Wrappers
  import Text

  // ---------------------------------------------------------------------
  // BlockHeightRange
  // ---------------------------------------------------------------------

  /** `BlockHeightRange`: from `start`, up to `end` or the chain tip. */
  datatype HeightRange = HeightRange(start: u64, end: Option<u64>)

  const RangeError: string := "--start value must be lower than --end value"

  /** `BlockHeightRange::new`: an end, when given, must lie above the
      start. */
  function NewRange(start: u64, end: Option<u64>): (r: Result<HeightRange, string>)
    ensures r.Err? <==> end.Some? && start >= end.value
    ensures r.Err? ==> r.error == RangeError
    ensures r.Ok? ==> r.value.start == start && r.value.end == end
  {
    if end.Some? && start >= end.value then Err(RangeError) else Ok(HeightRange(start, end))
  }

  /** `Display`: `start..end`, or `start..HEAD` without an end. */
  function ShowRange(r: HeightRange): (s: string)
    ensures |s| > 2
  {
    Text.Decimal(r.start) + ".." + (if r.end.Some? then Text.Decimal(r.end.value) else "HEAD")
  }

  /** The position of the first `.`. */
  function FirstDot(s: string): (r: Option<nat>)
    ensures r.Some? ==> r.value < |s| && s[r.value] == '.'
  {
    if |s| == 0 then None
    else if s[0] == '.' then Some(0)
    else match FirstDot(s[1..])
      case None => None
      case Some(i) => Some(i + 1)
  }

  /** The end as displayed: `HEAD` or its digits. */
  function ParseEnd(t: string): Option<Option<u64>> {
    if t == "HEAD" then Some(None)
    else match Text.ParseUint(t, U64_MAX)
      case None => None
      case Some(e) => Some(Some(e))
  }

  /** Reading the displayed form back: digits up to the first `.`, then
      `..`, then the end. */
  function ParseRange(s: string): Option<HeightRange> {
    match FirstDot(s)
    case None => None
    case Some(i) =>
      if i + 2 > |s| || s[i..i + 2] != ".." then None
      else
        match (Text.ParseUint(s[..i], U64_MAX), ParseEnd(s[i + 2..]))
        case (Some(start), Some(e)) => Some(HeightRange(start, e))
        case _ => None
  }

  lemma {:induction false} FirstDotAfterDigits(d: string, t: string)
    requires Text.AllDigits(d)
    ensures FirstDot(d + "." + t) == Some(|d|)
  {
    if |d| > 0 {
      assert (d + "." + t)[1..] == d[1..] + "." + t;
      FirstDotAfterDigits(d[1..], t);
    }
  }

  lemma EndRoundTrip(e: Option<u64>)
    ensures ParseEnd(if e.Some? then Text.Decimal(e.value) else "HEAD") == Some(e)
  {
    if e.Some? {
      Text.DecimalRoundTrip(e.value, U64_MAX);
      assert Text.Decimal(e.value) != "HEAD" by {
        assert Text.IsDigit(Text.Decimal(e.value)[0]);
      }
    }
  }

  /** The displayed form determines the range: reading it back gives the
      same start and end. */
  lemma RangeDisplayRoundTrip(r: HeightRange)
    ensures ParseRange(ShowRange(r)) == Some(r)
  {
    var d := Text.Decimal(r.start);
    var tail := if r.end.Some? then Text.Decimal(r.end.value) else "HEAD";
    var s := ShowRange(r);
    assert s == d + "." + ("." + tail);
    FirstDotAfterDigits(d, "." + tail);
    assert s[..|d|] == d && s[|d|..|d| + 2] == ".." && s[|d| + 2..] == tail;
    Text.DecimalRoundTrip(r.start, U64_MAX);
    EndRoundTrip(r.end);
  }

  // ---------------------------------------------------------------------
  // Merkle root
  // ---------------------------------------------------------------------

  /** The double SHA-256 of the parser's hash library. */
  type Sha256d = Bytes -> Hash32

  /** Two hashes side by side, the 64 bytes hashed for their parent. */
  function Join(a: Hash32, b: Hash32): (r: Bytes)
    ensures |r| == 64
  {
    a + b
  }

  /** `chunks(2).filter(|c| c.len() == 2)` hashed pairwise: the odd last
      hash, if any, is dropped. */
  function FullPairs(hs: seq<Hash32>, sha: Sha256d): (r: seq<Hash32>)
    ensures |r| == |hs| / 2
  {
    if |hs| < 2 then [] else [sha(Join(hs[0], hs[1]))] + FullPairs(hs[2..], sha)
  }

  /** One round of the `while` loop: the full pairs, then the last hash
      paired with itself when the count is odd. */
  function Level(hs: seq<Hash32>, sha: Sha256d): (r: seq<Hash32>)
    ensures |r| == (|hs| + 1) / 2
  {
    var pairs := FullPairs(hs, sha);
    if |hs| % 2 == 1 then pairs + [sha(Join(hs[|hs| - 1], hs[|hs| - 1]))] else pairs
  }

  /** The textbook definition: adjacent hashes are combined, and a lone
      last hash is combined with a copy of itself. */
  function PairUp(hs: seq<Hash32>, sha: Sha256d): seq<Hash32> {
    if |hs| == 0 then []
    else if |hs| == 1 then [sha(Join(hs[0], hs[0]))]
    else [sha(Join(hs[0], hs[1]))] + PairUp(hs[2..], sha)
  }

  /** The loop's level is the textbook one. */
  lemma {:induction false} LevelIsPairUp(hs: seq<Hash32>, sha: Sha256d)
    ensures Level(hs, sha) == PairUp(hs, sha)
    decreases |hs|
  {
    if |hs| >= 2 {
      LevelIsPairUp(hs[2..], sha);
      var t := hs[2..];
      assert |t| % 2 == |hs| % 2;
      if |hs| % 2 == 1 {
        assert t[|t| - 1] == hs[|hs| - 1];
      }
    }
  }

  /** The root the loop reaches: levels until one hash is left. */
  function Root(hs: seq<Hash32>, sha: Sha256d): Hash32
    requires |hs| > 0
    decreases |hs|
  {
    if |hs| == 1 then hs[0] else Root(Level(hs, sha), sha)
  }

  const EmptyError: string := "unable to calculate merkle root on empty hashes"

  /** `merkle_root`: replace the hashes by their next level until one is
      left; no hashes at all is the `expect` panic. */
  method MerkleRoot(hashes: seq<Hash32>, sha: Sha256d) returns (r: Result<Hash32, string>)
    ensures r.Err? <==> |hashes| == 0
    ensures r.Ok? ==> r.value == Root(hashes, sha)
  {
    var hs := hashes;
    while |hs| > 1
      invariant |hs| > 0 <==> |hashes| > 0
      invariant |hs| > 0 ==> Root(hs, sha) == Root(hashes, sha)
      decreases |hs|
    {
      var next := FullPairs(hs, sha);
      if |hs| % 2 == 1 {
        var last := hs[|hs| - 1];
        next := next + [sha(Join(last, last))];
      }
      hs := next;
    }
    if |hs| == 0 {
      return Err(EmptyError);
    }
    return Ok(hs[0]);
  }

  /** A single hash is its own root: a block with only the coinbase has
      the coinbase txid as Merkle root. */
  lemma SingleRoot(h: Hash32, sha: Sha256d)
    ensures Root([h], sha) == h
  {
  }

  /** Appending a copy of the last hash to an odd list longer than one
      leaves the root unchanged (the duplicate-transaction ambiguity of
      Bitcoin's Merkle tree). */
  lemma DuplicateLastSameRoot(hs: seq<Hash32>, sha: Sha256d)
    requires |hs| > 1 && |hs| % 2 == 1
    ensures Root(hs + [hs[|hs| - 1]], sha) == Root(hs, sha)
  {
    var ext := hs + [hs[|hs| - 1]];
    assert ext[..|hs|] == hs;
    PairsPrefix(hs, hs[|hs| - 1], sha);
    assert Level(ext, sha) == Level(hs, sha);
  }

  /** Full pairs of an odd list with one more hash: the old pairs and the
      last two. */
  lemma {:induction false} PairsPrefix(hs: seq<Hash32>, x: Hash32, sha: Sha256d)
    requires |hs| % 2 == 1
    ensures FullPairs(hs + [x], sha) == FullPairs(hs, sha) + [sha(Join(hs[|hs| - 1], x))]
    decreases |hs|
  {
    if |hs| >= 2 {
      assert (hs + [x])[2..] == hs[2..] + [x];
      PairsPrefix(hs[2..], x, sha);
    } else {
      assert (hs + [x])[2..] == [];
    }
  }
}

=== FILE: block_index.dfy ===
/** The records of Bitcoin Core's block-index database as the block parser
    reads them (`BlockIndexRecord` in parser/index.rs): decoding one entry,
    keeping the usable ones, and grouping them by height. The LevelDB
    iterator is reduced to the entries it yields from the first key at or
    after "b", in key order. */
module BlockIndex {
  import opened Bytes
  import opened Wrappers
  import CoreVarInt
  import VarUints
  import BlockReader
  import BlkUtils

  // ---------------------------------------------------------------------
  // Status bits (`BLOCK_*` of Bitcoin Core's chain.h)
  // ---------------------------------------------------------------------

  const HAVE_DATA: nat := 8
  const HAVE_UNDO: nat := 16
  /** `BLOCK_VALID_MASK`, the or of 1, 2, 3, 4 and 5. */
  const VALID_MASK: nat := 7
  const VALID_TRANSACTIONS: nat := 3
  /** `BLOCK_FAILED_VALID | BLOCK_FAILED_CHILD`. */
  const FAILED_MASK: nat := 96
  /** `BLOCK_HAVE_MWEB`, bit 28. */
  const HAVE_MWEB: nat := 0x1000_0000

  predicate HasData(status: nat) { (status / HAVE_DATA) % 2 == 1 }
  predicate HasUndo(status: nat) { (status / HAVE_UNDO) % 2 == 1 }
  predicate HasMwebBit(status: nat) { (status / HAVE_MWEB) % 2 == 1 }

  /** `status & BLOCK_VALID_MASK`. */
  function Level(status: nat): nat { status % 8 }

  /** `status & BLOCK_FAILED_MASK != 0`: bit 5 or bit 6. */
  predicate Failed(status: nat) { (status / 32) % 4 != 0 }

  // ---------------------------------------------------------------------
  // Records
  // ---------------------------------------------------------------------

  /** `BlockIndexRecord`. */
  datatype Record = Record(hash: Hash32, blkIndex: u64, dataOffset: u64, height: u64, status: u64, prevHash: Hash32)

  /** `BlockIndexRecordSmall`: where a block's data is. */
  datatype Small = Small(hash: Hash32, blkIndex: u64, dataOffset: u64)

  function ToSmall(r: Record): (s: Small)
    ensures s.hash == r.hash && s.blkIndex == r.blkIndex && s.dataOffset == r.dataOffset
  {
    Small(r.hash, r.blkIndex, r.dataOffset)
  }

  const MalformedHash: string := "leveldb: malformed blockhash"
  const UnwrapNone: string := "called `Option::unwrap()` on a `None` value"
  const SizeTooLarge: string := "size too large"

  /** `read_varint`, with its panic and its end-of-input error as
      messages. */
  function Varint(bs: Bytes): (r: Result<(u64, Bytes), string>)
    ensures r.Ok? <==> CoreVarInt.ReadVarInt(bs).Ok?
    ensures r.Ok? ==> r.value == CoreVarInt.ReadVarInt(bs).value
  {
    match CoreVarInt.ReadVarInt(bs)
    case Ok(v) => Ok(v)
    case Err(e) => Err(if e.UnexpectedEof? then VarUints.EofError else SizeTooLarge)
  }

  /** `skip_mweb_extension`: a height, five 32-byte roots and offsets, two
      MMR sizes, the HogEx hash and the MWEB amount. */
  function SkipMweb(bs: Bytes): (r: Result<Bytes, string>)
    ensures r.Ok? ==> |r.value| < |bs|
  {
    var (_, r1) :- Varint(bs);
    var (_, r2) :- BlockReader.ReadExact(r1, 5 * 32);
    var (_, r3) :- Varint(r2);
    var (_, r4) :- Varint(r3);
    var (_, r5) :- BlockReader.ReadExact(r4, 32);
    var (_, r6) :- Varint(r5);
    Ok(r6)
  }

  /** The fields of an entry as `BlockIndexRecord::from` reads them, with
      the data position still optional. Entries with neither data nor undo
      data are `None`. `mweb` is whether the coin has MWEB data. */
  datatype Fields = Fields(height: u64, status: u64, blkIndex: u64, dataOffset: Option<u64>, prevHash: Hash32)

  /** The four leading numbers: version, height, status and transaction
      count; the height and status are kept. */
  function ReadCounts(value: Bytes): (r: Result<(u64, u64, Bytes), string>)
    ensures r.Ok? ==> |r.value.2| < |value|
  {
    var (_, r1) :- Varint(value);
    var (height, r2) :- Varint(r1);
    var (status, r3) :- Varint(r2);
    var (_, r4) :- Varint(r3);
    Ok((height, status, r4))
  }

  /** The file number, then the data position if the status has block
      data, then the undo position if it has undo data. */
  function ReadPositions(status: nat, bs: Bytes): (r: Result<(u64, Option<u64>, Bytes), string>)
    ensures r.Ok? ==> (r.value.1.Some? <==> HasData(status))
  {
    var (blk, r1) :- Varint(bs);
    var (offset, r2) :-
      if HasData(status) then
        match Varint(r1)
        case Err(e) => Err(e)
        case Ok((d, rest)) => Ok((Some(d), rest))
      else Ok((None, r1));
    if HasUndo(status) then
      match Varint(r2)
      case Err(e) => Err(e)
      case Ok((_, rest)) => Ok((blk, offset, rest))
    else Ok((blk, offset, r2))
  }

  function ReadFields(value: Bytes, mweb: bool): (r: Result<Option<Fields>, string>)
    ensures r.Ok? && r.value.Some? ==> HasData(r.value.value.status) || HasUndo(r.value.value.status)
    ensures r.Ok? && r.value.Some? ==> (r.value.value.dataOffset.Some? <==> HasData(r.value.value.status))
  {
    var (height, status, r1) :- ReadCounts(value);
    if !(HasData(status) || HasUndo(status)) then Ok(None)
    else
      var (blk, offset, r2) :- ReadPositions(status, r1);
      var r3 :- if mweb && HasMwebBit(status) then SkipMweb(r2) else Ok(r2);
      var (header, _) :- BlockReader.ReadHeader(r3);
      Ok(Some(Fields(height, status, blk, offset, header.prevHash)))
  }

  /** `BlockIndexRecord::from` as written: the key must be a 32-byte hash,
      and `data_offset.unwrap()` panics when the status has undo data but
      no block data. */
  function ParseRecordAsWritten(key: Bytes, value: Bytes, mweb: bool): (r: Result<Option<Record>, string>)
    ensures |key| != 32 ==> r == Err(MalformedHash)
  {
    if |key| != 32 then Err(MalformedHash)
    else
      var f :- ReadFields(value, mweb);
      match f
      case None => Ok(None)
      case Some(x) =>
        if x.dataOffset.None? then Err(UnwrapNone)
        else Ok(Some(Record(key, x.blkIndex, x.dataOffset.value, x.height, x.status, x.prevHash)))
  }

  /** The same with a record without block data dropped, as the filter
      after it would drop it anyway. */
  function ParseRecord(key: Bytes, value: Bytes, mweb: bool): (r: Result<Option<Record>, string>)
    ensures |key| != 32 ==> r == Err(MalformedHash)
    ensures r.Ok? && r.value.Some? ==> HasData(r.value.value.status) && r.value.value.hash == key
  {
    if |key| != 32 then Err(MalformedHash)
    else
      var f :- ReadFields(value, mweb);
      match f
      case None => Ok(None)
      case Some(x) =>
        if x.dataOffset.None? then Ok(None)
        else Ok(Some(Record(key, x.blkIndex, x.dataOffset.value, x.height, x.status, x.prevHash)))
  }

  /** The correction changes nothing where the code as written succeeds,
      and fails only where it fails. */
  lemma ParseRecordAgrees(key: Bytes, value: Bytes, mweb: bool)
    ensures ParseRecordAsWritten(key, value, mweb).Ok? ==>
      ParseRecord(key, value, mweb) == ParseRecordAsWritten(key, value, mweb)
    ensures ParseRecord(key, value, mweb).Err? ==> ParseRecordAsWritten(key, value, mweb).Err?
  {
  }

  /** An entry whose status is only `BLOCK_HAVE_UNDO` (16): version 0,
      height 0, status 16, no transactions, file 0, undo position 0 and
      an 80-byte header. */
  function UndoOnlyEntry(header: Bytes): Bytes {
    [0, 0, 16, 0, 0, 0] + header
  }

  /** The code as written panics on it, although the record would be
      filtered out for lacking data; the correction skips it. */
  lemma UndoOnlyPanics(h: Bytes)
    requires |h| == 80
    ensures ParseRecordAsWritten(Zeros(32), UndoOnlyEntry(h), false) == Err(UnwrapNone)
    ensures ParseRecord(Zeros(32), UndoOnlyEntry(h), false) == Ok(None)
  {
    UndoOnlyFields(h);
  }

  lemma UndoOnlyFields(h: Bytes)
    requires |h| == 80
    ensures BlockReader.ReadHeader(h).Ok?
    ensures ReadFields(UndoOnlyEntry(h), false) == Ok(Some(Fields(0, 16, 0, None, BlockReader.ReadHeader(h).value.0.prevHash)))
  {
    UndoOnlyCounts(h);
    UndoOnlyPositions(h);
    assert HasUndo(16);
  }

  lemma UndoOnlyCounts(h: Bytes)
    requires |h| == 80
    ensures ReadCounts(UndoOnlyEntry(h)) == Ok((0, 16, [0, 0] + h))
  {
    var tail := h;
    var t4: Bytes := [0, 0] + tail;
    var t3: Bytes := [0] + t4;
    var t2: Bytes := [16] + t3;
    var t1: Bytes := [0] + t2;
    assert UndoOnlyEntry(h) == [0] + t1;
    VarintSmall(0, t1);
    VarintSmall(0, t2);
    VarintSmall(16, t3);
    VarintSmall(0, t4);
  }

  lemma UndoOnlyPositions(h: Bytes)
    requires |h| == 80
    ensures ReadPositions(16, [0, 0] + h) == Ok((0, None, h))
  {
    var tail := h;
    var t5: Bytes := [0] + tail;
    assert [0, 0] + tail == [0] + t5;
    assert HasUndo(16) && !HasData(16);
    VarintSmall(0, t5);
    VarintSmall(0, tail);
  }

  /** A single byte below 128 is read as itself. */
  lemma VarintSmall(c: u8, rest: Bytes)
    requires c < 128
    ensures Varint([c] + rest) == Ok((c, rest))
  {
    assert ([c] + rest)[1..] == rest;
  }

  // ---------------------------------------------------------------------
  // Filtering
  // ---------------------------------------------------------------------

  /** `range.start.saturating_sub(1)`: one block below the start is kept,
      to link the first requested block. */
  function MinHeight(range: BlkUtils.HeightRange): nat {
    if range.start == 0 then 0 else range.start - 1
  }

  /** `range.end.unwrap_or(u64::MAX)`. */
  function MaxHeightOf(range: BlkUtils.HeightRange): nat {
    if range.end.Some? then range.end.value else U64_MAX
  }

  /** The records `get_block_index` keeps: inside the range (and the
      block below it), with block data, not failed, and validated at
      least up to the transactions. */
  predicate Keep(r: Record, range: BlkUtils.HeightRange) {
    MinHeight(range) <= r.height <= MaxHeightOf(range) &&
    HasData(r.status) && !Failed(r.status) && Level(r.status) >= VALID_TRANSACTIONS
  }

  /** The records the older block parser keeps: inside the range (and the
      block below it), with some validity level and not failed; it does
      not ask for block data. */
  predicate KeepOld(r: Record, range: BlkUtils.HeightRange) {
    MinHeight(range) <= r.height <= MaxHeightOf(range) && Level(r.status) != 0 && !Failed(r.status)
  }

  /** How one index entry is read into a record. */
  type RecordParser = (Bytes, Bytes, bool) -> Result<Option<Record>, string>

  /** Which of the two filters a scan applies. */
  datatype Filter = Packages(range: BlkUtils.HeightRange) | Older(range: BlkUtils.HeightRange)

  predicate Keeps(f: Filter, r: Record) {
    match f
    case Packages(range) => Keep(r, range)
    case Older(range) => KeepOld(r, range)
  }

  /** The `while db_iter.advance()` loop: entries are read until the first
      key that does not start with `b`; an empty key panics in
      `is_block_index_record`, a malformed entry is an error, and the kept
      records come out in iteration order. */
  function Scan(entries: seq<(Bytes, Bytes)>, f: Filter, mweb: bool, parse: RecordParser): (r: Result<seq<Record>, string>)
    ensures r.Ok? ==> forall k :: 0 <= k < |r.value| ==> Keeps(f, r.value[k])
  {
    if |entries| == 0 then Ok([])
    else
      var (key, value) := entries[0];
      if |key| == 0 then Err(UnwrapNone)
      else if key[0] != 'b' as int then Ok([])
      else
        match parse(key[1..], value, mweb)
        case Err(e) => Err(e)
        case Ok(None) => Scan(entries[1..], f, mweb, parse)
        case Ok(Some(rec)) =>
          match Scan(entries[1..], f, mweb, parse)
          case Err(e) => Err(e)
          case Ok(rest) => if Keeps(f, rec) then Ok([rec] + rest) else Ok(rest)
  }

  /** A key starts with `b`, the prefix of block-index entries. */
  predicate BlockKey(key: Bytes) {
    |key| > 0 && key[0] == 'b' as int
  }

  /** The scan ends at the first key outside the `b` entries: nothing
      after it is read. */
  lemma {:induction false} ScanStops(entries: seq<(Bytes, Bytes)>, i: nat, f: Filter, mweb: bool,
                                     parse: RecordParser)
    requires i < |entries| && |entries[i].0| > 0 && !BlockKey(entries[i].0)
    requires forall k :: 0 <= k < i ==> BlockKey(entries[k].0)
    ensures Scan(entries, f, mweb, parse) == Scan(entries[..i], f, mweb, parse)
  {
    if i > 0 {
      ScanStops(entries[1..], i - 1, f, mweb, parse);
      assert entries[1..][..i - 1] == entries[..i][1..];
    }
  }

  /** Every record the scan keeps was parsed from one of the entries. */
  lemma {:induction false} ScanSound(entries: seq<(Bytes, Bytes)>, f: Filter, mweb: bool,
                                     parse: RecordParser, k: nat)
    requires Scan(entries, f, mweb, parse).Ok? && k < |Scan(entries, f, mweb, parse).value|
    ensures exists j :: (0 <= j < |entries| && BlockKey(entries[j].0) &&
                         parse(entries[j].0[1..], entries[j].1, mweb) == Ok(Some(Scan(entries, f, mweb, parse).value[k])))
  {
    var (key, value) := entries[0];
    var p := parse(key[1..], value, mweb);
    var r := Scan(entries, f, mweb, parse).value;
    var tail := Scan(entries[1..], f, mweb, parse);
    if p.Ok? && p.value.Some? && Keeps(f, p.value.value) && k == 0 {
      assert BlockKey(entries[0].0);
    } else {
      var k' := if p.Ok? && p.value.Some? && Keeps(f, p.value.value) then k - 1 else k;
      assert r[k] == tail.value[k'];
      ScanSound(entries[1..], f, mweb, parse, k');
      var j :| 0 <= j < |entries[1..]| && BlockKey(entries[1..][j].0) &&
        parse(entries[1..][j].0[1..], entries[1..][j].1, mweb) == Ok(Some(tail.value[k']));
      assert entries[1..][j] == entries[j + 1];
    }
  }

  /** Every entry of the `b` run that parses to a record in range is
      kept. */
  lemma {:induction false} ScanComplete(entries: seq<(Bytes, Bytes)>, f: Filter, mweb: bool,
                                        parse: RecordParser, j: nat, rec: Record)
    requires j < |entries| && forall k :: 0 <= k <= j ==> BlockKey(entries[k].0)
    requires BlockKey(entries[j].0)
    requires parse(entries[j].0[1..], entries[j].1, mweb) == Ok(Some(rec)) && Keeps(f, rec)
    requires Scan(entries, f, mweb, parse).Ok?
    ensures rec in Scan(entries, f, mweb, parse).value
  {
    if j > 0 {
      ScanComplete(entries[1..], f, mweb, parse, j - 1, rec);
    }
  }

  // ---------------------------------------------------------------------
  // Grouping by height
  // ---------------------------------------------------------------------

  /** `block_index.entry(height).or_default().push(record)` over the kept
      records. */
  function Group(rs: seq<Record>): (g: map<nat, seq<Record>>)
    ensures forall h :: h in g ==> |g[h]| > 0
    ensures forall k :: 0 <= k < |rs| ==> rs[k].height in g
  {
    if |rs| == 0 then map[]
    else
      var g := Group(rs[..|rs| - 1]);
      var r := rs[|rs| - 1];
      var prev := if r.height in g then g[r.height] else [];
      assert forall k :: 0 <= k < |rs| - 1 ==> rs[..|rs| - 1][k] == rs[k];
      g[r.height := prev + [r]]
  }

  /** The records of one height, in the order they came. */
  function AtHeight(rs: seq<Record>, h: nat): (r: seq<Record>)
    ensures forall k :: 0 <= k < |r| ==> r[k].height == h && r[k] in rs
  {
    if |rs| == 0 then []
    else if rs[0].height == h then [rs[0]] + AtHeight(rs[1..], h)
    else AtHeight(rs[1..], h)
  }

  lemma {:induction false} AtHeightSnoc(rs: seq<Record>, r: Record, h: nat)
    ensures AtHeight(rs + [r], h) == AtHeight(rs, h) + (if r.height == h then [r] else [])
  {
    if |rs| == 0 {
      assert rs + [r] == [r];
      assert ([r])[1..] == [];
    } else {
      assert (rs + [r])[1..] == rs[1..] + [r];
      AtHeightSnoc(rs[1..], r, h);
    }
  }

  /** Each group holds exactly the records of its height, in order. */
  lemma {:induction false} GroupIsAtHeight(rs: seq<Record>, h: nat)
    requires h in Group(rs)
    ensures Group(rs)[h] == AtHeight(rs, h)
  {
    var init := rs[..|rs| - 1];
    var r := rs[|rs| - 1];
    assert rs == init + [r];
    AtHeightSnoc(init, r, h);
    if h in Group(init) {
      GroupIsAtHeight(init, h);
    } else if r.height == h {
      AtHeightEmpty(init, h);
    }
  }

  lemma {:induction false} AtHeightEmpty(rs: seq<Record>, h: nat)
    requires forall k :: 0 <= k < |rs| ==> rs[k].height != h
    ensures AtHeight(rs, h) == []
  {
    if |rs| > 0 {
      AtHeightEmpty(rs[1..], h);
    }
  }

  /** Every record in a group has that group's height. */
  predicate WellGrouped(g: map<nat, seq<Record>>) {
    forall h :: h in g ==> forall k :: 0 <= k < |g[h]| ==> g[h][k].height == h
  }

  lemma GroupWellGrouped(rs: seq<Record>)
    ensures WellGrouped(Group(rs))
  {
    forall h | h in Group(rs)
      ensures forall k :: 0 <= k < |Group(rs)[h]| ==> Group(rs)[h][k].height == h
    {
      GroupIsAtHeight(rs, h);
    }
  }

  // ---------------------------------------------------------------------
  // The known heights, highest first
  // ---------------------------------------------------------------------

  /** Strictly decreasing. */
  predicate Desc(hs: seq<nat>) {
    forall i, j :: 0 <= i < j < |hs| ==> hs[i] > hs[j]
  }

  /** Adds a height to a decreasing list unless it is already there. */
  function InsertDesc(h: nat, hs: seq<nat>): (r: seq<nat>)
    requires Desc(hs)
    ensures Desc(r)
    ensures forall x :: x in r <==> x == h || x in hs
  {
    if |hs| == 0 then [h]
    else if h == hs[0] then hs
    else if h > hs[0] then [h] + hs
    else
      var t := InsertDesc(h, hs[1..]);
      forall k | 0 <= k < |t|
        ensures t[k] < hs[0]
      {
        assert t[k] in t;
      }
      [hs[0]] + t
  }

  /** The keys of the grouped index in the reverse of their sorted order
      (`sort_unstable_keys`, then `.rev()`). */
  function HeightsDesc(rs: seq<Record>): (r: seq<nat>)
    ensures Desc(r)
    ensures forall x :: x in r <==> x in Group(rs)
  {
    if |rs| == 0 then []
    else
      InsertDesc(rs[|rs| - 1].height, HeightsDesc(rs[..|rs| - 1]))
  }

  /** The heights of `hs` in `[lo, hi)`, in order. */
  function Window(hs: seq<nat>, lo: nat, hi: nat): (w: seq<nat>)
    ensures forall k :: 0 <= k < |w| ==> lo <= w[k] < hi
  {
    if |hs| == 0 then []
    else if lo <= hs[0] < hi then [hs[0]] + Window(hs[1..], lo, hi)
    else Window(hs[1..], lo, hi)
  }

  lemma {:induction false} WindowBelow(hs: seq<nat>, lo: nat, hi: nat)
    requires Desc(hs) && |hs| > 0 && hs[0] < lo
    ensures Window(hs, lo, hi) == []
  {
    if |hs| > 1 {
      WindowBelow(hs[1..], lo, hi);
    }
  }

  /** Below the first height, a bound above it cuts nothing more. */
  lemma {:induction false} WindowCap(hs: seq<nat>, lo: nat, hi: nat, cap: nat)
    requires forall k :: 0 <= k < |hs| ==> hs[k] < cap <= hi
    ensures Window(hs, lo, hi) == Window(hs, lo, cap)
  {
    if |hs| > 0 {
      WindowCap(hs[1..], lo, hi, cap);
    }
  }

  // ---------------------------------------------------------------------
  // Linking downwards (`try_build`)
  // ---------------------------------------------------------------------

  /** Each record of `chain` is the parent of the one before it, the
      first the parent of `top`. */
  predicate Linked(top: Record, chain: seq<Record>)
    decreases |chain|
  {
    |chain| == 0 || (chain[0].hash == top.prevHash && Linked(chain[0], chain[1..]))
  }

  function Heights(chain: seq<Record>): (r: seq<nat>)
    ensures |r| == |chain|
  {
    if |chain| == 0 then [] else [chain[0].height] + Heights(chain[1..])
  }

  /** `prevs.iter().find(|r| r.block_hash == hash)`, as a position. */
  function Find(rs: seq<Record>, hash: Hash32): (r: Option<nat>)
    ensures r.Some? ==> r.value < |rs| && rs[r.value].hash == hash
    ensures r.Some? ==> forall k :: 0 <= k < r.value ==> rs[k].hash != hash
    ensures r.None? ==> forall k :: 0 <= k < |rs| ==> rs[k].hash != hash
  {
    if |rs| == 0 then None
    else if rs[0].hash == hash then Some(0)
    else match Find(rs[1..], hash)
      case None => None
      case Some(i) => Some(i + 1)
  }

  /** Every record of the chain is one of the grouped records of its
      height. */
  predicate FromGroups(g: map<nat, seq<Record>>, chain: seq<Record>) {
    forall i :: 0 <= i < |chain| ==> chain[i].height in g && chain[i] in g[chain[i].height]
  }

  /** The loop of `try_build` after the start record: for each known height
      below the current record, highest first and down to `minH`, the
      record whose hash is the current one's parent hash. A height without
      it makes the whole attempt fail. */
  function Walk(g: map<nat, seq<Record>>, hs: seq<nat>, cur: Record, minH: nat): (r: Option<seq<Record>>)
    requires Desc(hs)
    ensures r.Some? ==> Linked(cur, r.value)
    ensures r.Some? && WellGrouped(g) ==> FromGroups(g, r.value) && Heights(r.value) == Window(hs, minH, cur.height)
    decreases |hs|
  {
    if |hs| == 0 then Some([])
    else
      var h := hs[0];
      if h >= cur.height then Walk(g, hs[1..], cur, minH)
      else if h < minH then
        WindowBelow(hs, minH, cur.height);
        Some([])
      else if h !in g then None
      else match Find(g[h], cur.prevHash)
        case None => None
        case Some(i) =>
          var p := g[h][i];
          match Walk(g, hs[1..], p, minH)
          case None => None
          case Some(rest) =>
            WindowCap(hs[1..], minH, cur.height, h);
            assert ([p] + rest)[1..] == rest;
            Some([p] + rest)
  }

  /** Record hashes are unique within a height, as they are database
      keys. */
  predicate UniqueHashes(g: map<nat, seq<Record>>) {
    forall h, i, j :: h in g && 0 <= i < |g[h]| && 0 <= j < |g[h]| && g[h][i].hash == g[h][j].hash ==> i == j
  }

  /** With unique hashes, the walk finds any linked chain of grouped
      records through every known height of its window. */
  lemma {:induction false} WalkComplete(g: map<nat, seq<Record>>, hs: seq<nat>, cur: Record, minH: nat, chain: seq<Record>)
    requires WellGrouped(g) && Desc(hs) && UniqueHashes(g)
    requires Linked(cur, chain) && FromGroups(g, chain)
    requires Heights(chain) == Window(hs, minH, cur.height)
    ensures Walk(g, hs, cur, minH) == Some(chain)
    decreases |hs|
  {
    if |hs| > 0 {
      var h := hs[0];
      if h >= cur.height {
        WalkComplete(g, hs[1..], cur, minH, chain);
      } else if h < minH {
        WindowBelow(hs, minH, cur.height);
      } else {
        assert Heights(chain)[0] == h;
        var c := chain[0];
        var j :| 0 <= j < |g[h]| && g[h][j] == c;
        var i := Find(g[h], cur.prevHash).value;
        assert i == j;
        assert Heights(chain) == [c.height] + Heights(chain[1..]);
        assert Window(hs, minH, cur.height) == [h] + Window(hs[1..], minH, cur.height);
        forall k | 0 <= k < |hs[1..]|
          ensures hs[1..][k] < h
        {
          assert hs[1..][k] == hs[k + 1];
        }
        WindowCap(hs[1..], minH, cur.height, h);
        assert Heights(chain[1..]) == Heights(chain)[1..];
        assert Window(hs[1..], minH, cur.height) == Window(hs, minH, cur.height)[1..];
        assert FromGroups(g, chain[1..]) by {
          forall k | 0 <= k < |chain[1..]|
            ensures chain[1..][k].height in g && chain[1..][k] in g[chain[1..][k].height]
          {
            assert chain[1..][k] == chain[k + 1];
          }
        }
        WalkComplete(g, hs[1..], c, minH, chain[1..]);
        assert [c] + chain[1..] == chain;
      }
    } else {
      assert |chain| == 0;
    }
  }

  /** The map a chain of records gives, each under its height; a later
      record of the same height replaces an earlier one. */
  function ToMap(rs: seq<Record>): (m: map<nat, Record>)
    ensures forall k :: 0 <= k < |rs| ==> rs[k].height in m
    ensures forall h :: h in m ==> m[h].height == h && m[h] in rs
  {
    if |rs| == 0 then map[]
    else
      var init := rs[..|rs| - 1];
      assert forall k :: 0 <= k < |rs| - 1 ==> init[k] == rs[k];
      ToMap(init)[rs[|rs| - 1].height := rs[|rs| - 1]]
  }

  /** Records of different heights keep their own entries. */
  lemma {:induction false} ToMapDistinct(rs: seq<Record>, k: nat)
    requires Distinct(Heights(rs)) && k < |rs|
    ensures ToMap(rs)[rs[k].height] == rs[k]
  {
    var n := |rs| - 1;
    var init := rs[..n];
    if k < n {
      HeightsAt(rs);
      HeightsAt(init);
      forall a, b | 0 <= a < b < n
        ensures Heights(init)[a] != Heights(init)[b]
      {
        assert Heights(rs)[a] != Heights(rs)[b];
      }
      assert rs[k].height != rs[n].height;
      ToMapDistinct(init, k);
    }
  }

  lemma {:induction false} HeightsAt(rs: seq<Record>)
    ensures forall k :: 0 <= k < |rs| ==> Heights(rs)[k] == rs[k].height
  {
    if |rs| > 0 {
      HeightsAt(rs[1..]);
    }
  }

  // ---------------------------------------------------------------------
  // Choosing the top candidate
  // ---------------------------------------------------------------------

  /** The order of `sorted_top`: higher validity level first, then lower
      file number, then lower data position. */
  predicate Precedes(a: Record, b: Record) {
    Level(a.status) > Level(b.status) ||
    (Level(a.status) == Level(b.status) &&
     (a.blkIndex < b.blkIndex || (a.blkIndex == b.blkIndex && a.dataOffset <= b.dataOffset)))
  }

  predicate SortedByPreference(s: seq<Record>) {
    forall i, j :: 0 <= i < j < |s| ==> Precedes(s[i], s[j])
  }

  /** Inserts before the first record it precedes. */
  function Insert(x: Record, s: seq<Record>): (r: seq<Record>)
    ensures multiset(r) == multiset(s) + multiset{x}
  {
    if |s| == 0 then [x]
    else if Precedes(x, s[0]) then [x] + s
    else
      assert s == [s[0]] + s[1..];
      [s[0]] + Insert(x, s[1..])
  }

  lemma {:induction false} InsertSorted(x: Record, s: seq<Record>)
    requires SortedByPreference(s)
    ensures SortedByPreference(Insert(x, s))
  {
    if |s| > 0 && !Precedes(x, s[0]) {
      InsertSorted(x, s[1..]);
      var t := Insert(x, s[1..]);
      forall k | 0 <= k < |t|
        ensures Precedes(s[0], t[k])
      {
        assert t[k] in multiset(t);
        if t[k] != x {
          assert t[k] in multiset(s[1..]);
          var m :| 0 <= m < |s[1..]| && s[1..][m] == t[k];
          assert s[1..][m] == s[m + 1];
        }
      }
    }
  }

  /** `sort_by` with the preference order: a sorted permutation of the
      candidates. Inserting from the back keeps equal records in their
      original order, as the stable `sort_by` does. */
  function SortCandidates(s: seq<Record>): (r: seq<Record>)
    ensures SortedByPreference(r)
    ensures multiset(r) == multiset(s)
  {
    if |s| == 0 then []
    else
      assert s == [s[0]] + s[1..];
      InsertSorted(s[0], SortCandidates(s[1..]));
      Insert(s[0], SortCandidates(s[1..]))
  }

  /** The `for cand in sorted_top` loop from position `i`: the first
      candidate whose walk succeeds, with its chain. */
  function FirstLinking(cands: seq<Record>, i: nat, g: map<nat, seq<Record>>, hs: seq<nat>, minH: nat): (r: Option<(nat, seq<Record>)>)
    requires Desc(hs) && i <= |cands|
    ensures r.Some? ==> i <= r.value.0 < |cands| && Walk(g, hs, cands[r.value.0], minH) == Some(r.value.1)
    ensures r.Some? ==> forall k :: i <= k < r.value.0 ==> Walk(g, hs, cands[k], minH).None?
    ensures r.None? <==> forall k :: i <= k < |cands| ==> Walk(g, hs, cands[k], minH).None?
    decreases |cands| - i
  {
    if i == |cands| then None
    else match Walk(g, hs, cands[i], minH)
      case Some(chain) => Some((i, chain))
      case None => FirstLinking(cands, i + 1, g, hs, minH)
  }

  const NoLinkError: string := "Failed to find previous block hash. -reindex-chainstate is required to proceed"

  /** The highest known height. */
  function Top(rs: seq<Record>): (t: nat)
    requires |rs| > 0
    ensures t in Group(rs)
    ensures forall k :: 0 <= k < |rs| ==> rs[k].height <= t
  {
    var hs := HeightsDesc(rs);
    assert rs[0].height in hs;
    forall k | 0 <= k < |rs|
      ensures rs[k].height <= hs[0]
    {
      assert rs[k].height in hs;
    }
    hs[0]
  }

  /** The records of the highest height in the order they are tried. */
  function TopCandidates(rs: seq<Record>): (c: seq<Record>)
    requires |rs| > 0
    ensures SortedByPreference(c)
    ensures multiset(c) == multiset(Group(rs)[Top(rs)])
  {
    SortCandidates(Group(rs)[Top(rs)])
  }

  /** The candidate that wins, by position in the tried order, with its
      chain of ancestors. */
  function Chosen(rs: seq<Record>, range: BlkUtils.HeightRange): (r: Option<(nat, seq<Record>)>)
    requires |rs| > 0
    ensures r.Some? ==> r.value.0 < |TopCandidates(rs)|
  {
    GroupWellGrouped(rs);
    FirstLinking(TopCandidates(rs), 0, Group(rs), HeightsDesc(rs), MinHeight(range))
  }

  /** The best chain of the kept records, from a top record down to the
      lowest requested height: `None` when no record is kept, an error
      when no top candidate links. */
  function BestChain(rs: seq<Record>, range: BlkUtils.HeightRange): (r: Result<Option<seq<Record>>, string>)
    ensures r.Err? ==> r.error == NoLinkError
    ensures r == Ok(None) <==> |rs| == 0
  {
    if |rs| == 0 then Ok(None)
    else
      match Chosen(rs, range)
      case None => Err(NoLinkError)
      case Some(p) => Ok(Some([TopCandidates(rs)[p.0]] + p.1))
  }

  /** The chosen chain starts at a record of the highest height, links
      each record to its parent, takes its records from the index, and
      below the top has one record for every known height down to one
      below the requested start. */
  lemma BestChainLinked(rs: seq<Record>, range: BlkUtils.HeightRange)
    requires BestChain(rs, range).Ok? && BestChain(rs, range).value.Some?
    ensures var chain := BestChain(rs, range).value.value;
      |chain| > 0 && chain[0].height == Top(rs) && Linked(chain[0], chain[1..]) && FromGroups(Group(rs), chain) &&
      Heights(chain[1..]) == Window(HeightsDesc(rs), MinHeight(range), Top(rs))
  {
    GroupWellGrouped(rs);
    var g := Group(rs);
    var hs := HeightsDesc(rs);
    var cands := TopCandidates(rs);
    var minH := MinHeight(range);
    var f := FirstLinking(cands, 0, g, hs, minH);
    assert f.Some?;
    var i := f.value.0;
    var chain := f.value.1;
    var start := cands[i];
    var whole := [start] + chain;
    assert BestChain(rs, range).value.value == whole;
    assert start in multiset(g[Top(rs)]);
    assert start in g[Top(rs)];
    assert whole[1..] == chain;
    forall k | 0 <= k < |whole|
      ensures whole[k].height in g && whole[k] in g[whole[k].height]
    {
      if k > 0 {
        assert whole[k] == chain[k - 1];
      }
    }
  }

  /** The candidate chosen is preferred to every other top candidate that
      links: those before it in the order all fail. */
  lemma BestChainPreferred(rs: seq<Record>, range: BlkUtils.HeightRange, other: Record)
    requires BestChain(rs, range).Ok? && BestChain(rs, range).value.Some?
    requires |rs| > 0 && other in Group(rs)[Top(rs)]
    requires Walk(Group(rs), HeightsDesc(rs), other, MinHeight(range)).Some?
    ensures Precedes(BestChain(rs, range).value.value[0], other)
  {
    var g := Group(rs);
    var hs := HeightsDesc(rs);
    var cands := TopCandidates(rs);
    var (i, chain) := FirstLinking(cands, 0, g, hs, MinHeight(range)).value;
    assert other in multiset(cands);
    var j :| 0 <= j < |cands| && cands[j] == other;
    if j != i {
      assert j > i;
    }
  }

  /** No top candidate links: every one of them fails. */
  lemma BestChainFails(rs: seq<Record>, range: BlkUtils.HeightRange)
    requires |rs| > 0
    ensures BestChain(rs, range).Err? <==>
      forall c :: c in Group(rs)[Top(rs)] ==> Walk(Group(rs), HeightsDesc(rs), c, MinHeight(range)).None?
  {
    BestChainErr(rs, range);
    ChosenIsFirst(rs, range);
    FirstFailsAll(TopCandidates(rs), Group(rs)[Top(rs)], Group(rs), HeightsDesc(rs), MinHeight(range));
  }

  lemma BestChainErr(rs: seq<Record>, range: BlkUtils.HeightRange)
    requires |rs| > 0
    ensures BestChain(rs, range).Err? <==> Chosen(rs, range).None?
  {
  }

  lemma ChosenIsFirst(rs: seq<Record>, range: BlkUtils.HeightRange)
    requires |rs| > 0
    ensures Chosen(rs, range) == FirstLinking(TopCandidates(rs), 0, Group(rs), HeightsDesc(rs), MinHeight(range))
  {
  }

  /** Trying a permutation of the candidates finds none exactly when no
      candidate links. */
  lemma FirstFailsAll(cands: seq<Record>, grp: seq<Record>, g: map<nat, seq<Record>>, hs: seq<nat>, minH: nat)
    requires Desc(hs) && multiset(cands) == multiset(grp)
    ensures FirstLinking(cands, 0, g, hs, minH).None? <==> forall c :: c in grp ==> Walk(g, hs, c, minH).None?
  {
    AllFailPermuted(cands, grp, g, hs, minH);
  }

  lemma AllFailPermuted(cands: seq<Record>, grp: seq<Record>, g: map<nat, seq<Record>>, hs: seq<nat>, minH: nat)
    requires Desc(hs) && multiset(cands) == multiset(grp)
    ensures (forall k :: 0 <= k < |cands| ==> Walk(g, hs, cands[k], minH).None?) <==>
            (forall c :: c in grp ==> Walk(g, hs, c, minH).None?)
  {
    forall c | c in grp
      ensures c in cands
    {
      assert c in multiset(cands);
    }
    forall k | 0 <= k < |cands|
      ensures cands[k] in grp
    {
      assert cands[k] in multiset(grp);
    }
  }

  /** The records of a chain, by height, in the small form. */
  function SmallMap(chain: seq<Record>): (m: map<nat, Small>)
    requires Distinct(Heights(chain))
    ensures forall k :: 0 <= k < |chain| ==> chain[k].height in m && m[chain[k].height] == ToSmall(chain[k])
    ensures forall h :: h in m ==> exists k :: 0 <= k < |chain| && chain[k].height == h
  {
    var m := ToMap(chain);
    forall k | 0 <= k < |chain|
      ensures m[chain[k].height] == chain[k]
    {
      ToMapDistinct(chain, k);
    }
    forall h | h in m
      ensures exists k :: 0 <= k < |chain| && chain[k].height == h
    {
      var k :| 0 <= k < |chain| && chain[k] == m[h];
    }
    map h | h in m :: ToSmall(m[h])
  }

  /** `get_block_index`: the chain's records by height, or an empty map
      when nothing is kept. `parse` reads one entry: the code as written
      reads with `ParseRecordAsWritten`, the corrected reader with
      `ParseRecord`. */
  function GetBlockIndex(entries: seq<(Bytes, Bytes)>, range: BlkUtils.HeightRange, mweb: bool, parse: RecordParser): (r: Result<map<nat, Small>, string>)
    ensures Scan(entries, Packages(range), mweb, parse).Err? ==> r.Err?
    ensures Scan(entries, Packages(range), mweb, parse) == Ok([]) ==> r == Ok(map[])
    ensures r.Err? && Scan(entries, Packages(range), mweb, parse).Ok? ==> r.error == NoLinkError
  {
    var rs :- Scan(entries, Packages(range), mweb, parse);
    var best :- BestChain(rs, range);
    match best
    case None => Ok(map[])
    case Some(chain) =>
      ChainHeightsDistinct(rs, range);
      Ok(SmallMap(chain))
  }

  /** The map holds exactly the best chain's records, each under its own
      height. */
  lemma GetBlockIndexIsChain(entries: seq<(Bytes, Bytes)>, range: BlkUtils.HeightRange, mweb: bool, parse: RecordParser)
    requires Scan(entries, Packages(range), mweb, parse).Ok?
    requires BestChain(Scan(entries, Packages(range), mweb, parse).value, range).Ok?
    requires BestChain(Scan(entries, Packages(range), mweb, parse).value, range).value.Some?
    ensures GetBlockIndex(entries, range, mweb, parse).Ok?
    ensures var chain := BestChain(Scan(entries, Packages(range), mweb, parse).value, range).value.value;
      var m := GetBlockIndex(entries, range, mweb, parse).value;
      (forall k :: 0 <= k < |chain| ==> chain[k].height in m && m[chain[k].height] == ToSmall(chain[k])) &&
      (forall h :: h in m ==> exists k :: 0 <= k < |chain| && chain[k].height == h)
  {
  }

  /** A window of a decreasing list is decreasing, so the chain's heights
      are pairwise different. */
  lemma ChainHeightsDistinct(rs: seq<Record>, range: BlkUtils.HeightRange)
    requires BestChain(rs, range).Ok? && BestChain(rs, range).value.Some?
    ensures Distinct(Heights(BestChain(rs, range).value.value))
  {
    BestChainLinked(rs, range);
    TopThenWindowDistinct(BestChain(rs, range).value.value, Top(rs), HeightsDesc(rs), MinHeight(range));
  }

  /** A record at the top followed by records at the heights of a window
      below it: all heights differ. */
  lemma TopThenWindowDistinct(chain: seq<Record>, top: nat, hs: seq<nat>, lo: nat)
    requires Desc(hs) && |chain| > 0 && chain[0].height == top
    requires Heights(chain[1..]) == Window(hs, lo, top)
    ensures Distinct(Heights(chain))
  {
    WindowDesc(hs, lo, top);
    var hh := Heights(chain);
    var w := Heights(chain[1..]);
    assert hh == [top] + w;
    forall a, b | 0 <= a < b < |hh|
      ensures hh[a] != hh[b]
    {
      assert hh[b] == w[b - 1];
      if a > 0 {
        assert hh[a] == w[a - 1];
      }
    }
  }

  lemma {:induction false} WindowDesc(hs: seq<nat>, lo: nat, hi: nat)
    requires Desc(hs)
    ensures Desc(Window(hs, lo, hi))
    ensures forall x :: x in Window(hs, lo, hi) ==> x in hs
  {
    if |hs| > 0 {
      WindowDesc(hs[1..], lo, hi);
      var w := Window(hs[1..], lo, hi);
      forall k | 0 <= k < |w|
        ensures w[k] < hs[0]
      {
        assert w[k] in w;
        var m :| 0 <= m < |hs[1..]| && hs[1..][m] == w[k];
        assert hs[1..][m] == hs[m + 1];
      }
    }
  }

  // ---------------------------------------------------------------------
  // ChainIndex
  // ---------------------------------------------------------------------

  /** `ChainIndex`: the chain's records by height, the height to stop at,
      and the highest height found in each block file. */
  datatype ChainIndex = ChainIndex(maxHeight: nat, blockIndex: map<nat, Small>, maxHeightByBlk: map<u64, nat>)

  /** `k` is the largest key of `m`, or 0 for an empty map
      (`keys().max().unwrap_or_default()`). */
  predicate IsMaxKey(m: map<nat, Small>, k: nat) {
    if m == map[] then k == 0 else k in m && forall h :: h in m ==> h <= k
  }

  /** `byBlk` maps each file holding a block of `m` to the highest height
      among that file's blocks, and nothing else. */
  predicate IsMaxByBlk(m: map<nat, Small>, byBlk: map<u64, nat>) {
    byBlk.Keys == (set h | h in m :: m[h].blkIndex) &&
    (forall b :: b in byBlk ==> byBlk[b] in m && m[byBlk[b]].blkIndex == b) &&
    (forall h :: h in m ==> h <= byBlk[m[h].blkIndex])
  }

  /** The `for (height, index_record) in &block_index` loop, in whatever
      order the hash map yields its entries. */
  method MaxByBlk(m: map<nat, Small>) returns (byBlk: map<u64, nat>)
    ensures IsMaxByBlk(m, byBlk)
  {
    byBlk := map[];
    var todo := m.Keys;
    while todo != {}
      invariant todo <= m.Keys
      invariant byBlk.Keys == set h | h in m.Keys - todo :: m[h].blkIndex
      invariant forall b :: b in byBlk ==> byBlk[b] in m.Keys - todo && m[byBlk[b]].blkIndex == b
      invariant forall h :: h in m.Keys - todo ==> h <= byBlk[m[h].blkIndex]
      decreases |todo|
    {
      var h :| h in todo;
      var b := m[h].blkIndex;
      if b !in byBlk || h > byBlk[b] {
        byBlk := byBlk[b := h];
      }
      todo := todo - {h};
    }
  }

  /** `block_index.keys().max().copied().unwrap_or_default()`. */
  method MaxKnown(m: map<nat, Small>) returns (known: nat)
    ensures IsMaxKey(m, known)
  {
    known := 0;
    var todo := m.Keys;
    var first := true;
    while todo != {}
      invariant todo <= m.Keys
      invariant first ==> todo == m.Keys && known == 0
      invariant !first ==> known in m && known !in todo
      invariant forall h :: h in m && h !in todo ==> h <= known
      decreases |todo|
    {
      var h :| h in todo;
      if first || h > known {
        known := h;
      }
      first := false;
      todo := todo - {h};
    }
    if first {
      assert m.Keys == {};
    }
  }

  /** `ChainIndex::new`: without an index directory the map is empty; the
      stop height is the end of the range when that lies below the
      highest known height, else that height. */
  method NewChainIndex(index: Option<map<nat, Small>>, range: BlkUtils.HeightRange) returns (c: ChainIndex)
    ensures c.blockIndex == (if index.Some? then index.value else map[])
    ensures IsMaxByBlk(c.blockIndex, c.maxHeightByBlk)
    ensures range.end.None? ==> IsMaxKey(c.blockIndex, c.maxHeight)
    ensures range.end.Some? ==> c.maxHeight <= range.end.value
    ensures range.end.Some? && c.maxHeight < range.end.value ==> IsMaxKey(c.blockIndex, c.maxHeight)
    ensures range.end.Some? && c.maxHeight == range.end.value && c.blockIndex != map[] ==>
      exists h :: h in c.blockIndex && h >= c.maxHeight
  {
    var m := if index.Some? then index.value else map[];
    var byBlk := MaxByBlk(m);
    var known := MaxKnown(m);
    var maxHeight := if range.end.Some? && range.end.value < known then range.end.value else known;
    return ChainIndex(maxHeight, m, byBlk);
  }

  /** `max_height_by_blk`: the highest height in a file; the `unwrap`
      panics for a file holding none of the chain's blocks. */
  function MaxHeightByBlk(c: ChainIndex, blk: u64): (r: Result<nat, string>)
    ensures r.Err? ==> r.error == UnwrapNone
  {
    if blk in c.maxHeightByBlk then Ok(c.maxHeightByBlk[blk]) else Err(UnwrapNone)
  }

  /** For an index built by `NewChainIndex`, a file has an answer exactly
      when it holds a block of the chain, and the answer is the highest
      height among its blocks. */
  lemma MaxHeightByBlkIsMax(c: ChainIndex, blk: u64)
    requires IsMaxByBlk(c.blockIndex, c.maxHeightByBlk)
    ensures MaxHeightByBlk(c, blk).Ok? <==> exists h :: h in c.blockIndex && c.blockIndex[h].blkIndex == blk
    ensures MaxHeightByBlk(c, blk).Ok? ==>
      var top := MaxHeightByBlk(c, blk).value;
      top in c.blockIndex && c.blockIndex[top].blkIndex == blk &&
      forall h :: h in c.blockIndex && c.blockIndex[h].blkIndex == blk ==> h <= top
  {
  }

  /** A scan reading entries as written gives what the corrected scan
      gives whenever it succeeds, and fails wherever the corrected one
      fails. */
  lemma {:induction false} ScanAgrees(entries: seq<(Bytes, Bytes)>, f: Filter, mweb: bool)
    ensures Scan(entries, f, mweb, ParseRecordAsWritten).Ok? ==>
      Scan(entries, f, mweb, ParseRecord) == Scan(entries, f, mweb, ParseRecordAsWritten)
    ensures Scan(entries, f, mweb, ParseRecord).Err? ==> Scan(entries, f, mweb, ParseRecordAsWritten).Err?
  {
    if |entries| > 0 && |entries[0].0| > 0 && entries[0].0[0] == 'b' as int {
      ParseRecordAgrees(entries[0].0[1..], entries[0].1, mweb);
      ScanAgrees(entries[1..], f, mweb);
    }
  }

  /** So does the whole index. */
  lemma GetBlockIndexAgrees(entries: seq<(Bytes, Bytes)>, range: BlkUtils.HeightRange, mweb: bool)
    ensures GetBlockIndex(entries, range, mweb, ParseRecordAsWritten).Ok? ==>
      GetBlockIndex(entries, range, mweb, ParseRecord) == GetBlockIndex(entries, range, mweb, ParseRecordAsWritten)
  {
    ScanAgrees(entries, Packages(range), mweb);
  }

  /** A leading index entry with undo data but no block data makes the
      index as written fail with the `unwrap` panic, while the corrected
      reader skips it. */
  lemma UndoOnlyIndexPanics(h: Bytes, rest: seq<(Bytes, Bytes)>, range: BlkUtils.HeightRange)
    requires |h| == 80
    ensures var entries := [(['b' as int] + Zeros(32), UndoOnlyEntry(h))] + rest;
      && GetBlockIndex(entries, range, false, ParseRecordAsWritten) == Err(UnwrapNone)
      && Scan(entries, Packages(range), false, ParseRecord) == Scan(rest, Packages(range), false, ParseRecord)
  {
    var entries := [(['b' as int] + Zeros(32), UndoOnlyEntry(h))] + rest;
    assert entries[0].0[1..] == Zeros(32);
    assert entries[1..] == rest;
    UndoOnlyPanics(h);
  }
}

=== FILE: block_reader.dfy ===
/** The structured reader of the block parser (`BlockchainRead` in
    parser/reader.rs): headers, transactions, Merkle branches, merged-mining
    (AuxPoW) data and whole blocks, each read from the front of a byte
    string that stands for the stream; the rest of the string is what the
    stream still holds. The segwit witness decoder is a parameter. */
module BlockReader {
  import opened Bytes
  import opened Wrappers
  import opened Locations
  import opened VarUints
  import opened Transactions

  /** `bellscoin::Witness::consensus_decode`, reading from the front. */
  type WitnessDecoder = Bytes -> Result<(Witness, Bytes), string>

  // ---------------------------------------------------------------------
  // Primitive reads
  // ---------------------------------------------------------------------

  /** `read_exact` of `n` bytes. */
  function ReadExact(bs: Bytes, n: nat): (r: Result<(Bytes, Bytes), string>)
    ensures r.Err? <==> |bs| < n
    ensures r.Ok? ==> |r.value.0| == n && bs == r.value.0 + r.value.1
  {
    if |bs| < n then Err(EofError)
    else
      assert bs == bs[..n] + bs[n..];
      Ok((bs[..n], bs[n..]))
  }

  function ReadU8(bs: Bytes): (r: Result<(u8, Bytes), string>)
    ensures r.Err? <==> |bs| == 0
    ensures r.Ok? ==> bs == [r.value.0] + r.value.1
  {
    if |bs| == 0 then Err(EofError)
    else
      assert bs == [bs[0]] + bs[1..];
      Ok((bs[0], bs[1..]))
  }

  /** `read_u32::<LittleEndian>`. */
  function ReadU32(bs: Bytes): (r: Result<(u32, Bytes), string>)
    ensures r.Err? <==> |bs| < 4
    ensures r.Ok? ==> bs == LeU32(r.value.0) + r.value.1
  {
    match ReadLe(bs, 4)
    case Err(e) => Err(e)
    case Ok((v, rest)) =>
      assert Pow256(4) == 0x1_0000_0000;
      Ok((v, rest))
  }

  /** `read_u64::<LittleEndian>`. */
  function ReadU64(bs: Bytes): (r: Result<(u64, Bytes), string>)
    ensures r.Err? <==> |bs| < 8
    ensures r.Ok? ==> bs == LeU64(r.value.0) + r.value.1
  {
    match ReadLe(bs, 8)
    case Err(e) => Err(e)
    case Ok((v, rest)) =>
      assert Pow256(8) == 0x1_0000_0000_0000_0000;
      Ok((v, rest))
  }

  /** `read_256hash`. */
  function ReadHash(bs: Bytes): (r: Result<(Hash32, Bytes), string>)
    ensures r.Err? <==> |bs| < 32
    ensures r.Ok? ==> bs == r.value.0 + r.value.1
  {
    match ReadExact(bs, 32)
    case Err(e) => Err(e)
    case Ok((h, rest)) => Ok((h, rest))
  }

  lemma U32RoundTrip(v: u32, rest: Bytes)
    ensures ReadU32(LeU32(v) + rest) == Ok((v, rest))
  {
    assert Pow256(4) == 0x1_0000_0000;
    assert (LeU32(v) + rest)[..4] == LeU32(v);
    LeRoundTrip(v, 4);
  }

  lemma U64RoundTrip(v: u64, rest: Bytes)
    ensures ReadU64(LeU64(v) + rest) == Ok((v, rest))
  {
    assert Pow256(8) == 0x1_0000_0000_0000_0000;
    assert (LeU64(v) + rest)[..8] == LeU64(v);
    LeRoundTrip(v, 8);
  }

  // ---------------------------------------------------------------------
  // Header
  // ---------------------------------------------------------------------

  /** `BlockHeader`. */
  datatype Header = Header(version: u32, prevHash: Hash32, merkleRoot: Hash32, timestamp: u32, bits: u32, nonce: u32)

  /** The 80-byte header layout: version, previous hash, Merkle root,
      timestamp, bits and nonce, integers little-endian. */
  function HeaderBytes(h: Header): (r: Bytes)
    ensures |r| == 80
  {
    LeU32(h.version) + h.prevHash + h.merkleRoot + LeU32(h.timestamp) + LeU32(h.bits) + LeU32(h.nonce)
  }

  /** `read_block_header`: it fails exactly when fewer than 80 bytes are
      left, and what it reads is laid out as `HeaderBytes`. */
  function ReadHeader(bs: Bytes): (r: Result<(Header, Bytes), string>)
    ensures r.Err? <==> |bs| < 80
    ensures r.Ok? ==> bs == HeaderBytes(r.value.0) + r.value.1
  {
    var (version, r1) :- ReadU32(bs);
    var (prev, r2) :- ReadHash(r1);
    var (merkle, r3) :- ReadHash(r2);
    var (timestamp, r4) :- ReadU32(r3);
    var (bits, r5) :- ReadU32(r4);
    var (nonce, r6) :- ReadU32(r5);
    var h := Header(version, prev, merkle, timestamp, bits, nonce);
    assert bs == HeaderBytes(h) + r6;
    Ok((h, r6))
  }

  lemma HeaderRoundTrip(h: Header, rest: Bytes)
    ensures ReadHeader(HeaderBytes(h) + rest) == Ok((h, rest))
  {
    var bs := HeaderBytes(h) + rest;
    var r := ReadHeader(bs);
    assert r.Ok?;
    var h2 := r.value.0;
    assert HeaderBytes(h2) + r.value.1 == HeaderBytes(h) + rest;
    HeaderBytesInjective(h, h2, rest, r.value.1);
  }

  /** Two headers laid out in front of two rests are the same header when
      the byte strings agree. */
  lemma HeaderBytesInjective(h1: Header, h2: Header, rest1: Bytes, rest2: Bytes)
    requires HeaderBytes(h1) + rest1 == HeaderBytes(h2) + rest2
    ensures h1 == h2 && rest1 == rest2
  {
    var a := HeaderBytes(h1) + rest1;
    assert a[..80] == HeaderBytes(h1) && a[..80] == HeaderBytes(h2);
    assert rest1 == a[80..] == rest2;
    var b1 := HeaderBytes(h1);
    var b2 := HeaderBytes(h2);
    assert b1[..4] == LeU32(h1.version) && b2[..4] == LeU32(h2.version);
    assert b1[4..36] == h1.prevHash && b2[4..36] == h2.prevHash;
    assert b1[36..68] == h1.merkleRoot && b2[36..68] == h2.merkleRoot;
    assert b1[68..72] == LeU32(h1.timestamp) && b2[68..72] == LeU32(h2.timestamp);
    assert b1[72..76] == LeU32(h1.bits) && b2[72..76] == LeU32(h2.bits);
    assert b1[76..] == LeU32(h1.nonce) && b2[76..] == LeU32(h2.nonce);
    assert Pow256(4) == 0x1_0000_0000;
    LeRoundTrip(h1.version, 4);
    LeRoundTrip(h2.version, 4);
    LeRoundTrip(h1.timestamp, 4);
    LeRoundTrip(h2.timestamp, 4);
    LeRoundTrip(h1.bits, 4);
    LeRoundTrip(h2.bits, 4);
    LeRoundTrip(h1.nonce, 4);
    LeRoundTrip(h2.nonce, 4);
  }

  // ---------------------------------------------------------------------
  // Transactions
  // ---------------------------------------------------------------------

  lemma Assoc3(a: Bytes, b: Bytes, c: Bytes, d: Bytes)
    ensures a + (b + (c + d)) == a + b + c + d
  {
  }

  lemma Assoc4(a: Bytes, b: Bytes, c: Bytes, d: Bytes, e: Bytes)
    ensures a + (b + (c + (d + e))) == a + b + c + d + e
  {
  }

  /** `script_len.value as u32`: the length is truncated to 32 bits before
      the script is read. */
  function ScriptCount(len: VarUint): nat {
    len.value % 0x1_0000_0000
  }

  /** `read_tx_outpoint`. */
  function ReadOutPoint(bs: Bytes): (r: Result<(OutPoint, Bytes), string>)
    ensures r.Err? <==> |bs| < 36
    ensures r.Ok? ==> bs == EncodeOutPoint(r.value.0) + r.value.1
  {
    var (txid, r1) :- ReadHash(bs);
    var (vout, r2) :- ReadU32(r1);
    Ok((OutPoint(txid, vout), r2))
  }

  /** One pass of `read_tx_inputs`: the witness starts empty. */
  function ReadInput(bs: Bytes): (r: Result<(TxInput, Bytes), string>)
    ensures r.Ok? ==> r.value.0.witnessStack == [] && |r.value.0.scriptSig| == ScriptCount(r.value.0.scriptLen)
    ensures r.Ok? ==> bs == InputBytes(r.value.0) + r.value.1
  {
    var (outpoint, r1) :- ReadOutPoint(bs);
    var (len, r2) :- ReadFrom(r1);
    var (script, r3) :- ReadExact(r2, ScriptCount(len));
    var (seqNo, r4) :- ReadU32(r3);
    var i := TxInput(outpoint, len, script, seqNo, []);
    Assoc4(EncodeOutPoint(outpoint), len.buf, script, LeU32(seqNo), r4);
    Ok((i, r4))
  }

  /** `read_tx_inputs`: exactly `n` inputs, in order. */
  function ReadInputs(bs: Bytes, n: nat): (r: Result<(seq<TxInput>, Bytes), string>)
    ensures r.Ok? ==> |r.value.0| == n && bs == InputsBytes(r.value.0) + r.value.1
    ensures r.Ok? ==> NoWitness(r.value.0)
    decreases n
  {
    if n == 0 then Ok(([], bs))
    else
      match ReadInput(bs)
      case Err(e) => Err(e)
      case Ok((i, r1)) =>
        match ReadInputs(r1, n - 1)
        case Err(e) => Err(e)
        case Ok((rest, r2)) =>
          InputsCons(i, rest);
          NoWitnessCons(i, rest);
          Ok(([i] + rest, r2))
  }

  predicate NoWitness(ins: seq<TxInput>) {
    forall k :: 0 <= k < |ins| ==> ins[k].witnessStack == []
  }

  lemma NoWitnessCons(i: TxInput, rest: seq<TxInput>)
    requires i.witnessStack == [] && NoWitness(rest)
    ensures NoWitness([i] + rest)
  {
  }

  lemma InputsCons(i: TxInput, rest: seq<TxInput>)
    ensures InputsBytes([i] + rest) == InputBytes(i) + InputsBytes(rest)
  {
    assert ([i] + rest)[1..] == rest;
  }

  function ReadOutput(bs: Bytes): (r: Result<(TxOutput, Bytes), string>)
    ensures r.Ok? ==> |r.value.0.scriptPubkey| == ScriptCount(r.value.0.scriptLen)
    ensures r.Ok? ==> bs == OutputBytes(r.value.0) + r.value.1
  {
    match ReadU64(bs)
    case Err(e) => Err(e)
    case Ok((value, r1)) =>
      match ReadFrom(r1)
      case Err(e) => Err(e)
      case Ok((len, r2)) =>
        match ReadExact(r2, ScriptCount(len))
        case Err(e) => Err(e)
        case Ok((script, r3)) =>
          Assoc3(LeU64(value), len.buf, script, r3);
          Ok((TxOutput(value, len, script), r3))
  }

  /** `read_tx_outputs`. */
  function ReadOutputs(bs: Bytes, n: nat): (r: Result<(seq<TxOutput>, Bytes), string>)
    ensures r.Ok? ==> |r.value.0| == n && bs == OutputsBytes(r.value.0) + r.value.1
    decreases n
  {
    if n == 0 then Ok(([], bs))
    else
      match ReadOutput(bs)
      case Err(e) => Err(e)
      case Ok((o, r1)) =>
        match ReadOutputs(r1, n - 1)
        case Err(e) => Err(e)
        case Ok((rest, r2)) =>
          assert ([o] + rest)[1..] == rest;
          Ok(([o] + rest, r2))
  }

  /** The witness loop: every input in turn gets the next decoded
      witness, and nothing else about the inputs changes. */
  function ReadWitnesses(ins: seq<TxInput>, bs: Bytes, decode: WitnessDecoder): (r: Result<(seq<TxInput>, Bytes), string>)
    ensures r.Ok? ==> |r.value.0| == |ins|
    ensures r.Ok? ==> forall k :: 0 <= k < |ins| ==> r.value.0[k] == ins[k].(witnessStack := r.value.0[k].witnessStack)
    decreases |ins|
  {
    if |ins| == 0 then Ok(([], bs))
    else
      match decode(bs)
      case Err(e) => Err(e)
      case Ok((w, r1)) =>
        match ReadWitnesses(ins[1..], r1, decode)
        case Err(e) => Err(e)
        case Ok((rest, r2)) => Ok(([ins[0].(witnessStack := w)] + rest, r2))
  }

  /** The start of `read_tx`: the version, then an input count; a count of
      zero is the segwit marker, so a flag byte and the real count follow.
      Without the marker the flag is 0. */
  function ReadTxHead(bs: Bytes): (r: Result<(u32, u8, VarUint, Bytes), string>)
    ensures r.Ok? ==> |bs| >= 4 && ReadFrom(bs[4..]).Ok?
    ensures r.Ok? && ReadFrom(bs[4..]).value.0.value != 0 ==>
      r.value.1 == 0 && r.value.2 == ReadFrom(bs[4..]).value.0 && r.value.3 == ReadFrom(bs[4..]).value.1
  {
    var (version, r1) :- ReadU32(bs);
    var (count0, r2) :- ReadFrom(r1);
    assert r1 == bs[4..];
    if count0.value == 0 then
      match ReadU8(r2)
      case Err(e) => Err(e)
      case Ok((f, r2b)) =>
        match ReadFrom(r2b)
        case Err(e) => Err(e)
        case Ok((c, r2c)) => Ok((version, f, c, r2c))
    else Ok((version, 0, count0, r2))
  }

  /** The rest of `read_tx`: the inputs, the outputs, the witnesses for
      every input exactly when bit 0 of the flag is set, and the lock
      time. */
  function ReadTxBody(bs: Bytes, version: u32, inCount: VarUint, flags: u8, decode: WitnessDecoder): (r: Result<(RawTx, Bytes), string>)
    ensures r.Ok? ==> r.value.0.version == version && r.value.0.inCount == inCount
    ensures r.Ok? ==> |r.value.0.inputs| == r.value.0.inCount.value && |r.value.0.outputs| == r.value.0.outCount.value
    ensures r.Ok? && flags % 2 == 0 ==> NoWitness(r.value.0.inputs)
  {
    var (inputs, r4) :- ReadInputs(bs, inCount.value);
    var (outCount, r5) :- ReadFrom(r4);
    var (outputs, r6) :- ReadOutputs(r5, outCount.value);
    var (witnessed, r7) :- if flags % 2 == 1 then ReadWitnesses(inputs, r6, decode) else Ok((inputs, r6));
    var (locktime, r8) :- ReadU32(r7);
    Ok((RawTx(version, inCount, witnessed, outCount, outputs, locktime), r8))
  }

  /** `read_tx` with the flag byte it saw. */
  function ReadTxFlags(bs: Bytes, decode: WitnessDecoder): (r: Result<(RawTx, u8, Bytes), string>)
    ensures r.Ok? ==> |r.value.0.inputs| == r.value.0.inCount.value && |r.value.0.outputs| == r.value.0.outCount.value
    ensures r.Ok? && r.value.1 % 2 == 0 ==> NoWitness(r.value.0.inputs)
    ensures r.Ok? ==> |bs| >= 4 && ReadFrom(bs[4..]).Ok?
    ensures r.Ok? && ReadFrom(bs[4..]).value.0.value != 0 ==> r.value.1 == 0 && r.value.0.inCount == ReadFrom(bs[4..]).value.0
  {
    match ReadTxHead(bs)
    case Err(e) => Err(e)
    case Ok((version, flags, inCount, r3)) =>
      match ReadTxBody(r3, version, inCount, flags, decode)
      case Err(e) => Err(e)
      case Ok((tx, rest)) => Ok((tx, flags, rest))
  }

  /** `read_tx`. */
  function ReadTx(bs: Bytes, decode: WitnessDecoder): (r: Result<(RawTx, Bytes), string>)
    ensures r.Ok? ==> |r.value.0.inputs| == r.value.0.inCount.value && |r.value.0.outputs| == r.value.0.outCount.value
  {
    match ReadTxFlags(bs, decode)
    case Err(e) => Err(e)
    case Ok((tx, _, rest)) => Ok((tx, rest))
  }

  /** A CompactSize whose bytes read back as itself. */
  predicate Parsed(v: VarUint) {
    ReadFrom(v.buf) == Ok((v, []))
  }

  lemma ParsedReads(v: VarUint, rest: Bytes)
    requires Parsed(v)
    ensures ReadFrom(v.buf + rest) == Ok((v, rest))
  {
    PrefixDecides(v.buf, rest);
    assert v.buf + [] == v.buf;
  }

  predicate PlainInput(i: TxInput) {
    Parsed(i.scriptLen) && i.scriptLen.value == |i.scriptSig| < 0x1_0000_0000 && i.witnessStack == []
  }

  predicate PlainOutput(o: TxOutput) {
    Parsed(o.scriptLen) && o.scriptLen.value == |o.scriptPubkey| < 0x1_0000_0000
  }

  /** A transaction in the legacy layout that `read_tx` can take back: its
      counts are the lengths, it has an input (a zero count would be read
      as the segwit marker), and no witness. */
  predicate Plain(tx: RawTx) {
    Parsed(tx.inCount) && Parsed(tx.outCount) &&
    tx.inCount.value == |tx.inputs| && tx.inCount.value != 0 && tx.outCount.value == |tx.outputs| &&
    (forall k :: 0 <= k < |tx.inputs| ==> PlainInput(tx.inputs[k])) &&
    (forall k :: 0 <= k < |tx.outputs| ==> PlainOutput(tx.outputs[k]))
  }

  lemma InputRoundTrip(i: TxInput, rest: Bytes)
    requires PlainInput(i)
    ensures ReadInput(InputBytes(i) + rest) == Ok((i, rest))
  {
    var t3 := LeU32(i.seqNo) + rest;
    var t2 := i.scriptSig + t3;
    var t1 := i.scriptLen.buf + t2;
    var bs := InputBytes(i) + rest;
    assert bs == EncodeOutPoint(i.outpoint) + t1 by {
      Assoc4(EncodeOutPoint(i.outpoint), i.scriptLen.buf, i.scriptSig, LeU32(i.seqNo), rest);
    }
    OutPointReadRoundTrip(i.outpoint, t1);
    ParsedReads(i.scriptLen, t2);
    assert ReadExact(t2, ScriptCount(i.scriptLen)) == Ok((i.scriptSig, t3)) by {
      assert t2[..|i.scriptSig|] == i.scriptSig && t2[|i.scriptSig|..] == t3;
    }
    U32RoundTrip(i.seqNo, rest);
    ReadInputSteps(bs, i.outpoint, t1, i.scriptLen, t2, i.scriptSig, t3, i.seqNo, rest);
    assert i == TxInput(i.outpoint, i.scriptLen, i.scriptSig, i.seqNo, []);
  }

  /** `read_tx_input` as its four reads in a row. */
  lemma ReadInputSteps(bs: Bytes, op: OutPoint, t1: Bytes, len: VarUint, t2: Bytes, script: Bytes, t3: Bytes,
                       seqNo: u32, t4: Bytes)
    requires ReadOutPoint(bs) == Ok((op, t1)) && ReadFrom(t1) == Ok((len, t2))
    requires ReadExact(t2, ScriptCount(len)) == Ok((script, t3)) && ReadU32(t3) == Ok((seqNo, t4))
    ensures ReadInput(bs) == Ok((TxInput(op, len, script, seqNo, []), t4))
  {
  }

  lemma OutPointReadRoundTrip(op: OutPoint, rest: Bytes)
    ensures ReadOutPoint(EncodeOutPoint(op) + rest) == Ok((op, rest))
  {
    var bs := EncodeOutPoint(op) + rest;
    assert bs == op.txid + (LeU32(op.vout) + rest);
    assert ReadHash(bs) == Ok((op.txid, LeU32(op.vout) + rest)) by {
      assert bs[..32] == op.txid && bs[32..] == LeU32(op.vout) + rest;
    }
    U32RoundTrip(op.vout, rest);
  }

  lemma {:induction false} InputsRoundTrip(ins: seq<TxInput>, rest: Bytes)
    requires forall k :: 0 <= k < |ins| ==> PlainInput(ins[k])
    ensures ReadInputs(InputsBytes(ins) + rest, |ins|) == Ok((ins, rest))
  {
    if |ins| > 0 {
      var tail := InputsBytes(ins[1..]) + rest;
      assert InputsBytes(ins) + rest == InputBytes(ins[0]) + tail;
      InputRoundTrip(ins[0], tail);
      InputsRoundTrip(ins[1..], rest);
      ReadInputsStep(InputsBytes(ins) + rest, |ins|, ins[0], tail, ins[1..], rest);
      assert [ins[0]] + ins[1..] == ins;
    } else {
      assert InputsBytes(ins) + rest == rest;
    }
  }

  /** One input read, then the remaining ones. */
  lemma ReadInputsStep(bs: Bytes, n: nat, i: TxInput, r1: Bytes, more: seq<TxInput>, r2: Bytes)
    requires n > 0 && ReadInput(bs) == Ok((i, r1)) && ReadInputs(r1, n - 1) == Ok((more, r2))
    ensures ReadInputs(bs, n) == Ok(([i] + more, r2))
  {
  }

  lemma OutputRoundTrip(o: TxOutput, rest: Bytes)
    requires PlainOutput(o)
    ensures ReadOutput(OutputBytes(o) + rest) == Ok((o, rest))
  {
    var t2 := o.scriptPubkey + rest;
    var t1 := o.scriptLen.buf + t2;
    Assoc3(LeU64(o.value), o.scriptLen.buf, o.scriptPubkey, rest);
    assert OutputBytes(o) + rest == LeU64(o.value) + t1;
    U64RoundTrip(o.value, t1);
    ParsedReads(o.scriptLen, t2);
    assert ReadExact(t2, ScriptCount(o.scriptLen)) == Ok((o.scriptPubkey, rest)) by {
      assert t2[..|o.scriptPubkey|] == o.scriptPubkey && t2[|o.scriptPubkey|..] == rest;
    }
    ReadOutputSteps(LeU64(o.value) + t1, o.value, t1, o.scriptLen, t2, o.scriptPubkey, rest);
  }

  /** `read_tx_output` as its three reads in a row. */
  lemma ReadOutputSteps(bs: Bytes, value: u64, t1: Bytes, len: VarUint, t2: Bytes, script: Bytes, t3: Bytes)
    requires ReadU64(bs) == Ok((value, t1)) && ReadFrom(t1) == Ok((len, t2))
    requires ReadExact(t2, ScriptCount(len)) == Ok((script, t3))
    ensures ReadOutput(bs) == Ok((TxOutput(value, len, script), t3))
  {
  }

  /** One output read, then the remaining ones. */
  lemma ReadOutputsStep(bs: Bytes, n: nat, o: TxOutput, r1: Bytes, more: seq<TxOutput>, r2: Bytes)
    requires n > 0 && ReadOutput(bs) == Ok((o, r1)) && ReadOutputs(r1, n - 1) == Ok((more, r2))
    ensures ReadOutputs(bs, n) == Ok(([o] + more, r2))
  {
  }

  lemma {:induction false} OutputsRoundTrip(os: seq<TxOutput>, rest: Bytes)
    requires forall k :: 0 <= k < |os| ==> PlainOutput(os[k])
    ensures ReadOutputs(OutputsBytes(os) + rest, |os|) == Ok((os, rest))
  {
    if |os| > 0 {
      var tail := OutputsBytes(os[1..]) + rest;
      assert OutputsBytes(os) + rest == OutputBytes(os[0]) + tail;
      OutputRoundTrip(os[0], tail);
      OutputsRoundTrip(os[1..], rest);
      ReadOutputsStep(OutputsBytes(os) + rest, |os|, os[0], tail, os[1..], rest);
      assert [os[0]] + os[1..] == os;
    } else {
      assert OutputsBytes(os) + rest == rest;
    }
  }

  lemma HeadRoundTrip(version: u32, inCount: VarUint, rest: Bytes)
    requires Parsed(inCount) && inCount.value != 0
    ensures ReadTxHead(LeU32(version) + inCount.buf + rest) == Ok((version, 0, inCount, rest))
  {
    var t0 := inCount.buf + rest;
    assert LeU32(version) + inCount.buf + rest == LeU32(version) + t0;
    U32RoundTrip(version, t0);
    ParsedReads(inCount, rest);
  }

  lemma BodyRoundTrip(tx: RawTx, rest: Bytes, decode: WitnessDecoder)
    requires Plain(tx)
    ensures ReadTxBody(InputsBytes(tx.inputs) + tx.outCount.buf + OutputsBytes(tx.outputs) + LeU32(tx.locktime) + rest,
                       tx.version, tx.inCount, 0, decode) == Ok((tx, rest))
  {
    var t3 := OutputsBytes(tx.outputs) + (LeU32(tx.locktime) + rest);
    var t2 := tx.outCount.buf + t3;
    Assoc4(InputsBytes(tx.inputs), tx.outCount.buf, OutputsBytes(tx.outputs), LeU32(tx.locktime), rest);
    InputsRoundTrip(tx.inputs, t2);
    ParsedReads(tx.outCount, t3);
    OutputsRoundTrip(tx.outputs, LeU32(tx.locktime) + rest);
    U32RoundTrip(tx.locktime, rest);
  }

  /** A legacy-layout transaction serialized by `to_bytes` is read back
      as itself, whatever follows it. */
  lemma TxRoundTrip(tx: RawTx, rest: Bytes, decode: WitnessDecoder)
    requires Plain(tx)
    ensures ReadTx(TxBytes(tx) + rest, decode) == Ok((tx, rest))
  {
    var body := InputsBytes(tx.inputs) + tx.outCount.buf + OutputsBytes(tx.outputs) + LeU32(tx.locktime) + rest;
    assert TxBytes(tx) + rest == LeU32(tx.version) + tx.inCount.buf + body;
    HeadRoundTrip(tx.version, tx.inCount, body);
    BodyRoundTrip(tx, rest, decode);
  }

  /** After the version, a zero byte is the marker: the next byte is the
      flag `read_tx` acts on. */
  lemma MarkerThenFlag(version: u32, flag: u8, rest: Bytes, decode: WitnessDecoder)
    requires ReadTxFlags(LeU32(version) + [0, flag] + rest, decode).Ok?
    ensures ReadTxFlags(LeU32(version) + [0, flag] + rest, decode).value.1 == flag
  {
    var bs := LeU32(version) + [0, flag] + rest;
    HeadFlag(version, flag, rest);
    var head := ReadTxHead(bs);
    assert head.Ok?;
    assert ReadTxFlags(bs, decode).value.1 == head.value.1;
  }

  lemma HeadFlag(version: u32, flag: u8, rest: Bytes)
    ensures ReadTxHead(LeU32(version) + [0, flag] + rest).Ok? ==>
      ReadTxHead(LeU32(version) + [0, flag] + rest).value.1 == flag
  {
    var bs := LeU32(version) + [0, flag] + rest;
    U32RoundTrip(version, [0, flag] + rest);
    assert bs == LeU32(version) + ([0, flag] + rest);
    assert ReadFrom([0, flag] + rest).value.0.value == 0;
    assert ([0, flag] + rest)[1..] == [flag] + rest;
  }

  // ---------------------------------------------------------------------
  // Merkle branches, AuxPoW and blocks
  // ---------------------------------------------------------------------

  /** `MerkleBranch`: the hashes and the side mask. */
  datatype MerkleBranch = MerkleBranch(hashes: seq<Hash32>, sideMask: u32)

  function HashesBytes(hs: seq<Hash32>): (r: Bytes)
    ensures |r| == 32 * |hs|
  {
    if |hs| == 0 then [] else hs[0] + HashesBytes(hs[1..])
  }

  function ReadHashes(bs: Bytes, n: nat): (r: Result<(seq<Hash32>, Bytes), string>)
    ensures r.Err? <==> |bs| < 32 * n
    ensures r.Ok? ==> |r.value.0| == n && bs == HashesBytes(r.value.0) + r.value.1
    decreases n
  {
    if n == 0 then Ok(([], bs))
    else
      match ReadHash(bs)
      case Err(e) => Err(e)
      case Ok((h, r1)) =>
        match ReadHashes(r1, n - 1)
        case Err(e) => Err(e)
        case Ok((rest, r2)) =>
          assert ([h] + rest)[1..] == rest;
          Ok(([h] + rest, r2))
  }

  /** `read_merkle_branch`: a count, that many 32-byte hashes and a u32
      side mask. */
  function ReadMerkleBranch(bs: Bytes): (r: Result<(MerkleBranch, Bytes), string>)
    ensures r.Ok? ==> ReadFrom(bs).Ok? && |r.value.0.hashes| == ReadFrom(bs).value.0.value
    ensures r.Ok? ==> bs == ReadFrom(bs).value.0.buf + HashesBytes(r.value.0.hashes) + LeU32(r.value.0.sideMask) + r.value.1
  {
    match ReadFrom(bs)
    case Err(e) => Err(e)
    case Ok((count, r1)) =>
      match ReadHashes(r1, count.value)
      case Err(e) => Err(e)
      case Ok((hashes, r2)) =>
        match ReadU32(r2)
        case Err(e) => Err(e)
        case Ok((mask, r3)) =>
          Assoc3(count.buf, HashesBytes(hashes), LeU32(mask), r3);
          Ok((MerkleBranch(hashes, mask), r3))
  }

  lemma {:induction false} HashesRoundTrip(hs: seq<Hash32>, rest: Bytes)
    ensures ReadHashes(HashesBytes(hs) + rest, |hs|) == Ok((hs, rest))
  {
    if |hs| > 0 {
      var tail := HashesBytes(hs[1..]) + rest;
      var bs: Bytes := hs[0] + tail;
      assert HashesBytes(hs) + rest == bs;
      assert ReadHash(bs) == Ok((hs[0], tail)) by {
        assert bs[..32] == hs[0] && bs[32..] == tail;
      }
      HashesRoundTrip(hs[1..], rest);
      var got := [hs[0]] + hs[1..];
      assert got == hs;
      assert ReadHashes(HashesBytes(hs) + rest, |hs|) == Ok((got, rest));
    } else {
      assert HashesBytes(hs) + rest == rest;
    }
  }

  lemma MerkleBranchRoundTrip(count: VarUint, mb: MerkleBranch, rest: Bytes)
    requires Parsed(count) && count.value == |mb.hashes|
    ensures ReadMerkleBranch(count.buf + HashesBytes(mb.hashes) + LeU32(mb.sideMask) + rest) == Ok((mb, rest))
  {
    var t1 := HashesBytes(mb.hashes) + (LeU32(mb.sideMask) + rest);
    assert count.buf + HashesBytes(mb.hashes) + LeU32(mb.sideMask) + rest == count.buf + t1;
    ParsedReads(count, t1);
    HashesRoundTrip(mb.hashes, LeU32(mb.sideMask) + rest);
    U32RoundTrip(mb.sideMask, rest);
  }

  /** `AuxPowExtension`. */
  datatype AuxPow = AuxPow(coinbaseTx: RawTx, blockHash: Hash32, coinbaseBranch: MerkleBranch,
                           blockchainBranch: MerkleBranch, parentBlock: Header)

  /** `read_aux_pow_extension`. */
  function ReadAuxPow(bs: Bytes, decode: WitnessDecoder): Result<(AuxPow, Bytes), string> {
    var (coinbase, r1) :- ReadTx(bs, decode);
    var (hash, r2) :- ReadHash(r1);
    var (cb, r3) :- ReadMerkleBranch(r2);
    var (bb, r4) :- ReadMerkleBranch(r3);
    var (parent, r5) :- ReadHeader(r4);
    Ok((AuxPow(coinbase, hash, cb, bb, parent), r5))
  }

  /** `read_txs`. */
  function ReadTxs(bs: Bytes, n: nat, decode: WitnessDecoder): (r: Result<(seq<RawTx>, Bytes), string>)
    ensures r.Ok? ==> |r.value.0| == n
    decreases n
  {
    if n == 0 then Ok(([], bs))
    else
      match ReadTx(bs, decode)
      case Err(e) => Err(e)
      case Ok((tx, r1)) =>
        match ReadTxs(r1, n - 1, decode)
        case Err(e) => Err(e)
        case Ok((rest, r2)) => TxsCons(tx, rest); Ok(([tx] + rest, r2))
  }

  lemma TxsCons(tx: RawTx, rest: seq<RawTx>)
    ensures |[tx] + rest| == |rest| + 1
  {
  }

  /** A block as read, before its transactions are hashed. */
  datatype Block = Block(size: u32, header: Header, auxPow: Option<AuxPow>, txCount: VarUint, txs: seq<RawTx>)

  /** Bit 8 of the version: the block carries merged-mining data. */
  predicate AuxPowBit(version: u32) {
    (version / 256) % 2 == 1
  }

  /** `read_block`: the header, the AuxPoW data when the coin uses merged
      mining and the header's version has bit 8 set, then the counted
      transactions. Whether the coin uses merged mining is a parameter. */
  function ReadBlock(bs: Bytes, size: u32, usesAuxPow: bool, decode: WitnessDecoder): (r: Result<Block, string>)
    ensures r.Ok? ==> ReadHeader(bs).Ok? && r.value.header == ReadHeader(bs).value.0
    ensures r.Ok? ==> (r.value.auxPow.Some? <==> usesAuxPow && AuxPowBit(r.value.header.version))
    ensures r.Ok? ==> |r.value.txs| == r.value.txCount.value
  {
    var (header, r1) :- ReadHeader(bs);
    var (aux, r2) :-
      if usesAuxPow && AuxPowBit(header.version) then
        match ReadAuxPow(r1, decode)
        case Err(e) => Err(e)
        case Ok((a, r)) => Ok((Some(a), r))
      else Ok((None, r1));
    var (txCount, r3) :- ReadFrom(r2);
    var (txs, _) :- ReadTxs(r3, txCount.value, decode);
    Ok(Block(size, header, aux, txCount, txs))
  }
}

=== FILE: bytes.dfy ===
/** Byte-level vocabulary shared by every encoding of the indexer:
    fixed-width unsigned integers, big- and little-endian layouts and the
    byte-wise lexicographic order in which RocksDB keeps its keys. */
module Bytes {

  type u8 = x: int | 0 <= x < 0x100
  type u16 = x: int | 0 <= x < 0x1_0000
  type u32 = x: int | 0 <= x < 0x1_0000_0000
  type u64 = x: int | 0 <= x < 0x1_0000_0000_0000_0000
  type Bytes = seq<u8>

  const U16_MAX: u16 := 0xFFFF
  const U32_MAX: u32 := 0xFFFF_FFFF
  const U64_MAX: u64 := 0xFFFF_FFFF_FFFF_FFFF

  /** A 32-byte digest (`sha256::Hash`, `Txid`, `FullHash`, `BlockHash`). */
  type Hash32 = s: Bytes | |s| == 32 witness seq(32, _ => 0)

  function Pow256(n: nat): (r: nat)
    ensures r >= 1
  {
    if n == 0 then 1 else 256 * Pow256(n - 1)
  }

  function Zeros(n: nat): (r: Bytes)
    ensures |r| == n && forall i :: 0 <= i < n ==> r[i] == 0
  {
    seq(n, _ => 0)
  }

  function Ones(n: nat): (r: Bytes)
    ensures |r| == n && forall i :: 0 <= i < n ==> r[i] == 0xFF
  {
    seq(n, _ => 0xFF)
  }

  const ZeroHash: Hash32 := Zeros(32)

  // ---------------------------------------------------------------------
  // Big-endian (`to_be_bytes` / `from_be_bytes`), built from the last byte.
  // ---------------------------------------------------------------------

  function BeValue(bs: Bytes): nat {
    if |bs| == 0 then 0 else 256 * BeValue(bs[..|bs| - 1]) + bs[|bs| - 1]
  }

  function BeBytes(x: nat, n: nat): (r: Bytes)
    requires x < Pow256(n)
    ensures |r| == n
  {
    if n == 0 then [] else BeBytes(x / 256, n - 1) + [x % 256]
  }

  lemma {:induction false} BeValueBound(bs: Bytes)
    ensures BeValue(bs) < Pow256(|bs|)
  {
    if |bs| > 0 {
      BeValueBound(bs[..|bs| - 1]);
    }
  }

  /** Decoding a big-endian layout gives back the number. */
  lemma {:induction false} BeRoundTrip(x: nat, n: nat)
    requires x < Pow256(n)
    ensures BeValue(BeBytes(x, n)) == x
  {
    if n > 0 {
      var r := BeBytes(x, n);
      assert r[..n - 1] == BeBytes(x / 256, n - 1);
      BeRoundTrip(x / 256, n - 1);
    }
  }

  /** Encoding the value of a byte string gives back the same bytes. */
  lemma {:induction false} BeBytesOfValue(bs: Bytes)
    ensures BeValue(bs) < Pow256(|bs|)
    ensures BeBytes(BeValue(bs), |bs|) == bs
  {
    BeValueBound(bs);
    if |bs| > 0 {
      var init := bs[..|bs| - 1];
      BeBytesOfValue(init);
      assert bs == init + [bs[|bs| - 1]];
    }
  }

  lemma BeBytesInjective(x: nat, y: nat, n: nat)
    requires x < Pow256(n) && y < Pow256(n)
    requires BeBytes(x, n) == BeBytes(y, n)
    ensures x == y
  {
    BeRoundTrip(x, n);
    BeRoundTrip(y, n);
  }

  // ---------------------------------------------------------------------
  // Little-endian (`to_le_bytes` / consensus encoding), built from the
  // first byte.
  // ---------------------------------------------------------------------

  function LeValue(bs: Bytes): nat {
    if |bs| == 0 then 0 else bs[0] + 256 * LeValue(bs[1..])
  }

  function LeBytes(x: nat, n: nat): (r: Bytes)
    requires x < Pow256(n)
    ensures |r| == n
  {
    if n == 0 then [] else [x % 256] + LeBytes(x / 256, n - 1)
  }

  lemma {:induction false} LeValueBound(bs: Bytes)
    ensures LeValue(bs) < Pow256(|bs|)
  {
    if |bs| > 0 {
      LeValueBound(bs[1..]);
    }
  }

  lemma {:induction false} LeRoundTrip(x: nat, n: nat)
    requires x < Pow256(n)
    ensures LeValue(LeBytes(x, n)) == x
  {
    if n > 0 {
      var r := LeBytes(x, n);
      assert r[1..] == LeBytes(x / 256, n - 1);
      LeRoundTrip(x / 256, n - 1);
    }
  }

  lemma {:induction false} LeBytesOfValue(bs: Bytes)
    ensures LeValue(bs) < Pow256(|bs|)
    ensures LeBytes(LeValue(bs), |bs|) == bs
  {
    LeValueBound(bs);
    if |bs| > 0 {
      LeBytesOfValue(bs[1..]);
      assert bs == [bs[0]] + bs[1..];
    }
  }

  function LeU32(x: u32): (r: Bytes)
    ensures |r| == 4
  {
    LeBytes(x, 4)
  }

  function LeU64(x: u64): (r: Bytes)
    ensures |r| == 8
  {
    LeBytes(x, 8)
  }

  function BeU32(x: u32): (r: Bytes)
    ensures |r| == 4
  {
    BeBytes(x, 4)
  }

  function BeU64(x: u64): (r: Bytes)
    ensures |r| == 8
  {
    BeBytes(x, 8)
  }

  // ---------------------------------------------------------------------
  // Byte-wise lexicographic order (`<[u8] as Ord>`, RocksDB's comparator).
  // ---------------------------------------------------------------------

  /** `a` sorts strictly before `b`: at the first differing position `a` has
      the smaller byte, or `a` is a proper prefix of `b`. */
  predicate LexLess(a: Bytes, b: Bytes) {
    if |a| == 0 then |b| > 0
    else if |b| == 0 then false
    else if a[0] != b[0] then a[0] < b[0]
    else LexLess(a[1..], b[1..])
  }

  predicate LexLe(a: Bytes, b: Bytes) {
    a == b || LexLess(a, b)
  }

  lemma {:induction false} LexIrreflexive(a: Bytes)
    ensures !LexLess(a, a)
  {
    if |a| > 0 {
      LexIrreflexive(a[1..]);
    }
  }

  lemma {:induction false} LexAsymmetric(a: Bytes, b: Bytes)
    ensures !(LexLess(a, b) && LexLess(b, a))
  {
    if |a| > 0 && |b| > 0 && a[0] == b[0] {
      LexAsymmetric(a[1..], b[1..]);
    }
  }

  lemma {:induction false} LexTransitive(a: Bytes, b: Bytes, c: Bytes)
    requires LexLess(a, b) && LexLess(b, c)
    ensures LexLess(a, c)
  {
    if |a| > 0 && a[0] == b[0] && b[0] == c[0] {
      LexTransitive(a[1..], b[1..], c[1..]);
    }
  }

  lemma {:induction false} LexConnected(a: Bytes, b: Bytes)
    requires a != b
    ensures LexLess(a, b) || LexLess(b, a)
  {
    if |a| > 0 && |b| > 0 && a[0] == b[0] {
      assert a == [a[0]] + a[1..];
      assert b == [b[0]] + b[1..];
      LexConnected(a[1..], b[1..]);
    }
  }

  lemma LexLeTransitive(a: Bytes, b: Bytes, c: Bytes)
    requires LexLe(a, b) && LexLe(b, c)
    ensures LexLe(a, c)
  {
    if a != b && b != c {
      LexTransitive(a, b, c);
    }
  }

  /** Comparing two keys that start with prefixes of the same length: a
      difference in the prefixes decides the order. */
  lemma {:induction false} LexPrefixDecides(p: Bytes, q: Bytes, x: Bytes, y: Bytes)
    requires |p| == |q|
    ensures p != q ==> (LexLess(p + x, q + y) <==> LexLess(p, q))
    ensures p == q ==> (LexLess(p + x, q + y) <==> LexLess(x, y))
  {
    if |p| > 0 {
      assert (p + x)[1..] == p[1..] + x;
      assert (q + y)[1..] == q[1..] + y;
      LexPrefixDecides(p[1..], q[1..], x, y);
      if p[0] == q[0] && p[1..] == q[1..] {
        assert p == q by {
          assert p == [p[0]] + p[1..];
          assert q == [q[0]] + q[1..];
        }
      }
    } else {
      assert p + x == x;
      assert q + y == y;
    }
  }

  /** The same with the differing part at the end. */
  lemma {:induction false} LexSnoc(a: Bytes, b: Bytes, x: u8, y: u8)
    requires |a| == |b|
    ensures LexLess(a + [x], b + [y]) <==> LexLess(a, b) || (a == b && x < y)
  {
    LexPrefixDecides(a, b, [x], [y]);
    if a == b {
      LexIrreflexive(a);
      assert [x][1..] == [];
      assert [y][1..] == [];
      assert LexLess([x], [y]) <==> x < y;
    }
  }

  /** On fixed-width big-endian layouts the byte order is the numeric order:
      this is why every integer key is stored big-endian. */
  lemma {:induction false} BeOrder(x: nat, y: nat, n: nat)
    requires x < Pow256(n) && y < Pow256(n)
    ensures LexLess(BeBytes(x, n), BeBytes(y, n)) <==> x < y
  {
    if n == 0 {
    } else {
      BeOrder(x / 256, y / 256, n - 1);
      LexSnoc(BeBytes(x / 256, n - 1), BeBytes(y / 256, n - 1), x % 256, y % 256);
      if BeBytes(x / 256, n - 1) == BeBytes(y / 256, n - 1) {
        BeBytesInjective(x / 256, y / 256, n - 1);
      }
    }
  }

  /** A run of zero bytes is the smallest string of its length and a run of
      0xFF bytes the largest. */
  lemma {:induction false} ZerosLeast(t: Bytes)
    ensures LexLe(Zeros(|t|), t)
  {
    if |t| > 0 && t[0] == 0 {
      ZerosLeast(t[1..]);
      assert Zeros(|t|)[1..] == Zeros(|t| - 1);
      if Zeros(|t| - 1) == t[1..] {
        assert t == [t[0]] + t[1..];
      }
    }
  }

  lemma {:induction false} OnesGreatest(t: Bytes)
    ensures LexLe(t, Ones(|t|))
  {
    if |t| > 0 && t[0] == 0xFF {
      OnesGreatest(t[1..]);
      assert Ones(|t|)[1..] == Ones(|t| - 1);
      if Ones(|t| - 1) == t[1..] {
        assert t == [t[0]] + t[1..];
      }
    }
  }
}

=== FILE: chain_sync.dfy ===
/** The block stream of the block parser's `Indexer`: blocks are sent
    from the height after the last one indexed, every header must extend
    the hash of the one sent before it, and a reorganisation is undone by
    rolling the checkpoint back over blocks the node no longer counts as
    confirmed, at most a fixed number of them. The node's answers (block
    hashes by height, headers by hash, whether a block is still on the best
    chain) are parameters; the channel is taken to stay open and the
    thread is never cancelled. */
module ChainSync {
  import opened Bytes
  import opened Wrappers
  import opened Checkpoints

  /** `Hashed<BlockHeader>`, reduced to the header's own hash and the
      parent hash it names. */
  datatype Header = Header(hash: Hash32, prevHash: Hash32)

  /** `BlockEvent`: the block's id, its header, the length of the reorg
      undone just before it and the height the stream is heading for. */
  datatype Event = Event(id: BlockId, header: Header, reorgLen: nat, tip: nat)

  /** The panics of the stream thread. */
  datatype SyncError =
    | InvalidOrder(expected: Hash32, got: Hash32)  // "Invalid blocks order. Expected {} got {}"
    | ReorgTooLong                                 // "Reorg chain is too long"
    | NoPrev                                       // `checkpoint.prev().unwrap()` at the base

  // ---------------------------------------------------------------------
  // Ordering
  // ---------------------------------------------------------------------

  /** `check_ordering`: the header must name the last sent hash as its
      parent; its own hash becomes the last sent hash. */
  function CheckOrdering(last: Hash32, h: Header): (r: Result<Hash32, SyncError>)
    ensures r.Ok? <==> h.prevHash == last
    ensures r.Ok? ==> r.value == h.hash
    ensures r.Err? ==> r.error == InvalidOrder(last, h.prevHash)
  {
    if last != h.prevHash then Err(InvalidOrder(last, h.prevHash)) else Ok(h.hash)
  }

  /** `send_checked` with a channel that is `open` or not: the ordering is
      checked first, so a header out of order panics whatever the channel,
      and the last sent hash moves on even when the send then fails. The
      boolean is whether the event was delivered. */
  function SendChecked(last: Hash32, h: Header, open: bool): (r: Result<(Hash32, bool), SyncError>)
    ensures r.Err? <==> h.prevHash != last
    ensures r.Err? ==> r.error == InvalidOrder(last, h.prevHash)
    ensures r.Ok? ==> r.value.0 == h.hash && r.value.1 == open
  {
    var next :- CheckOrdering(last, h);
    Ok((next, open))
  }

  /** Each header names the one before it as its parent, the first one
      `last`. */
  predicate Chained(last: Hash32, hs: seq<Header>)
    decreases |hs|
  {
    |hs| == 0 || (hs[0].prevHash == last && Chained(hs[0].hash, hs[1..]))
  }

  /** The last sent hash after sending `hs`. */
  function LastHash(last: Hash32, hs: seq<Header>): Hash32 {
    if |hs| == 0 then last else hs[|hs| - 1].hash
  }

  /** Sending headers one after the other: all of them pass the check
      exactly when they form a chain from `last`, which then ends at the
      last header's hash. */
  function SendAll(last: Hash32, hs: seq<Header>): (r: Result<Hash32, SyncError>)
    ensures r.Ok? <==> Chained(last, hs)
    ensures r.Ok? ==> r.value == LastHash(last, hs)
    decreases |hs|
  {
    if |hs| == 0 then Ok(last)
    else
      var next :- CheckOrdering(last, hs[0]);
      SendAll(next, hs[1..])
  }

  /** A chain from `last`, pairwise: the first header's parent is `last`
      and every other header's parent is the header before it. */
  lemma {:induction false} ChainedPairwise(last: Hash32, hs: seq<Header>)
    ensures Chained(last, hs) <==>
      (|hs| > 0 ==> hs[0].prevHash == last) && forall i :: 0 < i < |hs| ==> hs[i].prevHash == hs[i - 1].hash
    decreases |hs|
  {
    if |hs| > 0 {
      ChainedPairwise(hs[0].hash, hs[1..]);
      var t := hs[1..];
      assert forall i :: 0 < i < |t| ==> t[i] == hs[i + 1] && t[i - 1] == hs[i];
      if forall i :: 0 < i < |hs| ==> hs[i].prevHash == hs[i - 1].hash {
        forall i | 0 < i < |t|
          ensures t[i].prevHash == t[i - 1].hash
        {
          assert hs[i + 1].prevHash == hs[i].hash;
        }
      }
      if hs[0].prevHash == last && Chained(hs[0].hash, t) {
        forall i | 0 < i < |hs|
          ensures hs[i].prevHash == hs[i - 1].hash
        {
          if i > 1 {
            assert t[i - 1].prevHash == t[i - 2].hash;
          }
        }
      }
    }
  }

  /** The first header that breaks the chain is the one reported: the
      panic names the last hash sent before it and the parent it gives. */
  lemma {:induction false} SendAllFailsAt(last: Hash32, hs: seq<Header>, i: nat)
    requires i < |hs| && Chained(last, hs[..i]) && hs[i].prevHash != LastHash(last, hs[..i])
    ensures SendAll(last, hs) == Err(InvalidOrder(LastHash(last, hs[..i]), hs[i].prevHash))
    decreases i
  {
    if i > 0 {
      assert hs[..i][0] == hs[0] && hs[..i][1..] == hs[1..][..i - 1];
      assert LastHash(hs[0].hash, hs[1..][..i - 1]) == LastHash(last, hs[..i]);
      SendAllFailsAt(hs[0].hash, hs[1..], i - 1);
    }
  }

  // ---------------------------------------------------------------------
  // Replaying the block files
  // ---------------------------------------------------------------------

  /** The first height to send after the last indexed block: the block
      after it, except that a last height of 0 means nothing is indexed yet
      and the genesis block is sent too. */
  function StartHeight(last: BlockId): (r: nat)
    ensures last.height == 0 ==> r == 0
    ensures last.height > 0 ==> r == last.height + 1
  {
    var h := last.height;
    if h == 0 then h else h + 1
  }

  /** How many of the `available` blocks read from the files the loop
      `for height in start..=maxHeight` reaches. */
  function ReplayCount(start: nat, maxHeight: u64, available: nat): (n: nat)
    ensures n <= available && (n > 0 ==> start + n <= maxHeight + 1)
  {
    if start > maxHeight then 0
    else if available < maxHeight + 1 - start then available else maxHeight + 1 - start
  }

  /** The first loop of `parse_blocks`: the blocks of the files from
      `start` up, one event per block at its height, until the blocks run
      out or the height passes `maxHeight`. `blocks` are the headers
      `get_block` returns for `start`, `start + 1`, ... before its first
      `None`. */
  function Replay(start: nat, maxHeight: u64, last: Hash32, blocks: seq<Header>): (r: Result<(seq<Event>, Hash32), SyncError>)
    ensures var n := ReplayCount(start, maxHeight, |blocks|);
      r.Ok? <==> Chained(last, blocks[..n])
    ensures var n := ReplayCount(start, maxHeight, |blocks|);
      r.Ok? ==> |r.value.0| == n && r.value.1 == LastHash(last, blocks[..n])
    ensures r.Ok? ==> forall i :: 0 <= i < |r.value.0| ==>
                        r.value.0[i] == Event(BlockId(start + i, blocks[i].hash), blocks[i], 0, maxHeight)
  {
    var n := ReplayCount(start, maxHeight, |blocks|);
    var sent := blocks[..n];
    var l :- SendAll(last, sent);
    Ok((seq(n, i requires 0 <= i < n => Event(BlockId(start + i, sent[i].hash), sent[i], 0, maxHeight)), l))
  }

  /** Resuming after a block: the first event is the block right above it
      (or the genesis block on a fresh start) and, for the replay to go on,
      that block must name the last indexed block as its parent. */
  lemma ReplayResumes(lastBlock: BlockId, maxHeight: u64, blocks: seq<Header>)
    requires Replay(StartHeight(lastBlock), maxHeight, lastBlock.hash, blocks).Ok?
    requires |Replay(StartHeight(lastBlock), maxHeight, lastBlock.hash, blocks).value.0| > 0
    ensures var e := Replay(StartHeight(lastBlock), maxHeight, lastBlock.hash, blocks).value.0[0];
      e.id.height == (if lastBlock.height == 0 then 0 else lastBlock.height + 1) &&
      e.header.prevHash == lastBlock.hash
  {
    var n := ReplayCount(StartHeight(lastBlock), maxHeight, |blocks|);
    assert blocks[..n][0] == blocks[0];
  }

  // ---------------------------------------------------------------------
  // Undoing a reorganisation
  // ---------------------------------------------------------------------

  /** How many blocks at the top of the checkpoint the node no longer
      counts as confirmed (`get_block_info` fails or reports negative
      confirmations): the run of stale blocks from the tip down. */
  function StaleTop(bs: seq<BlockId>, stale: Hash32 -> bool): (n: nat)
    ensures n <= |bs|
    ensures forall i :: |bs| - n <= i < |bs| ==> stale(bs[i].hash)
    ensures n < |bs| ==> !stale(bs[|bs| - 1 - n].hash)
    decreases |bs|
  {
    if |bs| == 0 || !stale(bs[|bs| - 1].hash) then 0
    else 1 + StaleTop(bs[..|bs| - 1], stale)
  }

  /** The reorg `loop` up to its `break`: past `maxLen` steps it panics;
      otherwise a stale tip is dropped and counted, and the first tip the
      node still confirms ends the walk. Dropping the base is the `unwrap`
      panic of `prev`. */
  function Rollback(cp: CheckPoint, stale: Hash32 -> bool, counter: nat, maxLen: nat): (r: Result<(CheckPoint, nat), SyncError>)
    requires Valid(cp)
    ensures r.Ok? ==> Valid(r.value.0) && !stale(Tip(r.value.0).hash) && r.value.1 <= maxLen
    ensures r.Ok? ==> counter <= r.value.1 < counter + |cp.blocks|
    ensures r.Ok? ==> r.value.0.blocks == cp.blocks[..|cp.blocks| - (r.value.1 - counter)]
    ensures r.Err? ==> r.error == ReorgTooLong || r.error == NoPrev
    decreases |cp.blocks|
  {
    if counter > maxLen then Err(ReorgTooLong)
    else if !stale(Tip(cp).hash) then Ok((cp, counter))
    else
      match Prev(cp)
      case None => Err(NoPrev)
      case Some(p) =>
        var r := Rollback(p, stale, counter + 1, maxLen);
        if r.Ok? then
          assert p.blocks == cp.blocks[..|cp.blocks| - 1];
          r
        else r
  }

  /** The outcome of the reorg walk when a confirmed block lies below the
      `n` stale ones at the top: the walk drops exactly those (so the new
      tip is the confirmed block, by the contract of `Rollback`) when
      `counter + n` stays within `maxLen`, and panics on the length guard
      otherwise. */
  lemma {:induction false} RollbackDropsStale(cp: CheckPoint, stale: Hash32 -> bool, counter: nat, maxLen: nat)
    requires Valid(cp) && StaleTop(cp.blocks, stale) < |cp.blocks|
    ensures var r := Rollback(cp, stale, counter, maxLen);
      counter + StaleTop(cp.blocks, stale) <= maxLen ==> r.Ok? && r.value.1 == counter + StaleTop(cp.blocks, stale)
    ensures counter + StaleTop(cp.blocks, stale) > maxLen ==> Rollback(cp, stale, counter, maxLen) == Err(ReorgTooLong)
    decreases |cp.blocks|
  {
    if counter > maxLen {
    } else if !stale(Tip(cp).hash) {
      assert StaleTop(cp.blocks, stale) == 0;
      assert Rollback(cp, stale, counter, maxLen) == Ok((cp, counter));
    } else {
      var bs := cp.blocks;
      var p := CheckPoint(bs[..|bs| - 1]);
      assert StaleTop(bs, stale) == 1 + StaleTop(p.blocks, stale);
      assert Prev(cp) == Some(p);
      assert Rollback(cp, stale, counter, maxLen) == Rollback(p, stale, counter + 1, maxLen);
      RollbackDropsStale(p, stale, counter + 1, maxLen);
    }
  }

  /** The walk's result spelled out: the checkpoint without its `n` stale
      blocks, and the counter `n` higher. */
  lemma RollbackResult(cp: CheckPoint, stale: Hash32 -> bool, counter: nat, maxLen: nat)
    requires Valid(cp) && StaleTop(cp.blocks, stale) < |cp.blocks|
    requires counter + StaleTop(cp.blocks, stale) <= maxLen
    ensures var r := Rollback(cp, stale, counter, maxLen); var bs := cp.blocks; var n := StaleTop(bs, stale);
      r.Ok? && r.value.0 == CheckPoint(bs[..|bs| - n]) && r.value.1 == counter + n
  {
    RollbackDropsStale(cp, stale, counter, maxLen);
  }

  /** When every block of the checkpoint is stale the walk panics: on the
      length guard if it fires before the base is reached, else on the
      `unwrap` of `prev` at the base. */
  lemma {:induction false} RollbackAllStale(cp: CheckPoint, stale: Hash32 -> bool, counter: nat, maxLen: nat)
    requires Valid(cp) && StaleTop(cp.blocks, stale) == |cp.blocks|
    ensures Rollback(cp, stale, counter, maxLen) ==
      (if counter + |cp.blocks| - 1 > maxLen then Err(ReorgTooLong) else Err(NoPrev))
    decreases |cp.blocks|
  {
    var bs := cp.blocks;
    assert stale(Tip(cp).hash);
    if counter <= maxLen && |bs| > 1 {
      var p := CheckPoint(bs[..|bs| - 1]);
      assert StaleTop(bs, stale) == 1 + StaleTop(p.blocks, stale);
      assert Prev(cp) == Some(p);
      RollbackAllStale(p, stale, counter + 1, maxLen);
    }
  }

  // ---------------------------------------------------------------------
  // Catching up with the node
  // ---------------------------------------------------------------------

  /** Putting a block above the tip appends it. */
  lemma InsertOnTop(cp: CheckPoint, b: BlockId)
    requires Valid(cp) && Tip(cp).height < b.height
    ensures Insert(cp, b) == Ok(CheckPoint(cp.blocks + [b]))
  {
    var bs := cp.blocks;
    var j := Below(bs, b.height);
    assert j == |bs|;
    InsertBetween(cp, b);
    assert bs[..j] + [b] + bs[j..] == bs + [b];
  }

  /** A block above the tip extends a valid checkpoint and becomes its
      tip. */
  lemma AppendAbove(cp: CheckPoint, b: BlockId)
    requires Valid(cp) && Tip(cp).height < b.height
    ensures Valid(CheckPoint(cp.blocks + [b])) && Tip(CheckPoint(cp.blocks + [b])) == b
  {
    var bs := cp.blocks + [b];
    forall i, j | 0 <= i < j < |bs|
      ensures bs[i].height < bs[j].height
    {
      if j == |bs| - 1 && i < |bs| - 2 {
        assert cp.blocks[i].height < cp.blocks[|cp.blocks| - 1].height;
      }
    }
  }

  /** How many heights lie above the tip, up to `best`. */
  function Pending(cp: CheckPoint, best: u64): nat
    requires Valid(cp)
  {
    if Tip(cp).height < best then best - Tip(cp).height else 0
  }

  /** One pass of the inner `while` per height from `from`, `k` of them:
      the block hash at the height (`get_block_hash`, here `hashAt`) and
      its header (`get_block`, here `headerOf`) are sent through the
      ordering check, the first event carrying the reorg length and the
      others 0. */
  function Fetch(from: nat, k: nat, best: u64, hashAt: nat -> Hash32, headerOf: Hash32 -> Header, last: Hash32,
                 counter: nat): (r: Result<(Hash32, seq<Event>), SyncError>)
    requires from + k <= U64_MAX + 1
    ensures r.Ok? ==> |r.value.1| == k
    ensures r.Err? ==> r.error.InvalidOrder?
    decreases k
  {
    if k == 0 then Ok((last, []))
    else
      var b := BlockId(from, hashAt(from));
      var hdr := headerOf(b.hash);
      var l :- CheckOrdering(last, hdr);
      var rest :- Fetch(from + 1, k - 1, best, hashAt, headerOf, l, 0);
      Ok((rest.0, [Event(b, hdr, counter, best)] + rest.1))
  }

  /** The headers fetched from `from` on. */
  function Fetched(from: nat, k: nat, hashAt: nat -> Hash32, headerOf: Hash32 -> Header): (r: seq<Header>)
    ensures |r| == k
  {
    seq(k, i requires 0 <= i < k => headerOf(hashAt(from + i)))
  }

  /** The fetch completes exactly when the fetched headers chain from the
      last sent hash, and the last sent hash then is the last header's
      hash. */
  lemma {:induction false} FetchChained(from: nat, k: nat, best: u64, hashAt: nat -> Hash32, headerOf: Hash32 -> Header,
                                        last: Hash32, counter: nat)
    requires from + k <= U64_MAX + 1
    ensures var r := Fetch(from, k, best, hashAt, headerOf, last, counter);
      var hs := Fetched(from, k, hashAt, headerOf);
      (r.Ok? <==> Chained(last, hs)) && (r.Ok? ==> r.value.0 == LastHash(last, hs))
    decreases k
  {
    if k > 0 {
      var hdr := headerOf(hashAt(from));
      var hs := Fetched(from, k, hashAt, headerOf);
      assert hs[0] == hdr;
      assert hs[1..] == Fetched(from + 1, k - 1, hashAt, headerOf);
      FetchChained(from + 1, k - 1, best, hashAt, headerOf, hdr.hash, 0);
    }
  }

  /** Each event is the block at its height, with the header fetched for
      it, the reorg length on the first event and 0 on the others, heading
      for `best`. */
  lemma {:induction false} FetchEvents(from: nat, k: nat, best: u64, hashAt: nat -> Hash32, headerOf: Hash32 -> Header,
                                       last: Hash32, counter: nat)
    requires from + k <= U64_MAX + 1 && Fetch(from, k, best, hashAt, headerOf, last, counter).Ok?
    ensures var es := Fetch(from, k, best, hashAt, headerOf, last, counter).value.1;
      forall i :: 0 <= i < |es| ==>
        es[i] == Event(BlockId(from + i, hashAt(from + i)), headerOf(hashAt(from + i)), if i == 0 then counter else 0, best)
    decreases k
  {
    if k > 0 {
      var l := headerOf(hashAt(from)).hash;
      FetchEvents(from + 1, k - 1, best, hashAt, headerOf, l, 0);
      var es := Fetch(from, k, best, hashAt, headerOf, last, counter).value.1;
      var rest := Fetch(from + 1, k - 1, best, hashAt, headerOf, l, 0).value.1;
      assert es == [Event(BlockId(from, hashAt(from)), headerOf(hashAt(from)), counter, best)] + rest;
      forall i | 0 < i < |es|
        ensures es[i] == Event(BlockId(from + i, hashAt(from + i)), headerOf(hashAt(from + i)), 0, best)
      {
        assert es[i] == rest[i - 1];
      }
    }
  }

  /** The blocks the events announce. */
  function Ids(es: seq<Event>): (r: seq<BlockId>)
    ensures |r| == |es|
  {
    seq(|es|, i requires 0 <= i < |es| => es[i].id)
  }

  /** Consecutive heights from `from` stacked on a checkpoint whose tip is
      below `from` keep it valid. */
  lemma StackAbove(cp: CheckPoint, ids: seq<BlockId>, from: nat)
    requires Valid(cp) && Tip(cp).height < from
    requires forall i :: 0 <= i < |ids| ==> ids[i].height == from + i
    ensures Valid(CheckPoint(cp.blocks + ids))
  {
    var bs := cp.blocks + ids;
    var n := |cp.blocks|;
    forall i, j | 0 <= i < j < |bs|
      ensures bs[i].height < bs[j].height
    {
      if i < n && j >= n && i < n - 1 {
        assert cp.blocks[i].height < cp.blocks[n - 1].height;
      }
    }
  }

  /** The inner `while` after the walk: every height from the one above
      the tip up to the node's best height is fetched and sent, and each
      block is inserted into the checkpoint. Each insert is above the tip
      (`InsertOnTop`), so the checkpoint ends up with the fetched blocks
      appended in height order. */
  function CatchUp(cp: CheckPoint, best: u64, hashAt: nat -> Hash32, headerOf: Hash32 -> Header, last: Hash32,
                   counter: nat): (r: Result<(CheckPoint, Hash32, seq<Event>), SyncError>)
    requires Valid(cp)
    ensures r.Ok? ==> Valid(r.value.0) && |r.value.2| == Pending(cp, best)
    ensures r.Ok? ==> r.value.0.blocks == cp.blocks + Ids(r.value.2)
    ensures r.Ok? ==> Tip(r.value.0).height == Tip(cp).height + Pending(cp, best)
    ensures r.Err? ==> r.error.InvalidOrder?
  {
    var from := Tip(cp).height + 1;
    var k := Pending(cp, best);
    var f :- Fetch(from, k, best, hashAt, headerOf, last, counter);
    FetchEvents(from, k, best, hashAt, headerOf, last, counter);
    StackAbove(cp, Ids(f.1), from);
    Ok((CheckPoint(cp.blocks + Ids(f.1)), f.0, f.1))
  }

  // ---------------------------------------------------------------------
  // One pass of the live loop
  // ---------------------------------------------------------------------

  /** A pass of the outer `while` as written: when the node's best hash
      is not the tip, the walk drops the stale blocks and the catch-up
      sends the blocks above the kept tip, checked against the last sent
      hash `last`, which the walk leaves as it was. */
  function LivePassAsWritten(cp: CheckPoint, stale: Hash32 -> bool, maxLen: nat, bestHash: Hash32, best: u64,
                          hashAt: nat -> Hash32, headerOf: Hash32 -> Header, last: Hash32)
    : (r: Result<(CheckPoint, Hash32, seq<Event>), SyncError>)
    requires Valid(cp)
    ensures bestHash == Tip(cp).hash ==> r == Ok((cp, last, []))
    ensures r.Ok? ==> Valid(r.value.0)
    ensures r.Ok? && bestHash != Tip(cp).hash ==> Tip(r.value.0).height >= best
  {
    if bestHash == Tip(cp).hash then Ok((cp, last, []))
    else
      var (kept, counter) :- Rollback(cp, stale, 0, maxLen);
      CatchUp(kept, best, hashAt, headerOf, last, counter)
  }

  /** The same pass with the last sent hash reset to the kept tip once the
      walk is over, which is what the ordering check of the catch-up
      needs after blocks were dropped. */
  function LivePass(cp: CheckPoint, stale: Hash32 -> bool, maxLen: nat, bestHash: Hash32, best: u64,
                 hashAt: nat -> Hash32, headerOf: Hash32 -> Header, last: Hash32)
    : (r: Result<(CheckPoint, Hash32, seq<Event>), SyncError>)
    requires Valid(cp)
    ensures bestHash == Tip(cp).hash ==> r == Ok((cp, last, []))
    ensures r.Ok? ==> Valid(r.value.0)
    ensures r.Ok? && bestHash != Tip(cp).hash ==> Tip(r.value.0).height >= best
  {
    if bestHash == Tip(cp).hash then Ok((cp, last, []))
    else
      var (kept, counter) :- Rollback(cp, stale, 0, maxLen);
      CatchUp(kept, best, hashAt, headerOf, Tip(kept).hash, counter)
  }

  /** Without a rollback the two agree: when the tip is still confirmed
      and was the last block sent, resetting the last sent hash changes
      nothing. */
  lemma LivePassAgreesWithoutRollback(cp: CheckPoint, stale: Hash32 -> bool, maxLen: nat, bestHash: Hash32, best: u64,
                                   hashAt: nat -> Hash32, headerOf: Hash32 -> Header)
    requires Valid(cp) && !stale(Tip(cp).hash)
    ensures var last := Tip(cp).hash;
      LivePassAsWritten(cp, stale, maxLen, bestHash, best, hashAt, headerOf, last) ==
      LivePass(cp, stale, maxLen, bestHash, best, hashAt, headerOf, last)
  {
  }

  /** After a rollback that dropped blocks, the pass as written panics on
      the first block it fetches when that block names the kept tip as its
      parent: the last sent hash is still the dropped tip. */
  lemma LivePassAsWrittenPanics(cp: CheckPoint, stale: Hash32 -> bool, maxLen: nat, bestHash: Hash32, best: u64,
                             hashAt: nat -> Hash32, headerOf: Hash32 -> Header, kept: CheckPoint, n: nat)
    requires Valid(cp) && bestHash != Tip(cp).hash
    requires Rollback(cp, stale, 0, maxLen) == Ok((kept, n)) && Valid(kept)
    requires Tip(kept).hash != Tip(cp).hash && Tip(kept).height < best
    requires headerOf(hashAt(Tip(kept).height + 1)).prevHash == Tip(kept).hash
    ensures LivePassAsWritten(cp, stale, maxLen, bestHash, best, hashAt, headerOf, Tip(cp).hash) ==
            Err(InvalidOrder(Tip(cp).hash, Tip(kept).hash))
  {
    CatchUpFirstFails(kept, best, hashAt, headerOf, Tip(cp).hash, n);
  }

  /** The catch-up stops at its first block when that block's parent is
      not the last sent hash. */
  lemma CatchUpFirstFails(cp: CheckPoint, best: u64, hashAt: nat -> Hash32, headerOf: Hash32 -> Header, last: Hash32,
                          counter: nat)
    requires Valid(cp) && Tip(cp).height < best
    requires headerOf(hashAt(Tip(cp).height + 1)).prevHash != last
    ensures CatchUp(cp, best, hashAt, headerOf, last, counter) ==
            Err(InvalidOrder(last, headerOf(hashAt(Tip(cp).height + 1)).prevHash))
  {
    var from := Tip(cp).height + 1;
    assert Fetch(from, Pending(cp, best), best, hashAt, headerOf, last, counter) ==
           Err(InvalidOrder(last, headerOf(hashAt(from)).prevHash));
  }

  /** The corrected pass: once the walk has kept `kept` and counted `n`
      dropped blocks, it succeeds exactly when the fetched headers chain
      from the kept tip; the checkpoint is then the kept blocks with the
      fetched ones on top, and the first event reports the `n` dropped
      blocks (`RollbackResult` says which blocks are kept). */
  lemma LivePassCatchesUp(cp: CheckPoint, stale: Hash32 -> bool, maxLen: nat, bestHash: Hash32, best: u64,
                       hashAt: nat -> Hash32, headerOf: Hash32 -> Header, last: Hash32, kept: CheckPoint, n: nat)
    requires Valid(cp) && bestHash != Tip(cp).hash
    requires Rollback(cp, stale, 0, maxLen) == Ok((kept, n)) && Valid(kept)
    ensures var r := LivePass(cp, stale, maxLen, bestHash, best, hashAt, headerOf, last);
      (r.Ok? <==> Chained(Tip(kept).hash, Fetched(Tip(kept).height + 1, Pending(kept, best), hashAt, headerOf))) &&
      (r.Ok? ==> r.value.0.blocks == kept.blocks + Ids(r.value.2) && |r.value.2| == Pending(kept, best)) &&
      (r.Ok? && |r.value.2| > 0 ==> r.value.2[0].reorgLen == n)
  {
    assert LivePass(cp, stale, maxLen, bestHash, best, hashAt, headerOf, last) ==
           CatchUp(kept, best, hashAt, headerOf, Tip(kept).hash, n);
    CatchUpChained(kept, best, hashAt, headerOf, Tip(kept).hash, n);
  }

  /** The catch-up succeeds exactly when the fetched headers chain from
      the last sent hash, and its first event carries the reorg length. */
  lemma CatchUpChained(cp: CheckPoint, best: u64, hashAt: nat -> Hash32, headerOf: Hash32 -> Header, last: Hash32,
                       counter: nat)
    requires Valid(cp)
    ensures var r := CatchUp(cp, best, hashAt, headerOf, last, counter);
      (r.Ok? <==> Chained(last, Fetched(Tip(cp).height + 1, Pending(cp, best), hashAt, headerOf))) &&
      (r.Ok? && |r.value.2| > 0 ==>
         r.value.2[0].reorgLen == counter && r.value.2[0].id == BlockId(Tip(cp).height + 1, hashAt(Tip(cp).height + 1)))
  {
    var from := Tip(cp).height + 1;
    var k := Pending(cp, best);
    FetchChained(from, k, best, hashAt, headerOf, last, counter);
    if Fetch(from, k, best, hashAt, headerOf, last, counter).Ok? {
      FetchEvents(from, k, best, hashAt, headerOf, last, counter);
    }
  }

  /** The chain of the module's reorg test: blocks at heights 0 to 5 with
      hashes `hs`. */
  function TestChain(hs: seq<Hash32>): (ids: seq<BlockId>)
    requires |hs| == 6
    ensures |ids| == 6 && forall i :: 0 <= i < 6 ==> ids[i] == BlockId(i, hs[i])
  {
    seq(6, i requires 0 <= i < 6 => BlockId(i, hs[i]))
  }

  /** The node still confirms the blocks at heights 0 to 2 only. */
  function TestStale(hs: seq<Hash32>): Hash32 -> bool
    requires |hs| == 6
  {
    (x: Hash32) => x !in hs[..3]
  }

  /** With distinct hashes the test chain is a valid checkpoint whose top
      three blocks are stale. */
  lemma TestStaleTop(hs: seq<Hash32>)
    requires |hs| == 6 && Distinct(hs)
    ensures Valid(CheckPoint(TestChain(hs))) && StaleTop(TestChain(hs), TestStale(hs)) == 3
  {
    var ids := TestChain(hs);
    var stale := TestStale(hs);
    assert stale(hs[5]) && stale(hs[4]) && stale(hs[3]) && !stale(hs[2]);
    assert StaleTop(ids[..3], stale) == 0;
    assert ids[..5][..4] == ids[..4] && ids[..4][..3] == ids[..3];
  }

  /** The situation of the module's reorg test: of the blocks at heights 0
      to 5 the node no longer confirms the top three, and its best block
      is at height 3, built on the block at height 2. The walk drops three
      blocks and keeps heights 0 to 2; the corrected pass then sends the
      new block with a reorg length of 3 and ends at height 3, while the
      pass as written panics on it. */
  lemma ReorgScenario(hs: seq<Hash32>, newHash: Hash32, hashAt: nat -> Hash32, headerOf: Hash32 -> Header, maxLen: nat)
    requires |hs| == 6 && Distinct(hs) && 3 <= maxLen
    requires hashAt(3) == newHash && newHash != hs[5] && headerOf(newHash).prevHash == hs[2]
    ensures FromBlockIds(TestChain(hs)) == Ok(CheckPoint(TestChain(hs)))
    ensures var w := Rollback(CheckPoint(TestChain(hs)), TestStale(hs), 0, maxLen);
      w.Ok? && w.value.0.blocks == TestChain(hs)[..3] && w.value.1 == 3
    ensures var r := LivePass(CheckPoint(TestChain(hs)), TestStale(hs), maxLen, newHash, 3, hashAt, headerOf, hs[5]);
      r.Ok? && r.value.0.blocks == TestChain(hs)[..3] + [BlockId(3, newHash)] && |r.value.2| == 1 &&
      r.value.2[0].reorgLen == 3
    ensures LivePassAsWritten(CheckPoint(TestChain(hs)), TestStale(hs), maxLen, newHash, 3, hashAt, headerOf, hs[5]) ==
            Err(InvalidOrder(hs[5], hs[2]))
  {
    var ids := TestChain(hs);
    var stale := TestStale(hs);
    var cp := CheckPoint(ids);
    TestStaleTop(hs);
    RollbackResult(cp, stale, 0, maxLen);
    var kept := CheckPoint(ids[..3]);
    assert Tip(kept) == BlockId(2, hs[2]);
    LivePassAsWrittenPanics(cp, stale, maxLen, newHash, 3, hashAt, headerOf, kept, 3);
    LivePassCatchesUp(cp, stale, maxLen, newHash, 3, hashAt, headerOf, hs[5], kept, 3);
    CatchUpChained(kept, 3, hashAt, headerOf, hs[2], 3);
    assert Fetched(3, 1, hashAt, headerOf) == [headerOf(newHash)];
  }
}

=== FILE: checkpoint.dfy ===
/** Block ids and the checkpoint chain of the block parser
    (packages/new-blk-parser/src/blockchain/block_id.rs and checkpoint.rs).
    The reference-counted list is written as the sequence of its block ids
    from the base up; the list only ever grows through `push`, so the
    heights are strictly ascending. */
module Checkpoints {
  import opened Bytes
  import opened Wrappers

  /** `BlockId`: a height and a block hash. */
  datatype BlockId = BlockId(height: u64, hash: Hash32)

  /** `BlockId::default`. */
  function DefaultBlockId(): (r: BlockId)
    ensures r.height == 0 && forall i :: 0 <= i < 32 ==> r.hash[i] == 0
  {
    BlockId(0, ZeroHash)
  }

  function FromTuple(t: (u64, Hash32)): BlockId {
    BlockId(t.0, t.1)
  }

  function ToTuple(b: BlockId): (u64, Hash32) {
    (b.height, b.hash)
  }

  /** The two tuple conversions are inverse to each other. */
  lemma TupleRoundTrip(b: BlockId, t: (u64, Hash32))
    ensures FromTuple(ToTuple(b)) == b
    ensures ToTuple(FromTuple(t)) == t
  {
  }

  /** The derived order: by height, then by hash bytes. */
  predicate BlockIdLess(a: BlockId, b: BlockId) {
    a.height < b.height || (a.height == b.height && LexLess(a.hash, b.hash))
  }

  /** The derived order is a strict total order. */
  lemma BlockIdOrder(a: BlockId, b: BlockId, c: BlockId)
    ensures !BlockIdLess(a, a)
    ensures a != b ==> (BlockIdLess(a, b) || BlockIdLess(b, a))
    ensures BlockIdLess(a, b) && BlockIdLess(b, c) ==> BlockIdLess(a, c)
  {
    LexIrreflexive(a.hash);
    if a != b && a.height == b.height {
      LexConnected(a.hash, b.hash);
    }
    if BlockIdLess(a, b) && BlockIdLess(b, c) && a.height == b.height == c.height {
      LexTransitive(a.hash, b.hash, c.hash);
    }
  }

  // ---------------------------------------------------------------------
  // `CheckPoint`
  // ---------------------------------------------------------------------

  datatype CheckPoint = CheckPoint(blocks: seq<BlockId>)

  predicate Ascending(bs: seq<BlockId>) {
    forall i, j :: 0 <= i < j < |bs| ==> bs[i].height < bs[j].height
  }

  /** A list that `new` and `push` can build: not empty, heights rising
      towards the tip. */
  predicate Valid(cp: CheckPoint) {
    |cp.blocks| > 0 && Ascending(cp.blocks)
  }

  function Tip(cp: CheckPoint): BlockId
    requires Valid(cp)
  {
    cp.blocks[|cp.blocks| - 1]
  }

  function New(b: BlockId): (r: CheckPoint)
    ensures Valid(r) && Tip(r) == b
  {
    CheckPoint([b])
  }

  /** `push`: a block strictly above the tip becomes the new tip; anything
      else gives the list back unchanged as the error. */
  function Push(cp: CheckPoint, b: BlockId): (r: Result<CheckPoint, CheckPoint>)
    requires Valid(cp)
    ensures r.Ok? <==> Tip(cp).height < b.height
    ensures r.Ok? ==> Valid(r.value) && r.value.blocks == cp.blocks + [b]
    ensures r.Err? ==> r.error == cp
  {
    if Tip(cp).height < b.height then Ok(CheckPoint(cp.blocks + [b])) else Err(cp)
  }

  /** `prev`: the list without its tip, if there is more than the base. */
  function Prev(cp: CheckPoint): (r: Option<CheckPoint>)
    requires Valid(cp)
    ensures r.None? <==> |cp.blocks| == 1
    ensures r.Some? ==> Valid(r.value) && r.value.blocks + [Tip(cp)] == cp.blocks
  {
    if |cp.blocks| == 1 then None else Some(CheckPoint(cp.blocks[..|cp.blocks| - 1]))
  }

  /** Each block of `bs` is above the one before it, the first above
      height `h`. */
  predicate Rises(h: nat, bs: seq<BlockId>)
    decreases |bs|
  {
    |bs| == 0 || (h < bs[0].height && Rises(bs[0].height, bs[1..]))
  }

  /** A rising list stays rising when blocks that rise from its last
      height are appended, and only then. */
  lemma {:induction false} RisesAscending(cs: seq<BlockId>, bs: seq<BlockId>)
    requires |cs| > 0 && Ascending(cs)
    ensures Rises(cs[|cs| - 1].height, bs) <==> Ascending(cs + bs)
    decreases |bs|
  {
    if |bs| > 0 {
      var next := cs + [bs[0]];
      assert cs + bs == next + bs[1..];
      if cs[|cs| - 1].height < bs[0].height {
        assert Ascending(next) by {
          forall i, j | 0 <= i < j < |next|
            ensures next[i].height < next[j].height
          {
            if j < |cs| {
            } else {
              assert next[i] == cs[i];
            }
          }
        }
        RisesAscending(next, bs[1..]);
      } else {
        assert (cs + bs)[|cs| - 1] == cs[|cs| - 1] && (cs + bs)[|cs|] == bs[0];
      }
    }
  }

  /** `extend`: push every block in turn; a block that does not rise gives
      back the original list. */
  function Extend(cp: CheckPoint, bs: seq<BlockId>): (r: Result<CheckPoint, CheckPoint>)
    requires Valid(cp)
    ensures r.Ok? <==> Rises(Tip(cp).height, bs)
    ensures r.Ok? ==> Valid(r.value) && r.value.blocks == cp.blocks + bs
    ensures r.Err? ==> r.error == cp
  {
    match ExtendFrom(cp, bs)
    case Ok(c) => Ok(c)
    case Err(_) => Err(cp)
  }

  /** `e` is `cp` followed by the blocks of `bs` before one that does not
      rise above them. */
  predicate StoppedAt(cp: CheckPoint, bs: seq<BlockId>, e: CheckPoint) {
    Valid(e) && |cp.blocks| <= |e.blocks| < |cp.blocks| + |bs| &&
    var n := |e.blocks| - |cp.blocks|;
    e.blocks == cp.blocks + bs[..n] && bs[n].height <= Tip(e).height
  }

  /** The `for` loop of `extend`, failing with the list reached so far: the
      original list followed by the blocks before the first that does not
      rise. */
  function ExtendFrom(cp: CheckPoint, bs: seq<BlockId>): (r: Result<CheckPoint, CheckPoint>)
    requires Valid(cp)
    ensures r.Ok? <==> Rises(Tip(cp).height, bs)
    ensures r.Ok? ==> Valid(r.value) && r.value.blocks == cp.blocks + bs
    ensures r.Err? ==> StoppedAt(cp, bs, r.error)
    decreases |bs|
  {
    if |bs| == 0 then Ok(cp)
    else
      match Push(cp, bs[0])
      case Err(e) =>
        assert cp.blocks + bs[..0] == cp.blocks;
        Err(e)
      case Ok(next) =>
        var r := ExtendFrom(next, bs[1..]);
        assert next.blocks + bs[1..] == cp.blocks + bs;
        if r.Err? then
          StoppedShift(cp, next, bs, r.error);
          r
        else r
  }

  /** Stopping after the first block pushed is stopping from the list
      before it. */
  lemma StoppedShift(cp: CheckPoint, next: CheckPoint, bs: seq<BlockId>, e: CheckPoint)
    requires |bs| > 0 && next.blocks == cp.blocks + [bs[0]]
    requires StoppedAt(next, bs[1..], e)
    ensures StoppedAt(cp, bs, e)
  {
    var n := |e.blocks| - |next.blocks|;
    assert next.blocks + bs[1..][..n] == cp.blocks + bs[..n + 1];
    assert bs[1..][n] == bs[n + 1];
  }

  /** `from_block_ids`: `Err(None)` for no ids, otherwise the list pushed
      from the first id, or `Err(Some(last list built))` at the first id
      that does not rise. */
  function FromBlockIds(ids: seq<BlockId>): (r: Result<CheckPoint, Option<CheckPoint>>)
    ensures |ids| == 0 ==> r == Err(None)
    ensures r.Ok? <==> |ids| > 0 && Ascending(ids)
    ensures r.Ok? ==> Valid(r.value) && r.value.blocks == ids
    ensures r.Err? && r.error.Some? ==> (
      var built := r.error.value.blocks;
      Valid(r.error.value) && 0 < |built| < |ids| && built == ids[..|built|] &&
      ids[|built|].height <= ids[|built| - 1].height)
  {
    if |ids| == 0 then Err(None)
    else
      var start := New(ids[0]);
      assert [ids[0]] + ids[1..] == ids;
      RisesAscending([ids[0]], ids[1..]);
      match ExtendFrom(start, ids[1..])
      case Ok(c) => Ok(c)
      case Err(e) =>
        StoppedFromFirst(ids, e);
        Err(Some(e))
  }

  /** Stopping while pushing the ids after the first: the list built is a
      proper prefix of the ids, and the next id does not rise above it. */
  lemma StoppedFromFirst(ids: seq<BlockId>, e: CheckPoint)
    requires |ids| > 0 && StoppedAt(New(ids[0]), ids[1..], e)
    ensures Valid(e) && 0 < |e.blocks| < |ids| && e.blocks == ids[..|e.blocks|]
    ensures ids[|e.blocks|].height <= ids[|e.blocks| - 1].height
  {
    var n := |e.blocks| - 1;
    assert [ids[0]] + ids[1..][..n] == ids[..n + 1];
    assert ids[1..][n] == ids[n + 1];
  }

  /** `iter`: the block ids from the tip down. */
  function Iter(cp: CheckPoint): (r: seq<BlockId>)
    ensures |r| == |cp.blocks|
    ensures forall i :: 0 <= i < |r| ==> r[i] == cp.blocks[|cp.blocks| - 1 - i]
  {
    seq(|cp.blocks|, i requires 0 <= i < |cp.blocks| => cp.blocks[|cp.blocks| - 1 - i])
  }

  /** Iteration yields strictly falling heights, starting at the tip. */
  lemma IterDescending(cp: CheckPoint)
    requires Valid(cp)
    ensures Iter(cp)[0] == Tip(cp)
    ensures forall i, j :: 0 <= i < j < |Iter(cp)| ==> Iter(cp)[i].height > Iter(cp)[j].height
  {
  }

  /** `eq`: the two lists yield the same ids from the tip down, which holds
      exactly when they are the same list. */
  predicate Equal(a: CheckPoint, b: CheckPoint) {
    Iter(a) == Iter(b)
  }

  lemma EqualIffSame(a: CheckPoint, b: CheckPoint)
    ensures Equal(a, b) <==> a == b
  {
    if Equal(a, b) {
      assert |a.blocks| == |b.blocks|;
      forall i | 0 <= i < |a.blocks|
        ensures a.blocks[i] == b.blocks[i]
      {
        assert Iter(a)[|a.blocks| - 1 - i] == Iter(b)[|a.blocks| - 1 - i];
      }
    }
  }

  // ---------------------------------------------------------------------
  // `insert`
  // ---------------------------------------------------------------------

  /** Where the downward walk of `insert` stops. */
  datatype Stop =
    | AlreadyThere
    | Base(base: CheckPoint, tail: seq<BlockId>)

  function Reverse(xs: seq<BlockId>): (r: seq<BlockId>)
    ensures |r| == |xs| && forall i :: 0 <= i < |xs| ==> r[i] == xs[|xs| - 1 - i]
  {
    seq(|xs|, i requires 0 <= i < |xs| => xs[|xs| - 1 - i])
  }

  /** The `loop` of `insert` from checkpoint `cp` with the blocks already
      passed (tip first) in `tail`. Panics are errors. */
  function Walk(cp: CheckPoint, b: BlockId, tail: seq<BlockId>): (r: Result<Stop, string>)
    requires Valid(cp)
    ensures r.Ok? && r.value.Base? ==> Valid(r.value.base)
    decreases |cp.blocks|
  {
    var top := Tip(cp);
    if top.height == b.height then
      if top.hash == b.hash then Ok(AlreadyThere)
      else if top.height == 0 then Err("cannot replace genesis block")
      else match Prev(cp)
        case None => Err("can't be called on genesis block")
        case Some(p) => Ok(Base(p, []))
    else if top.height < b.height then Ok(Base(cp, tail))
    else match Prev(cp)
      case None => Err("will break before genesis block")
      case Some(p) => Walk(p, b, tail + [top])
  }

  /** `insert`: the block goes in at its height. */
  function Insert(cp: CheckPoint, b: BlockId): (r: Result<CheckPoint, string>)
    requires Valid(cp)
    ensures r.Ok? ==> Valid(r.value)
  {
    match Walk(cp, b, [])
    case Err(e) => Err(e)
    case Ok(AlreadyThere) => Ok(cp)
    case Ok(Base(base, tail)) => Reattach(base, b, tail)
  }

  /** The `extend` that ends `insert`: the new block, then the passed
      blocks from the lowest up. */
  function Reattach(base: CheckPoint, b: BlockId, tail: seq<BlockId>): (r: Result<CheckPoint, string>)
    requires Valid(base)
    ensures r.Ok? <==> Rises(Tip(base).height, [b] + Reverse(tail))
    ensures r.Ok? ==> Valid(r.value) && r.value.blocks == base.blocks + [b] + Reverse(tail)
  {
    match Extend(base, [b] + Reverse(tail))
    case Ok(c) =>
      assert base.blocks + ([b] + Reverse(tail)) == base.blocks + [b] + Reverse(tail);
      Ok(c)
    case Err(_) => Err("tail is in order")
  }

  /** The number of blocks below height `h`: they come first. */
  function Below(bs: seq<BlockId>, h: nat): (r: nat)
    requires Ascending(bs)
    ensures r <= |bs|
    ensures forall i :: 0 <= i < r ==> bs[i].height < h
    ensures forall i :: r <= i < |bs| ==> bs[i].height >= h
    decreases |bs|
  {
    if |bs| == 0 || bs[|bs| - 1].height < h then |bs|
    else Below(bs[..|bs| - 1], h)
  }

  /** Dropping a tip at or above `h` keeps the count of blocks below `h`. */
  lemma BelowInit(bs: seq<BlockId>, h: nat)
    requires Ascending(bs) && |bs| > 0 && bs[|bs| - 1].height >= h
    ensures Ascending(bs[..|bs| - 1]) && Below(bs[..|bs| - 1], h) == Below(bs, h)
  {
  }

  /** In a rising list, only the tip can be at the height of the tip. */
  lemma OnlyTipAtTop(bs: seq<BlockId>, j: nat)
    requires Ascending(bs) && j < |bs| && bs[j].height == bs[|bs| - 1].height
    ensures j == |bs| - 1
  {
  }

  function ReverseSnoc(xs: seq<BlockId>, x: BlockId): (r: seq<BlockId>)
    ensures r == Reverse(xs + [x]) && r == [x] + Reverse(xs)
  {
    assert Reverse(xs + [x]) == [x] + Reverse(xs);
    [x] + Reverse(xs)
  }

  /** The walk when a block already sits at the new block's height: it
      stops there, as the same block or as a conflict. */
  lemma {:induction false} WalkAtHeight(cp: CheckPoint, b: BlockId, tail: seq<BlockId>)
    requires Valid(cp)
    requires Below(cp.blocks, b.height) < |cp.blocks| && cp.blocks[Below(cp.blocks, b.height)].height == b.height
    ensures var bs := cp.blocks; var j := Below(bs, b.height);
      Walk(cp, b, tail) ==
        if bs[j].hash == b.hash then Ok(AlreadyThere)
        else if b.height == 0 then Err("cannot replace genesis block")
        else if j == 0 then Err("can't be called on genesis block")
        else Ok(Base(CheckPoint(bs[..j]), []))
    decreases |cp.blocks|
  {
    var bs := cp.blocks;
    var j := Below(bs, b.height);
    var top := Tip(cp);
    if top.height == b.height {
      OnlyTipAtTop(bs, j);
    } else {
      assert top.height > b.height;
      BelowInit(bs, b.height);
      var p := Prev(cp).value;
      assert p.blocks[j] == bs[j] && p.blocks[..j] == bs[..j];
      WalkAtHeight(p, b, tail + [top]);
    }
  }

  /** The walk when no block is at the new block's height: it passes every
      block above, and a list with nothing below is a panic. */
  lemma {:induction false} WalkPasses(cp: CheckPoint, b: BlockId, tail: seq<BlockId>)
    requires Valid(cp)
    requires !(Below(cp.blocks, b.height) < |cp.blocks| && cp.blocks[Below(cp.blocks, b.height)].height == b.height)
    ensures var bs := cp.blocks; var j := Below(bs, b.height);
      Walk(cp, b, tail) ==
        if j == 0 then Err("will break before genesis block")
        else Ok(Base(CheckPoint(bs[..j]), tail + Reverse(bs[j..])))
    decreases |cp.blocks|
  {
    var bs := cp.blocks;
    var j := Below(bs, b.height);
    var top := Tip(cp);
    if top.height < b.height {
      assert bs[..j] == bs && bs[j..] == [];
      assert tail + Reverse([]) == tail;
    } else {
      assert j < |bs| && bs[j].height > b.height;
      assert top.height >= bs[j].height;
      BelowInit(bs, b.height);
      if |bs| > 1 {
      var p := Prev(cp).value;
      var pb := p.blocks;
      WalkPasses(p, b, tail + [top]);
      PassOne(bs, j, tail);
      }
    }
  }

  /** One step of the walk in `WalkPasses`: the dropped tip goes onto the
      passed list, and the blocks below `j` stay. */
  lemma PassOne(bs: seq<BlockId>, j: nat, tail: seq<BlockId>)
    requires j < |bs|
    ensures bs[..|bs| - 1][..j] == bs[..j]
    ensures tail + [bs[|bs| - 1]] + Reverse(bs[..|bs| - 1][j..]) == tail + Reverse(bs[j..])
  {
    var pb := bs[..|bs| - 1];
    var top := bs[|bs| - 1];
    assert bs[j..] == pb[j..] + [top];
    var _ := ReverseSnoc(pb[j..], top);
  }

  lemma ReverseReverse(xs: seq<BlockId>)
    ensures Reverse(Reverse(xs)) == xs
  {
  }

  /** Putting a block between the lower and the higher blocks of a rising
      list keeps it rising. */
  lemma InsertAscending(bs: seq<BlockId>, j: nat, b: BlockId)
    requires Ascending(bs) && j <= |bs|
    requires forall i :: 0 <= i < j ==> bs[i].height < b.height
    requires forall i :: j <= i < |bs| ==> bs[i].height > b.height
    ensures Ascending(bs[..j] + [b] + bs[j..])
  {
    var xs := bs[..j] + [b] + bs[j..];
    forall i, k | 0 <= i < k < |xs|
      ensures xs[i].height < xs[k].height
    {
      if i < j && k < j {
        assert xs[i] == bs[i] && xs[k] == bs[k];
      } else if i < j && k == j {
        assert xs[i] == bs[i];
      } else if i < j {
        assert xs[i] == bs[i] && xs[k] == bs[k - 1];
      } else if i == j {
        assert xs[k] == bs[k - 1];
      } else {
        assert xs[i] == bs[i - 1] && xs[k] == bs[k - 1];
      }
    }
  }

  /** `insert` when a block already sits at the new block's height: the
      same block leaves the list as it is; a different one cuts the list
      there and the new block becomes the tip, except that the genesis
      block cannot be replaced, nor the base of a list that does not reach
      down to it. */
  lemma InsertAtHeight(cp: CheckPoint, b: BlockId)
    requires Valid(cp)
    requires Below(cp.blocks, b.height) < |cp.blocks| && cp.blocks[Below(cp.blocks, b.height)].height == b.height
    ensures var bs := cp.blocks; var j := Below(bs, b.height); var r := Insert(cp, b);
      (bs[j].hash == b.hash ==> r == Ok(cp)) &&
      (bs[j].hash != b.hash ==> (r.Ok? <==> b.height != 0 && j > 0)) &&
      (bs[j].hash != b.hash && r.Ok? ==> r.value.blocks == bs[..j] + [b])
  {
    var bs := cp.blocks;
    var j := Below(bs, b.height);
    WalkAtHeight(cp, b, []);
    if bs[j].hash == b.hash {
      assert Walk(cp, b, []) == Ok(AlreadyThere);
    } else if b.height == 0 || j == 0 {
      assert Walk(cp, b, []).Err?;
    } else {
      var base := CheckPoint(bs[..j]);
      assert Walk(cp, b, []) == Ok(Base(base, []));
      assert Insert(cp, b) == Reattach(base, b, []);
      ReattachOnTop(bs[..j], b);
    }
  }

  /** Reattaching with nothing passed puts the new block on top of a base
      whose tip is lower. */
  lemma ReattachOnTop(bs: seq<BlockId>, b: BlockId)
    requires Ascending(bs) && |bs| > 0 && bs[|bs| - 1].height < b.height
    ensures Reattach(CheckPoint(bs), b, []) == Ok(CheckPoint(bs + [b]))
  {
    assert Reverse([]) == [];
    assert Rises(Tip(CheckPoint(bs)).height, [b] + Reverse([]));
    assert bs + [b] + Reverse([]) == bs + [b];
  }

  /** `insert` at a height the list does not have: the new block goes
      between the lower and the higher blocks, which are all kept; a block
      below the base is a panic. */
  lemma InsertBetween(cp: CheckPoint, b: BlockId)
    requires Valid(cp)
    requires !(Below(cp.blocks, b.height) < |cp.blocks| && cp.blocks[Below(cp.blocks, b.height)].height == b.height)
    ensures var bs := cp.blocks; var j := Below(bs, b.height); var r := Insert(cp, b);
      (r.Ok? <==> j > 0) &&
      (r.Ok? ==> r.value.blocks == bs[..j] + [b] + bs[j..])
  {
    var bs := cp.blocks;
    var j := Below(bs, b.height);
    WalkPasses(cp, b, []);
    if j > 0 {
      var base := CheckPoint(bs[..j]);
      var rest := bs[j..];
      assert [] + Reverse(rest) == Reverse(rest);
      assert Walk(cp, b, []) == Ok(Base(base, Reverse(rest)));
      assert Insert(cp, b) == Reattach(base, b, Reverse(rest));
      AboveAfterBelow(bs, j, b);
      ReattachBetween(bs, j, b);
    } else {
      assert Walk(cp, b, []).Err?;
    }
  }

  /** Reattaching the passed blocks above a new block that is higher than
      every block below `j` and lower than every block from `j` on. */
  lemma ReattachBetween(bs: seq<BlockId>, j: nat, b: BlockId)
    requires Ascending(bs) && 0 < j <= |bs|
    requires forall i :: 0 <= i < j ==> bs[i].height < b.height
    requires forall i :: j <= i < |bs| ==> bs[i].height > b.height
    ensures Reattach(CheckPoint(bs[..j]), b, Reverse(bs[j..])) == Ok(CheckPoint(bs[..j] + [b] + bs[j..]))
  {
    var rest := bs[j..];
    ReverseReverse(rest);
    InsertAscending(bs, j, b);
    assert bs[..j] + ([b] + rest) == bs[..j] + [b] + bs[j..];
    RisesAscending(bs[..j], [b] + rest);
  }

  /** With no block at height `h`, every block from the count of those
      below `h` on is above it. */
  lemma AboveAfterBelow(bs: seq<BlockId>, j: nat, b: BlockId)
    requires Ascending(bs) && j == Below(bs, b.height)
    requires !(j < |bs| && bs[j].height == b.height)
    ensures forall i :: j <= i < |bs| ==> bs[i].height > b.height
  {
    AtOrAbove(bs, j, b.height);
  }

  lemma AtOrAbove(bs: seq<BlockId>, j: nat, h: nat)
    requires Ascending(bs) && j <= |bs|
    requires forall i :: j <= i < |bs| ==> bs[i].height >= h
    requires !(j < |bs| && bs[j].height == h)
    ensures forall i :: j <= i < |bs| ==> bs[i].height > h
  {
    forall i | j <= i < |bs| ensures bs[i].height > h {
      if i > j {
        assert bs[j].height < bs[i].height;
      }
    }
  }

}

=== FILE: coins.dfy ===
/** The coin table of the block parser (`Coin`, `CoinType`): the address
    prefixes, bech32 prefix, token protocol name, first inscription block
    and jubilee height of every supported chain, chosen by name. */
module Coins {
  import opened Bytes
  import opened Wrappers

  /** `usize::MAX` on the 64-bit targets the parser is built for. */
  const USIZE_MAX: nat := 0xFFFF_FFFF_FFFF_FFFF

  /** `EncoderConfig`. */
  datatype EncoderConfig = EncoderConfig(pubkeyAddress: u8, scriptAddress: u8, bech32: string)

  /** The associated constants of one `Coin` implementation. */
  datatype Coin = Coin(name: string, config: EncoderConfig, fib: Option<u32>, jubileeHeight: Option<nat>,
                       brcName: string, onlyP2tr: bool)

  /** `CoinType`: the same constants, flattened. */
  datatype CoinType = CoinType(name: string, pubkeyAddress: u8, scriptAddress: u8, bech32: string,
                               brcName: string, jubileeHeight: Option<nat>, fib: Option<u32>, onlyP2tr: bool)

  const Bitcoin: Coin := Coin("Bitcoin", EncoderConfig(0, 5, "bc"), Some(767_430), Some(824_544), "brc-20", true)
  const BitcoinTestnet: Coin :=
    Coin("Bitcoin Testnet", EncoderConfig(111, 196, "tb"), Some(2_413_343), Some(2_544_192), "brc-20", true)
  const Litecoin: Coin := Coin("Litecoin", EncoderConfig(48, 50, "ltc"), Some(2_424_429), Some(2_608_704), "ltc-20", true)
  const LitecoinTestnet: Coin :=
    Coin("Litecoin Testnet", EncoderConfig(111, 58, "tltc"), Some(2_669_127), Some(3_096_576), "ltc-20", true)
  const Dogecoin: Coin := Coin("Dogecoin", EncoderConfig(30, 22, "dg"), Some(4_609_001), Some(USIZE_MAX), "drc-20", false)
  const DogecoinTestnet: Coin :=
    Coin("Dogecoin Testnet", EncoderConfig(113, 196, "tdg"), Some(4_260_001), Some(USIZE_MAX), "drc-20", false)
  const Bellscoin: Coin := Coin("Bellscoin", EncoderConfig(25, 30, "bel"), Some(26_371), Some(133_000), "bel-20", false)
  const BellscoinTestnet: Coin := Coin("Bellscoin Testnet", EncoderConfig(33, 22, "tbel"), None, None, "bel-20", false)
  const Pepecoin: Coin := Coin("Pepecoin", EncoderConfig(56, 22, "pe"), None, None, "prc-20", false)
  const PepecoinTestnet: Coin := Coin("Pepecoin Testnet", EncoderConfig(113, 196, "tpe"), None, None, "prc-20", false)

  /** The coins in the order `from_str` lists them, and the names it
      accepts for them. */
  const AllCoins: seq<Coin> := [Bitcoin, BitcoinTestnet, Litecoin, LitecoinTestnet, Dogecoin, DogecoinTestnet,
                                Bellscoin, BellscoinTestnet, Pepecoin, PepecoinTestnet]
  const CoinNames: seq<string> := ["bitcoin", "bitcoin-testnet", "litecoin", "litecoin-testnet", "dogecoin",
                                   "dogecoin-testnet", "bellscoin", "bellscoin-testnet", "pepecoin", "pepecoin-testnet"]

  /** `From<T: Coin> for CoinType`. */
  function FromCoin(c: Coin): (r: CoinType)
    ensures r.name == c.name && r.pubkeyAddress == c.config.pubkeyAddress && r.scriptAddress == c.config.scriptAddress
    ensures r.bech32 == c.config.bech32 && r.brcName == c.brcName && r.jubileeHeight == c.jubileeHeight
    ensures r.fib == c.fib && r.onlyP2tr == c.onlyP2tr
  {
    CoinType(c.name, c.config.pubkeyAddress, c.config.scriptAddress, c.config.bech32, c.brcName,
             c.jubileeHeight, c.fib, c.onlyP2tr)
  }

  /** `Default for CoinType`. */
  function Default(): (r: CoinType)
    ensures r.name == "Bitcoin" && r.pubkeyAddress == 0 && r.scriptAddress == 5 && r.bech32 == "bc"
  {
    FromCoin(Bitcoin)
  }

  /** `has_mweb_extension_metadata`: Litecoin blocks carry MWEB data. */
  predicate HasMweb(c: CoinType) {
    c.name == "Litecoin" || c.name == "Litecoin Testnet"
  }

  /** `CoinType::from_str`: one of the ten names, matched exactly. */
  function FromStr(s: string): (r: Result<CoinType, string>)
    ensures r.Ok? <==> s in CoinNames
    ensures r.Err? ==> r.error == "There is no implementation for `" + s + "`!"
  {
    if s == "bitcoin" then Ok(FromCoin(Bitcoin))
    else if s == "bitcoin-testnet" then Ok(FromCoin(BitcoinTestnet))
    else if s == "litecoin" then Ok(FromCoin(Litecoin))
    else if s == "litecoin-testnet" then Ok(FromCoin(LitecoinTestnet))
    else if s == "dogecoin" then Ok(FromCoin(Dogecoin))
    else if s == "dogecoin-testnet" then Ok(FromCoin(DogecoinTestnet))
    else if s == "bellscoin" then Ok(FromCoin(Bellscoin))
    else if s == "bellscoin-testnet" then Ok(FromCoin(BellscoinTestnet))
    else if s == "pepecoin" then Ok(FromCoin(Pepecoin))
    else if s == "pepecoin-testnet" then Ok(FromCoin(PepecoinTestnet))
    else Err("There is no implementation for `" + s + "`!")
  }

  /** Each accepted name selects the coin in the same position of the
      table. */
  lemma FromStrSelects(k: nat)
    requires k < |CoinNames|
    ensures FromStr(CoinNames[k]) == Ok(FromCoin(AllCoins[k]))
  {
  }

  /** Names are case-sensitive: the capitalised coin names are refused. */
  lemma FromStrCaseSensitive()
    ensures FromStr("Bitcoin").Err? && FromStr("BELLSCOIN").Err?
  {
  }

  /** Only the two Litecoin networks carry MWEB data. */
  lemma MwebOnlyLitecoin(k: nat)
    requires k < |AllCoins|
    ensures HasMweb(FromCoin(AllCoins[k])) <==> k == 2 || k == 3
  {
    assert "Litecoin Testnet" != "Bitcoin Testnet";
    assert "Litecoin Testnet" != "Dogecoin Testnet" && "Litecoin Testnet" != "Bellscoin Testnet";
    assert "Litecoin Testnet" != "Pepecoin Testnet" && "Litecoin" != "Bitcoin" && "Litecoin" != "Dogecoin";
    assert "Litecoin" != "Bellscoin" && "Litecoin" != "Pepecoin";
  }

  /** The display names are pairwise different, so a coin's name
      identifies it. */
  lemma NamesDistinct()
    ensures Distinct(seq(|AllCoins|, k requires 0 <= k < |AllCoins| => AllCoins[k].name))
  {
  }

  /** Bellscoin's constants. */
  lemma BellscoinConstants()
    ensures FromStr("bellscoin").Ok?
    ensures var c := FromStr("bellscoin").value;
      c.pubkeyAddress == 25 && c.scriptAddress == 30 && c.bech32 == "bel" &&
      c.fib == Some(26_371) && c.jubileeHeight == Some(133_000) && c.brcName == "bel-20"
  {
  }

  /** Dogecoin's jubilee is `usize::MAX`: no height below it reaches it. */
  lemma DogecoinNeverJubilee(height: nat)
    requires height < USIZE_MAX
    ensures FromStr("dogecoin").Ok? && FromStr("dogecoin-testnet").Ok?
    ensures height < FromStr("dogecoin").value.jubileeHeight.value
    ensures height < FromStr("dogecoin-testnet").value.jubileeHeight.value
  {
  }
}

=== FILE: envelope.dfy ===
/** Envelopes (src/inscriptions/envelope.rs): inscriptions carried in a
    taproot script as `OP_FALSE OP_IF "ord" … OP_ENDIF`, and the tag/value
    fields read out of their pushes. The script tokenizer and `Tag::take`
    belong to libraries outside the model and are parameters. */
module Envelopes {
  import opened Bytes
  import opened Wrappers
  import opened Inscriptions
  import Partials

  /** A tokenized script instruction: a push, or any other opcode. */
  datatype Instruction = Push(data: Bytes) | Op(opcode: u8)

  const OP_IF: u8 := 0x63
  const OP_ENDIF: u8 := 0x68
  const OP_PUSHNUM_NEG1: u8 := 0x4f

  /** OP_PUSHNUM_NEG1 and OP_PUSHNUM_1 to OP_PUSHNUM_16. */
  predicate IsPushnum(op: u8) {
    op == OP_PUSHNUM_NEG1 || 0x51 <= op <= 0x60
  }

  datatype Envelope<T> = Envelope(input: u32, offset: u32, payload: T, pushnum: bool, stutter: bool)

  type RawEnvelope = Envelope<seq<Bytes>>

  type ParsedEnvelope = Envelope<Inscription>

  /** What the script library's tokenizer yields: the instructions it
      read, and whether it stopped at a malformed one. */
  datatype Tokens = Tokens(instructions: seq<Instruction>, malformed: bool)

  // ---------------------------------------------------------------------
  // Finding envelopes (`from_tapscript`, `from_instructions`)
  // ---------------------------------------------------------------------

  /** Instructions allowed between "ord" and OP_ENDIF. */
  predicate Enclosed(xs: seq<Instruction>) {
    forall i :: 0 <= i < |xs| ==> xs[i].Push? || IsPushnum(xs[i].opcode)
  }

  /** What enclosed instructions add to the payload: a push its bytes, a
      PUSHNUM opcode its own byte. */
  function Payloads(xs: seq<Instruction>): seq<Bytes> {
    if |xs| == 0 then []
    else (match xs[0] case Push(d) => [d] case Op(op) => [[op]]) + Payloads(xs[1..])
  }

  predicate HasPushnum(xs: seq<Instruction>) {
    exists i :: 0 <= i < |xs| && xs[i].Op?
  }

  /** The payload loop of `from_instructions` from position `p`: the
      payload and pushnum flag at OP_ENDIF, or `None` when another opcode
      or the end of the script comes first; and where reading stopped. */
  function ReadBody(ins: seq<Instruction>, p: nat, payload: seq<Bytes>, pushnum: bool): (r: (Option<(seq<Bytes>, bool)>, nat))
    requires p <= |ins|
    ensures p <= r.1 <= |ins|
    ensures r.0.Some? ==> p < r.1
    decreases |ins| - p
  {
    if p == |ins| then (None, p)
    else match ins[p]
      case Push(d) => ReadBody(ins, p + 1, payload + [d], pushnum)
      case Op(op) =>
        if op == OP_ENDIF then (Some((payload, pushnum)), p + 1)
        else if IsPushnum(op) then ReadBody(ins, p + 1, payload + [[op]], true)
        else (None, p + 1)
  }

  lemma PayloadsCons(x: Instruction, xs: seq<Instruction>)
    ensures Payloads([x] + xs) == (match x case Push(d) => [d] case Op(op) => [[op]]) + Payloads(xs)
  {
    assert ([x] + xs)[1..] == xs;
  }

  lemma HasPushnumCons(x: Instruction, xs: seq<Instruction>)
    ensures HasPushnum([x] + xs) == (x.Op? || HasPushnum(xs))
  {
    var ys := [x] + xs;
    assert ys[0] == x;
    if HasPushnum(xs) {
      var i :| 0 <= i < |xs| && xs[i].Op?;
      assert ys[i + 1] == xs[i];
    }
    if HasPushnum(ys) && !x.Op? {
      var i :| 0 <= i < |ys| && ys[i].Op?;
      assert xs[i - 1] == ys[i];
    }
  }

  /** What one enclosed instruction adds to the payload. */
  function PayloadOf(x: Instruction): Bytes {
    if x.Push? then x.data else [x.opcode]
  }

  /** The loop reads past an enclosed instruction. */
  lemma ReadBodyStep(ins: seq<Instruction>, p: nat, payload: seq<Bytes>, pushnum: bool)
    requires p < |ins| && (ins[p].Push? || (IsPushnum(ins[p].opcode) && ins[p].opcode != OP_ENDIF))
    ensures ReadBody(ins, p, payload, pushnum) == ReadBody(ins, p + 1, payload + [PayloadOf(ins[p])], pushnum || ins[p].Op?)
  {
    if ins[p].Push? {
      assert (pushnum || ins[p].Op?) == pushnum;
    } else {
      assert PayloadOf(ins[p]) == [ins[p].opcode];
    }
  }

  /** The payload and flag grow by one enclosed instruction at the front. */
  lemma PayloadStep(x: Instruction, xs: seq<Instruction>, payload: seq<Bytes>, pushnum: bool)
    ensures payload + [PayloadOf(x)] + Payloads(xs) == payload + Payloads([x] + xs)
    ensures ((pushnum || x.Op?) || HasPushnum(xs)) == (pushnum || HasPushnum([x] + xs))
  {
    PayloadsCons(x, xs);
    HasPushnumCons(x, xs);
    assert payload + [PayloadOf(x)] + Payloads(xs) == payload + ([PayloadOf(x)] + Payloads(xs));
  }

  /** An envelope read to its end is the "ord" payload up to the first
      OP_ENDIF: every instruction before it is a push or a PUSHNUM. */
  lemma {:induction false} ReadBodyShape(ins: seq<Instruction>, p: nat, payload: seq<Bytes>, pushnum: bool)
    requires p <= |ins|
    requires ReadBody(ins, p, payload, pushnum).0.Some?
    ensures var rb := ReadBody(ins, p, payload, pushnum); var q := rb.1;
      && ins[q - 1] == Op(OP_ENDIF)
      && Enclosed(ins[p..q - 1])
      && rb.0.value.0 == payload + Payloads(ins[p..q - 1])
      && rb.0.value.1 == (pushnum || HasPushnum(ins[p..q - 1]))
    decreases |ins| - p
  {
    var q := ReadBody(ins, p, payload, pushnum).1;
    var x := ins[p];
    if x == Op(OP_ENDIF) {
      assert ins[p..q - 1] == [];
    } else {
      ReadBodyStep(ins, p, payload, pushnum);
      ReadBodyShape(ins, p + 1, payload + [PayloadOf(x)], pushnum || x.Op?);
      assert ins[p..q - 1] == [x] + ins[p + 1..q - 1];
      PayloadStep(x, ins[p + 1..q - 1], payload, pushnum);
    }
  }

  /** Conversely, enclosed instructions closed by OP_ENDIF are read whole. */
  lemma {:induction false} ReadBodyOf(ins: seq<Instruction>, p: nat, body: seq<Instruction>, payload: seq<Bytes>, pushnum: bool)
    requires p + |body| < |ins| && ins[p..p + |body|] == body && ins[p + |body|] == Op(OP_ENDIF)
    requires Enclosed(body)
    ensures var rb := ReadBody(ins, p, payload, pushnum);
      && rb.0.Some?
      && rb.0.value.0 == payload + Payloads(body)
      && rb.0.value.1 == (pushnum || HasPushnum(body))
      && rb.1 == p + |body| + 1
    decreases |body|
  {
    if |body| == 0 {
      assert payload + [] == payload;
    } else {
      var x := body[0];
      assert ins[p] == x;
      assert x.Op? ==> IsPushnum(x.opcode) && x.opcode != OP_ENDIF;
      ReadBodyStep(ins, p, payload, pushnum);
      assert ins[p + 1..p + 1 + |body[1..]|] == body[1..];
      ReadBodyOf(ins, p + 1, body[1..], payload + [PayloadOf(x)], pushnum || x.Op?);
      assert body == [x] + body[1..];
      PayloadStep(x, body[1..], payload, pushnum);
    }
  }

  /** `from_instructions` at position `p` (just past an empty push):
      whether the next attempt stutters, the envelope if one closes, and
      where reading stopped. */
  function FromInstructions(ins: seq<Instruction>, p: nat, input: u32, offset: u32, stutter: bool): (r: (bool, Option<RawEnvelope>, nat))
    requires p <= |ins|
    ensures p <= r.2 <= |ins|
    ensures r.1.Some? ==> r.1.value.input == input && r.1.value.offset == offset && r.1.value.stutter == stutter
    ensures r.0 ==> r.1.None? && r.2 < |ins| && ins[r.2] == Push([])
  {
    if !(p < |ins| && ins[p] == Op(OP_IF)) then (p < |ins| && ins[p] == Push([]), None, p)
    else if !(p + 1 < |ins| && ins[p + 1] == Push(Ord)) then (p + 1 < |ins| && ins[p + 1] == Push([]), None, p + 1)
    else
      match ReadBody(ins, p + 2, [], false)
      case (None, q) => (false, None, q)
      case (Some((payload, pushnum)), q) => (false, Some(Envelope(input, offset, payload, pushnum, stutter)), q)
  }

  /** An envelope is OP_IF, a push of "ord", enclosed instructions and
      OP_ENDIF; its payload and pushnum flag come from the enclosed part. */
  lemma EnvelopeOf(ins: seq<Instruction>, p: nat, body: seq<Instruction>, input: u32, offset: u32, stutter: bool)
    requires p + 2 + |body| < |ins|
    requires ins[p] == Op(OP_IF) && ins[p + 1] == Push(Ord)
    requires ins[p + 2..p + 2 + |body|] == body && ins[p + 2 + |body|] == Op(OP_ENDIF) && Enclosed(body)
    ensures var r := FromInstructions(ins, p, input, offset, stutter);
      !r.0 && r.1 == Some(Envelope(input, offset, Payloads(body), HasPushnum(body), stutter)) && r.2 == p + 3 + |body|
  {
    EnvelopeBody(ins, p, body);
    FromInstructionsRead(ins, p, input, offset, stutter, Payloads(body), HasPushnum(body), p + 3 + |body|);
  }

  lemma EnvelopeBody(ins: seq<Instruction>, p: nat, body: seq<Instruction>)
    requires p + 2 + |body| < |ins|
    requires ins[p + 2..p + 2 + |body|] == body && ins[p + 2 + |body|] == Op(OP_ENDIF) && Enclosed(body)
    ensures var rb := ReadBody(ins, p + 2, [], false);
      rb.0 == Some((Payloads(body), HasPushnum(body))) && rb.1 == p + 3 + |body|
  {
    ReadBodyOf(ins, p + 2, body, [], false);
    assert [] + Payloads(body) == Payloads(body);
  }

  lemma FromInstructionsRead(ins: seq<Instruction>, p: nat, input: u32, offset: u32, stutter: bool,
                             payload: seq<Bytes>, pushnum: bool, q: nat)
    requires p + 2 <= |ins| && ins[p] == Op(OP_IF) && ins[p + 1] == Push(Ord)
    requires var rb := ReadBody(ins, p + 2, [], false); rb.0 == Some((payload, pushnum)) && rb.1 == q
    ensures var r := FromInstructions(ins, p, input, offset, stutter);
      !r.0 && r.1 == Some(Envelope(input, offset, payload, pushnum, stutter)) && r.2 == q
  {
  }

  /** And every envelope found has that shape. */
  lemma EnvelopeShape(ins: seq<Instruction>, p: nat, input: u32, offset: u32, stutter: bool)
    requires p <= |ins| && FromInstructions(ins, p, input, offset, stutter).1.Some?
    ensures var (_, e, q) := FromInstructions(ins, p, input, offset, stutter);
      && p + 3 <= q
      && ins[p] == Op(OP_IF) && ins[p + 1] == Push(Ord) && ins[q - 1] == Op(OP_ENDIF)
      && Enclosed(ins[p + 2..q - 1])
      && e.value.payload == Payloads(ins[p + 2..q - 1])
      && e.value.pushnum == HasPushnum(ins[p + 2..q - 1])
  {
    ReadBodyShape(ins, p + 2, [], false);
    assert [] + Payloads(ins[p + 2..FromInstructions(ins, p, input, offset, stutter).2 - 1]) == Payloads(ins[p + 2..FromInstructions(ins, p, input, offset, stutter).2 - 1]);
  }

  /** The outer loop of `from_tapscript` from position `p`; each attempt
      starts after an empty push, and a failed attempt's stutter flag is
      handed to the next one. */
  function Scan(ins: seq<Instruction>, p: nat, input: u32, found: seq<RawEnvelope>, stuttered: bool): (r: seq<RawEnvelope>)
    requires p <= |ins|
    ensures |found| <= |r| && r[..|found|] == found
    ensures forall i :: |found| <= i < |r| ==> r[i].input == input && r[i].offset == i % 0x1_0000_0000
    decreases |ins| - p
  {
    if p == |ins| then found
    else if ins[p] == Push([]) then
      var (stutter, envelope, q) := FromInstructions(ins, p + 1, input, |found| % 0x1_0000_0000, stuttered);
      if envelope.Some? then
        var r := Scan(ins, q, input, found + [envelope.value], stuttered);
        assert r[..|found|] == r[..|found| + 1][..|found|];
        r
      else Scan(ins, q, input, found, stutter)
    else Scan(ins, p + 1, input, found, stuttered)
  }

  /** `RawEnvelope::from_tapscript`: a malformed instruction anywhere makes
      the whole script an error, since every path reads to the end. */
  function FromTapscript(tokens: Tokens, input: u32): (r: Result<seq<RawEnvelope>, ()>)
    ensures r.Err? <==> tokens.malformed
    ensures r.Ok? ==> forall i :: 0 <= i < |r.value| ==> r.value[i].input == input && r.value[i].offset == i % 0x1_0000_0000
  {
    if tokens.malformed then Err(())
    else Ok(Scan(tokens.instructions, 0, input, [], false))
  }

  /** A script holding one envelope after an empty push yields it, with
      offset 0 and no stutter. */
  lemma SingleEnvelopeFound(body: seq<Instruction>, input: u32)
    requires Enclosed(body)
    ensures var ins := [Push([]), Op(OP_IF), Push(Ord)] + body + [Op(OP_ENDIF)];
      FromTapscript(Tokens(ins, false), input) == Ok([Envelope(input, 0, Payloads(body), HasPushnum(body), false)])
  {
    var ins := [Push([]), Op(OP_IF), Push(Ord)] + body + [Op(OP_ENDIF)];
    assert ins[3..3 + |body|] == body;
    EnvelopeOf(ins, 1, body, input, 0, false);
    var e := Envelope(input, 0, Payloads(body), HasPushnum(body), false);
    assert Scan(ins, 0, input, [], false) == Scan(ins, |ins|, input, [e], false);
  }

  // ---------------------------------------------------------------------
  // Reading the fields (`From<RawEnvelope> for ParsedEnvelope`)
  // ---------------------------------------------------------------------

  /** The first even position holding an empty push: where the body
      starts. */
  function BodyStart(payload: seq<Bytes>, i: nat): (r: Option<nat>)
    requires i <= |payload|
    ensures r.Some? ==> i <= r.value < |payload| && r.value % 2 == 0 && payload[r.value] == []
    ensures r.None? ==> forall j :: i <= j < |payload| && j % 2 == 0 ==> payload[j] != []
    ensures r.Some? ==> forall j :: i <= j < r.value && j % 2 == 0 ==> payload[j] != []
    decreases |payload| - i
  {
    if i == |payload| then None
    else if i % 2 == 0 && payload[i] == [] then Some(i)
    else BodyStart(payload, i + 1)
  }

  type Fields = map<Bytes, seq<Bytes>>

  /** The tag/value pairs before the body, in order (`chunks(2)`; an odd
      leftover is not a pair). */
  function Pairs(header: seq<Bytes>): (r: seq<(Bytes, Bytes)>)
    ensures |r| == |header| / 2
    ensures forall j :: 0 <= j < |r| ==> r[j] == (header[2 * j], header[2 * j + 1])
  {
    seq(|header| / 2, j requires 0 <= j < |header| / 2 => (header[2 * j], header[2 * j + 1]))
  }

  /** `fields.entry(key).or_default().push(value)` for every pair. */
  function Collect(pairs: seq<(Bytes, Bytes)>): (r: Fields)
    decreases |pairs|
  {
    if |pairs| == 0 then map[]
    else
      var m := Collect(pairs[..|pairs| - 1]);
      var (k, v) := pairs[|pairs| - 1];
      m[k := (if k in m then m[k] else []) + [v]]
  }

  /** The values paired with key `k`, in order. */
  function ValuesOf(pairs: seq<(Bytes, Bytes)>, k: Bytes): seq<Bytes>
    decreases |pairs|
  {
    if |pairs| == 0 then []
    else ValuesOf(pairs[..|pairs| - 1], k) + (if pairs[|pairs| - 1].0 == k then [pairs[|pairs| - 1].1] else [])
  }

  /** The map holds, under each key, exactly the values paired with it. */
  lemma {:induction false} CollectValues(pairs: seq<(Bytes, Bytes)>, k: Bytes)
    ensures k in Collect(pairs) <==> |ValuesOf(pairs, k)| > 0
    ensures k in Collect(pairs) ==> Collect(pairs)[k] == ValuesOf(pairs, k)
    decreases |pairs|
  {
    if |pairs| > 0 {
      CollectValues(pairs[..|pairs| - 1], k);
    }
  }

  /** A value for a key means a pair with that key. */
  lemma {:induction false} OneValue(pairs: seq<(Bytes, Bytes)>, k: Bytes)
    ensures |ValuesOf(pairs, k)| > 0 <==> exists i :: 0 <= i < |pairs| && pairs[i].0 == k
    decreases |pairs|
  {
    if |pairs| > 0 {
      var init := pairs[..|pairs| - 1];
      OneValue(init, k);
      if exists i :: 0 <= i < |pairs| && pairs[i].0 == k {
        var i :| 0 <= i < |pairs| && pairs[i].0 == k;
        if i < |init| {
          assert init[i].0 == k;
        }
      }
      if |ValuesOf(init, k)| > 0 {
        var i :| 0 <= i < |init| && init[i].0 == k;
        assert pairs[i].0 == k;
      }
    }
  }

  /** Two values for one key means two pairs with that key. */
  lemma {:induction false} TwoValues(pairs: seq<(Bytes, Bytes)>, k: Bytes)
    ensures |ValuesOf(pairs, k)| > 1 <==> exists i, j :: 0 <= i < j < |pairs| && pairs[i].0 == k && pairs[j].0 == k
    ensures |ValuesOf(pairs, k)| > 0 <==> exists i :: 0 <= i < |pairs| && pairs[i].0 == k
    decreases |pairs|
  {
    OneValue(pairs, k);
    if |pairs| > 0 {
      var init := pairs[..|pairs| - 1];
      var n := |pairs| - 1;
      TwoValues(init, k);
      if |ValuesOf(pairs, k)| > 1 {
        if |ValuesOf(init, k)| > 1 {
          var i, j :| 0 <= i < j < |init| && init[i].0 == k && init[j].0 == k;
          assert pairs[i].0 == k && pairs[j].0 == k;
        } else {
          var i :| 0 <= i < |init| && init[i].0 == k;
          assert pairs[i].0 == k && pairs[n].0 == k;
        }
      }
      if exists i, j :: 0 <= i < j < |pairs| && pairs[i].0 == k && pairs[j].0 == k {
        var i, j :| 0 <= i < j < |pairs| && pairs[i].0 == k && pairs[j].0 == k;
        assert init[i].0 == k;
        if j < n {
          assert init[j].0 == k;
        }
      }
    }
  }

  /** A tag's field name, as in the ordinals envelope format. */
  datatype Tag =
    | ContentEncoding | ContentType | Delegate | Metadata | Metaprotocol | Parent | PointerTag | Rune

  /** `Tag::take` and `Tag::take_array`: they read a tag's values out of
      the fields and return what is left. */
  datatype TagReader = TagReader(
    take: (Tag, Fields) -> (Option<Bytes>, Fields),
    takeArray: (Tag, Fields) -> (seq<Bytes>, Fields))

  predicate EvenFirst(k: Bytes) {
    |k| > 0 && k[0] % 2 == 0
  }

  /** The header (the pushes before the body, or all of them). */
  function Header(payload: seq<Bytes>): seq<Bytes> {
    match BodyStart(payload, 0)
    case None => payload
    case Some(i) => payload[..i]
  }

  /** `From<RawEnvelope> for ParsedEnvelope`. */
  function Parsed(e: RawEnvelope, tags: TagReader): (r: ParsedEnvelope)
    ensures r.input == e.input && r.offset == e.offset && r.pushnum == e.pushnum && r.stutter == e.stutter
    ensures r.payload.body.Some? <==> exists j :: 0 <= j < |e.payload| && j % 2 == 0 && e.payload[j] == []
    ensures r.payload.body.Some? ==> r.payload.body.value == Concat(e.payload[BodyStart(e.payload, 0).value + 1..])
    ensures r.payload.incompleteField <==> |Header(e.payload)| % 2 == 1
  {
    var start := BodyStart(e.payload, 0);
    var header := Header(e.payload);
    var fields := Collect(Pairs(header));
    var duplicate := exists k :: k in fields && |fields[k]| > 1;
    var (contentEncoding, f1) := tags.take(ContentEncoding, fields);
    var (contentType, f2) := tags.take(ContentType, f1);
    var (delegate, f3) := tags.take(Delegate, f2);
    var (metadata, f4) := tags.take(Metadata, f3);
    var (metaprotocol, f5) := tags.take(Metaprotocol, f4);
    var (parents, f6) := tags.takeArray(Parent, f5);
    var (pointer, f7) := tags.take(PointerTag, f6);
    var (rune, f8) := tags.take(Rune, f7);
    var unrecognizedEven := exists k :: k in f8 && EvenFirst(k);
    var body := if start.Some? then Some(Concat(e.payload[start.value + 1..])) else None;
    Envelope(e.input, e.offset,
      Inscription(body, contentType, contentEncoding, delegate, duplicate, |header| % 2 == 1,
                  metadata, metaprotocol, parents, pointer, rune, unrecognizedEven),
      e.pushnum, e.stutter)
  }

  /** `duplicate_field` holds exactly when two header pairs share a tag. */
  lemma DuplicateFieldIff(e: RawEnvelope, tags: TagReader)
    ensures var pairs := Pairs(Header(e.payload));
      Parsed(e, tags).payload.duplicateField <==> exists i, j :: 0 <= i < j < |pairs| && pairs[i].0 == pairs[j].0
  {
    var pairs := Pairs(Header(e.payload));
    var fields := Collect(pairs);
    if exists k :: k in fields && |fields[k]| > 1 {
      var k :| k in fields && |fields[k]| > 1;
      CollectValues(pairs, k);
      TwoValues(pairs, k);
    }
    if exists i, j :: 0 <= i < j < |pairs| && pairs[i].0 == pairs[j].0 {
      var i, j :| 0 <= i < j < |pairs| && pairs[i].0 == pairs[j].0;
      var k := pairs[i].0;
      TwoValues(pairs, k);
      CollectValues(pairs, k);
      assert k in fields && |fields[k]| > 1;
    }
  }

  // ---------------------------------------------------------------------
  // `Inscription::from_parts` (structs.rs lines 30-54)
  // ---------------------------------------------------------------------

  /** One part is read as a taproot script of envelopes, whatever its
      flag; several parts are read in the "ord" push format, with the
      PUSHDATA2/4 lengths read as `reading` says. */
  function FromParts(parts: seq<Partials.Part>, vout: u32, tokenize: Bytes -> Tokens, tags: TagReader, reading: LengthReading): (r: ParsedInscription)
    requires |parts| > 0
    ensures |parts| == 1 ==> (r.NoInscription? <==> tokenize(parts[0].script).malformed)
    ensures |parts| == 1 ==> r.NoInscription? || r.Many?
    ensures |parts| == 1 && r.Many? ==> |r.inscriptions| == |FromTapscript(tokenize(parts[0].script), vout).value|
    ensures |parts| > 1 ==> !r.Many?
  {
    if |parts| == 1 then
      match FromTapscript(tokenize(parts[0].script), vout)
      case Err(_) => NoInscription
      case Ok(envelopes) => Many(seq(|envelopes|, i requires 0 <= i < |envelopes| => Parsed(envelopes[i], tags).payload))
    else Parse(seq(|parts|, i requires 0 <= i < |parts| => parts[i].script), reading)
  }
}

=== FILE: indexer.dfy ===
/** The block handler of src/inscriptions/indexer.rs: what one block queues
    for writing once prevouts and inscriptions are processed — the
    address map, the numbered history, the proof of history and the block
    info — and the early exits below the FIB height and for a block that
    holds only its coinbase. */
module Indexer {
  import opened Bytes
  import opened Wrappers
  import opened Locations
  import opened Keys
  import opened Tokens
  import Server
  import TokenParser
  import Reorg

  type Entry = Server.Entry

  /** `last_history_id += 1` on a `u64`. */
  function Inc(x: u64): (r: u64)
    ensures x < 0xFFFF_FFFF_FFFF_FFFF ==> r == x + 1
    ensures x == 0xFFFF_FFFF_FFFF_FFFF ==> r == 0
  {
    if x == 0xFFFF_FFFF_FFFF_FFFF then 0 else x + 1
  }

  // ---------------------------------------------------------------------
  // History numbering (the `flat_map` over processed actions)
  // ---------------------------------------------------------------------

  /** The history entries one action expands to, and the id counter after
      it. A send between two addresses takes two ids: the recipient's
      `Receive` the first, the sender's `Send` the second, and the sender's
      entry comes first. Every other action takes one id under its
      recipient. */
  function EntriesOf(a: HistoryTokenAction, height: u32, last: u64): (r: (seq<Entry>, u64))
    ensures FromTokenHistory(a).DbSend? ==>
      |r.0| == 2 && r.1 == Inc(Inc(last)) &&
      r.0[0] == (AddressTokenId(a.sender, a.tick, Inc(Inc(last))), HistoryValue(height, DbSend(a.amt, a.recipient, a.txid, a.vout))) &&
      r.0[1] == (AddressTokenId(a.recipient, a.tick, Inc(last)), HistoryValue(height, DbReceive(a.amt, a.sender, a.txid, a.vout)))
    ensures !FromTokenHistory(a).DbSend? ==>
      r == ([(AddressTokenId(a.recipient, a.tick, Inc(last)), HistoryValue(height, FromTokenHistory(a)))], Inc(last))
  {
    var id := Inc(last);
    var key := AddressTokenId(a.recipient, a.tick, id);
    var action := FromTokenHistory(a);
    match action
    case DbSend(amt, _, txid, vout) =>
      var sender := Sender(a).value;
      var id2 := Inc(id);
      ([(AddressTokenId(sender, a.tick, id2), HistoryValue(height, action)),
        (key, HistoryValue(height, DbReceive(amt, sender, txid, vout)))], id2)
    case _ => ([(key, HistoryValue(height, action))], id)
  }

  /** Whether an action is a send between two different addresses. */
  predicate Split(a: HistoryTokenAction) {
    FromTokenHistory(a).DbSend?
  }

  function SplitCount(actions: seq<HistoryTokenAction>): nat
    decreases |actions|
  {
    if |actions| == 0 then 0
    else (if Split(actions[0]) then 1 else 0) + SplitCount(actions[1..])
  }

  /** The entries of every action in order, numbered from `last`. */
  function Expand(actions: seq<HistoryTokenAction>, height: u32, last: u64): (r: (seq<Entry>, u64))
    ensures |r.0| == |actions| + SplitCount(actions)
    decreases |actions|
  {
    if |actions| == 0 then ([], last)
    else
      var (head, next) := EntriesOf(actions[0], height, last);
      var (tail, final) := Expand(actions[1..], height, next);
      (head + tail, final)
  }

  function Id(e: Entry): nat { e.0.id }

  /** The ids of `es` are exactly `lo + 1 .. hi`, each used once. */
  predicate Numbered(es: seq<Entry>, lo: nat, hi: nat) {
    hi == lo + |es| &&
    (forall i :: 0 <= i < |es| ==> lo < Id(es[i]) <= hi) &&
    (forall i, j :: 0 <= i < j < |es| ==> Id(es[i]) != Id(es[j]))
  }

  lemma EntriesNumbered(a: HistoryTokenAction, height: u32, last: u64)
    requires last + 2 < 0x1_0000_0000_0000_0000
    ensures Numbered(EntriesOf(a, height, last).0, last, EntriesOf(a, height, last).1)
  {
  }

  /** Unless the counter wraps, every id handed out is fresh: the ids are
      distinct, lie above the old last id and up to the new one, and the new
      one is the old plus the number of entries. */
  lemma {:induction false} ExpandNumbered(actions: seq<HistoryTokenAction>, height: u32, last: u64)
    requires last + 2 * |actions| < 0x1_0000_0000_0000_0000
    ensures Numbered(Expand(actions, height, last).0, last, Expand(actions, height, last).1)
    decreases |actions|
  {
    if |actions| > 0 {
      var (head, next) := EntriesOf(actions[0], height, last);
      EntriesNumbered(actions[0], height, last);
      ExpandNumbered(actions[1..], height, next);
      var (tail, final) := Expand(actions[1..], height, next);
      var es := head + tail;
      assert Expand(actions, height, last).0 == es;
      forall i | 0 <= i < |es|
        ensures last < Id(es[i]) <= final
      {
        if i >= |head| {
          assert es[i] == tail[i - |head|];
        }
      }
      forall i, j | 0 <= i < j < |es|
        ensures Id(es[i]) != Id(es[j])
      {
        if j < |head| {
        } else if i >= |head| {
          assert es[i] == tail[i - |head|] && es[j] == tail[j - |head|];
        } else {
          assert es[j] == tail[j - |head|];
        }
      }
    }
  }

  /** Every `Send` entry is followed by the `Receive` that mirrors it: the
      same amount and outpoint, each naming the other's address as its
      counter-party, and the receive's id just below the send's. */
  lemma {:induction false} SendsPaired(actions: seq<HistoryTokenAction>, height: u32, last: u64, i: nat)
    requires i < |Expand(actions, height, last).0|
    requires Expand(actions, height, last).0[i].1.action.DbSend?
    ensures i + 1 < |Expand(actions, height, last).0|
    ensures var es := Expand(actions, height, last).0;
      var send := es[i]; var recv := es[i + 1];
      recv.1.action == DbReceive(send.1.action.amt, send.0.address, send.1.action.txid, send.1.action.vout) &&
      send.1.action.recipient == recv.0.address &&
      send.0.token == recv.0.token && send.0.id == Inc(recv.0.id)
    decreases |actions|
  {
    var (head, next) := EntriesOf(actions[0], height, last);
    var (tail, final) := Expand(actions[1..], height, next);
    assert Expand(actions, height, last).0 == head + tail;
    FromTokenHistoryFacts(actions[0]);
    if i >= |head| {
      assert (head + tail)[i] == tail[i - |head|];
      SendsPaired(actions[1..], height, next, i - |head|);
      assert (head + tail)[i + 1] == tail[i - |head| + 1];
    }
  }

  /** `fullhash_to_load`: every recipient, and the sender of every send
      between two addresses. */
  function ToLoad(actions: seq<HistoryTokenAction>): (r: set<FullHash>)
    ensures forall i :: 0 <= i < |actions| ==> actions[i].recipient in r
    ensures forall i :: 0 <= i < |actions| && Split(actions[i]) ==> actions[i].sender in r
    ensures forall k :: k in r ==> exists i :: 0 <= i < |actions| && (k == actions[i].recipient || (Split(actions[i]) && k == actions[i].sender))
    decreases |actions|
  {
    if |actions| == 0 then {}
    else
      var a := actions[0];
      var rest := ToLoad(actions[1..]);
      assert forall i :: 1 <= i < |actions| ==> actions[i] == actions[1..][i - 1];
      {a.recipient} + (if Split(a) then {a.sender} else {}) + rest
  }

  /** The addresses an entry names — its key and its counter-party, if
      any — all lie in `loaded`. */
  predicate NamesIn(e: Entry, loaded: set<FullHash>) {
    e.0.address in loaded && (CounterParty(e.1.action).Some? ==> CounterParty(e.1.action).value in loaded)
  }

  /** The entries of one action name only its recipient and, for a send
      between two addresses, its sender. */
  lemma EntriesNamesLoaded(a: HistoryTokenAction, height: u32, last: u64, loaded: set<FullHash>)
    requires a.recipient in loaded && (Split(a) ==> a.sender in loaded)
    ensures AllNamesIn(EntriesOf(a, height, last).0, loaded)
  {
    FromTokenHistoryFacts(a);
  }

  /** The first action's addresses and the rest's are all to be loaded. */
  lemma ToLoadCons(actions: seq<HistoryTokenAction>)
    requires |actions| > 0
    ensures actions[0].recipient in ToLoad(actions)
    ensures Split(actions[0]) ==> actions[0].sender in ToLoad(actions)
    ensures ToLoad(actions[1..]) <= ToLoad(actions)
  {
  }

  /** Every entry of `es` names only addresses in `loaded`. */
  predicate AllNamesIn(es: seq<Entry>, loaded: set<FullHash>) {
    forall i :: 0 <= i < |es| ==> NamesIn(es[i], loaded)
  }

  lemma AllNamesInConcat(a: seq<Entry>, b: seq<Entry>, loaded: set<FullHash>)
    requires AllNamesIn(a, loaded) && AllNamesIn(b, loaded)
    ensures AllNamesIn(a + b, loaded)
  {
    forall i | 0 <= i < |a + b|
      ensures NamesIn((a + b)[i], loaded)
    {
      if i >= |a| {
        assert (a + b)[i] == b[i - |a|];
      }
    }
  }

  lemma AllNamesInGrow(es: seq<Entry>, small: set<FullHash>, big: set<FullHash>)
    requires small <= big && AllNamesIn(es, small)
    ensures AllNamesIn(es, big)
  {
  }

  /** Each address the numbered history names — as the key or as a
      counter-party — is one the handler asked to load. */
  lemma {:induction false} ExpandNamesLoaded(actions: seq<HistoryTokenAction>, height: u32, last: u64)
    ensures AllNamesIn(Expand(actions, height, last).0, ToLoad(actions))
    decreases |actions|
  {
    if |actions| > 0 {
      var first := EntriesOf(actions[0], height, last);
      var rest := Expand(actions[1..], height, first.1);
      assert Expand(actions, height, last).0 == first.0 + rest.0;
      ToLoadCons(actions);
      EntriesNamesLoaded(actions[0], height, last, ToLoad(actions));
      ExpandNamesLoaded(actions[1..], height, first.1);
      AllNamesInGrow(rest.0, ToLoad(actions[1..]), ToLoad(actions));
      AllNamesInConcat(first.0, rest.0, ToLoad(actions));
    }
  }

  // ---------------------------------------------------------------------
  // Addresses
  // ---------------------------------------------------------------------

  /** An output of the block as the address map reads it: its script and
      the address the block parser decoded from it, if any. */
  datatype BlockOutput = BlockOutput(scriptPubkey: Bytes, address: Option<string>)

  /** `outpoint_fullhash_to_address`: sha256 of the script of every output
      with an address; collecting into a map keeps the last output of a
      script. */
  function BlockAddresses(outs: seq<BlockOutput>, sha256: Bytes -> Hash32): map<FullHash, string>
    decreases |outs|
  {
    if |outs| == 0 then map[]
    else
      var init := BlockAddresses(outs[..|outs| - 1], sha256);
      var last := outs[|outs| - 1];
      if last.address.Some? then init[sha256(last.scriptPubkey) := last.address.value] else init
  }

  /** The map's keys are the script hashes of the outputs with an address. */
  lemma {:induction false} BlockAddressesKeys(outs: seq<BlockOutput>, sha256: Bytes -> Hash32, k: FullHash)
    ensures k in BlockAddresses(outs, sha256) <==>
      exists i :: 0 <= i < |outs| && outs[i].address.Some? && sha256(outs[i].scriptPubkey) == k
    decreases |outs|
  {
    if |outs| > 0 {
      var init := outs[..|outs| - 1];
      BlockAddressesKeys(init, sha256, k);
      if exists i :: 0 <= i < |outs| && outs[i].address.Some? && sha256(outs[i].scriptPubkey) == k {
        var i :| 0 <= i < |outs| && outs[i].address.Some? && sha256(outs[i].scriptPubkey) == k;
        if i < |init| {
          assert init[i] == outs[i];
        }
      }
      if exists i :: 0 <= i < |init| && init[i].address.Some? && sha256(init[i].scriptPubkey) == k {
        var i :| 0 <= i < |init| && init[i].address.Some? && sha256(init[i].scriptPubkey) == k;
        assert outs[i] == init[i];
      }
    }
  }

  /** Under a script hash the map holds the address of the last output with
      that script. */
  lemma {:induction false} BlockAddressesLastWins(outs: seq<BlockOutput>, sha256: Bytes -> Hash32, i: nat)
    requires i < |outs| && outs[i].address.Some?
    requires forall j :: i < j < |outs| && outs[j].address.Some? ==> sha256(outs[j].scriptPubkey) != sha256(outs[i].scriptPubkey)
    ensures sha256(outs[i].scriptPubkey) in BlockAddresses(outs, sha256)
    ensures BlockAddresses(outs, sha256)[sha256(outs[i].scriptPubkey)] == outs[i].address.value
    decreases |outs|
  {
    var init := outs[..|outs| - 1];
    var last := outs[|outs| - 1];
    if i < |outs| - 1 {
      assert init[i] == outs[i];
      forall j | i < j < |init| && init[j].address.Some?
        ensures sha256(init[j].scriptPubkey) != sha256(init[i].scriptPubkey)
      {
        assert init[j] == outs[j];
      }
      BlockAddressesLastWins(init, sha256, i);
    }
  }

  /** `rest_addresses`: the stored addresses of the hashes to load that the
      block does not know, chained with the block's own map. */
  function RestAddresses(toLoad: set<FullHash>, block: map<FullHash, string>, db: map<FullHash, string>): (r: map<FullHash, string>)
    ensures forall k :: k in r <==> k in block || (k in toLoad && k in db)
    ensures forall k :: k in block ==> r[k] == block[k]
    ensures forall k :: k !in block && k in toLoad && k in db ==> r[k] == db[k]
  {
    (map k | k in toLoad && k !in block && k in db :: db[k]) + block
  }

  /** When every hash to load is in the block or the store, the history
      names no address the proof could not resolve, and the two versions of
      `generate_history_hash` agree on it. */
  lemma RestAddressesCover(actions: seq<HistoryTokenAction>, height: u32, last: u64,
                           block: map<FullHash, string>, db: map<FullHash, string>)
    requires forall k :: k in ToLoad(actions) ==> k in block || k in db
    ensures Server.Covered(Expand(actions, height, last).0, RestAddresses(ToLoad(actions), block, db))
  {
    ExpandNamesLoaded(actions, height, last);
  }

  // ---------------------------------------------------------------------
  // `handle_block`
  // ---------------------------------------------------------------------

  /** What the handler reads from the store. */
  datatype Stored = Stored(
    lastHistoryId: Option<u64>,
    proofs: map<u32, Hash32>,
    addresses: map<FullHash, string>)

  /** The block, as far as the handler reads it. */
  datatype Block = Block(height: u32, hash: Hash32, created: u32, txCount: nat, outputs: seq<BlockOutput>)

  /** The token cache once inscriptions are parsed: `valid_transfers` as
      loaded before parsing, the cache after `load_tokens_data` (or its
      error), what the cache is given besides its state, and the reorg
      cache the undo entries go to. */
  datatype TokenStage = TokenStage(
    loadedTransfers: map<Location, (FullHash, TransferProtoDB)>,
    loaded: Result<TokenParser.TokenCache, string>,
    env: TokenParser.Env,
    reorg: Option<Reorg.ReorgCache>)

  /** `process_token_actions` run on the loaded cache. */
  function Processed(tokens: TokenStage): Result<(TokenParser.TokenCache, seq<HistoryTokenAction>, Option<Reorg.ReorgCache>), string>
    requires tokens.loaded.Ok?
  {
    TokenParser.ProcessTokenActions(tokens.loaded.value, tokens.env, tokens.reorg)
  }

  /** The writes `handle_block` itself queues (prevout and inscription
      data are queued by the modules that compute them). */
  datatype Write =
    | WFullHash(addresses: map<FullHash, string>)
    | WHistory(blockNumber: u32, lastHistoryId: u64, history: seq<Entry>)
    | WTokens(transfersToRemove: set<AddressLocation>, cache: TokenParser.TokenCache)
    | WInfo(blockNumber: u32, info: BlockInfo, proof: Hash32)

  datatype Event = NewBlock(height: u32, proof: Hash32, hash: Hash32)

  datatype Handled = Handled(writes: seq<Write>, events: seq<Event>, history: seq<Entry>, reorg: Option<Reorg.ReorgCache>)

  /** The proof the new one chains onto: the stored proof at `height - 1`
      (0 for the first block), or DEFAULT_HASH when there is none. */
  function PrevProof(db: Stored, height: u32, h: Server.Hashing): (r: Hash32)
    ensures height > 0 && height - 1 in db.proofs ==> r == db.proofs[height - 1]
    ensures height == 0 && 0 in db.proofs ==> r == db.proofs[0]
    ensures (if height == 0 then 0 else height - 1) !in db.proofs ==> r == Server.DefaultHash(h)
  {
    var prev: u32 := if height == 0 then 0 else height - 1;
    if prev in db.proofs then db.proofs[prev] else Server.DefaultHash(h)
  }

  /** `transfers_to_remove`: every valid transfer the cache loaded, keyed by
      its owner and location. */
  function TransfersToRemove(loaded: map<Location, (FullHash, TransferProtoDB)>): (r: set<AddressLocation>)
    ensures forall al :: al in r <==> al.location in loaded && loaded[al.location].0 == al.address
  {
    set l | l in loaded :: AddressLocation(loaded[l].0, l)
  }

  /** `handle_block` from the prevout step on. `prevoutsOk` is whether
      `process_prevouts` succeeded and `fib` the coin's FIB height. Past
      the early exits the token actions are processed on the loaded cache;
      the processed cache is what is written, and the history it returns is
      what is numbered and proved. */
  function HandleBlock(b: Block, db: Stored, prevoutsOk: bool, fib: Option<nat>, tokens: TokenStage,
                       h: Server.Hashing): (r: Result<Handled, string>)
    ensures !prevoutsOk ==> r.Err?
    ensures prevoutsOk && b.height < fib.UnwrapOr(0) ==>
      r == Ok(Handled([WFullHash(BlockAddresses(b.outputs, h.sha256))], [], [], tokens.reorg))
    ensures prevoutsOk && b.height >= fib.UnwrapOr(0) && b.txCount == 1 ==>
      var proof := h.sha256(PrevProof(db, b.height, h) + Server.DefaultHash(h));
      r == Ok(Handled([WFullHash(BlockAddresses(b.outputs, h.sha256)), WInfo(b.height, BlockInfo(b.hash, b.created), proof)],
                      [NewBlock(b.height, proof, b.hash)], [], tokens.reorg))
    ensures prevoutsOk && b.height >= fib.UnwrapOr(0) && b.txCount != 1 && r.Ok? ==>
      tokens.loaded.Ok? && Processed(tokens).Ok?
    ensures prevoutsOk && b.height >= fib.UnwrapOr(0) && b.txCount != 1 && tokens.loaded.Ok? && Processed(tokens).Ok? ==>
      var (cache, actions, reorg) := Processed(tokens).value;
      var (history, last) := Expand(actions, b.height, db.lastHistoryId.UnwrapOr(0));
      var rest := RestAddresses(ToLoad(actions), BlockAddresses(b.outputs, h.sha256), db.addresses);
      var proof := Server.GenerateHistoryHash(PrevProof(db, b.height, h), history, rest, h);
      (r.Ok? <==> proof.Ok?) &&
      (r.Ok? ==> (
        r.value.history == history && |r.value.writes| == 4 && r.value.reorg == reorg &&
        r.value.writes[1] == WHistory(b.height, last, history) &&
        r.value.writes[2] == WTokens(TransfersToRemove(tokens.loadedTransfers), cache) &&
        r.value.writes[3] == WInfo(b.height, BlockInfo(b.hash, b.created), proof.value) &&
        r.value.events == [NewBlock(b.height, proof.value, b.hash)]))
  {
    if !prevoutsOk then Err("prevouts could not be processed")
    else
      var addresses := BlockAddresses(b.outputs, h.sha256);
      var prev := PrevProof(db, b.height, h);
      var info := BlockInfo(b.hash, b.created);
      if b.height < fib.UnwrapOr(0) then Ok(Handled([WFullHash(addresses)], [], [], tokens.reorg))
      else if b.txCount == 1 then
        var proof := Server.GenerateHistoryHash(prev, [], map[], h).value;
        Ok(Handled([WFullHash(addresses), WInfo(b.height, info, proof)], [NewBlock(b.height, proof, b.hash)], [], tokens.reorg))
      else
        var toRemove := TransfersToRemove(tokens.loadedTransfers);
        var loaded :- tokens.loaded;
        var processed :- TokenParser.ProcessTokenActions(loaded, tokens.env, tokens.reorg);
        var (cache, actions, reorg) := processed;
        var (history, last) := Expand(actions, b.height, db.lastHistoryId.UnwrapOr(0));
        var rest := RestAddresses(ToLoad(actions), addresses, db.addresses);
        var proof :- Server.GenerateHistoryHash(prev, history, rest, h);
        Ok(Handled([WFullHash(addresses), WHistory(b.height, last, history), WTokens(toRemove, cache),
                    WInfo(b.height, info, proof)],
                   [NewBlock(b.height, proof, b.hash)], history, reorg))
  }

  /** A block handled in full stores, with its history, a last id that
      counts every entry, and (unless the counter wraps) every entry has a
      fresh id above the previously stored one. */
  lemma HandledIdsFresh(b: Block, db: Stored, fib: Option<nat>, tokens: TokenStage, h: Server.Hashing)
    requires b.height >= fib.UnwrapOr(0) && b.txCount != 1
    requires HandleBlock(b, db, true, fib, tokens, h).Ok?
    requires tokens.loaded.Ok? && Processed(tokens).Ok?
    requires db.lastHistoryId.UnwrapOr(0) + 2 * |Processed(tokens).value.1| < 0x1_0000_0000_0000_0000
    ensures var r := HandleBlock(b, db, true, fib, tokens, h).value;
      r.writes[1].WHistory? && r.writes[1].history == r.history &&
      Numbered(r.history, db.lastHistoryId.UnwrapOr(0), r.writes[1].lastHistoryId)
  {
    ExpandNumbered(Processed(tokens).value.1, b.height, db.lastHistoryId.UnwrapOr(0));
  }

  /** The token tables a handled block writes keep the ledger's
      invariants: when the loaded cache has every supply within its
      maximum, every token under its lower-cased tick and no account for
      the burn address, and the queued actions are well formed, so has the
      written cache, and its action queue is empty. */
  lemma HandledTokensGood(b: Block, db: Stored, fib: Option<nat>, tokens: TokenStage, h: Server.Hashing)
    requires b.height >= fib.UnwrapOr(0) && b.txCount != 1
    requires tokens.loaded.Ok? && TokenParser.Good(tokens.loaded.value, tokens.env)
    requires forall i :: 0 <= i < |tokens.loaded.value.actions| ==> TokenParser.ActionGood(tokens.env, tokens.loaded.value.actions[i])
    requires HandleBlock(b, db, true, fib, tokens, h).Ok?
    ensures var w := HandleBlock(b, db, true, fib, tokens, h).value.writes[2];
      w.WTokens? && TokenParser.Good(w.cache, tokens.env) && w.cache.actions == []
  {
    TokenParser.ProcessGood(tokens.loaded.value, tokens.env, tokens.reorg);
  }
}

=== FILE: inscription.dfy ===
/** Inscription payloads (src/inscriptions/structs.rs): the legacy "ord"
    format spread over the push data of one or more script-sigs, and the
    accessors of a parsed inscription. */
module Inscriptions {
  import opened Bytes
  import opened Wrappers
  import Utf8

  /** `PROTOCOL_ID`: the bytes of "ord". */
  const Ord: Bytes := [0x6f, 0x72, 0x64]

  datatype Inscription = Inscription(
    body: Option<Bytes>,
    contentType: Option<Bytes>,
    contentEncoding: Option<Bytes>,
    delegate: Option<Bytes>,
    duplicateField: bool,
    incompleteField: bool,
    metadata: Option<Bytes>,
    metaprotocol: Option<Bytes>,
    parents: seq<Bytes>,
    pointer: Option<Bytes>,
    rune: Option<Bytes>,
    unrecognizedEvenField: bool)

  datatype ParsedInscription =
    | NoInscription
    | Partial
    | Single(inscription: Inscription)
    | Many(inscriptions: seq<Inscription>)

  // ---------------------------------------------------------------------
  // Accessors
  // ---------------------------------------------------------------------

  /** The first eight bytes of `v`, zero-padded. */
  function Pad8(v: Bytes): (r: Bytes)
    ensures |r| == 8
    ensures forall i :: 0 <= i < 8 ==> r[i] == (if i < |v| then v[i] else 0)
  {
    if |v| >= 8 then v[..8] else v + Zeros(8 - |v|)
  }

  /** `Inscription::pointer` (lines 64-83). */
  function Pointer(i: Inscription): (r: Option<u64>)
    ensures r.Some? <==> i.pointer.Some? && forall k :: 8 <= k < |i.pointer.value| ==> i.pointer.value[k] == 0
  {
    match i.pointer
    case None => None
    case Some(v) =>
      if exists k :: 8 <= k < |v| && v[k] != 0 then None
      else
        LeValueBound(Pad8(v));
        assert Pow256(8) == 0x1_0000_0000_0000_0000;
        Some(LeValue(Pad8(v)))
  }

  lemma {:induction false} LeAppend(a: Bytes, b: Bytes)
    ensures LeValue(a + b) == LeValue(a) + Pow256(|a|) * LeValue(b)
  {
    if |a| > 0 {
      var ab := a + b;
      assert ab[0] == a[0] && ab[1..] == a[1..] + b;
      LeAppend(a[1..], b);
      var x, y, p := LeValue(a[1..]), LeValue(b), Pow256(|a| - 1);
      var v := LeValue(ab[1..]);
      assert v == x + p * y;
      assert LeValue(ab) == a[0] + 256 * v;
      assert LeValue(a) == a[0] + 256 * x;
      assert Pow256(|a|) == 256 * p;
      MulDistrib(a[0], x, p, y, v);
    } else {
      assert a + b == b;
    }
  }

  lemma MulDistrib(a0: nat, x: nat, p: nat, y: nat, v: nat)
    requires v == x + p * y
    ensures a0 + 256 * v == (a0 + 256 * x) + (256 * p) * y
  {
  }

  lemma {:induction false} LeOfZeros(z: Bytes)
    requires forall i :: 0 <= i < |z| ==> z[i] == 0
    ensures LeValue(z) == 0
  {
    if |z| > 0 {
      LeOfZeros(z[1..]);
    }
  }

  /** The pointer is the little-endian value of the whole field: padding a
      short field and ignoring zero bytes past the eighth change nothing. */
  lemma PointerIsLeValue(i: Inscription)
    requires Pointer(i).Some?
    ensures Pointer(i).value == LeValue(i.pointer.value)
  {
    var v := i.pointer.value;
    if |v| >= 8 {
      assert v == v[..8] + v[8..];
      LeOfZeros(v[8..]);
      LeAppend(v[..8], v[8..]);
    } else {
      LeOfZeros(Zeros(8 - |v|));
      LeAppend(v, Zeros(8 - |v|));
    }
  }

  /** A pointer written as at most eight little-endian bytes reads back. */
  lemma PointerOfLeBytes(i: Inscription, n: nat, k: nat)
    requires k <= 8 && n < Pow256(k)
    requires i.pointer == Some(LeBytes(n, k))
    ensures Pointer(i) == Some(n)
  {
    PointerIsLeValue(i);
    LeRoundTrip(n, k);
  }

  /** `Inscription::content_type` (lines 60-62): the field when it is
      well-formed UTF-8. */
  function ContentType(i: Inscription): (r: Option<string>)
    ensures r.Some? <==> i.contentType.Some? && Utf8.Valid(i.contentType.value)
    ensures r.Some? ==> Utf8.Encode(r.value) == i.contentType.value
  {
    match i.contentType
    case None => None
    case Some(b) =>
      var d := Utf8.Decode(b);
      if d.Some? then Utf8.EncodeDecode(b); d else None
  }

  // ---------------------------------------------------------------------
  // Push data (`decode_push_datas`, lines 204-283)
  // ---------------------------------------------------------------------

  /** How the length of a PUSHDATA2 or PUSHDATA4 push is read. */
  datatype LengthReading =
    | AsWritten     // from the opcode byte and the bytes after it, high first
    | LittleEndian  // from the 2 or 4 bytes after the opcode, low first

  /** The length field of PUSHDATA2 (`width` 2) or PUSHDATA4 (`width` 4).
      The reading as written is the little-endian value of the window one
      byte too early: it takes the opcode byte as the lowest byte and drops
      the last length byte. */
  function PushDataLength(bs: Bytes, width: nat, reading: LengthReading): (r: nat)
    requires (width == 2 || width == 4) && |bs| > width
    ensures reading == LittleEndian ==> r == LeValue(bs[1..1 + width])
    ensures reading == AsWritten ==> r == LeValue(bs[..width])
  {
    match reading
    case LittleEndian => LeValue(bs[1..1 + width])
    case AsWritten =>
      LeWindow(bs, width);
      var b0: int, b1: int, b2: int, b3: int := bs[0], bs[1], if width == 4 then bs[2] else 0, if width == 4 then bs[3] else 0;
      if width == 2 then b1 * 0x100 + b0
      else b3 * 0x100_0000 + b2 * 0x1_0000 + b1 * 0x100 + b0
  }

  lemma LeWindow(bs: Bytes, width: nat)
    requires (width == 2 || width == 4) && |bs| > width
    ensures width == 2 ==> LeValue(bs[..width]) == bs[1] as int * 0x100 + bs[0] as int
    ensures width == 4 ==> LeValue(bs[..width]) == bs[3] as int * 0x100_0000 + bs[2] as int * 0x1_0000 + bs[1] as int * 0x100 + bs[0] as int
  {
    if width == 2 {
      assert LeValue([bs[1]]) == bs[1] as int by {
        assert [bs[1]][1..] == [];
      }
      assert bs[..2][1..] == [bs[1]];
    } else {
      assert LeValue([bs[3]]) == bs[3] as int by {
        assert [bs[3]][1..] == [];
      }
      assert bs[..4][1..][1..][1..] == [bs[3]];
      assert LeValue(bs[..4][1..][1..]) == bs[2] as int + 256 * bs[3] as int;
      assert LeValue(bs[..4][1..]) == bs[1] as int + 256 * (bs[2] as int + 256 * bs[3] as int);
    }
  }

  /** The push at the front of `bs` and the number of bytes it takes, or
      `None` for a truncated push or a non-push opcode. */
  function NextPush(bs: Bytes, reading: LengthReading): (r: Option<(Bytes, nat)>)
    requires |bs| > 0
    ensures r.Some? ==> 0 < r.value.1 <= |bs|
  {
    var op: int := bs[0];
    if op == 0 then Some(([], 1))
    else if 81 <= op <= 96 then Some(([op - 80], 1))
    else if 1 <= op <= 75 then
      if |bs| < 1 + op then None else Some((bs[1..1 + op], 1 + op))
    else if op == 76 then
      if |bs| < 2 then None
      else
        var len: int := bs[1];
        if |bs| < 2 + len then None else Some((bs[2..2 + len], 2 + len))
    else if op == 77 then
      if |bs| < 3 then None
      else
        var len := PushDataLength(bs, 2, reading);
        if |bs| < 3 + len then None else Some((bs[3..3 + len], 3 + len))
    else if op == 78 then
      if |bs| < 5 then None
      else
        var len := PushDataLength(bs, 4, reading);
        if |bs| < 5 + len then None else Some((bs[5..5 + len], 5 + len))
    else None
  }

  /** The pushes of a whole script, `None` as soon as one fails. */
  function Pushes(bs: Bytes, reading: LengthReading): (r: Option<seq<Bytes>>)
    ensures r.Some? ==> |r.value| <= |bs|
    ensures r.Some? ==> (|r.value| == 0 <==> |bs| == 0)
    decreases |bs|
  {
    if |bs| == 0 then Some([])
    else match NextPush(bs, reading)
      case None => None
      case Some((d, n)) =>
        match Pushes(bs[n..], reading)
        case None => None
        case Some(rest) => Some([d] + rest)
  }

  function Prepend(acc: seq<Bytes>, o: Option<seq<Bytes>>): Option<seq<Bytes>> {
    match o
    case None => None
    case Some(xs) => Some(acc + xs)
  }

  /** One push read, then the rest of the script. */
  lemma PushesStep(bs: Bytes, reading: LengthReading, d: Bytes, n: nat)
    requires |bs| > 0 && NextPush(bs, reading) == Some((d, n))
    ensures Pushes(bs, reading) == Prepend([d], Pushes(bs[n..], reading))
  {
  }

  lemma PrependCons(d: Bytes, xs: seq<Bytes>, o: Option<seq<Bytes>>)
    ensures Prepend([d], Prepend(xs, o)) == Prepend([d] + xs, o)
  {
    if o.Some? {
      assert [d] + (xs + o.value) == [d] + xs + o.value;
    }
  }

  lemma PrependEmpty(o: Option<seq<Bytes>>)
    ensures Prepend([], o) == o
  {
    if o.Some? {
      assert [] + o.value == o.value;
    }
  }

  lemma PrependAssoc(acc: seq<Bytes>, d: Bytes, o: Option<seq<Bytes>>)
    ensures Prepend(acc, Prepend([d], o)) == Prepend(acc + [d], o)
  {
    if o.Some? {
      assert acc + ([d] + o.value) == acc + [d] + o.value;
    }
  }

  /** The `while !bytes.is_empty()` loop. */
  method DecodePushDatas(script: Bytes, reading: LengthReading) returns (r: Option<seq<Bytes>>)
    ensures r == Pushes(script, reading)
  {
    var pos := 0;
    var acc: seq<Bytes> := [];
    assert script[0..] == script;
    PrependEmpty(Pushes(script, reading));
    while pos < |script|
      invariant 0 <= pos <= |script|
      invariant Pushes(script, reading) == Prepend(acc, Pushes(script[pos..], reading))
      decreases |script| - pos
    {
      var bytes := script[pos..];
      var next := NextPush(bytes, reading);
      if next.None? {
        return None;
      }
      var (d, n) := next.value;
      assert bytes[n..] == script[pos + n..];
      PrependAssoc(acc, d, Pushes(bytes[n..], reading));
      acc := acc + [d];
      pos := pos + n;
    }
    assert Pushes(script[pos..], reading) == Some([]);
    assert acc + [] == acc;
    return Some(acc);
  }

  /** The shortest push of `b` a script writer would emit, with the
      little-endian lengths of Bitcoin script. */
  function EncodePush(b: Bytes): (r: Bytes)
    requires |b| < 0x1_0000_0000
    ensures |r| > |b|
  {
    if |b| == 0 then [0]
    else if |b| <= 75 then [|b|] + b
    else if |b| <= 0xFF then [76, |b|] + b
    else if |b| <= 0xFFFF then [77] + LeBytes(|b|, 2) + b
    else [78] + LeBytes(|b|, 4) + b
  }

  predicate PushesFit(ps: seq<Bytes>) {
    forall i :: 0 <= i < |ps| ==> |ps[i]| < 0x1_0000_0000
  }

  predicate Short(ps: seq<Bytes>) {
    forall i :: 0 <= i < |ps| ==> |ps[i]| <= 0xFF
  }

  function EncodePushes(ps: seq<Bytes>): Bytes
    requires PushesFit(ps)
  {
    if |ps| == 0 then [] else EncodePush(ps[0]) + EncodePushes(ps[1..])
  }

  lemma Slices(h: Bytes, b: Bytes, rest: Bytes)
    ensures var e := h + b + rest;
      && e[|h|..|h| + |b|] == b
      && e[|h| + |b|..] == rest
  {
  }

  /** A single encoded push is read back whole. */
  lemma NextPushOfEncoded(b: Bytes, rest: Bytes, reading: LengthReading)
    requires |b| < 0x1_0000_0000
    requires reading == LittleEndian || |b| <= 0xFF
    ensures NextPush(EncodePush(b) + rest, reading) == Some((b, |EncodePush(b)|))
  {
    var e := EncodePush(b) + rest;
    if |b| == 0 {
    } else if |b| <= 75 {
      Slices([|b|], b, rest);
    } else if |b| <= 0xFF {
      Slices([76, |b|], b, rest);
    } else if |b| <= 0xFFFF {
      var h := [77] + LeBytes(|b|, 2);
      Slices(h, b, rest);
      assert e[1..3] == LeBytes(|b|, 2);
      LeRoundTrip(|b|, 2);
    } else {
      var h := [78] + LeBytes(|b|, 4);
      Slices(h, b, rest);
      assert e[1..5] == LeBytes(|b|, 4);
      assert Pow256(4) == 0x1_0000_0000;
      LeRoundTrip(|b|, 4);
    }
  }

  /** Decoding the encoding of a list of pushes gives the list back; with
      the lengths read as written this holds only while no push needs
      PUSHDATA2 or PUSHDATA4. */
  lemma {:induction false} PushesRoundTrip(ps: seq<Bytes>, reading: LengthReading)
    requires PushesFit(ps)
    requires reading == LittleEndian || Short(ps)
    ensures Pushes(EncodePushes(ps), reading) == Some(ps)
  {
    if |ps| > 0 {
      var e := EncodePushes(ps);
      var head := EncodePush(ps[0]);
      assert e == head + EncodePushes(ps[1..]);
      NextPushOfEncoded(ps[0], EncodePushes(ps[1..]), reading);
      assert e[|head|..] == EncodePushes(ps[1..]);
      PushesRoundTrip(ps[1..], reading);
      assert [ps[0]] + ps[1..] == ps;
    }
  }

  /** A one-byte PUSHDATA2 push: the length the code reads is
      `1 << 8 | 77 = 333`, so the script is rejected as truncated, where the
      little-endian length 1 reads the push `[0xAA]`. */
  lemma PushData2AsWrittenRejects()
    ensures Pushes([77, 1, 0, 0xAA], AsWritten) == None
    ensures Pushes([77, 1, 0, 0xAA], LittleEndian) == Some([[0xAA]])
  {
    var s: Bytes := [77, 1, 0, 0xAA];
    assert PushDataLength(s, 2, AsWritten) == 333;
    assert LeBytes(0, 0) == [];
    assert LeBytes(0, 1) == [0];
    assert LeBytes(1, 2) == [1, 0];
    assert s[1..3] == LeBytes(1, 2);
    LeRoundTrip(1, 2);
    assert PushDataLength(s, 2, LittleEndian) == 1;
    assert s[3..4] == [0xAA];
    assert NextPush(s, LittleEndian) == Some(([0xAA], 4));
    assert s[4..] == [];
    assert Pushes(s[4..], LittleEndian) == Some([]);
    var d: Bytes := [0xAA];
    assert [d] + [] == [d];
    assert Pushes(s, LittleEndian) == Some([d]);
  }

  // ---------------------------------------------------------------------
  // Numbers (`push_data_to_number`, lines 285-303)
  // ---------------------------------------------------------------------

  /** The little-endian value of at most eight bytes. */
  function PushNumber(data: Bytes): (r: Option<u64>)
    ensures r.Some? <==> |data| <= 8
  {
    if |data| > 8 then None
    else
      LeValueBound(data);
      assert Pow256(|data|) <= Pow256(8) == 0x1_0000_0000_0000_0000 by { PowMono(|data|, 8); }
      Some(LeValue(data))
  }

  lemma {:induction false} PowMono(a: nat, b: nat)
    requires a <= b
    ensures Pow256(a) <= Pow256(b)
    decreases b
  {
    if a < b {
      PowMono(a, b - 1);
    }
  }

  lemma {:induction false} LeSnoc(bs: Bytes, i: nat)
    requires i < |bs|
    ensures LeValue(bs[..i + 1]) == LeValue(bs[..i]) + bs[i] * Pow256(i)
  {
    assert bs[..i + 1] == bs[..i] + [bs[i]];
    LeAppend(bs[..i], [bs[i]]);
    assert [bs[i]][1..] == [];
  }

  /** The shift-and-add loop computes the little-endian value; empty data
      is zero and more than eight bytes is refused. */
  method PushDataToNumber(data: Bytes) returns (r: Option<u64>)
    ensures r.Some? <==> |data| <= 8
    ensures r.Some? ==> r.value == LeValue(data)
    ensures |data| == 0 ==> r == Some(0)
  {
    if |data| == 0 {
      return Some(0);
    }
    if |data| > 8 {
      return None;
    }
    var n := 0;
    var i := 0;
    while i < |data|
      invariant 0 <= i <= |data|
      invariant n == LeValue(data[..i])
      decreases |data| - i
    {
      LeSnoc(data, i);
      n := n + data[i] * Pow256(i);
      i := i + 1;
    }
    assert data[..i] == data;
    LeValueBound(data);
    PowMono(|data|, 8);
    assert Pow256(8) == 0x1_0000_0000_0000_0000;
    return Some(n);
  }

  // ---------------------------------------------------------------------
  // The "ord" format (`InscriptionParser::parse`, lines 101-200)
  // ---------------------------------------------------------------------

  /** What a complete legacy inscription carries: a content type and a
      body, every other field empty. */
  function Simple(contentType: Bytes, body: Bytes): Inscription {
    Inscription(Some(body), Some(contentType), None, None, false, false, None, None, [], None, None, false)
  }

  /** The inner loop: (counter, data) pairs are consumed while the counter
      is the piece expected next; returns the pushes left, the pieces still
      missing and the body so far. */
  function TakeChunks(pushes: seq<Bytes>, n: nat, body: Bytes): (r: (seq<Bytes>, nat, Bytes))
    ensures r.1 <= n
    ensures |body| <= |r.2| && r.2[..|body|] == body
    decreases |pushes|
  {
    if n == 0 then (pushes, 0, body)
    else if |pushes| < 2 then (pushes, n, body)
    else match PushNumber(pushes[0])
      case None => (pushes, n, body)
      case Some(next) =>
        if next != n - 1 then (pushes, n, body)
        else
          var r := TakeChunks(pushes[2..], n - 1, body + pushes[1]);
          assert r.2[..|body|] == (body + pushes[1])[..|body|];
          r
  }

  /** The outer loop: `scripts[0]` is the script whose `pushes` are being
      read; a later script must open with the next expected counter. */
  function ReadPieces(scripts: seq<Bytes>, pushes: seq<Bytes>, n: nat, body: Bytes, contentType: Bytes, reading: LengthReading): (r: ParsedInscription)
    requires |scripts| > 0
    ensures r.Single? ==> r.inscription.body.Some? && r.inscription == Simple(contentType, r.inscription.body.value)
    ensures r.Single? ==> |body| <= |r.inscription.body.value| && r.inscription.body.value[..|body|] == body
    ensures r.Many? == false
    decreases |scripts|
  {
    var (_, m, b) := TakeChunks(pushes, n, body);
    if m == 0 then Single(Simple(contentType, b))
    else if |scripts| <= 1 then Partial
    else match Pushes(scripts[1], reading)
      case None => NoInscription
      case Some(next) =>
        if |next| < 2 then NoInscription
        else match PushNumber(next[0])
          case None => NoInscription
          case Some(k) =>
            if k != m - 1 then NoInscription
            else
              var r := ReadPieces(scripts[1..], next, m, b, contentType, reading);
              assert r.Single? ==> r.inscription.body.value[..|body|] == r.inscription.body.value[..|b|][..|body|];
              r
  }

  /** `InscriptionParser::parse`: the first script opens with "ord", the
      number of pieces and the content type. `reading` says how the pushes
      of every script are decoded; the indexer's own is `AsWritten`. */
  function Parse(scripts: seq<Bytes>, reading: LengthReading): (r: ParsedInscription)
    requires |scripts| > 0
    ensures r != NoInscription ==>
      && Pushes(scripts[0], reading).Some?
      && |Pushes(scripts[0], reading).value| >= 3
      && Pushes(scripts[0], reading).value[0] == Ord
      && PushNumber(Pushes(scripts[0], reading).value[1]).Some?
      && PushNumber(Pushes(scripts[0], reading).value[1]).value > 0
    ensures r.Single? ==> r.inscription.contentType == Some(Pushes(scripts[0], reading).value[2])
    ensures !r.Many?
  {
    match Pushes(scripts[0], reading)
    case None => NoInscription
    case Some(pds) =>
      if |pds| < 3 || pds[0] != Ord then NoInscription
      else match PushNumber(pds[1])
        case None => NoInscription
        case Some(n) =>
          if n == 0 then NoInscription
          else ReadPieces(scripts, pds[3..], n, [], pds[2], reading)
  }

  /** The parse after a first script that opens correctly. */
  lemma ParseStep(scripts: seq<Bytes>, reading: LengthReading, pds: seq<Bytes>, n: nat)
    requires |scripts| > 0 && Pushes(scripts[0], reading) == Some(pds)
    requires |pds| >= 3 && pds[0] == Ord && PushNumber(pds[1]) == Some(n) && n > 0
    ensures Parse(scripts, reading) == ReadPieces(scripts, pds[3..], n, [], pds[2], reading)
  {
  }

  /** Pieces that complete the count finish the parse. */
  lemma ReadPiecesDone(scripts: seq<Bytes>, pushes: seq<Bytes>, n: nat, body: Bytes, contentType: Bytes, reading: LengthReading, rest: seq<Bytes>, b: Bytes)
    requires |scripts| > 0 && TakeChunks(pushes, n, body) == (rest, 0, b)
    ensures ReadPieces(scripts, pushes, n, body, contentType, reading) == Single(Simple(contentType, b))
  {
  }

  lemma ReadPiecesNext(scripts: seq<Bytes>, pushes: seq<Bytes>, n: nat, body: Bytes, contentType: Bytes, reading: LengthReading,
                       rest: seq<Bytes>, m: nat, b: Bytes, next: seq<Bytes>)
    requires |scripts| > 1 && TakeChunks(pushes, n, body) == (rest, m, b) && m > 0
    requires Pushes(scripts[1], reading) == Some(next) && |next| >= 2 && PushNumber(next[0]) == Some(m - 1)
    ensures ReadPieces(scripts, pushes, n, body, contentType, reading) == ReadPieces(scripts[1..], next, m, b, contentType, reading)
  {
  }

  /** The counter push of piece `k`: eight little-endian bytes. */
  function Counter(k: nat): Bytes
    requires k < 0x1_0000_0000_0000_0000
  {
    LeBytes(k, 8)
  }

  lemma CounterReads(k: nat)
    requires k < 0x1_0000_0000_0000_0000
    ensures PushNumber(Counter(k)) == Some(k)
  {
    assert Pow256(8) == 0x1_0000_0000_0000_0000;
    LeRoundTrip(k, 8);
  }

  /** Pieces `bodies`, numbered from `top - 1` downwards. */
  function Counted(bodies: seq<Bytes>, top: nat): (r: seq<Bytes>)
    requires |bodies| <= top < 0x1_0000_0000_0000_0000
    ensures |r| == 2 * |bodies|
    ensures PushesFit(bodies) ==> PushesFit(r)
    ensures Short(bodies) ==> Short(r)
  {
    if |bodies| == 0 then [] else [Counter(top - 1), bodies[0]] + Counted(bodies[1..], top - 1)
  }

  function Concat(bodies: seq<Bytes>): Bytes {
    if |bodies| == 0 then [] else bodies[0] + Concat(bodies[1..])
  }

  lemma TakeOne(c: Bytes, d: Bytes, rest: seq<Bytes>, n: nat, body: Bytes)
    requires n > 0 && PushNumber(c) == Some(n - 1)
    ensures TakeChunks([c, d] + rest, n, body) == TakeChunks(rest, n - 1, body + d)
  {
    assert ([c, d] + rest)[2..] == rest;
  }

  /** Correctly numbered pieces are all taken, in order. */
  lemma {:induction false} TakeCounted(bodies: seq<Bytes>, top: nat, rest: seq<Bytes>, body: Bytes)
    requires |bodies| <= top < 0x1_0000_0000_0000_0000
    ensures TakeChunks(Counted(bodies, top) + rest, top, body) == TakeChunks(rest, top - |bodies|, body + Concat(bodies))
  {
    if |bodies| == 0 {
      assert Counted(bodies, top) + rest == rest;
      assert body + Concat(bodies) == body;
    } else {
      TakeCounted(bodies[1..], top - 1, rest, body + bodies[0]);
      TakeCountedStep(bodies, top, rest, body);
    }
  }

  /** The first numbered piece is taken, then the rest as the tail's
      pieces say. */
  lemma TakeCountedStep(bodies: seq<Bytes>, top: nat, rest: seq<Bytes>, body: Bytes)
    requires 0 < |bodies| <= top < 0x1_0000_0000_0000_0000
    requires TakeChunks(Counted(bodies[1..], top - 1) + rest, top - 1, body + bodies[0]) ==
             TakeChunks(rest, top - |bodies|, body + bodies[0] + Concat(bodies[1..]))
    ensures TakeChunks(Counted(bodies, top) + rest, top, body) == TakeChunks(rest, top - |bodies|, body + Concat(bodies))
  {
    var tail := Counted(bodies[1..], top - 1) + rest;
    CountedCons(bodies, top, rest);
    CounterReads(top - 1);
    TakeOne(Counter(top - 1), bodies[0], tail, top, body);
    ConcatCons(body, bodies);
  }

  lemma CountedCons(bodies: seq<Bytes>, top: nat, rest: seq<Bytes>)
    requires 0 < |bodies| <= top < 0x1_0000_0000_0000_0000
    ensures Counted(bodies, top) + rest == [Counter(top - 1), bodies[0]] + (Counted(bodies[1..], top - 1) + rest)
  {
  }

  lemma ConcatCons(body: Bytes, bodies: seq<Bytes>)
    requires 0 < |bodies|
    ensures body + bodies[0] + Concat(bodies[1..]) == body + Concat(bodies)
  {
  }

  /** The first script of an inscription of `total` pieces carrying the
      pieces `bodies`. */
  function Opening(contentType: Bytes, total: nat, bodies: seq<Bytes>): (r: seq<Bytes>)
    requires |bodies| <= total < 0x1_0000_0000_0000_0000
    ensures |contentType| < 0x1_0000_0000 && PushesFit(bodies) ==> PushesFit(r)
    ensures |contentType| <= 0xFF && Short(bodies) ==> Short(r)
  {
    [Ord, Counter(total), contentType] + Counted(bodies, total)
  }

  lemma OpeningFits(contentType: Bytes, total: nat, bodies: seq<Bytes>, reading: LengthReading)
    requires |bodies| <= total < 0x1_0000_0000_0000_0000
    requires |contentType| < 0x1_0000_0000 && PushesFit(bodies)
    requires reading == LittleEndian || (|contentType| <= 0xFF && Short(bodies))
    ensures PushesFit(Opening(contentType, total, bodies))
    ensures Pushes(EncodePushes(Opening(contentType, total, bodies)), reading) == Some(Opening(contentType, total, bodies))
  {
    PushesRoundTrip(Opening(contentType, total, bodies), reading);
  }

  /** An inscription whose pieces all sit in one script parses to its
      content type and the pieces joined in order. */
  lemma OneScriptParses(contentType: Bytes, bodies: seq<Bytes>, reading: LengthReading)
    requires 0 < |bodies| < 0x1_0000_0000_0000_0000
    requires |contentType| < 0x1_0000_0000 && PushesFit(bodies)
    requires reading == LittleEndian || (|contentType| <= 0xFF && Short(bodies))
    ensures Parse([EncodePushes(Opening(contentType, |bodies|, bodies))], reading) == Single(Simple(contentType, Concat(bodies)))
  {
    OpeningReads(contentType, |bodies|, bodies, [EncodePushes(Opening(contentType, |bodies|, bodies))], reading);
  }

  /** After the opening script's pieces are taken, the parse continues
      with the pieces still missing and the body joined so far. */
  lemma OpeningReads(contentType: Bytes, total: nat, first: seq<Bytes>, scripts: seq<Bytes>, reading: LengthReading)
    requires 0 < total < 0x1_0000_0000_0000_0000 && |first| <= total
    requires |contentType| < 0x1_0000_0000 && PushesFit(first)
    requires reading == LittleEndian || (|contentType| <= 0xFF && Short(first))
    requires |scripts| > 0 && scripts[0] == EncodePushes(Opening(contentType, total, first))
    ensures Parse(scripts, reading) == ReadPieces(scripts, Counted(first, total), total, [], contentType, reading)
    ensures TakeChunks(Counted(first, total), total, []) == ([], total - |first|, Concat(first))
  {
    var pds := Opening(contentType, total, first);
    OpeningFits(contentType, total, first, reading);
    assert PushNumber(pds[1]) == Some(total) by {
      CounterReads(total);
    }
    assert pds[3..] == Counted(first, total);
    ParseStep(scripts, reading, pds, total);
    OpeningTakes(first, total);
  }

  lemma OpeningTakes(first: seq<Bytes>, total: nat)
    requires |first| <= total < 0x1_0000_0000_0000_0000
    ensures TakeChunks(Counted(first, total), total, []) == ([], total - |first|, Concat(first))
  {
    assert Counted(first, total) + [] == Counted(first, total);
    TakeCounted(first, total, [], []);
    assert [] + Concat(first) == Concat(first);
  }

  /** With pieces still missing and no further script, the parse is a
      partial inscription. */
  lemma OpeningAlonePartial(contentType: Bytes, total: nat, first: seq<Bytes>, reading: LengthReading)
    requires |first| < total < 0x1_0000_0000_0000_0000
    requires |contentType| < 0x1_0000_0000 && PushesFit(first)
    requires reading == LittleEndian || (|contentType| <= 0xFF && Short(first))
    ensures Parse([EncodePushes(Opening(contentType, total, first))], reading) == Partial
  {
    OpeningReads(contentType, total, first, [EncodePushes(Opening(contentType, total, first))], reading);
  }

  /** A later script holding exactly the missing pieces completes the body. */
  lemma ClosingCompletes(scripts: seq<Bytes>, second: seq<Bytes>, body: Bytes, contentType: Bytes, reading: LengthReading)
    requires 0 < |second| < 0x1_0000_0000_0000_0000 && PushesFit(second)
    requires |scripts| == 2 && scripts[1] == EncodePushes(Counted(second, |second|))
    requires reading == LittleEndian || Short(second)
    ensures ReadPieces(scripts, [], |second|, body, contentType, reading) == Single(Simple(contentType, body + Concat(second)))
  {
    var next := Counted(second, |second|);
    var m := |second|;
    ClosingScript(second, body, reading);
    ReadPiecesNext(scripts, [], m, body, contentType, reading, [], m, body, next);
    ReadPiecesDone(scripts[1..], next, m, body, contentType, reading, [], body + Concat(second));
  }

  /** The closing script decodes to its numbered pieces, opens with the
      counter expected next and yields all of them. */
  lemma ClosingScript(second: seq<Bytes>, body: Bytes, reading: LengthReading)
    requires 0 < |second| < 0x1_0000_0000_0000_0000 && PushesFit(second)
    requires reading == LittleEndian || Short(second)
    ensures var next := Counted(second, |second|);
      && Pushes(EncodePushes(next), reading) == Some(next)
      && |next| >= 2 && PushNumber(next[0]) == Some(|second| - 1)
      && TakeChunks(next, |second|, body) == ([], 0, body + Concat(second))
  {
    var next := Counted(second, |second|);
    PushesRoundTrip(next, reading);
    assert next[0] == Counter(|second| - 1);
    CounterReads(|second| - 1);
    assert next + [] == next;
    TakeCounted(second, |second|, [], body);
  }

  /** Split over two scripts, an inscription parses to all its pieces
      joined in order. */
  lemma TwoScriptsParse(contentType: Bytes, first: seq<Bytes>, second: seq<Bytes>, reading: LengthReading)
    requires 0 < |second| && |first| + |second| < 0x1_0000_0000_0000_0000
    requires |contentType| < 0x1_0000_0000 && PushesFit(first) && PushesFit(second)
    requires reading == LittleEndian || (|contentType| <= 0xFF && Short(first) && Short(second))
    ensures Parse([EncodePushes(Opening(contentType, |first| + |second|, first)), EncodePushes(Counted(second, |second|))], reading)
      == Single(Simple(contentType, Concat(first) + Concat(second)))
  {
    var total := |first| + |second|;
    var scripts := [EncodePushes(Opening(contentType, total, first)), EncodePushes(Counted(second, |second|))];
    OpeningReads(contentType, total, first, scripts, reading);
    ClosingCompletes(scripts, second, Concat(first), contentType, reading);
  }

  /** A second script whose first counter is not the next expected one
      ends the parse with nothing. */
  lemma MismatchedCounterRejects(contentType: Bytes, first: seq<Bytes>, missing: nat, k: nat, data: Bytes, reading: LengthReading)
    requires 0 < missing && |first| + missing < 0x1_0000_0000_0000_0000
    requires |contentType| < 0x1_0000_0000 && PushesFit(first)
    requires reading == LittleEndian || (|contentType| <= 0xFF && Short(first) && |data| <= 0xFF)
    requires k < 0x1_0000_0000_0000_0000 && k != missing - 1 && |data| < 0x1_0000_0000
    ensures Parse([EncodePushes(Opening(contentType, |first| + missing, first)), EncodePushes([Counter(k), data])], reading) == NoInscription
  {
    var total := |first| + missing;
    var scripts := [EncodePushes(Opening(contentType, total, first)), EncodePushes([Counter(k), data])];
    OpeningReads(contentType, total, first, scripts, reading);
    PushesRoundTrip([Counter(k), data], reading);
    CounterReads(k);
  }

  /** Encoded pushes followed by any bytes decode to those pushes and then
      whatever the bytes decode to. */
  lemma {:induction false} PushesAppend(ps: seq<Bytes>, rest: Bytes, reading: LengthReading)
    requires PushesFit(ps)
    requires reading == LittleEndian || Short(ps)
    ensures Pushes(EncodePushes(ps) + rest, reading) == Prepend(ps, Pushes(rest, reading))
  {
    if |ps| == 0 {
      assert EncodePushes(ps) + rest == rest;
      PrependEmpty(Pushes(rest, reading));
    } else {
      var tail := EncodePushes(ps[1..]) + rest;
      assert EncodePushes(ps) + rest == EncodePush(ps[0]) + tail;
      PushesHead(ps[0], tail, reading);
      assert PushesFit(ps[1..]) && (reading == LittleEndian || Short(ps[1..])) by {
        assert forall i :: 0 <= i < |ps[1..]| ==> ps[1..][i] == ps[i + 1];
      }
      PushesAppend(ps[1..], rest, reading);
      PrependCons(ps[0], ps[1..], Pushes(rest, reading));
      assert [ps[0]] + ps[1..] == ps;
    }
  }

  /** One encoded push in front of any bytes. */
  lemma PushesHead(b: Bytes, tail: Bytes, reading: LengthReading)
    requires |b| < 0x1_0000_0000
    requires reading == LittleEndian || |b| <= 0xFF
    ensures Pushes(EncodePush(b) + tail, reading) == Prepend([b], Pushes(tail, reading))
  {
    var e := EncodePush(b) + tail;
    NextPushOfEncoded(b, tail, reading);
    assert e[|EncodePush(b)|..] == tail;
    PushesStep(e, reading, b, |EncodePush(b)|);
  }

  /** A one-piece inscription whose piece is written with PUSHDATA2: the
      indexer's length reading loses the inscription, the little-endian
      reading finds it. */
  lemma PushData2PieceLost(contentType: Bytes)
    requires |contentType| <= 0xFF
    ensures var script := EncodePushes([Ord, Counter(1), contentType, Counter(0)]) + [77, 1, 0, 0xAA];
      && Parse([script], AsWritten) == NoInscription
      && Parse([script], LittleEndian) == Single(Simple(contentType, [0xAA]))
  {
    var ps := [Ord, Counter(1), contentType, Counter(0)];
    var tail: Bytes := [77, 1, 0, 0xAA];
    var script := EncodePushes(ps) + tail;
    assert Pushes(script, AsWritten) == None by {
      PushData2AsWrittenRejects();
      PushesAppend(ps, tail, AsWritten);
    }
    ParseNone([script], AsWritten);
    var pds := ps + [[0xAA]];
    assert Pushes(script, LittleEndian) == Some(pds) by {
      PushData2AsWrittenRejects();
      PushesAppend(ps, tail, LittleEndian);
    }
    PieceParses([script], pds, contentType);
  }

  lemma ParseNone(scripts: seq<Bytes>, reading: LengthReading)
    requires |scripts| > 0 && Pushes(scripts[0], reading) == None
    ensures Parse(scripts, reading) == NoInscription
  {
  }

  /** An opening script announcing one piece and carrying it. */
  lemma PieceParses(scripts: seq<Bytes>, pds: seq<Bytes>, contentType: Bytes)
    requires |scripts| > 0 && pds == [Ord, Counter(1), contentType, Counter(0), [0xAA]]
    requires Pushes(scripts[0], LittleEndian) == Some(pds)
    ensures Parse(scripts, LittleEndian) == Single(Simple(contentType, [0xAA]))
  {
    assert PushNumber(pds[1]) == Some(1) by {
      CounterReads(1);
    }
    assert TakeChunks(pds[3..], 1, []) == ([], 0, [0xAA]) by {
      CounterReads(0);
      assert pds[3..] == [Counter(0), [0xAA]] + [];
      TakeOne(Counter(0), [0xAA], [], 1, []);
    }
    ParseStep(scripts, LittleEndian, pds, 1);
    ReadPiecesDone(scripts, pds[3..], 1, [], contentType, LittleEndian, [], [0xAA]);
  }
}

=== FILE: inscription_parser.dfy ===
/** The walk over a block's transactions (src/inscriptions/parser.rs):
    inscriptions already on a spent output move to the output that receives
    their satoshi, or leak into the fee; new inscriptions are read from the
    inputs' scripts, placed, numbered and handed to the token cache. The
    database reads are the maps the walk starts from; hashes, `is_op_return`,
    the script tokenizer and `Tag::take` are parameters. The offsets kept per
    outpoint are a `HashSet`, modelled as a duplicate-free list in the order
    of insertion. */
module InscriptionParser {
  import opened Bytes
  import opened Wrappers
  import opened Locations
  import opened Tokens
  import opened Searcher
  import opened Inscriptions
  import opened Keys
  import Partials
  import Envelopes
  import Leaked
  import Prevouts
  import TokenParser

  /** The JUBILEE_HEIGHT of Bellscoin, at which occupancy is ignored. */
  const BellsJubilee: nat := 133_000

  /** Where a new inscription's script comes from: the taproot script of
      the witness when there is one, else the script-sig. */
  datatype InputScript = InputScript(tapscript: Option<Bytes>, scriptSig: Bytes)

  /** A transaction of the block: its id, its inputs and outputs, and one
      script per input. */
  datatype BlockTx = BlockTx(txid: Txid, tx: Tx, scripts: seq<InputScript>)

  predicate WellFormed(t: BlockTx) {
    |t.scripts| == |t.tx.inputs|
  }

  /** What the walk takes from outside: the burn address and `scale`,
      `is_op_return`, sha256 of a script, the tokenizer, `Tag::take`, and
      the coin's JUBILEE_HEIGHT. `pushLengths` picks how the "ord" push
      format reads PUSHDATA2/4 lengths: `AsWritten` is `decode_push_datas`
      as the indexer has it, `LittleEndian` the Bitcoin script rule. */
  datatype ParserEnv = ParserEnv(
    tokens: TokenParser.Env,
    isOpReturn: Bytes -> bool,
    hash: Bytes -> FullHash,
    tokenize: Bytes -> Envelopes.Tokens,
    tags: Envelopes.TagReader,
    jubilee: nat,
    pushLengths: LengthReading)

  /** One block's fixed data: its height and timestamp and the prevouts of
      its inputs. */
  datatype Ctx = Ctx(env: ParserEnv, prevouts: map<OutPoint, Prevouts.TxPrevout>, height: u32, created: u32)

  predicate JubileeReached(ctx: Ctx) {
    ctx.height as nat >= ctx.env.jubilee
  }

  /** The prevouts as the searcher and the leak tracker read them. */
  function TxOuts(prevouts: map<OutPoint, Prevouts.TxPrevout>): (r: map<OutPoint, TxOut>)
    ensures r.Keys == prevouts.Keys
    ensures forall k :: k in r ==> r[k].value == prevouts[k].value
  {
    map k | k in prevouts :: TxOut(prevouts[k].value, [])
  }

  /** The tables read from the database for the spent outpoints
      (`multi_get_kv(_, false)`): the entries whose key is spent. */
  function Load<V>(db: map<OutPoint, V>, prevouts: map<OutPoint, Prevouts.TxPrevout>): (r: map<OutPoint, V>)
    ensures r.Keys == db.Keys * prevouts.Keys
    ensures forall k :: k in r ==> r[k] == db[k]
  {
    map k | k in db && k in prevouts :: db[k]
  }

  // ---------------------------------------------------------------------
  // Offsets per outpoint
  // ---------------------------------------------------------------------

  type Offsets = map<OutPoint, seq<u64>>

  predicate SetsDistinct(m: Offsets) {
    forall op :: op in m ==> Distinct(m[op])
  }

  predicate Holds(m: Offsets, op: OutPoint, o: u64) {
    op in m && o in m[op]
  }

  /** `entry(op).or_default().insert(o)`: the offset joins the set of the
      outpoint, and whether it was not there yet. */
  function InsertOffset(m: Offsets, op: OutPoint, o: u64): (r: (Offsets, bool))
    ensures Holds(r.0, op, o)
    ensures r.1 <==> !Holds(m, op, o)
    ensures r.0.Keys == m.Keys + {op}
    ensures forall k: OutPoint, x: u64 :: Holds(r.0, k, x) <==> Holds(m, k, x) || (k, x) == (op, o)
    ensures SetsDistinct(m) ==> SetsDistinct(r.0)
  {
    var cur := if op in m then m[op] else [];
    if o in cur then (m[op := cur], false) else (m[op := cur + [o]], true)
  }

  // ---------------------------------------------------------------------
  // `convert_to_template` and `parse_inscription`
  // ---------------------------------------------------------------------

  function At(cum: seq<nat>, i: nat): Option<nat> {
    if i < |cum| then Some(cum[i]) else None
  }

  /** The spending transaction and input a new inscription is read from. */
  datatype Payload = Payload(tx: BlockTx, inputIndex: nat, cum: seq<nat>, genesisTxid: Txid)

  predicate PayloadOk(p: Payload, ctx: Ctx) {
    Leaked.Known(p.tx.tx, TxOuts(ctx.prevouts)) && p.inputIndex < |p.tx.tx.inputs|
  }

  /** The satoshi a placed inscription sits on: the pointer's, when the
      pointer falls inside the outputs, else the first one of its input. */
  function Target(pointer: Option<u64>, start: nat, outs: seq<TxOut>): nat {
    if pointer.Some? && pointer.value < Sum(Values(outs)) then pointer.value else start
  }

  /** The owner of an output: the burn address for an `OP_RETURN` script,
      otherwise the hash of the script. */
  function Owner(out: TxOut, env: ParserEnv): FullHash {
    if env.isOpReturn(out.scriptPubkey) then env.tokens.opReturn else env.hash(out.scriptPubkey)
  }

  /** A template placed on output `j` of the payload's transaction, on the
      satoshi the inscription asks for. */
  predicate PlacedOn(t: TokenParser.InscriptionTemplate, j: nat, p: Payload, ins: Inscription, env: ParserEnv)
    requires p.inputIndex < |p.cum|
  {
    var outs := p.tx.tx.outputs;
    && j < |outs|
    && t.location.outpoint == OutPoint(p.tx.txid, j % 0x1_0000_0000)
    && t.location.offset < outs[j].value
    && Sum(Values(outs)[..j]) + t.location.offset == Target(Pointer(ins), p.cum[p.inputIndex], outs)
    && t.value == outs[j].value
    && t.owner == Owner(outs[j], env)
    && t.genesis == InscriptionId(p.genesisTxid, 0)
    && t.contentType == ContentType(ins) && t.content == ins.body
    && !t.leaked
  }

  /** Whether the input's first satoshi reaches an output. */
  predicate Lands(p: Payload) {
    p.inputIndex < |p.cum| && p.cum[p.inputIndex] < Sum(Values(p.tx.tx.outputs))
  }

  /** `convert_to_template`: the template of a parsed inscription, or
      `None` after filing it as a leaked creation. */
  function ConvertToTemplate(p: Payload, ins: Inscription, leaked: Leaked.LeakedInscriptions, ctx: Ctx)
    : (r: (Option<TokenParser.InscriptionTemplate>, Leaked.LeakedInscriptions))
    requires PayloadOk(p, ctx)
    ensures r.0.Some? <==> Lands(p)
    ensures r.0.None? ==> r.1 == Leaked.Add(leaked, p.inputIndex, p.tx.tx, 0, TxOuts(ctx.prevouts), Leaked.Creation)
    ensures r.0.Some? ==> r.1 == leaked && exists j :: PlacedOn(r.0.value, j, p, ins, ctx.env)
  {
    var outs := p.tx.tx.outputs;
    match OutputIndex(At(p.cum, p.inputIndex), outs)
    case Err(_) =>
      (None, Leaked.Add(leaked, p.inputIndex, p.tx.tx, 0, TxOuts(ctx.prevouts), Leaked.Creation))
    case Ok(first) =>
      var (j, offset) := match OutputIndex(Pointer(ins), outs) case Ok(moved) => moved case Err(_) => first;
      var t := TokenParser.InscriptionTemplate(
        InscriptionId(p.genesisTxid, 0),
        Location(OutPoint(p.tx.txid, j % 0x1_0000_0000), offset),
        ContentType(ins), Owner(outs[j], ctx.env), outs[j].value, ins.body, false);
      assert PlacedOn(t, j, p, ins, ctx.env);
      (Some(t), leaked)
  }

  /** `filter_map(convert_to_template)` over the envelopes of one input,
      in order. */
  function ConvertAll(p: Payload, inss: seq<Inscription>, leaked: Leaked.LeakedInscriptions, ctx: Ctx)
    : (r: (seq<TokenParser.InscriptionTemplate>, Leaked.LeakedInscriptions))
    requires PayloadOk(p, ctx)
    ensures |r.0| <= |inss|
    ensures r.1.totalAmount == leaked.totalAmount && r.1.coinbase == leaked.coinbase
    ensures r.1.coinbaseTxid == leaked.coinbaseTxid && r.1.coinbaseReward == leaked.coinbaseReward
    ensures Leaked.DistinctKeys(leaked.inscriptions) ==> Leaked.DistinctKeys(r.1.inscriptions)
    ensures forall k :: 0 <= k < |r.0| ==> r.0[k].genesis == InscriptionId(p.genesisTxid, 0) && !r.0[k].leaked
    decreases |inss|
  {
    if |inss| == 0 then ([], leaked)
    else
      var (t, l1) := ConvertToTemplate(p, inss[0], leaked, ctx);
      var (rest, l2) := ConvertAll(p, inss[1..], l1, ctx);
      (if t.Some? then [t.value] + rest else rest, l2)
  }

  /** All envelopes of an input start on the same satoshi, so either all
      of them are placed, or all of them leak as creations under one key. */
  lemma {:induction false} ConvertAllUniform(p: Payload, inss: seq<Inscription>, leaked: Leaked.LeakedInscriptions, ctx: Ctx)
    requires PayloadOk(p, ctx)
    ensures var r := ConvertAll(p, inss, leaked, ctx);
      Lands(p) ==> |r.0| == |inss| && r.1 == leaked
    ensures var r := ConvertAll(p, inss, leaked, ctx);
      var key := Leaked.LeakKey(leaked, Leaked.FindFee(p.tx.tx, p.inputIndex, 0, TxOuts(ctx.prevouts)));
      !Lands(p) ==> r.0 == [] && Leaked.Under(r.1.inscriptions, key) == Leaked.Under(leaked.inscriptions, key) + seq(|inss|, _ => Leaked.Creation)
    decreases |inss|
  {
    if |inss| > 0 {
      var l1 := ConvertToTemplate(p, inss[0], leaked, ctx).1;
      ConvertAllUniform(p, inss[1..], l1, ctx);
      if !Lands(p) {
        assert seq(|inss|, _ => Leaked.Creation) == [Leaked.Creation] + seq(|inss| - 1, _ => Leaked.Creation);
      }
    }
  }

  /** `ParsedInscriptionResult`. */
  datatype ParsedResult =
    | RNone
    | RPartials
    | RSingle(template: TokenParser.InscriptionTemplate)
    | RMany(templates: seq<TokenParser.InscriptionTemplate>)

  /** `parse_inscription`: the parts gathered so far, read as an
      inscription and placed. */
  function ParseInscription(p: Payload, parts: seq<Partials.Part>, leaked: Leaked.LeakedInscriptions, ctx: Ctx)
    : (r: (ParsedResult, Leaked.LeakedInscriptions))
    requires PayloadOk(p, ctx) && |parts| > 0
    ensures var parsed := Envelopes.FromParts(parts, p.inputIndex % 0x1_0000_0000, ctx.env.tokenize, ctx.env.tags, ctx.env.pushLengths);
      && (r.0.RPartials? <==> parsed.Partial?)
      && (r.0.RMany? <==> parsed.Many?)
      && (r.0.RSingle? <==> parsed.Single? && Lands(p))
      && (parsed.NoInscription? || parsed.Partial? ==> r.1 == leaked)
    ensures r.1.totalAmount == leaked.totalAmount && r.1.coinbase == leaked.coinbase
    ensures r.1.coinbaseTxid == leaked.coinbaseTxid && r.1.coinbaseReward == leaked.coinbaseReward
    ensures Leaked.DistinctKeys(leaked.inscriptions) ==> Leaked.DistinctKeys(r.1.inscriptions)
    ensures r.0.RSingle? ==> r.0.template.genesis == InscriptionId(p.genesisTxid, 0) && !r.0.template.leaked
    ensures r.0.RMany? ==> forall k :: 0 <= k < |r.0.templates| ==>
      r.0.templates[k].genesis == InscriptionId(p.genesisTxid, 0) && !r.0.templates[k].leaked
  {
    match Envelopes.FromParts(parts, p.inputIndex % 0x1_0000_0000, ctx.env.tokenize, ctx.env.tags, ctx.env.pushLengths)
    case NoInscription => (RNone, leaked)
    case Partial => (RPartials, leaked)
    case Single(ins) =>
      var (t, l) := ConvertToTemplate(p, ins, leaked, ctx);
      (if t.Some? then RSingle(t.value) else RNone, l)
    case Many(inss) =>
      var (ts, l) := ConvertAll(p, inss, leaked, ctx);
      (RMany(ts), l)
  }

  // ---------------------------------------------------------------------
  // Numbering and creation
  // ---------------------------------------------------------------------

  /** The `genesis.index` assignment: consecutive numbers from `counter`,
      but only for inscriptions whose genesis is this transaction. */
  function Number(ts: seq<TokenParser.InscriptionTemplate>, own: bool, counter: nat)
    : (r: (seq<TokenParser.InscriptionTemplate>, nat))
    ensures |r.0| == |ts|
    ensures !own ==> r == (ts, counter)
    ensures own ==> r.1 == counter + |ts|
    ensures own ==> forall k :: 0 <= k < |ts| ==>
      r.0[k].genesis.index == (counter + k) % 0x1_0000_0000
      && r.0[k] == ts[k].(genesis := ts[k].genesis.(index := r.0[k].genesis.index))
  {
    if !own then (ts, counter)
    else (seq(|ts|, k requires 0 <= k < |ts| => ts[k].(genesis := ts[k].genesis.(index := (counter + k) % 0x1_0000_0000))),
          counter + |ts|)
  }

  /** The token cache only queues: the tokens, balances and validated
      transfers stay as they are, and earlier actions are kept. */
  predicate Queued(c: TokenParser.TokenCache, r: TokenParser.TokenCache) {
    && r.tokens == c.tokens && r.accounts == c.accounts && r.validTransfers == c.validTransfers
    && |c.actions| <= |r.actions| && r.actions[..|c.actions|] == c.actions
  }

  lemma QueuedTrans(a: TokenParser.TokenCache, b: TokenParser.TokenCache, c: TokenParser.TokenCache)
    requires Queued(a, b) && Queued(b, c)
    ensures Queued(a, c)
  {
    assert c.actions[..|a.actions|] == c.actions[..|b.actions|][..|a.actions|];
  }

  /** Whether a placed inscription reaches the token cache: a leaked one,
      one on a free offset and any at or after the jubilee do; on Bells the
      offset never counts as taken. */
  predicate Admitted(t: TokenParser.InscriptionTemplate, wasFree: bool, ctx: Ctx) {
    var occupied := !wasFree && ctx.env.jubilee != BellsJubilee;
    !(!t.leaked && occupied && !JubileeReached(ctx))
  }

  /** `parse_token_action` over templates, in order: the reference for
      what the creation loop hands to the cache when nothing is skipped. */
  function ParseAll(c: TokenParser.TokenCache, ts: seq<TokenParser.InscriptionTemplate>, ctx: Ctx): TokenParser.TokenCache
    decreases |ts|
  {
    if |ts| == 0 then c
    else ParseAll(TokenParser.ParseTokenAction(c, ctx.env.tokens, ts[0], ctx.height, ctx.created).0, ts[1..], ctx)
  }

  /** The creation loop: every template's offset is claimed, and the
      admitted ones are parsed as token actions. */
  function Create(m: Offsets, c: TokenParser.TokenCache, ts: seq<TokenParser.InscriptionTemplate>, ctx: Ctx)
    : (r: (Offsets, TokenParser.TokenCache))
    ensures forall k :: 0 <= k < |ts| ==> Holds(r.0, ts[k].location.outpoint, ts[k].location.offset)
    ensures forall op: OutPoint, x: u64 :: Holds(m, op, x) ==> Holds(r.0, op, x)
    ensures forall op: OutPoint, x: u64 :: Holds(r.0, op, x) ==>
      Holds(m, op, x) || exists k :: 0 <= k < |ts| && ts[k].location == Location(op, x)
    ensures SetsDistinct(m) ==> SetsDistinct(r.0)
    ensures Queued(c, r.1)
    decreases |ts|
  {
    if |ts| == 0 then (m, c)
    else
      var (m1, free) := InsertOffset(m, ts[0].location.outpoint, ts[0].location.offset);
      var c1 := if Admitted(ts[0], free, ctx) then TokenParser.ParseTokenAction(c, ctx.env.tokens, ts[0], ctx.height, ctx.created).0 else c;
      var r := Create(m1, c1, ts[1..], ctx);
      assert forall k :: 1 <= k < |ts| ==> ts[k] == ts[1..][k - 1];
      QueuedTrans(c, c1, r.1);
      r
  }

  /** At or after the jubilee, and on Bells at any height, no inscription
      is skipped: the cache sees every template in order. */
  lemma {:induction false} CreateSkipsNone(m: Offsets, c: TokenParser.TokenCache, ts: seq<TokenParser.InscriptionTemplate>, ctx: Ctx)
    requires JubileeReached(ctx) || ctx.env.jubilee == BellsJubilee
    ensures Create(m, c, ts, ctx).1 == ParseAll(c, ts, ctx)
    decreases |ts|
  {
    if |ts| > 0 {
      var (m1, free) := InsertOffset(m, ts[0].location.outpoint, ts[0].location.offset);
      assert Admitted(ts[0], free, ctx);
      CreateSkipsNone(m1, TokenParser.ParseTokenAction(c, ctx.env.tokens, ts[0], ctx.height, ctx.created).0, ts[1..], ctx);
    }
  }

  /** Before the jubilee on a coin other than Bells, a non-leaked
      inscription on an offset already taken leaves the cache alone. */
  lemma OccupiedSkipped(m: Offsets, c: TokenParser.TokenCache, t: TokenParser.InscriptionTemplate, ctx: Ctx)
    requires !JubileeReached(ctx) && ctx.env.jubilee != BellsJubilee && !t.leaked
    requires Holds(m, t.location.outpoint, t.location.offset)
    ensures Create(m, c, [t], ctx).1 == c
  {
    assert [t][1..] == [];
  }

  // ---------------------------------------------------------------------
  // One input
  // ---------------------------------------------------------------------

  /** The state of the walk inside a transaction. */
  datatype Walk = Walk(
    offsets: Offsets,
    partials: map<OutPoint, Partials.Partials>,
    leaked: Leaked.LeakedInscriptions,
    cache: TokenParser.TokenCache,
    counter: nat)

  predicate WalkOk(w: Walk) {
    SetsDistinct(w.offsets) && Leaked.DistinctKeys(w.leaked.inscriptions)
  }

  /** The leak tracker keeps its totals and coinbase. */
  predicate SameTracker(a: Leaked.LeakedInscriptions, b: Leaked.LeakedInscriptions) {
    a.totalAmount == b.totalAmount && a.coinbase == b.coinbase && a.coinbaseTxid == b.coinbaseTxid
  }

  /** Where satoshi `o` of input `i` goes among the outputs. */
  function Shifted(cum: seq<nat>, i: nat, o: u64): Option<nat> {
    if i < |cum| then Some(cum[i] + o) else None
  }

  /** One iteration of the move loop: offset `o` on the spent outpoint of
      input `i` moves to the output holding it, or leaks; a tracked
      transfer inscription is handed to the cache either way. */
  function MoveOne(w: Walk, t: BlockTx, cum: seq<nat>, i: nat, o: u64, ctx: Ctx): (r: Walk)
    requires Leaked.Known(t.tx, TxOuts(ctx.prevouts)) && i < |t.tx.inputs|
    ensures r.partials == w.partials && r.counter == w.counter
    ensures SameTracker(w.leaked, r.leaked)
    ensures WalkOk(w) ==> WalkOk(r)
    ensures Queued(w.cache, r.cache)
    ensures var old_ := Location(t.tx.inputs[i], o); var outs := t.tx.outputs;
      match OutputIndex(Shifted(cum, i, o), outs)
      case Ok((j, off)) =>
        && r.leaked == w.leaked
        && r.offsets == InsertOffset(w.offsets, OutPoint(t.txid, j % 0x1_0000_0000), off as u64).0
        && r.cache.actions == w.cache.actions +
             (if old_ in w.cache.allTransfers
              then [TokenParser.ATransferred(old_, Owner(outs[j], ctx.env), t.txid, j % 0x1_0000_0000)] else [])
      case Err(_) =>
        && r.offsets == w.offsets
        && r.leaked == Leaked.Add(w.leaked, i, t.tx, o, TxOuts(ctx.prevouts), Leaked.Move)
        && r.cache.actions == w.cache.actions +
             (if old_ in w.cache.allTransfers
              then [TokenParser.ATransferred(old_, ctx.prevouts[t.tx.inputs[i]].scriptHash, t.txid, 0)] else [])
  {
    var old_ := Location(t.tx.inputs[i], o);
    var transfer := old_ in w.cache.allTransfers;
    var outs := t.tx.outputs;
    match OutputIndex(Shifted(cum, i, o), outs)
    case Ok((j, off)) =>
      var vout := j % 0x1_0000_0000;
      var c :=
        if !transfer then w.cache
        else if ctx.env.isOpReturn(outs[j].scriptPubkey) then TokenParser.BurnedTransfer(w.cache, ctx.env.tokens, old_, t.txid, vout)
        else TokenParser.Transferred(w.cache, old_, ctx.env.hash(outs[j].scriptPubkey), t.txid, vout);
      w.(offsets := InsertOffset(w.offsets, OutPoint(t.txid, vout), off as u64).0, cache := c)
    case Err(_) =>
      var c := if transfer then TokenParser.Transferred(w.cache, old_, ctx.prevouts[t.tx.inputs[i]].scriptHash, t.txid, 0) else w.cache;
      w.(cache := c, leaked := Leaked.Add(w.leaked, i, t.tx, o, TxOuts(ctx.prevouts), Leaked.Move))
  }

  /** The move loop over the offsets that were on the spent outpoint. */
  function MoveAll(w: Walk, t: BlockTx, cum: seq<nat>, i: nat, os: seq<u64>, ctx: Ctx): (r: Walk)
    requires Leaked.Known(t.tx, TxOuts(ctx.prevouts)) && i < |t.tx.inputs|
    ensures r.partials == w.partials && r.counter == w.counter
    ensures SameTracker(w.leaked, r.leaked)
    ensures WalkOk(w) ==> WalkOk(r)
    ensures Queued(w.cache, r.cache)
    ensures forall op :: op in w.offsets && op.txid != t.txid ==> op in r.offsets && r.offsets[op] == w.offsets[op]
    ensures forall op :: op in r.offsets && op.txid != t.txid ==> op in w.offsets
    decreases |os|
  {
    if |os| == 0 then w
    else
      var w1 := MoveOne(w, t, cum, i, os[0], ctx);
      var r := MoveAll(w1, t, cum, i, os[1..], ctx);
      QueuedTrans(w.cache, w1.cache, r.cache);
      r
  }

  /** Every offset that was on the spent outpoint and reaches an output
      is found on the spending transaction afterwards, on the output that
      holds it. */
  lemma {:induction false} MovesLand(w: Walk, t: BlockTx, cum: seq<nat>, i: nat, os: seq<u64>, ctx: Ctx, k: nat)
    requires Leaked.Known(t.tx, TxOuts(ctx.prevouts)) && i < |t.tx.inputs| && k < |os|
    requires OutputIndex(Shifted(cum, i, os[k]), t.tx.outputs).Ok?
    ensures var (j, off) := OutputIndex(Shifted(cum, i, os[k]), t.tx.outputs).value;
      Holds(MoveAll(w, t, cum, i, os, ctx).offsets, OutPoint(t.txid, j % 0x1_0000_0000), off as u64)
    decreases |os|
  {
    var w1 := MoveOne(w, t, cum, i, os[0], ctx);
    if k == 0 {
      MovesKeep(w1, t, cum, i, os[1..], ctx);
    } else {
      MovesLand(w1, t, cum, i, os[1..], ctx, k - 1);
    }
  }

  /** The move loop never loses an offset it has placed. */
  lemma {:induction false} MovesKeep(w: Walk, t: BlockTx, cum: seq<nat>, i: nat, os: seq<u64>, ctx: Ctx)
    requires Leaked.Known(t.tx, TxOuts(ctx.prevouts)) && i < |t.tx.inputs|
    ensures forall op: OutPoint, x: u64 :: Holds(w.offsets, op, x) ==> Holds(MoveAll(w, t, cum, i, os, ctx).offsets, op, x)
    decreases |os|
  {
    if |os| > 0 {
      MovesKeep(MoveOne(w, t, cum, i, os[0], ctx), t, cum, i, os[1..], ctx);
    }
  }

  /** What a parse result does to the walk: pending parts are kept on
      this transaction's output of the same number (when it has one),
      numbered if they began here; placed inscriptions are numbered the
      same way and created; a failed parse drops the parts. */
  function Settle(w: Walk, t: BlockTx, i: nat, partials: Partials.Partials, res: ParsedResult,
                  leaked: Leaked.LeakedInscriptions, ctx: Ctx): (r: Walk)
    ensures r.leaked == leaked
    ensures SetsDistinct(w.offsets) ==> SetsDistinct(r.offsets)
    ensures Queued(w.cache, r.cache)
    ensures r.counter >= w.counter
    ensures forall k :: k in w.partials && k != OutPoint(t.txid, i % 0x1_0000_0000) ==> k in r.partials && r.partials[k] == w.partials[k]
    ensures forall k :: k in r.partials ==> k in w.partials || k == OutPoint(t.txid, i % 0x1_0000_0000)
    ensures forall op: OutPoint, x: u64 :: Holds(w.offsets, op, x) ==> Holds(r.offsets, op, x)
  {
    var own := partials.genesisTxid == t.txid;
    match res
    case RNone => w.(leaked := leaked)
    case RPartials =>
      var kept := if own then partials.(inscriptionIndex := w.counter % 0x1_0000_0000) else partials;
      w.(partials := if i < |t.tx.outputs| then w.partials[OutPoint(t.txid, i % 0x1_0000_0000) := kept] else w.partials,
         leaked := leaked, counter := if own then w.counter + 1 else w.counter)
    case RSingle(tt) =>
      var (ts, counter) := Number([tt], own, w.counter);
      var (m, c) := Create(w.offsets, w.cache, ts, ctx);
      Walk(m, w.partials, leaked, c, counter)
    case RMany(tts) =>
      var (ts, counter) := Number(tts, own, w.counter);
      var (m, c) := Create(w.offsets, w.cache, ts, ctx);
      Walk(m, w.partials, leaked, c, counter)
  }

  /** The part an input contributes. */
  function PartOf(s: InputScript): Partials.Part {
    match s.tapscript
    case Some(script) => Partials.Part(true, script)
    case None => Partials.Part(false, s.scriptSig)
  }

  /** The creation half of an input: its script joins the parts pending on
      the spent outpoint, or starts new ones with this transaction as
      genesis, and the whole is parsed and settled. */
  function CreateAt(w: Walk, t: BlockTx, cum: seq<nat>, i: nat, ctx: Ctx): (r: Walk)
    requires WellFormed(t) && Leaked.Known(t.tx, TxOuts(ctx.prevouts)) && i < |t.tx.inputs|
    ensures SameTracker(w.leaked, r.leaked)
    ensures WalkOk(w) ==> WalkOk(r)
    ensures Queued(w.cache, r.cache)
    ensures r.counter >= w.counter
    ensures t.tx.inputs[i] in r.partials ==> t.tx.inputs[i] == OutPoint(t.txid, i % 0x1_0000_0000)
    ensures forall op: OutPoint, x: u64 :: Holds(w.offsets, op, x) ==> Holds(r.offsets, op, x)
  {
    var op := t.tx.inputs[i];
    var pending := if op in w.partials then w.partials[op] else Partials.Partials(0, t.txid, []);
    var partials := pending.(parts := pending.parts + [PartOf(t.scripts[i])]);
    var (res, leaked) := ParseInscription(Payload(t, i, cum, partials.genesisTxid), partials.parts, w.leaked, ctx);
    Settle(w.(partials := w.partials - {op}), t, i, partials, res, leaked, ctx)
  }

  /** One input: the moves off its spent outpoint, then, at or after the
      jubilee or for the first input, the creation. */
  function InputStep(w: Walk, t: BlockTx, cum: seq<nat>, i: nat, ctx: Ctx): (r: Walk)
    requires WellFormed(t) && Leaked.Known(t.tx, TxOuts(ctx.prevouts)) && i < |t.tx.inputs|
    ensures SameTracker(w.leaked, r.leaked)
    ensures WalkOk(w) ==> WalkOk(r)
    ensures Queued(w.cache, r.cache)
    ensures r.counter >= w.counter
    ensures !(JubileeReached(ctx) || i == 0) ==> r.partials == w.partials && r.counter == w.counter
  {
    var op := t.tx.inputs[i];
    var moved :=
      if op in w.offsets then MoveAll(w.(offsets := w.offsets - {op}), t, cum, i, w.offsets[op], ctx)
      else w;
    assert WalkOk(w) ==> WalkOk(w.(offsets := w.offsets - {op}));
    var r := if JubileeReached(ctx) || i == 0 then CreateAt(moved, t, cum, i, ctx) else moved;
    QueuedTrans(w.cache, moved.cache, r.cache);
    r
  }

  /** The spent outpoint's offsets are taken off it: afterwards it holds
      none of them, unless the spending transaction is itself the owner of
      that outpoint's id. */
  lemma SpentOutpointCleared(w: Walk, t: BlockTx, cum: seq<nat>, i: nat, ctx: Ctx)
    requires WellFormed(t) && Leaked.Known(t.tx, TxOuts(ctx.prevouts)) && i < |t.tx.inputs|
    requires t.tx.inputs[i].txid != t.txid && !(JubileeReached(ctx) || i == 0)
    ensures t.tx.inputs[i] !in InputStep(w, t, cum, i, ctx).offsets
  {
  }

  /** The input loop of one transaction. */
  function Inputs(w: Walk, t: BlockTx, cum: seq<nat>, i: nat, ctx: Ctx): (r: Walk)
    requires WellFormed(t) && Leaked.Known(t.tx, TxOuts(ctx.prevouts)) && i <= |t.tx.inputs|
    ensures SameTracker(w.leaked, r.leaked)
    ensures WalkOk(w) ==> WalkOk(r)
    ensures Queued(w.cache, r.cache)
    ensures r.counter >= w.counter
    decreases |t.tx.inputs| - i
  {
    if i == |t.tx.inputs| then w
    else
      var w1 := InputStep(w, t, cum, i, ctx);
      var r := Inputs(w1, t, cum, i + 1, ctx);
      QueuedTrans(w.cache, w1.cache, r.cache);
      r
  }

  // ---------------------------------------------------------------------
  // `parse_block`
  // ---------------------------------------------------------------------

  /** The state carried from one transaction to the next. */
  datatype State = State(
    offsets: Offsets,
    partials: map<OutPoint, Partials.Partials>,
    leaked: Option<Leaked.LeakedInscriptions>,
    cache: TokenParser.TokenCache)

  predicate StateOk(s: State) {
    SetsDistinct(s.offsets) && (s.leaked.Some? ==> Leaked.DistinctKeys(s.leaked.value.inscriptions))
  }

  /** One transaction. The coinbase starts a fresh leak tracker and is
      otherwise skipped; any other transaction needs the tracker (the
      coinbase comes first) and the prevouts of all its inputs, and its fee
      joins the tracker before its inputs are walked with the index counter
      at zero. */
  function TxStep(s: State, t: BlockTx, ctx: Ctx): (r: Result<State, string>)
    requires WellFormed(t)
    ensures Prevouts.IsCoinbase(t.tx) ==> r == Ok(s.(leaked := Some(Leaked.New(t.tx, t.txid))))
    ensures !Prevouts.IsCoinbase(t.tx) ==>
      (r.Ok? <==> s.leaked.Some? && Leaked.Known(t.tx, TxOuts(ctx.prevouts)))
    ensures r.Ok? && !Prevouts.IsCoinbase(t.tx) ==>
      (r.value.leaked.Some? && r.value.leaked.value.totalAmount == Leaked.AddTxFee(s.leaked.value, t.tx, TxOuts(ctx.prevouts)).1)
    ensures r.Ok? ==> Queued(s.cache, r.value.cache)
    ensures r.Ok? && StateOk(s) ==> StateOk(r.value)
  {
    if Prevouts.IsCoinbase(t.tx) then Ok(s.(leaked := Some(Leaked.New(t.tx, t.txid))))
    else if s.leaked.None? then Err("called `Option::unwrap()` on a `None` value")
    else if !Leaked.Known(t.tx, TxOuts(ctx.prevouts)) then Err("called `Option::unwrap()` on a `None` value")
    else
      var leaked := Leaked.AddTxFee(s.leaked.value, t.tx, TxOuts(ctx.prevouts)).0;
      var cum := CalcOffsets(t.tx, TxOuts(ctx.prevouts)).value;
      var w := Inputs(Walk(s.offsets, s.partials, leaked, s.cache, 0), t, cum, 0, ctx);
      Ok(State(w.offsets, w.partials, Some(w.leaked), w.cache))
  }

  function Txs(s: State, txs: seq<BlockTx>, ctx: Ctx): (r: Result<State, string>)
    requires forall k :: 0 <= k < |txs| ==> WellFormed(txs[k])
    ensures r.Ok? ==> Queued(s.cache, r.value.cache)
    ensures r.Ok? && StateOk(s) ==> StateOk(r.value)
    decreases |txs|
  {
    if |txs| == 0 then Ok(s)
    else
      var s1 :- TxStep(s, txs[0], ctx);
      var r := Txs(s1, txs[1..], ctx);
      if r.Ok? then QueuedTrans(s.cache, s1.cache, r.value.cache); r else r
  }

  /** The leaked inscriptions claim their offsets on the coinbase. */
  function ClaimAll(m: Offsets, ls: seq<Location>): (r: Offsets)
    ensures forall k :: 0 <= k < |ls| ==> Holds(r, ls[k].outpoint, ls[k].offset)
    ensures forall op: OutPoint, x: u64 :: Holds(m, op, x) ==> Holds(r, op, x)
    ensures SetsDistinct(m) ==> SetsDistinct(r)
    decreases |ls|
  {
    if |ls| == 0 then m
    else
      var r := ClaimAll(InsertOffset(m, ls[0].outpoint, ls[0].offset).0, ls[1..]);
      assert forall k :: 1 <= k < |ls| ==> ls[k] == ls[1..][k - 1];
      r
  }

  /** What `parse_block` queues for writing, and the token cache after it. */
  datatype BlockOutput = BlockOutput(
    partialsToRemove: map<OutPoint, Partials.Partials>,
    partialsToWrite: map<OutPoint, Partials.Partials>,
    offsetsToRemove: Offsets,
    offsetsToWrite: Offsets,
    cache: TokenParser.TokenCache)

  /** `parse_block`. The partials and offsets read from the database for
      the spent outpoints are deleted and the walk's final tables written;
      the leaked inscriptions end up on the coinbase. An error stands for
      the panics of a block without a leading coinbase or with an unknown
      prevout. */
  function ParseBlock(txs: seq<BlockTx>, partialsDb: map<OutPoint, Partials.Partials>, offsetsDb: Offsets,
                      cache: TokenParser.TokenCache, ctx: Ctx): (r: Result<BlockOutput, string>)
    requires forall k :: 0 <= k < |txs| ==> WellFormed(txs[k])
    ensures r.Ok? ==> r.value.partialsToRemove == Load(partialsDb, ctx.prevouts)
    ensures r.Ok? ==> r.value.offsetsToRemove == Load(offsetsDb, ctx.prevouts)
    ensures r.Ok? ==> Queued(cache, r.value.cache)
    ensures r.Ok? && SetsDistinct(offsetsDb) ==> SetsDistinct(r.value.offsetsToWrite)
    ensures |txs| == 0 ==> r.Err?
    ensures |txs| > 0 && !Prevouts.IsCoinbase(txs[0].tx) ==> r.Err?
  {
    var offsets := Load(offsetsDb, ctx.prevouts);
    var partials := Load(partialsDb, ctx.prevouts);
    var s :- Txs(State(offsets, partials, None, cache), txs, ctx);
    if s.leaked.None? then Err("called `Option::unwrap()` on a `None` value")
    else
      var m := ClaimAll(s.offsets, Leaked.GetLeakedInscriptions(s.leaked.value));
      Ok(BlockOutput(partials, s.partials, offsets, m, s.cache))
  }

  /** Every leaked inscription the coinbase receives is written on the
      coinbase. */
  lemma LeakedWritten(txs: seq<BlockTx>, partialsDb: map<OutPoint, Partials.Partials>, offsetsDb: Offsets,
                      cache: TokenParser.TokenCache, ctx: Ctx)
    requires forall k :: 0 <= k < |txs| ==> WellFormed(txs[k])
    requires ParseBlock(txs, partialsDb, offsetsDb, cache, ctx).Ok?
    ensures var s := Txs(State(Load(offsetsDb, ctx.prevouts), Load(partialsDb, ctx.prevouts), None, cache), txs, ctx).value;
      var ls := Leaked.GetLeakedInscriptions(s.leaked.value);
      forall k :: 0 <= k < |ls| ==> (ls[k].outpoint.txid == s.leaked.value.coinbaseTxid
        && Holds(ParseBlock(txs, partialsDb, offsetsDb, cache, ctx).value.offsetsToWrite, ls[k].outpoint, ls[k].offset))
  {
  }
}

=== FILE: keys.dfy ===
/** The composite keys and values the token and inscription tables store
    (src/tokens/structs.rs, src/db/structs.rs, src/server/structs.rs): their
    byte layouts, the decoders' error and panic cases, and the key ranges
    the `search` helpers hand to `RocksTable::range`. */
module Keys {
  import opened Bytes
  import opened Wrappers
  import opened Pebble
  import opened Locations
  import Storage
  import Utf8

  /** A script hash or address hash (`FullHash`). */
  type FullHash = Hash32

  /** `OriginalTokenTick`: the tick exactly as inscribed, four bytes. */
  type Tick = s: Bytes | |s| == 4 witness [0, 0, 0, 0]

  /** `TryFrom<Vec<u8>>`: exactly four bytes. */
  function TickFromBytes(v: Bytes): (r: Option<Tick>)
    ensures r.Some? <==> |v| == 4
    ensures r.Some? ==> r.value == v
  {
    if |v| == 4 then Some(v) else None
  }

  /** `FromStr`: the UTF-8 bytes of the text, which must be four. */
  function TickFromStr(s: string): (r: Option<Tick>)
    ensures r.Some? <==> Utf8.ByteLen(s) == 4
    ensures r.Some? ==> r.value == Utf8.Encode(s)
  {
    TickFromBytes(Utf8.Encode(s))
  }

  // ---------------------------------------------------------------------
  // `LowerCaseTokenTick`: the map key of a tick, compared without case.
  // ---------------------------------------------------------------------

  function LowerByte(b: u8): u8 {
    if 'A' as int <= b <= 'Z' as int then b + 32 else b
  }

  /** `LowerCaseTokenTick::from`, with ASCII case folding. */
  function LowerCase(v: Bytes): (r: Bytes)
    ensures |r| == |v|
    ensures forall i :: 0 <= i < |v| ==> r[i] == LowerByte(v[i])
  {
    if |v| == 0 then [] else [LowerByte(v[0])] + LowerCase(v[1..])
  }

  /** Folding is idempotent and forgets exactly the case of ASCII letters. */
  lemma LowerCaseFacts(v: Bytes, w: Bytes)
    ensures LowerCase(LowerCase(v)) == LowerCase(v)
    ensures forall i :: 0 <= i < |v| ==> !('A' as int <= LowerCase(v)[i] <= 'Z' as int)
    ensures |v| == |w| && (forall i :: 0 <= i < |v| ==> LowerByte(v[i]) == LowerByte(w[i])) ==> LowerCase(v) == LowerCase(w)
  {
  }

  /** Its `Pebble` encoding is the identity. */
  const LowerCaseTickCodec: Codec<Bytes> := Codec(None, (v: Bytes) => v, (v: Bytes) => Ok(v))

  lemma LowerCaseTickCodecIdentity(v: Bytes)
    ensures LowerCaseTickCodec.enc(v) == v && LowerCaseTickCodec.dec(v) == Ok(v)
  {
  }

  // ---------------------------------------------------------------------
  // `AddressToken`: address ‖ tick, 36 bytes.
  // ---------------------------------------------------------------------

  datatype AddressToken = AddressToken(address: FullHash, token: Tick)

  function EncodeAddressToken(v: AddressToken): (r: Bytes)
    ensures |r| == 36 && r[..32] == v.address && r[32..] == v.token
  {
    v.address + v.token
  }

  /** `from_bytes`: a short input panics on `v[..32]`, and a tail other than
      four bytes panics on the `expect`. */
  function DecodeAddressToken(v: Bytes): (r: Result<AddressToken, PebbleError>)
    ensures r.Ok? <==> |v| == 36
    ensures r.Err? ==> r.error.Panic?
  {
    if |v| < 32 then Err(Panic("range end index 32 out of range"))
    else if |v| != 36 then Err(Panic("Expected [u8;4], but got more"))
    else Ok(AddressToken(v[..32], v[32..]))
  }

  lemma AddressTokenRoundTrip(x: AddressToken)
    ensures DecodeAddressToken(EncodeAddressToken(x)) == Ok(x)
  {
  }

  const AddressTokenCodec: Codec<AddressToken> := Codec(None, EncodeAddressToken, DecodeAddressToken)

  // ---------------------------------------------------------------------
  // `AddressTokenId`: address ‖ tick ‖ id big-endian, 44 bytes.
  // ---------------------------------------------------------------------

  datatype AddressTokenId = AddressTokenId(address: FullHash, token: Tick, id: u64)

  function EncodeAddressTokenId(v: AddressTokenId): (r: Bytes)
    ensures |r| == 44
  {
    v.address + v.token + BeU64(v.id)
  }

  /** `from_bytes`: fewer than 40 bytes panic on the slices (`v[32..len-8]`
      needs `len - 8 >= 32`); a tick slice of other than four bytes is an
      error. */
  function DecodeAddressTokenId(v: Bytes): (r: Result<AddressTokenId, PebbleError>)
    ensures r.Ok? <==> |v| == 44
    ensures |v| < 40 ==> r.Err? && r.error.Panic?
    ensures 40 <= |v| && |v| != 44 ==> r.Err? && r.error.Invalid?
  {
    if |v| < 40 then Err(Panic("slice index starts at 32 but ends before"))
    else if |v| != 44 then Err(Invalid("could not convert slice to array"))
    else
      BeValueBound(v[36..]);
      assert Pow256(8) == 0x1_0000_0000_0000_0000;
      Ok(AddressTokenId(v[..32], v[32..36], BeValue(v[36..])))
  }

  lemma AddressTokenIdRoundTrip(x: AddressTokenId)
    ensures DecodeAddressTokenId(EncodeAddressTokenId(x)) == Ok(x)
  {
    var e := EncodeAddressTokenId(x);
    assert e[..32] == x.address && e[32..36] == x.token && e[36..] == BeBytes(x.id, 8);
    BeRoundTrip(x.id, 8);
  }

  const AddressTokenIdCodec: Codec<AddressTokenId> := Codec(None, EncodeAddressTokenId, DecodeAddressTokenId)

  /** `From<AddressTokenId> for AddressToken`: drops the id. */
  function TokenOfTokenId(v: AddressTokenId): (r: AddressToken)
    ensures EncodeAddressToken(r) == EncodeAddressTokenId(v)[..36]
  {
    AddressToken(v.address, v.token)
  }

  /** `Vec<AddressTokenId>`: the concatenation, read back in 44-byte chunks. */
  function EncodeTokenIds(xs: seq<AddressTokenId>): Bytes {
    EncodeVec(AddressTokenIdCodec, xs)
  }

  function DecodeTokenIds(v: Bytes): Result<seq<AddressTokenId>, PebbleError> {
    DecodeChunks(AddressTokenIdCodec, 44, v)
  }

  lemma TokenIdsRoundTrip(xs: seq<AddressTokenId>)
    ensures DecodeTokenIds(EncodeTokenIds(xs)) == Ok(xs)
  {
    forall i | 0 <= i < |xs|
      ensures |AddressTokenIdCodec.enc(xs[i])| == 44 && AddressTokenIdCodec.dec(AddressTokenIdCodec.enc(xs[i])) == Ok(xs[i])
    {
      AddressTokenIdRoundTrip(xs[i]);
    }
    ChunksRoundTrip(AddressTokenIdCodec, 44, xs);
  }

  // ---------------------------------------------------------------------
  // `AddressLocation`: address ‖ outpoint (txid ‖ vout LE) ‖ offset BE,
  // 76 bytes.
  // ---------------------------------------------------------------------

  datatype AddressLocation = AddressLocation(address: FullHash, location: Location)

  function EncodeAddressLocation(v: AddressLocation): (r: Bytes)
    ensures |r| == 76
  {
    v.address + EncodeOutPoint(v.location.outpoint) + BeU64(v.location.offset)
  }

  /** `from_bytes`: fewer than 68 bytes panic on the outpoint slice; an
      offset slice of other than eight bytes is an error. */
  function DecodeAddressLocation(v: Bytes): (r: Result<AddressLocation, PebbleError>)
    ensures r.Ok? <==> |v| == 76
    ensures |v| < 68 ==> r.Err? && r.error.Panic?
  {
    if |v| < 68 then Err(Panic("range end index 68 out of range"))
    else if |v| != 76 then Err(Invalid("could not convert slice to array"))
    else
      var op := DecodeOutPoint(v[32..68]).value;
      BeValueBound(v[68..]);
      assert Pow256(8) == 0x1_0000_0000_0000_0000;
      Ok(AddressLocation(v[..32], Location(op, BeValue(v[68..]))))
  }

  lemma AddressLocationRoundTrip(x: AddressLocation)
    ensures DecodeAddressLocation(EncodeAddressLocation(x)) == Ok(x)
  {
    var e := EncodeAddressLocation(x);
    assert e[..32] == x.address;
    assert e[32..68] == EncodeOutPoint(x.location.outpoint);
    assert e[68..] == BeBytes(x.location.offset, 8);
    OutPointRoundTrip(x.location.outpoint);
    BeRoundTrip(x.location.offset, 8);
  }

  const AddressLocationCodec: Codec<AddressLocation> := Codec(None, EncodeAddressLocation, DecodeAddressLocation)

  // ---------------------------------------------------------------------
  // Search ranges. Each `search` is an inclusive pair of keys; the table
  // compares their encodings byte by byte.
  // ---------------------------------------------------------------------

  /** A key of the prefix's length plus `n` lies between prefix ‖ 00…00 and
      prefix ‖ FF…FF exactly when it starts with the prefix. */
  lemma PrefixRange(p: Bytes, n: nat, k: Bytes)
    requires |k| == |p| + n
    ensures Storage.InRange(k, Storage.Included(p + Zeros(n)), Storage.Included(p + Ones(n))) <==> k[..|p|] == p
  {
    var q, t := k[..|p|], k[|p|..];
    assert k == q + t;
    ZerosLeast(t);
    OnesGreatest(t);
    LexPrefixDecides(p, q, Zeros(n), t);
    LexPrefixDecides(q, p, t, Ones(n));
    if q != p {
      LexConnected(p, q);
      LexAsymmetric(p, q);
      assert p + Zeros(n) != k && k != p + Ones(n);
    }
  }

  /** `AddressToken::search(a)`: `a ‖ 00000000 ..= a ‖ FFFFFFFF`. */
  function AddressTokenSearch(a: FullHash): (Storage.Bound, Storage.Bound) {
    (Storage.Included(EncodeAddressToken(AddressToken(a, Zeros(4)))),
     Storage.Included(EncodeAddressToken(AddressToken(a, Ones(4)))))
  }

  /** Every token key of `a`, and no other address's, lies in the range. */
  lemma AddressTokenSearchExact(a: FullHash, x: AddressToken)
    ensures var (lo, hi) := AddressTokenSearch(a);
      Storage.InRange(EncodeAddressToken(x), lo, hi) <==> x.address == a
  {
    PrefixRange(a, 4, EncodeAddressToken(x));
  }

  lemma LeZero4()
    ensures LeU32(0) == Zeros(4) && LeU32(U32_MAX) == Ones(4)
  {
  }

  lemma BeZero8()
    ensures BeU64(0) == Zeros(8) && BeU64(U64_MAX) == Ones(8)
  {
  }

  function SmallestAt(a: FullHash, op: OutPoint): AddressLocation {
    AddressLocation(a, Location(op, 0))
  }

  function LargestOf(a: FullHash): AddressLocation {
    AddressLocation(a, Location(OutPoint(Ones(32), U32_MAX), U64_MAX))
  }

  /** `AddressLocation::search(a, None)`: every location of the address. */
  function SearchAll(a: FullHash): (Storage.Bound, Storage.Bound) {
    (Storage.Included(EncodeAddressLocation(AddressLocation(a, LocationZero))),
     Storage.Included(EncodeAddressLocation(LargestOf(a))))
  }

  /** `search_with_outpoint` (src/tokens/structs.rs) and
      `search_with_offset` (src/db/structs.rs): offsets `0 ..= u64::MAX` at
      one outpoint. */
  function SearchAtOutPoint(a: FullHash, op: OutPoint): (Storage.Bound, Storage.Bound) {
    (Storage.Included(EncodeAddressLocation(SmallestAt(a, op))),
     Storage.Included(EncodeAddressLocation(AddressLocation(a, Location(op, U64_MAX)))))
  }

  /** `AddressLocation::search` of src/tokens/structs.rs. */
  function TokensSearch(a: FullHash, op: Option<OutPoint>): (Storage.Bound, Storage.Bound) {
    match op
    case None => SearchAll(a)
    case Some(o) => SearchAtOutPoint(a, o)
  }

  /** `AddressLocation::search` of src/db/structs.rs: with an outpoint the
      range runs from that outpoint's offset 0 to the largest key of the
      address. */
  function DbSearch(a: FullHash, op: Option<OutPoint>): (Storage.Bound, Storage.Bound) {
    match op
    case None => SearchAll(a)
    case Some(o) => (Storage.Included(EncodeAddressLocation(SmallestAt(a, o))), Storage.Included(EncodeAddressLocation(LargestOf(a))))
  }

  lemma EncodeAddressLocationParts(x: AddressLocation)
    ensures EncodeAddressLocation(x)[..32] == x.address
    ensures EncodeAddressLocation(x)[..68] == x.address + EncodeOutPoint(x.location.outpoint)
    ensures EncodeAddressLocation(x)[32..] == EncodeOutPoint(x.location.outpoint) + BeU64(x.location.offset)
  {
  }

  lemma EncodeOutPointInjective(p: OutPoint, q: OutPoint)
    requires EncodeOutPoint(p) == EncodeOutPoint(q)
    ensures p == q
  {
    OutPointRoundTrip(p);
    OutPointRoundTrip(q);
  }

  /** The range without an outpoint holds exactly the address's locations. */
  lemma SearchAllExact(a: FullHash, x: AddressLocation)
    ensures var (lo, hi) := SearchAll(a);
      Storage.InRange(EncodeAddressLocation(x), lo, hi) <==> x.address == a
  {
    LeZero4();
    BeZero8();
    assert EncodeAddressLocation(AddressLocation(a, LocationZero)) == a + Zeros(44);
    assert EncodeAddressLocation(LargestOf(a)) == a + Ones(44);
    EncodeAddressLocationParts(x);
    PrefixRange(a, 44, EncodeAddressLocation(x));
  }

  /** The range at one outpoint holds exactly the address's locations on
      that outpoint, whatever their offsets. */
  lemma SearchAtOutPointExact(a: FullHash, op: OutPoint, x: AddressLocation)
    ensures var (lo, hi) := SearchAtOutPoint(a, op);
      Storage.InRange(EncodeAddressLocation(x), lo, hi) <==> x.address == a && x.location.outpoint == op
  {
    BeZero8();
    var p := a + EncodeOutPoint(op);
    assert EncodeAddressLocation(SmallestAt(a, op)) == p + Zeros(8);
    assert EncodeAddressLocation(AddressLocation(a, Location(op, U64_MAX))) == p + Ones(8);
    EncodeAddressLocationParts(x);
    PrefixRange(p, 8, EncodeAddressLocation(x));
    var q := x.address + EncodeOutPoint(x.location.outpoint);
    if q == p {
      assert q[..32] == p[..32];
      assert q[32..] == p[32..];
      EncodeOutPointInjective(x.location.outpoint, op);
    }
  }

  /** The db variant with an outpoint: the address's keys from that
      outpoint on, in byte order of the encoded outpoint and offset, so
      later outpoints are included. */
  lemma DbSearchFrom(a: FullHash, op: OutPoint, x: AddressLocation)
    ensures var (lo, hi) := DbSearch(a, Some(op));
      Storage.InRange(EncodeAddressLocation(x), lo, hi) <==>
        x.address == a && LexLe(EncodeOutPoint(op) + Zeros(8), EncodeOutPoint(x.location.outpoint) + BeU64(x.location.offset))
  {
    LeZero4();
    BeZero8();
    var k := EncodeAddressLocation(x);
    var lo := EncodeAddressLocation(SmallestAt(a, op));
    var hi := EncodeAddressLocation(LargestOf(a));
    var s := EncodeOutPoint(op) + Zeros(8);
    var t := EncodeOutPoint(x.location.outpoint) + BeU64(x.location.offset);
    assert lo == a + s;
    assert hi == a + Ones(44);
    EncodeAddressLocationParts(x);
    assert k == x.address + t;
    PrefixRange(a, 44, k);
    LexPrefixDecides(a, x.address, s, t);
    ZerosLeast(s);
    LexPrefixDecides(a, a, Zeros(44), s);
    if LexLe(lo, k) {
      LexLeTransitive(a + Zeros(44), lo, k);
    }
    if x.address == a && lo == k {
      assert s == t by {
        assert (a + s)[32..] == s;
        assert k[32..] == t;
      }
    }
  }

  // ---------------------------------------------------------------------
  // `BlockInfo`: block hash ‖ created big-endian, 36 bytes.
  // ---------------------------------------------------------------------

  datatype BlockInfo = BlockInfo(hash: Hash32, created: u32)

  function EncodeBlockInfo(v: BlockInfo): (r: Bytes)
    ensures |r| == 36
  {
    v.hash + BeU32(v.created)
  }

  /** `from_bytes`: fewer than 32 bytes panic on `v[0..32]`; a tail of other
      than four bytes is an error. */
  function DecodeBlockInfo(v: Bytes): (r: Result<BlockInfo, PebbleError>)
    ensures r.Ok? <==> |v| == 36
    ensures |v| < 32 ==> r.Err? && r.error.Panic?
  {
    if |v| < 32 then Err(Panic("range end index 32 out of range"))
    else if |v| != 36 then Err(Invalid("could not convert slice to array"))
    else
      BeValueBound(v[32..]);
      assert Pow256(4) == 0x1_0000_0000;
      Ok(BlockInfo(v[..32], BeValue(v[32..])))
  }

  lemma BlockInfoRoundTrip(x: BlockInfo)
    ensures DecodeBlockInfo(EncodeBlockInfo(x)) == Ok(x)
  {
    var e := EncodeBlockInfo(x);
    assert e[32..] == BeBytes(x.created, 4);
    BeRoundTrip(x.created, 4);
  }
}

=== FILE: leaked.dfy ===
/** Leaked inscriptions (src/inscriptions/leaked.rs): satoshis that an
    inscription sits on but that no output of its transaction receives go to
    the fee, and from there to the block's coinbase. The tracker files each
    one under its position in the block's stream of fees, then finds the
    coinbase output at that position past the miner's reward. */
module Leaked {
  import opened Bytes
  import opened Wrappers
  import opened Locations
  import opened Tokens
  import opened Searcher

  datatype LeakedKind = Creation | Move

  /** `LeakedInscriptions`; the `HashMap<u64, Vec<_>>` is a list of
      distinct keys, each with its inscriptions in the order they came. */
  datatype LeakedInscriptions = LeakedInscriptions(
    inscriptions: seq<(u64, seq<LeakedKind>)>,
    totalAmount: nat,
    coinbase: Tx,
    coinbaseTxid: Txid,
    coinbaseReward: Option<u64>)

  predicate DistinctKeys(entries: seq<(u64, seq<LeakedKind>)>) {
    forall i, j :: 0 <= i < j < |entries| ==> entries[i].0 != entries[j].0
  }

  function New(coinbase: Tx, txid: Txid): (r: LeakedInscriptions)
    ensures DistinctKeys(r.inscriptions) && r.totalAmount == 0 && r.coinbaseReward.None?
  {
    LeakedInscriptions([], 0, coinbase, txid, None)
  }

  /** Every input's prevout is known: the `unwrap`s below cannot fail. */
  predicate Known(tx: Tx, txOuts: map<OutPoint, TxOut>) {
    forall i :: 0 <= i < |tx.inputs| ==> tx.inputs[i] in txOuts
  }

  function InputSum(tx: Tx, txOuts: map<OutPoint, TxOut>): nat
    requires Known(tx, txOuts)
  {
    Sum(InputValues(tx.inputs, txOuts).value)
  }

  /** `add_tx_fee`: the transaction's fee joins the running total, which
      is returned. */
  function AddTxFee(s: LeakedInscriptions, tx: Tx, txOuts: map<OutPoint, TxOut>): (r: (LeakedInscriptions, nat))
    requires Known(tx, txOuts)
    ensures r.1 == r.0.totalAmount
    ensures r.0 == s.(totalAmount := r.1)
    ensures Sum(Values(tx.outputs)) <= InputSum(tx, txOuts) < 0x1_0000_0000_0000_0000 ==>
      r.1 == s.totalAmount + InputSum(tx, txOuts) - Sum(Values(tx.outputs))
  {
    var total := s.totalAmount + WrapSub(InputSum(tx, txOuts), Sum(Values(tx.outputs)));
    (s.(totalAmount := total), total)
  }

  datatype FeeResult = FeeResult(fee: u64, feeOffset: u64)

  /** `find_fee`: the fee of `tx`, and where the satoshi at `inputOffset`
      of input `idx` sits within it. `Running(vs)` is the source's
      cumulative list with a leading zero, so `cum[i]` is entry `i + 1`. */
  function FindFee(tx: Tx, idx: nat, inputOffset: nat, txOuts: map<OutPoint, TxOut>): FeeResult
    requires Known(tx, txOuts) && idx < |tx.inputs|
  {
    var vs := InputValues(tx.inputs, txOuts).value;
    var cum := Running(vs);
    var outputSum := Sum(Values(tx.outputs));
    var inputSum := cum[|vs|];
    var prevOutValue := txOuts[tx.inputs[idx]].value;
    FeeResult(WrapSub(inputSum, outputSum), WrapSub(cum[idx + 1] - prevOutValue + inputOffset, outputSum))
  }

  /** The fee is the inputs less the outputs, and the satoshi's place in
      it is its place among the inputs less the outputs. */
  lemma FindFeePosition(tx: Tx, idx: nat, inputOffset: nat, txOuts: map<OutPoint, TxOut>)
    requires Known(tx, txOuts) && idx < |tx.inputs|
    ensures var vs := InputValues(tx.inputs, txOuts).value; var out := Sum(Values(tx.outputs)); var r := FindFee(tx, idx, inputOffset, txOuts);
      out <= Sum(vs) < 0x1_0000_0000_0000_0000 && out <= Sum(vs[..idx]) + inputOffset < 0x1_0000_0000_0000_0000 ==>
        r.fee == Sum(vs) - out && r.feeOffset == Sum(vs[..idx]) + inputOffset - out
  {
    var vs := InputValues(tx.inputs, txOuts).value;
    var cum := Running(vs);
    RunningSums(vs, idx);
    RunningSums(vs, |vs|);
    assert vs[..|vs|] == vs;
    assert cum[idx + 1] - txOuts[tx.inputs[idx]].value == Sum(vs[..idx]);
    assert cum[|vs|] == Sum(vs);
    var out := Sum(Values(tx.outputs));
    var r := FindFee(tx, idx, inputOffset, txOuts);
    assert r.fee == WrapSub(cum[|vs|], out);
    assert r.feeOffset == WrapSub(cum[idx + 1] - txOuts[tx.inputs[idx]].value + inputOffset, out);
  }

  /** `entry(key).and_modify(push).or_insert(vec![kind])`. */
  function File(entries: seq<(u64, seq<LeakedKind>)>, key: u64, kind: LeakedKind): (r: seq<(u64, seq<LeakedKind>)>)
    decreases |entries|
  {
    if |entries| == 0 then [(key, [kind])]
    else if entries[0].0 == key then [(key, entries[0].1 + [kind])] + entries[1..]
    else [entries[0]] + File(entries[1..], key, kind)
  }

  /** The inscriptions filed under a key. */
  function Under(entries: seq<(u64, seq<LeakedKind>)>, key: u64): seq<LeakedKind>
    decreases |entries|
  {
    if |entries| == 0 then []
    else if entries[0].0 == key then entries[0].1
    else Under(entries[1..], key)
  }

  /** Filing appends the inscription under its key, leaves every other key
      alone and keeps the keys distinct. */
  lemma {:induction false} FileAppends(entries: seq<(u64, seq<LeakedKind>)>, key: u64, kind: LeakedKind, other: u64)
    ensures DistinctKeys(entries) ==> DistinctKeys(File(entries, key, kind))
    ensures Under(File(entries, key, kind), key) == Under(entries, key) + [kind]
    ensures other != key ==> Under(File(entries, key, kind), other) == Under(entries, other)
    decreases |entries|, 1
  {
    if |entries| > 0 && entries[0].0 != key {
      var rest := entries[1..];
      FileAppends(rest, key, kind, other);
      if DistinctKeys(entries) {
        FileDistinct(entries, key, kind);
      }
    } else if |entries| > 0 && DistinctKeys(entries) {
      var r := File(entries, key, kind);
      forall i, j | 0 <= i < j < |r| ensures r[i].0 != r[j].0 {
        assert r[i].0 == entries[i].0 && r[j].0 == entries[j].0;
      }
    }
  }

  lemma FileDistinct(entries: seq<(u64, seq<LeakedKind>)>, key: u64, kind: LeakedKind)
    requires DistinctKeys(entries) && |entries| > 0 && entries[0].0 != key
    ensures DistinctKeys(File(entries, key, kind))
    decreases |entries|, 0
  {
    var rest := entries[1..];
    DistinctKeysTail(entries);
    FileAppends(rest, key, kind, 0);
    FileFresh(rest, key, kind, entries[0].0);
    assert File(entries, key, kind) == [entries[0]] + File(rest, key, kind);
    DistinctKeysCons(entries[0], File(rest, key, kind));
  }

  lemma DistinctKeysTail(s: seq<(u64, seq<LeakedKind>)>)
    requires DistinctKeys(s) && |s| > 0
    ensures DistinctKeys(s[1..])
    ensures forall k :: 0 <= k < |s[1..]| ==> s[1..][k].0 != s[0].0
  {
    var rest := s[1..];
    forall i, j | 0 <= i < j < |rest|
      ensures rest[i].0 != rest[j].0
    {
      assert rest[i] == s[i + 1] && rest[j] == s[j + 1];
    }
    forall k | 0 <= k < |rest|
      ensures rest[k].0 != s[0].0
    {
      assert rest[k] == s[k + 1];
    }
  }

  lemma DistinctKeysCons(e: (u64, seq<LeakedKind>), s: seq<(u64, seq<LeakedKind>)>)
    requires DistinctKeys(s) && forall k :: 0 <= k < |s| ==> s[k].0 != e.0
    ensures DistinctKeys([e] + s)
  {
    var r := [e] + s;
    forall i, j | 0 <= i < j < |r|
      ensures r[i].0 != r[j].0
    {
      assert r[j] == s[j - 1];
      if i > 0 {
        assert r[i] == s[i - 1];
      }
    }
  }

  /** Filing introduces no key but its own. */
  lemma {:induction false} FileFresh(entries: seq<(u64, seq<LeakedKind>)>, key: u64, kind: LeakedKind, x: u64)
    requires x != key && forall k :: 0 <= k < |entries| ==> entries[k].0 != x
    ensures forall i :: 0 <= i < |File(entries, key, kind)| ==> File(entries, key, kind)[i].0 != x
    decreases |entries|
  {
    if |entries| > 0 && entries[0].0 != key {
      var rest := entries[1..];
      assert forall k :: 0 <= k < |rest| ==> rest[k].0 != x by {
        forall k | 0 <= k < |rest| ensures rest[k].0 != x {
          assert rest[k] == entries[k + 1];
        }
      }
      FileFresh(rest, key, kind, x);
      var r := File(entries, key, kind);
      forall i | 0 <= i < |r| ensures r[i].0 != x {
        if i > 0 {
          assert r[i] == File(rest, key, kind)[i - 1];
        }
      }
    } else if |entries| > 0 {
      var r := File(entries, key, kind);
      forall i | 0 <= i < |r| ensures r[i].0 != x {
        if i > 0 {
          assert r[i] == entries[i];
        }
      }
    }
  }

  /** The key `add` files under: the running total less what of the fee
      lies past the satoshi. */
  function LeakKey(s: LeakedInscriptions, fee: FeeResult): u64 {
    WrapSub(s.totalAmount, WrapSub(fee.fee, fee.feeOffset))
  }

  /** `add`. */
  function Add(s: LeakedInscriptions, idx: nat, tx: Tx, inputOffset: nat, txOuts: map<OutPoint, TxOut>, kind: LeakedKind): (r: LeakedInscriptions)
    requires Known(tx, txOuts) && idx < |tx.inputs|
    ensures var key := LeakKey(s, FindFee(tx, idx, inputOffset, txOuts));
      && r.totalAmount == s.totalAmount && r.coinbase == s.coinbase && r.coinbaseReward == s.coinbaseReward
      && (DistinctKeys(s.inscriptions) ==> DistinctKeys(r.inscriptions))
      && Under(r.inscriptions, key) == Under(s.inscriptions, key) + [kind]
  {
    FileAppends(s.inscriptions, LeakKey(s, FindFee(tx, idx, inputOffset, txOuts)), kind, 0);
    s.(inscriptions := File(s.inscriptions, LeakKey(s, FindFee(tx, idx, inputOffset, txOuts)), kind))
  }

  /** With the transaction's fee already in the total, a satoshi that lies
      in the fee is filed under the fees of the earlier transactions plus
      its position within this one's fee. */
  lemma AddFilesByFeePosition(s: LeakedInscriptions, idx: nat, tx: Tx, inputOffset: nat, txOuts: map<OutPoint, TxOut>)
    requires Known(tx, txOuts) && idx < |tx.inputs|
    requires var vs := InputValues(tx.inputs, txOuts).value; var out := Sum(Values(tx.outputs));
      && Sum(vs) - out <= s.totalAmount < 0x1_0000_0000_0000_0000
      && Sum(vs) < 0x1_0000_0000_0000_0000
      && out <= Sum(vs[..idx]) + inputOffset
      && inputOffset <= vs[idx]
    ensures var vs := InputValues(tx.inputs, txOuts).value; var out := Sum(Values(tx.outputs));
      && LeakKey(s, FindFee(tx, idx, inputOffset, txOuts)) == (s.totalAmount - (Sum(vs) - out)) + (Sum(vs[..idx]) + inputOffset - out)
      && LeakKey(s, FindFee(tx, idx, inputOffset, txOuts)) <= s.totalAmount
  {
    var vs := InputValues(tx.inputs, txOuts).value;
    FindFeePosition(tx, idx, inputOffset, txOuts);
    SumSnoc(vs, idx);
    SumPrefixMonotone(vs, idx + 1, |vs|);
    assert vs[..|vs|] == vs;
  }

  /** `update_reward`: the coinbase's outputs less the fees. */
  function UpdateReward(s: LeakedInscriptions): (r: LeakedInscriptions)
    ensures r.coinbaseReward.Some? && r == s.(coinbaseReward := r.coinbaseReward)
    ensures s.totalAmount <= Sum(Values(s.coinbase.outputs)) < 0x1_0000_0000_0000_0000 ==>
      r.coinbaseReward.value + s.totalAmount == Sum(Values(s.coinbase.outputs))
  {
    s.(coinbaseReward := Some(WrapSub(Sum(Values(s.coinbase.outputs)), s.totalAmount)))
  }

  /** `find_inscription_vout`: the coinbase output holding position
      `offset` past the reward, and the offset inside it. */
  function FindInscriptionVout(s: LeakedInscriptions, offset: nat): (r: Option<(u32, u64)>)
    requires s.coinbaseReward.Some?
    ensures var outs := Values(s.coinbase.outputs);
      r.Some? <==> offset + s.coinbaseReward.value < Sum(outs)
    ensures r.Some? ==> exists i :: (0 <= i < |s.coinbase.outputs| && r.value.0 == i % 0x1_0000_0000
      && r.value.1 < s.coinbase.outputs[i].value
      && Sum(Values(s.coinbase.outputs)[..i]) + r.value.1 == offset + s.coinbaseReward.value)
  {
    var outs := Values(s.coinbase.outputs);
    var position := offset + s.coinbaseReward.value;
    LocateFinds(position, outs, 0);
    assert outs[0..] == outs;
    match Locate(position, outs, 0)
    case None => None
    case Some((i, rem)) =>
      assert outs[0..i] == outs[..i];
      Some((i % 0x1_0000_0000, rem))
  }

  /** A leaked satoshi filed below the total fees always lands in the
      coinbase, when the coinbase pays out at least the fees. */
  lemma LeakedLandsInCoinbase(s: LeakedInscriptions, key: u64)
    requires key < s.totalAmount <= Sum(Values(s.coinbase.outputs)) < 0x1_0000_0000_0000_0000
    ensures FindInscriptionVout(UpdateReward(s), key).Some?
  {
  }

  /** Every filed key, once per inscription under it. */
  function Expand(entries: seq<(u64, seq<LeakedKind>)>): (r: seq<u64>)
    ensures |r| == Count(entries)
  {
    if |entries| == 0 then [] else seq(|entries[0].1|, _ => entries[0].0) + Expand(entries[1..])
  }

  function Count(entries: seq<(u64, seq<LeakedKind>)>): nat {
    if |entries| == 0 then 0 else |entries[0].1| + Count(entries[1..])
  }

  /** The `filter_map` over the filed keys. */
  function LeakedLocations(s: LeakedInscriptions, keys: seq<u64>): (r: seq<Location>)
    requires s.coinbaseReward.Some?
    ensures |r| <= |keys|
    ensures forall j :: 0 <= j < |r| ==> r[j].outpoint.txid == s.coinbaseTxid
    ensures forall j :: 0 <= j < |r| ==> exists i :: (0 <= i < |s.coinbase.outputs|
      && r[j].outpoint.vout == i % 0x1_0000_0000 && r[j].offset < s.coinbase.outputs[i].value)
    decreases |keys|
  {
    if |keys| == 0 then []
    else
      var rest := LeakedLocations(s, keys[1..]);
      match FindInscriptionVout(s, keys[0])
      case None => rest
      case Some((vout, offset)) =>
        var r := [Location(OutPoint(s.coinbaseTxid, vout), offset)] + rest;
        var i :| 0 <= i < |s.coinbase.outputs| && vout == i % 0x1_0000_0000 && offset < s.coinbase.outputs[i].value;
        assert r[0].outpoint.vout == i % 0x1_0000_0000 && r[0].offset < s.coinbase.outputs[i].value;
        assert forall j :: 1 <= j < |r| ==> r[j] == rest[j - 1];
        r
  }

  /** `get_leaked_inscriptions`: every leaked inscription that a coinbase
      output receives, on the coinbase transaction. */
  function GetLeakedInscriptions(s: LeakedInscriptions): (r: seq<Location>)
    ensures |r| <= Count(s.inscriptions)
    ensures forall j :: 0 <= j < |r| ==> r[j].outpoint.txid == s.coinbaseTxid
  {
    LeakedLocations(UpdateReward(s), Expand(s.inscriptions))
  }

  /** When every filed key lies below the total fees and the coinbase pays
      out at least the fees, no leaked inscription is lost. */
  lemma {:induction false} NoneLost(s: LeakedInscriptions, keys: seq<u64>)
    requires s.totalAmount <= Sum(Values(s.coinbase.outputs)) < 0x1_0000_0000_0000_0000
    requires forall j :: 0 <= j < |keys| ==> keys[j] < s.totalAmount
    ensures |LeakedLocations(UpdateReward(s), keys)| == |keys|
    decreases |keys|
  {
    if |keys| > 0 {
      LeakedLandsInCoinbase(s, keys[0]);
      NoneLost(s, keys[1..]);
    }
  }
}

=== FILE: location.dfy ===
/** Outpoints, inscription locations and inscription ids
    (core/src/types/location.rs, the `Location` of
    src/inscriptions/structs.rs, which is the same type, and `InscriptionId`
    of src/tokens/structs.rs): their derived order, their consensus byte
    layout and their text forms. */
module Locations {
  import opened Bytes
  import opened Wrappers
  import opened Text

  type Txid = Hash32

  /** `bitcoin::OutPoint`. */
  datatype OutPoint = OutPoint(txid: Txid, vout: u32)

  /** The position of an inscription: a satoshi `offset` within an output. */
  datatype Location = Location(outpoint: OutPoint, offset: u64)

  /** `Location::zero`. */
  const LocationZero: Location := Location(OutPoint(ZeroHash, 0), 0)

  lemma LocationZeroIsZero()
    ensures LocationZero.outpoint.txid == Zeros(32)
    ensures LocationZero.outpoint.vout == 0 && LocationZero.offset == 0
  {
  }

  /** The derived `Ord`: txid bytes, then vout, then offset. */
  predicate OutPointLess(a: OutPoint, b: OutPoint) {
    LexLess(a.txid, b.txid) || (a.txid == b.txid && a.vout < b.vout)
  }

  predicate LocationLess(a: Location, b: Location) {
    OutPointLess(a.outpoint, b.outpoint) || (a.outpoint == b.outpoint && a.offset < b.offset)
  }

  /** The derived order is a strict total order. */
  lemma LocationOrder(a: Location, b: Location, c: Location)
    ensures !LocationLess(a, a)
    ensures a != b ==> (LocationLess(a, b) || LocationLess(b, a))
    ensures LocationLess(a, b) && LocationLess(b, c) ==> LocationLess(a, c)
  {
    LexIrreflexive(a.outpoint.txid);
    if a.outpoint.txid != b.outpoint.txid {
      LexConnected(a.outpoint.txid, b.outpoint.txid);
    }
    if LocationLess(a, b) && LocationLess(b, c) && LexLess(a.outpoint.txid, b.outpoint.txid) && LexLess(b.outpoint.txid, c.outpoint.txid) {
      LexTransitive(a.outpoint.txid, b.outpoint.txid, c.outpoint.txid);
    }
  }

  // ---------------------------------------------------------------------
  // Consensus layout of an outpoint: txid ‖ vout little-endian.
  // ---------------------------------------------------------------------

  function EncodeOutPoint(op: OutPoint): (r: Bytes)
    ensures |r| == 36 && r[..32] == op.txid
  {
    op.txid + LeU32(op.vout)
  }

  /** `consensus::deserialize::<OutPoint>`: exactly 36 bytes. */
  function DecodeOutPoint(bs: Bytes): (r: Option<OutPoint>)
    ensures r.Some? <==> |bs| == 36
  {
    if |bs| != 36 then None
    else
      LeValueBound(bs[32..]);
      assert Pow256(4) == 0x1_0000_0000;
      Some(OutPoint(bs[..32], LeValue(bs[32..])))
  }

  lemma OutPointRoundTrip(op: OutPoint)
    ensures DecodeOutPoint(EncodeOutPoint(op)) == Some(op)
  {
    var e := EncodeOutPoint(op);
    assert e[32..] == LeBytes(op.vout, 4);
    LeRoundTrip(op.vout, 4);
  }

  // ---------------------------------------------------------------------
  // Text forms.
  // ---------------------------------------------------------------------

  /** `Display`: `{txid}i{vout}i{offset}`. */
  function LocationDisplay(l: Location): string {
    HashHex(l.outpoint.txid) + "i" + Decimal(l.outpoint.vout) + "i" + Decimal(l.offset)
  }

  function IndexOf(s: string, c: char): (i: nat)
    requires c in s
    ensures i < |s| && s[i] == c && c !in s[..i]
  {
    if s[0] == c then 0
    else
      assert c in s[1..] by {
        var k :| 0 <= k < |s| && s[k] == c;
        assert s[1..][k - 1] == c;
      }
      var j := IndexOf(s[1..], c);
      assert s[..j + 1] == [s[0]] + s[1..][..j];
      j + 1
  }

  /** `str::split(sep)`: the pieces between separators, at least one. */
  function Split(s: string, sep: char): (r: seq<string>)
    ensures |r| >= 1
    decreases |s|
  {
    if sep !in s then [s]
    else
      var i := IndexOf(s, sep);
      [s[..i]] + Split(s[i + 1..], sep)
  }

  lemma SplitPiece(a: string, sep: char, rest: string)
    requires sep !in a
    ensures Split(a + [sep] + rest, sep) == [a] + Split(rest, sep)
  {
    var s := a + [sep] + rest;
    assert s[|a|] == sep;
    assert s[..|a|] == a;
    assert s[|a| + 1..] == rest;
  }

  /** `Location::from_str`: `txid:vout:offset`; pieces after the third are
      ignored. */
  function ParseLocation(s: string): (r: Result<Location, string>)
    ensures r.Ok? ==> |Split(s, ':')| >= 3
  {
    var items := Split(s, ':');
    match ParseHashHex(items[0])
    case None => Err("Invalid txid")
    case Some(txid) =>
      if |items| < 2 then Err("Invalid location")
      else match ParseUint(items[1], U32_MAX)
        case None => Err("Invalid vout")
        case Some(vout) =>
          if |items| < 3 then Err("Invalid location")
          else match ParseUint(items[2], U64_MAX)
            case None => Err("Invalid offset")
            case Some(offset) => Ok(Location(OutPoint(txid, vout), offset))
  }

  lemma NoColonInHex(s: string)
    requires forall i :: 0 <= i < |s| ==> HexValue(s[i]).Some?
    ensures forall i :: 0 <= i < |s| ==> s[i] != ':' && s[i] != 'i'
  {
  }

  lemma NoColonInDigits(s: string)
    requires AllDigits(s)
    ensures forall i :: 0 <= i < |s| ==> s[i] != ':' && s[i] != 'i'
  {
  }

  /** The `Display` form is not accepted by `FromStr`: it has no `:`, so its
      single piece is longer than a txid. */
  lemma DisplayNotParsed(l: Location)
    ensures ParseLocation(LocationDisplay(l)).Err?
  {
    var s := LocationDisplay(l);
    var h, v, o := HashHex(l.outpoint.txid), Decimal(l.outpoint.vout), Decimal(l.offset);
    NoColonInHex(h);
    NoColonInDigits(v);
    NoColonInDigits(o);
    forall k | 0 <= k < |s| ensures s[k] != ':' {
      if k < 64 {
        assert s[k] == h[k];
      } else if 64 < k < 65 + |v| {
        assert s[k] == v[k - 65];
      } else if 65 + |v| < k {
        assert s[k] == o[k - 66 - |v|];
      }
    }
    assert Split(s, ':') == [s];
  }

  /** The first three pieces of `h:v:o` followed by further pieces. */
  lemma SplitThree(h: string, v: string, o: string, tail: string)
    requires ':' !in h && ':' !in v && ':' !in o
    requires tail == [] || tail[0] == ':'
    ensures var items := Split(h + ":" + v + ":" + o + tail, ':');
      |items| >= 3 && items[0] == h && items[1] == v && items[2] == o
  {
    var t := o + tail;
    var u := v + [':'] + t;
    var s := h + [':'] + u;
    assert h + ":" + v + ":" + o + tail == s;
    var rest := Split(t, ':');
    assert rest[0] == o by {
      if tail != [] {
        assert t == o + [':'] + tail[1..];
        SplitPiece(o, ':', tail[1..]);
      }
    }
    assert Split(u, ':') == [v] + rest by {
      SplitPiece(v, ':', t);
    }
    assert Split(s, ':') == [h] + ([v] + rest) by {
      SplitPiece(h, ':', u);
    }
  }

  /** The colon form `txid:vout:offset` parses back to the location,
      whatever further pieces follow it. */
  lemma ColonFormParses(l: Location, tail: string)
    requires tail == [] || tail[0] == ':'
    ensures ParseLocation(HashHex(l.outpoint.txid) + ":" + Decimal(l.outpoint.vout) + ":" + Decimal(l.offset) + tail)
      == Ok(l)
  {
    var h, v, o := HashHex(l.outpoint.txid), Decimal(l.outpoint.vout), Decimal(l.offset);
    NoColonInHex(h);
    NoColonInDigits(v);
    NoColonInDigits(o);
    SplitThree(h, v, o, tail);
    HashHexRoundTrip(l.outpoint.txid);
    DecimalRoundTrip(l.outpoint.vout, U32_MAX);
    DecimalRoundTrip(l.offset, U64_MAX);
  }

  // ---------------------------------------------------------------------
  // `InscriptionId`: `{txid}i{index}`.
  // ---------------------------------------------------------------------

  datatype InscriptionId = InscriptionId(txid: Txid, index: u32)

  datatype IdParseError =
    | Character(c: char)
    | Length(len: nat)
    | Separator(c: char)
    | TxidError
    | IndexError

  function InscriptionIdDisplay(id: InscriptionId): string {
    HashHex(id.txid) + "i" + Decimal(id.index)
  }

  predicate IsAscii(c: char) { c as int < 0x80 }

  /** `InscriptionId::from_str`. The length test counts bytes; once every
      character is ASCII that is the number of characters. */
  function ParseInscriptionId(s: string): (r: Result<InscriptionId, IdParseError>)
    ensures (exists i :: 0 <= i < |s| && !IsAscii(s[i])) ==> r.Err? && r.error.Character?
    ensures (forall i :: 0 <= i < |s| ==> IsAscii(s[i])) && |s| < 66 ==> r == Err(Length(|s|))
    ensures r.Ok? ==> |s| >= 66 && s[64] == 'i'
  {
    if exists i :: 0 <= i < |s| && !IsAscii(s[i]) then
      Err(Character(s[FirstNonAscii(s)]))
    else if |s| < 66 then Err(Length(|s|))
    else if s[64] != 'i' then Err(Separator(s[64]))
    else match ParseHashHex(s[..64])
      case None => Err(TxidError)
      case Some(txid) =>
        match ParseUint(s[65..], U32_MAX)
        case None => Err(IndexError)
        case Some(index) => Ok(InscriptionId(txid, index))
  }

  function FirstNonAscii(s: string): (i: nat)
    requires exists i :: 0 <= i < |s| && !IsAscii(s[i])
    ensures i < |s| && !IsAscii(s[i]) && forall j :: 0 <= j < i ==> IsAscii(s[j])
  {
    if !IsAscii(s[0]) then 0
    else
      assert exists i :: 0 <= i < |s[1..]| && !IsAscii(s[1..][i]) by {
        var k :| 0 <= k < |s| && !IsAscii(s[k]);
        assert s[1..][k - 1] == s[k];
      }
      1 + FirstNonAscii(s[1..])
  }

  /** Parsing the displayed form gives back the id. */
  lemma InscriptionIdRoundTrip(id: InscriptionId)
    ensures ParseInscriptionId(InscriptionIdDisplay(id)) == Ok(id)
  {
    var h, d := HashHex(id.txid), Decimal(id.index);
    var s := InscriptionIdDisplay(id);
    assert forall i :: 0 <= i < |s| ==> IsAscii(s[i]) by {
      forall i | 0 <= i < |s| ensures IsAscii(s[i]) {
        if i < 64 {
          assert s[i] == h[i] && HexValue(h[i]).Some?;
        } else if i > 64 {
          assert s[i] == d[i - 65] && IsDigit(d[i - 65]);
        }
      }
    }
    assert s[..64] == h && s[65..] == d;
    HashHexRoundTrip(id.txid);
    DecimalRoundTrip(id.index, U32_MAX);
  }

  /** `From<InscriptionId> for OutPoint` and back. */
  function IdToOutPoint(id: InscriptionId): OutPoint {
    OutPoint(id.txid, id.index)
  }

  function OutPointToId(op: OutPoint): InscriptionId {
    InscriptionId(op.txid, op.vout)
  }

  lemma IdOutPointInverse(id: InscriptionId, op: OutPoint)
    ensures OutPointToId(IdToOutPoint(id)) == id
    ensures IdToOutPoint(OutPointToId(op)) == op
  {
  }
}

=== FILE: old_index.dfy ===
/** The block index of the older block parser: the same leveldb records,
    a looser filter (any validity level, block data not required, no MWEB
    data), and a different linker. Groups are visited from the highest
    height down; groups are skipped until the first one that holds exactly
    one record, and from there every lower group must hold that record's
    parent, its parent's parent, and so on. The parents are collected; the
    record the walk starts from is not. */
module OldBlockIndex {
  import opened Bytes
  import opened Wrappers
  import BlkUtils
  import opened BlockIndex

  /** The grouped index as the linker iterates it: the groups of records,
      highest height first. */
  function Groups(rs: seq<Record>): (gs: seq<seq<Record>>)
    ensures |gs| == |HeightsDesc(rs)|
  {
    var hs := HeightsDesc(rs);
    seq(|hs|, i requires 0 <= i < |hs| => assert hs[i] in hs; Group(rs)[hs[i]])
  }

  /** Every record of the `i`-th group has the `i`-th height. */
  lemma GroupsHeights(rs: seq<Record>, i: nat, k: nat)
    requires i < |Groups(rs)| && k < |Groups(rs)[i]|
    ensures Groups(rs)[i][k].height == HeightsDesc(rs)[i]
  {
    var hs := HeightsDesc(rs);
    assert hs[i] in hs;
    assert Groups(rs)[i] == Group(rs)[hs[i]];
    GroupWellGrouped(rs);
  }

  /** The groups are the grouped index's entries, in the order of the
      heights. */
  lemma GroupsAreGroups(rs: seq<Record>, i: nat)
    requires i < |Groups(rs)|
    ensures HeightsDesc(rs)[i] in Group(rs) && Groups(rs)[i] == Group(rs)[HeightsDesc(rs)[i]]
  {
    assert HeightsDesc(rs)[i] in HeightsDesc(rs);
  }

  /** `s` is the first group, from the top, that holds a single record:
      where the linker starts. */
  predicate StartsAt(groups: seq<seq<Record>>, s: nat) {
    s < |groups| && |groups[s]| == 1 && forall k :: 0 <= k < s ==> |groups[k]| != 1
  }

  /** No two records of a group share a hash. */
  predicate HashesUnique(grp: seq<Record>) {
    forall i, j :: 0 <= i < j < |grp| ==> grp[i].hash != grp[j].hash
  }

  /** The `batching` closure, run to the end. `pos` is `last_pos`: the
      position, in the first remaining group, of the record the walk is at;
      `None` until a single-record group has been met. Each step emits the
      record of the next group whose hash is the current record's parent
      hash; a missing one is the `unwrap` panic. The last group ends the
      walk. */
  function Link(groups: seq<seq<Record>>, pos: Option<nat>): (r: Result<seq<Record>, string>)
    requires pos.Some? ==> |groups| > 0 && pos.value < |groups[0]|
    ensures r.Err? ==> r.error == UnwrapNone
    ensures r.Ok? ==> |r.value| <= |groups| && (|groups| > 0 ==> |r.value| < |groups|)
    ensures r.Ok? && pos.Some? ==> |r.value| == |groups| - 1
    ensures pos.None? && (forall k :: 0 <= k < |groups| ==> |groups[k]| != 1) ==> r == Ok([])
    decreases |groups|
  {
    if |groups| == 0 then Ok([])
    else if pos.None? && |groups[0]| != 1 then Link(groups[1..], None)
    else
      var prevHash := groups[0][if pos.Some? then pos.value else 0].prevHash;
      if |groups| == 1 then Ok([])
      else
        match Find(groups[1], prevHash)
        case None => Err(UnwrapNone)
        case Some(q) =>
          var rest :- Link(groups[1..], Some(q));
          Ok([groups[1][q]] + rest)
  }

  /** What a successful walk returns: records of the lowest groups, one per
      group, each the parent of the one before; the first is the parent of
      the record the walk was at, which is the record of the first
      single-record group when the walk starts afresh. */
  lemma {:induction false} LinkSound(groups: seq<seq<Record>>, pos: Option<nat>)
    requires pos.Some? ==> |groups| > 0 && pos.value < |groups[0]|
    requires Link(groups, pos).Ok?
    ensures var r := Link(groups, pos).value;
      (forall i :: 0 <= i < |r| ==> r[i] in groups[|groups| - |r| + i]) &&
      (forall i :: 0 <= i < |r| - 1 ==> r[i + 1].hash == r[i].prevHash)
    ensures var r := Link(groups, pos).value;
      pos.Some? && |r| > 0 ==> r[0].hash == groups[0][pos.value].prevHash
    ensures var r := Link(groups, pos).value;
      pos.None? ==> forall s: nat :: StartsAt(groups, s) ==> |r| == |groups| - s - 1
    ensures var r := Link(groups, pos).value;
      pos.None? && |r| > 0 ==> var s := |groups| - |r| - 1; StartsAt(groups, s) && r[0].hash == groups[s][0].prevHash
    decreases |groups|
  {
    var r := Link(groups, pos).value;
    if |groups| == 0 {
    } else if pos.None? && |groups[0]| != 1 {
      LinkSound(groups[1..], None);
      LinkSkip(groups, r);
    } else if |groups| > 1 {
      var prevHash := groups[0][if pos.Some? then pos.value else 0].prevHash;
      var q := Find(groups[1], prevHash).value;
      var rest := Link(groups[1..], Some(q)).value;
      assert r == [groups[1][q]] + rest;
      LinkSound(groups[1..], Some(q));
      LinkStep(groups, q, rest);
      if pos.None? {
        assert StartsAt(groups, 0);
      }
    }
  }

  /** Skipping a first group of other than one record shifts the start. */
  lemma LinkSkip(groups: seq<seq<Record>>, r: seq<Record>)
    requires |groups| > 0 && |groups[0]| != 1
    requires |r| <= |groups| - 1 && (|groups| > 1 ==> |r| < |groups| - 1)
    requires forall s: nat :: StartsAt(groups[1..], s) ==> |r| == |groups| - 1 - s - 1
    requires |r| > 0 ==> (StartsAt(groups[1..], |groups| - 1 - |r| - 1) &&
                          r[0].hash == groups[1..][|groups| - 1 - |r| - 1][0].prevHash)
    requires forall i :: 0 <= i < |r| ==> r[i] in groups[1..][|groups| - 1 - |r| + i]
    ensures forall s: nat :: StartsAt(groups, s) ==> |r| == |groups| - s - 1
    ensures |r| > 0 ==> StartsAt(groups, |groups| - |r| - 1) && r[0].hash == groups[|groups| - |r| - 1][0].prevHash
    ensures forall i :: 0 <= i < |r| ==> r[i] in groups[|groups| - |r| + i]
  {
    forall s: nat | StartsAt(groups, s)
      ensures |r| == |groups| - s - 1
    {
      assert s > 0;
      assert StartsAt(groups[1..], s - 1);
    }
    if |r| > 0 {
      var s := |groups| - 1 - |r| - 1;
      assert StartsAt(groups[1..], s);
      assert StartsAt(groups, s + 1);
    }
  }

  /** One step of the walk: the emitted parent, then the rest. */
  lemma LinkStep(groups: seq<seq<Record>>, q: nat, rest: seq<Record>)
    requires |groups| > 1 && q < |groups[1]| && |rest| == |groups| - 2
    requires forall i :: 0 <= i < |rest| ==> rest[i] in groups[1..][|groups| - 1 - |rest| + i]
    requires forall i :: 0 <= i < |rest| - 1 ==> rest[i + 1].hash == rest[i].prevHash
    requires |rest| > 0 ==> rest[0].hash == groups[1..][0][q].prevHash
    ensures var r := [groups[1][q]] + rest;
      (forall i :: 0 <= i < |r| ==> r[i] in groups[|groups| - |r| + i]) &&
      (forall i :: 0 <= i < |r| - 1 ==> r[i + 1].hash == r[i].prevHash)
  {
    var r := [groups[1][q]] + rest;
    forall i | 0 <= i < |r|
      ensures r[i] in groups[|groups| - |r| + i]
    {
      if i > 0 {
        assert r[i] == rest[i - 1];
      }
    }
    forall i | 0 <= i < |r| - 1
      ensures r[i + 1].hash == r[i].prevHash
    {
      if i > 0 {
        assert r[i + 1] == rest[i] && r[i] == rest[i - 1];
      }
    }
  }

  /** Once the walk is at a record, it succeeds with any chain of parents
      through all lower groups, when hashes are unique within each group. */
  lemma {:induction false} LinkFromComplete(groups: seq<seq<Record>>, q: nat, chain: seq<Record>)
    requires |groups| > 0 && q < |groups[0]| && |chain| == |groups| - 1
    requires forall i :: 0 <= i < |groups| ==> HashesUnique(groups[i])
    requires forall i :: 0 <= i < |chain| ==> chain[i] in groups[i + 1]
    requires Linked(groups[0][q], chain)
    ensures Link(groups, Some(q)) == Ok(chain)
    decreases |groups|
  {
    if |groups| > 1 {
      var ph := groups[0][q].prevHash;
      var p :| 0 <= p < |groups[1]| && groups[1][p] == chain[0];
      var found := Find(groups[1], ph);
      assert groups[1][p].hash == ph && HashesUnique(groups[1]);
      assert found.Some? && found.value == p;
      forall i | 0 <= i < |chain| - 1
        ensures chain[1..][i] in groups[1..][i + 1]
      {
        assert chain[1..][i] == chain[i + 1];
      }
      assert groups[1..][0][p] == chain[0] && Linked(chain[0], chain[1..]);
      LinkFromComplete(groups[1..], p, chain[1..]);
      assert Link(groups[1..], Some(p)) == Ok(chain[1..]);
      assert [groups[1][p]] + chain[1..] == chain;
    } else {
      assert chain == [];
    }
  }

  /** With a first single-record group at `s` and a chain of parents of
      its record through all lower groups, the linker returns that
      chain. */
  lemma {:induction false} LinkComplete(groups: seq<seq<Record>>, s: nat, chain: seq<Record>)
    requires StartsAt(groups, s) && |chain| == |groups| - s - 1
    requires forall i :: 0 <= i < |groups| ==> HashesUnique(groups[i])
    requires forall i :: 0 <= i < |chain| ==> chain[i] in groups[s + 1 + i]
    requires Linked(groups[s][0], chain)
    ensures Link(groups, None) == Ok(chain)
    decreases s
  {
    if s > 0 {
      assert StartsAt(groups[1..], s - 1);
      LinkComplete(groups[1..], s - 1, chain);
    } else {
      LinkFromComplete(groups, 0, chain);
    }
  }

  /** A walk that succeeds found the start record's parent in the group
      below the start. */
  lemma LinkFoundParent(groups: seq<seq<Record>>, s: nat)
    requires StartsAt(groups, s) && s + 1 < |groups|
    ensures Link(groups, None).Ok? ==> Find(groups[s + 1], groups[s][0].prevHash).Some?
  {
    if Link(groups, None).Ok? {
      LinkSound(groups, None);
      LinkLength(groups, s);
      var r := Link(groups, None).value;
      assert r[0] in groups[s + 1] && r[0].hash == groups[s][0].prevHash;
    }
  }

  /** The panic: when the group below the start holds no record with the
      start record's parent hash, the walk fails. */
  lemma LinkMissingParent(groups: seq<seq<Record>>, s: nat)
    requires StartsAt(groups, s) && s + 1 < |groups|
    requires Find(groups[s + 1], groups[s][0].prevHash).None?
    ensures Link(groups, None) == Err(UnwrapNone)
  {
    LinkFoundParent(groups, s);
  }

  /** The walk's records keyed by height, as `collect` builds the map (a
      later record of a height replaces an earlier one). */
  function Index(chain: seq<Record>): (m: map<nat, Small>)
    ensures forall k :: 0 <= k < |chain| ==> chain[k].height in m
    ensures forall h :: h in m ==> exists k :: 0 <= k < |chain| && chain[k].height == h && m[h] == ToSmall(chain[k])
  {
    var t := ToMap(chain);
    forall h | h in t
      ensures exists k :: 0 <= k < |chain| && chain[k].height == h && t[h] == chain[k]
    {
      var k :| 0 <= k < |chain| && chain[k] == t[h];
    }
    map h | h in t :: ToSmall(t[h])
  }

  /** `get_block_index` of the older parser: scan with the older filter,
      group, walk; `parse` reads one entry (`ParseRecordAsWritten` in the
      code as written). A scan that keeps nothing gives an empty map; after a
      good scan the only error is the walk's `unwrap` panic. */
  function OldGetBlockIndex(entries: seq<(Bytes, Bytes)>, range: BlkUtils.HeightRange, parse: RecordParser): (r: Result<map<nat, Small>, string>)
    ensures Scan(entries, Older(range), false, parse).Err? ==> r.Err?
    ensures Scan(entries, Older(range), false, parse) == Ok([]) ==> r == Ok(map[])
    ensures r.Err? && Scan(entries, Older(range), false, parse).Ok? ==> r.error == UnwrapNone
  {
    var rs :- Scan(entries, Older(range), false, parse);
    var chain :- Link(Groups(rs), None);
    Ok(Index(chain))
  }

  /** Every record of the `i`-th group has the `i`-th height, for all
      groups at once. */
  lemma GroupsPlaced(rs: seq<Record>)
    ensures var gs := Groups(rs);
      forall i, k :: 0 <= i < |gs| && 0 <= k < |gs[i]| ==> gs[i][k].height == HeightsDesc(rs)[i]
  {
    forall i, k | 0 <= i < |Groups(rs)| && 0 <= k < |Groups(rs)[i]|
      ensures Groups(rs)[i][k].height == HeightsDesc(rs)[i]
    {
      GroupsHeights(rs, i, k);
    }
  }

  /** Records taken one from each of the last groups carry those groups'
      heights, which differ when the heights decrease. */
  lemma PlacedHeights(gs: seq<seq<Record>>, hs: seq<nat>, chain: seq<Record>)
    requires |gs| == |hs| && |chain| <= |gs| && Desc(hs)
    requires forall i, k :: 0 <= i < |gs| && 0 <= k < |gs[i]| ==> gs[i][k].height == hs[i]
    requires forall i {:trigger chain[i]} :: 0 <= i < |chain| ==> chain[i] in gs[|gs| - |chain| + i]
    ensures forall i {:trigger chain[i]} :: 0 <= i < |chain| ==> chain[i].height == hs[|hs| - |chain| + i]
  {
    var off := |gs| - |chain|;
    forall i | 0 <= i < |chain|
      ensures chain[i].height == hs[off + i]
    {
      var k :| 0 <= k < |gs[off + i]| && gs[off + i][k] == chain[i];
    }
  }

  /** Records at the heights of a stretch of a decreasing list have
      pairwise different heights. */
  lemma DescDistinct(chain: seq<Record>, hs: seq<nat>, off: nat)
    requires Desc(hs) && off + |chain| <= |hs|
    requires forall i {:trigger chain[i]} :: 0 <= i < |chain| ==> chain[i].height == hs[off + i]
    ensures Distinct(Heights(chain))
  {
    HeightsAt(chain);
    forall a, b | 0 <= a < b < |chain|
      ensures Heights(chain)[a] != Heights(chain)[b]
    {
      assert chain[a].height == hs[off + a] && chain[b].height == hs[off + b];
    }
  }

  /** The walk's records sit at the lowest heights, one per height, so
      their heights differ. */
  lemma LinkHeights(rs: seq<Record>, chain: seq<Record>)
    requires Link(Groups(rs), None) == Ok(chain)
    ensures Distinct(Heights(chain))
  {
    GroupsPlaced(rs);
    LinkPlaced(Groups(rs), HeightsDesc(rs), chain);
  }

  /** For groups placed at decreasing heights, the walk's records carry
      the heights of the lowest groups, one each, so their heights
      differ. */
  lemma LinkPlaced(gs: seq<seq<Record>>, hs: seq<nat>, chain: seq<Record>)
    requires |gs| == |hs| && Desc(hs) && Link(gs, None) == Ok(chain)
    requires forall i, k :: 0 <= i < |gs| && 0 <= k < |gs[i]| ==> gs[i][k].height == hs[i]
    ensures forall i {:trigger chain[i]} :: 0 <= i < |chain| ==> chain[i].height == hs[|hs| - |chain| + i]
    ensures Distinct(Heights(chain))
  {
    LinkSound(gs, None);
    PlacedHeights(gs, hs, chain);
    DescDistinct(chain, hs, |hs| - |chain|);
  }

  /** The map holds exactly the walk's records, each under its own
      height. */
  lemma OldIndexIsChain(entries: seq<(Bytes, Bytes)>, range: BlkUtils.HeightRange, parse: RecordParser)
    requires Scan(entries, Older(range), false, parse).Ok?
    requires Link(Groups(Scan(entries, Older(range), false, parse).value), None).Ok?
    ensures OldGetBlockIndex(entries, range, parse).Ok?
    ensures var chain := Link(Groups(Scan(entries, Older(range), false, parse).value), None).value;
      var m := OldGetBlockIndex(entries, range, parse).value;
      (forall k :: 0 <= k < |chain| ==> chain[k].height in m && m[chain[k].height] == ToSmall(chain[k])) &&
      (forall h :: h in m ==> exists k :: 0 <= k < |chain| && chain[k].height == h)
  {
    var rs := Scan(entries, Older(range), false, parse).value;
    var chain := Link(Groups(rs), None).value;
    LinkHeights(rs, chain);
    forall k | 0 <= k < |chain|
      ensures Index(chain)[chain[k].height] == ToSmall(chain[k])
    {
      ToMapDistinct(chain, k);
    }
  }

  /** Which heights the map covers: every known height below the first
      single-record group, and nothing at or above it. The start record
      itself, the highest block the walk accepts, is never in the map, and
      neither is any block above it. */
  lemma OldIndexBelowStart(entries: seq<(Bytes, Bytes)>, range: BlkUtils.HeightRange, parse: RecordParser, s: nat)
    requires Scan(entries, Older(range), false, parse).Ok?
    requires Link(Groups(Scan(entries, Older(range), false, parse).value), None).Ok?
    requires StartsAt(Groups(Scan(entries, Older(range), false, parse).value), s)
    ensures OldGetBlockIndex(entries, range, parse).Ok?
    ensures var hs := HeightsDesc(Scan(entries, Older(range), false, parse).value);
      var m := OldGetBlockIndex(entries, range, parse).value;
      (forall i :: s < i < |hs| ==> hs[i] in m) && (forall h :: h in m ==> h < hs[s])
  {
    var rs := Scan(entries, Older(range), false, parse).value;
    GroupsPlaced(rs);
    LinkCovers(Groups(rs), HeightsDesc(rs), s);
  }

  /** Which heights a successful walk covers, for groups placed at
      decreasing heights. */
  lemma LinkCovers(gs: seq<seq<Record>>, hs: seq<nat>, s: nat)
    requires |gs| == |hs| && Desc(hs)
    requires forall i, k :: 0 <= i < |gs| && 0 <= k < |gs[i]| ==> gs[i][k].height == hs[i]
    requires Link(gs, None).Ok? && StartsAt(gs, s)
    ensures forall i :: s < i < |hs| ==> hs[i] in Index(Link(gs, None).value)
    ensures forall h :: h in Index(Link(gs, None).value) ==> h < hs[s]
  {
    var chain := Link(gs, None).value;
    LinkLength(gs, s);
    LinkSound(gs, None);
    PlacedHeights(gs, hs, chain);
    CoveredHeights(chain, hs, s);
  }

  /** A successful walk from the group at `s` takes one record from every
      group below it. */
  lemma LinkLength(groups: seq<seq<Record>>, s: nat)
    requires Link(groups, None).Ok? && StartsAt(groups, s)
    ensures |Link(groups, None).value| == |groups| - s - 1
  {
    LinkSound(groups, None);
  }

  /** Records at the heights below position `s` of a decreasing list,
      one for each: their map covers exactly those heights. */
  lemma CoveredHeights(chain: seq<Record>, hs: seq<nat>, s: nat)
    requires Desc(hs) && s < |hs| && |chain| == |hs| - s - 1
    requires forall i {:trigger chain[i]} :: 0 <= i < |chain| ==> chain[i].height == hs[|hs| - |chain| + i]
    ensures forall i :: s < i < |hs| ==> hs[i] in Index(chain)
    ensures forall h :: h in Index(chain) ==> h < hs[s]
  {
    forall i | s < i < |hs|
      ensures hs[i] in Index(chain)
    {
      assert chain[i - s - 1].height == hs[i];
    }
    forall h | h in Index(chain)
      ensures h < hs[s]
    {
      var k :| 0 <= k < |chain| && chain[k].height == h;
      assert h == hs[s + 1 + k];
    }
  }

  /** With no single-record group at all, nothing is linked and the map
      is empty. */
  lemma OldIndexNoStart(entries: seq<(Bytes, Bytes)>, range: BlkUtils.HeightRange, parse: RecordParser)
    requires Scan(entries, Older(range), false, parse).Ok?
    requires var gs := Groups(Scan(entries, Older(range), false, parse).value);
      forall k :: 0 <= k < |gs| ==> |gs[k]| != 1
    ensures OldGetBlockIndex(entries, range, parse) == Ok(map[])
  {
  }

  /** Reading entries as written, the older index agrees with the
      corrected reading whenever it succeeds, and a leading entry with
      undo data but no block data makes it fail with the `unwrap` panic. */
  lemma OldIndexAgrees(entries: seq<(Bytes, Bytes)>, range: BlkUtils.HeightRange, h: Bytes)
    requires |h| == 80
    ensures OldGetBlockIndex(entries, range, ParseRecordAsWritten).Ok? ==>
      OldGetBlockIndex(entries, range, ParseRecord) == OldGetBlockIndex(entries, range, ParseRecordAsWritten)
    ensures OldGetBlockIndex([(['b' as int] + Zeros(32), UndoOnlyEntry(h))] + entries, range, ParseRecordAsWritten) == Err(UnwrapNone)
  {
    ScanAgrees(entries, Older(range), false);
    var es := [(['b' as int] + Zeros(32), UndoOnlyEntry(h))] + entries;
    assert es[0].0[1..] == Zeros(32);
    UndoOnlyPanics(h);
  }
}

=== FILE: partials.dfy ===
/** `Partials`: the script pieces of an inscription that spans several
    transactions, stored until the last piece arrives
    (src/inscriptions/structs.rs, repeated in src/db/structs.rs). The layout
    is index BE(4) ‖ genesis txid(32) ‖ per part: flag(1) ‖ length BE(4) ‖
    script. */
module Partials {
  import opened Bytes
  import opened Wrappers
  import opened Pebble
  import opened Locations

  datatype Part = Part(isTapscript: bool, script: Bytes)

  datatype Partials = Partials(inscriptionIndex: u32, genesisTxid: Txid, parts: seq<Part>)

  function EncodePart(p: Part): (r: Bytes)
    ensures |r| == 5 + |p.script|
  {
    // `script_buffer.len() as u32` truncates
    [if p.isTapscript then 1 else 0] + BeU32(|p.script| % 0x1_0000_0000) + p.script
  }

  function EncodeParts(ps: seq<Part>): Bytes {
    if |ps| == 0 then [] else EncodePart(ps[0]) + EncodeParts(ps[1..])
  }

  function EncodePartials(v: Partials): (r: Bytes)
    ensures |r| >= 36 && r[..4] == BeU32(v.inscriptionIndex) && r[4..36] == v.genesisTxid
  {
    BeU32(v.inscriptionIndex) + v.genesisTxid + EncodeParts(v.parts)
  }

  /** The header slices: fewer than 36 bytes panic. */
  function DecodeHeader(v: Bytes): (r: Result<(u32, Txid), PebbleError>)
    ensures r.Ok? <==> |v| >= 36
  {
    if |v| < 4 then Err(Panic("range end index 4 out of range"))
    else if |v| < 36 then Err(Panic("range end index 36 out of range"))
    else
      BeValueBound(v[..4]);
      assert Pow256(4) == 0x1_0000_0000;
      Ok((BeValue(v[..4]), v[4..36]))
  }

  /** One pass of the `while offset != v.len()` loop, AS WRITTEN: after
      reading the length and slicing the script, the offset advances past
      the five header bytes only, so the next part is read from the start of
      this part's script. */
  function DecodePartsAsWritten(bs: Bytes): (r: Result<seq<Part>, PebbleError>)
    ensures r.Ok? ==> |bs| % 5 == 0 && 5 * |r.value| == |bs|
    ensures r.Ok? ==> forall i :: 0 <= i < |r.value| ==> r.value[i].isTapscript == (bs[5 * i] == 1)
    decreases |bs|
  {
    if |bs| == 0 then Ok([])
    else if |bs| < 5 then Err(Panic("range end index out of range"))
    else
      var len := BeValue(bs[1..5]);
      if |bs| < 5 + len then Err(Panic("range end index out of range"))
      else
        match DecodePartsAsWritten(bs[5..])
        case Err(e) => Err(e)
        case Ok(rest) => Ok([Part(bs[0] == 1, bs[5..5 + len])] + rest)
  }

  function DecodePartialsAsWritten(v: Bytes): (r: Result<Partials, PebbleError>)
    ensures r.Ok? ==> |v| >= 36 && r.value.inscriptionIndex == BeValue(v[..4]) && r.value.genesisTxid == v[4..36]
    ensures r.Ok? ==> 36 + 5 * |r.value.parts| == |v|
  {
    match DecodeHeader(v)
    case Err(e) => Err(e)
    case Ok((index, txid)) =>
      match DecodePartsAsWritten(v[36..])
      case Err(e) => Err(e)
      case Ok(parts) => Ok(Partials(index, txid, parts))
  }

  /** Five zero bytes read as a part: flag 0, length 0, nothing after. */
  lemma ZeroPartAsWritten()
    ensures DecodePartsAsWritten([0, 0, 0, 0, 0]) == Ok([Part(false, [])])
  {
    var tail: Bytes := [0, 0, 0, 0, 0];
    assert tail[1..5] == BeBytes(0, 4);
    BeRoundTrip(0, 4);
    assert tail[5..] == [] && tail[5..5] == [];
    assert DecodePartsAsWritten(tail[5..]) == Ok([]);
    assert [Part(false, [])] + [] == [Part(false, [])];
  }

  /** A single tapscript part holding five zero bytes does not survive the
      round trip: the decoder reads a second, empty, non-tapscript part out
      of the script bytes. */
  lemma PartialsAsWrittenMisreads()
    ensures var p := Partials(0, ZeroHash, [Part(true, [0, 0, 0, 0, 0])]);
      && DecodePartialsAsWritten(EncodePartials(p)) == Ok(Partials(0, ZeroHash, [Part(true, [0, 0, 0, 0, 0]), Part(false, [])]))
      && DecodePartialsAsWritten(EncodePartials(p)) != Ok(p)
  {
    var part := Part(true, [0, 0, 0, 0, 0]);
    var p := Partials(0, ZeroHash, [part]);
    var e := EncodePartials(p);
    assert BeU32(0) == [0, 0, 0, 0];
    assert BeU32(5) == [0, 0, 0, 5];
    assert EncodePart(part) == [1, 0, 0, 0, 5, 0, 0, 0, 0, 0];
    assert EncodeParts([part]) == EncodePart(part) + EncodeParts([]);
    var body: Bytes := [1, 0, 0, 0, 5, 0, 0, 0, 0, 0];
    assert e[36..] == body;
    assert body[1..5] == BeBytes(5, 4);
    BeRoundTrip(5, 4);
    assert body[5..] == [0, 0, 0, 0, 0];
    ZeroPartAsWritten();
    assert Part(body[0] == 1, body[5..5 + 5]) == part;
    assert [part] + [Part(false, [])] == [part, Part(false, [])];
    assert DecodePartsAsWritten(body) == Ok([part, Part(false, [])]);
    BeRoundTrip(0, 4);
  }

  /** The loop with the offset also advanced past the script, which is
      what the encoder's layout needs. */
  function DecodeParts(bs: Bytes): (r: Result<seq<Part>, PebbleError>)
    ensures r.Ok? ==> 5 * |r.value| <= |bs|
    ensures r.Ok? && |bs| > 0 ==> |r.value| > 0 && r.value[0].isTapscript == (bs[0] == 1) && 5 + |r.value[0].script| <= |bs|
    decreases |bs|
  {
    if |bs| == 0 then Ok([])
    else if |bs| < 5 then Err(Panic("range end index out of range"))
    else
      var len := BeValue(bs[1..5]);
      if |bs| < 5 + len then Err(Panic("range end index out of range"))
      else
        match DecodeParts(bs[5 + len..])
        case Err(e) => Err(e)
        case Ok(rest) => Ok([Part(bs[0] == 1, bs[5..5 + len])] + rest)
  }

  function DecodePartials(v: Bytes): (r: Result<Partials, PebbleError>)
    ensures |v| < 36 ==> r.Err? && r.error.Panic?
    ensures r.Ok? ==> |v| >= 36 && r.value.inscriptionIndex == BeValue(v[..4]) && r.value.genesisTxid == v[4..36]
  {
    match DecodeHeader(v)
    case Err(e) => Err(e)
    case Ok((index, txid)) =>
      match DecodeParts(v[36..])
      case Err(e) => Err(e)
      case Ok(parts) => Ok(Partials(index, txid, parts))
  }

  predicate ScriptsFit(ps: seq<Part>) {
    forall i :: 0 <= i < |ps| ==> |ps[i].script| < 0x1_0000_0000
  }

  /** Where the pieces of the first part sit in the encoding. */
  lemma EncodePartsSlices(ps: seq<Part>)
    requires |ps| > 0 && |ps[0].script| < 0x1_0000_0000
    ensures var e := EncodeParts(ps); var n := |ps[0].script|;
      && |e| >= 5 + n
      && e[0] == (if ps[0].isTapscript then 1 else 0)
      && e[1..5] == BeBytes(n, 4)
      && e[5..5 + n] == ps[0].script
      && e[5 + n..] == EncodeParts(ps[1..])
  {
    var n := |ps[0].script|;
    var flag: Bytes := [if ps[0].isTapscript then 1 else 0];
    var len := BeU32(n % 0x1_0000_0000);
    assert len == BeBytes(n, 4);
    assert EncodeParts(ps) == flag + len + ps[0].script + EncodeParts(ps[1..]);
    Concat4(flag, len, ps[0].script, EncodeParts(ps[1..]));
  }

  lemma Concat4(a: Bytes, b: Bytes, c: Bytes, d: Bytes)
    ensures var e := a + b + c + d;
      && e[..|a|] == a
      && e[|a|..|a| + |b|] == b
      && e[|a| + |b|..|a| + |b| + |c|] == c
      && e[|a| + |b| + |c|..] == d
  {
  }

  lemma {:induction false} PartsRoundTrip(ps: seq<Part>)
    requires ScriptsFit(ps)
    ensures DecodeParts(EncodeParts(ps)) == Ok(ps)
  {
    if |ps| > 0 {
      var p := ps[0];
      var e := EncodeParts(ps);
      var n := |p.script|;
      EncodePartsSlices(ps);
      BeRoundTrip(n, 4);
      assert ScriptsFit(ps[1..]) by {
        forall i | 0 <= i < |ps[1..]| ensures |ps[1..][i].script| < 0x1_0000_0000 {
          assert ps[1..][i] == ps[i + 1];
        }
      }
      PartsRoundTrip(ps[1..]);
      assert Part(e[0] == 1, e[5..5 + n]) == p;
      assert [p] + ps[1..] == ps;
    }
  }

  /** Decoding the encoding gives back the partials, flags and scripts
      alike, as long as no script is 4 GiB or longer. */
  lemma PartialsRoundTrip(v: Partials)
    requires ScriptsFit(v.parts)
    ensures DecodePartials(EncodePartials(v)) == Ok(v)
  {
    var e := EncodePartials(v);
    BeRoundTrip(v.inscriptionIndex, 4);
    assert e[36..] == EncodeParts(v.parts);
    PartsRoundTrip(v.parts);
  }
}

=== FILE: pebble.dfy ===
/** The `Pebble` byte layouts of the RocksDB wrapper
    (packages/rocksdb-wrapper/src/item.rs): how keys and values become bytes
    and back. A codec is the triple `FIXED_SIZE`, `get_bytes`, `from_bytes`. */
module Pebble {
  import opened Bytes
  import opened Wrappers
  import Utf8

  /** `from_bytes` either reports an error (`anyhow::Error`) or panics
      (`expect`, an out-of-range slice, `chunks(0)`). */
  datatype PebbleError = Invalid(msg: string) | Panic(msg: string)

  datatype Codec<!T> = Codec(fixedSize: Option<nat>, enc: T -> Bytes, dec: Bytes -> Result<T, PebbleError>)

  /** The codec encodes every value of `xs` in `n` bytes and decodes it back. */
  ghost predicate FixedAndLawfulOn<T>(c: Codec<T>, n: nat, xs: seq<T>) {
    c.fixedSize == Some(n) && LawfulOn(c, n, xs)
  }

  /** The codec encodes every value of `xs` in `n` bytes and decodes it back,
      whatever `FIXED_SIZE` it declares. */
  ghost predicate LawfulOn<T>(c: Codec<T>, n: nat, xs: seq<T>) {
    forall i :: 0 <= i < |xs| ==> |c.enc(xs[i])| == n && c.dec(c.enc(xs[i])) == Ok(xs[i])
  }

  // ---------------------------------------------------------------------
  // `()`
  // ---------------------------------------------------------------------

  const UnitCodec: Codec<()> := Codec(Some(0), (_: ()) => [], (_: Bytes) => Ok(()))

  lemma UnitEncoding()
    ensures UnitCodec.enc(()) == [] && UnitCodec.fixedSize == Some(0)
    ensures forall bs :: UnitCodec.dec(bs) == Ok(())
  {
  }

  // ---------------------------------------------------------------------
  // Integers: `to_be_bytes` / `from_be_bytes`, `FIXED_SIZE` = width.
  // ---------------------------------------------------------------------

  /** `get_bytes` of an unsigned integer of `width` bytes. */
  function EncodeUnsigned(x: nat, width: nat): (r: Bytes)
    requires x < Pow256(width)
    ensures |r| == width
  {
    BeBytes(x, width)
  }

  /** `from_bytes` of an unsigned integer: a slice of the wrong length is an
      error (`try_into`). */
  function DecodeUnsigned(bs: Bytes, width: nat): (r: Result<nat, PebbleError>)
    ensures r.Ok? <==> |bs| == width
    ensures r.Ok? ==> r.value < Pow256(width)
  {
    if |bs| != width then Err(Invalid("could not convert slice to array"))
    else
      BeValueBound(bs);
      Ok(BeValue(bs))
  }

  lemma UnsignedRoundTrip(x: nat, width: nat)
    requires x < Pow256(width)
    ensures DecodeUnsigned(EncodeUnsigned(x, width), width) == Ok(x)
  {
    BeRoundTrip(x, width);
  }

  /** Byte order of encoded unsigned keys is their numeric order. */
  lemma UnsignedOrder(x: nat, y: nat, width: nat)
    requires x < Pow256(width) && y < Pow256(width)
    ensures LexLess(EncodeUnsigned(x, width), EncodeUnsigned(y, width)) <==> x < y
  {
    BeOrder(x, y, width);
  }

  /** A signed integer of `width` bytes is stored as the big-endian bytes of
      its two's complement. */
  predicate FitsSigned(x: int, width: nat)
    requires width >= 1
  {
    -(Pow256(width) / 2) <= x < Pow256(width) / 2
  }

  function EncodeSigned(x: int, width: nat): (r: Bytes)
    requires width >= 1 && FitsSigned(x, width)
    ensures |r| == width
  {
    BeBytes(if x >= 0 then x else x + Pow256(width), width)
  }

  function DecodeSigned(bs: Bytes, width: nat): (r: Result<int, PebbleError>)
    requires width >= 1
    ensures r.Ok? <==> |bs| == width
    ensures r.Ok? ==> FitsSigned(r.value, width)
  {
    if |bs| != width then Err(Invalid("could not convert slice to array"))
    else
      var u := BeValue(bs);
      BeValueBound(bs);
      var half := 128 * Pow256(width - 1);
      assert Pow256(width) == 2 * half && Pow256(width) / 2 == half;
      Ok(if u < Pow256(width) / 2 then u else u - Pow256(width))
  }

  lemma SignedRoundTrip(x: int, width: nat)
    requires width >= 1 && FitsSigned(x, width)
    ensures DecodeSigned(EncodeSigned(x, width), width) == Ok(x)
  {
    BeRoundTrip(if x >= 0 then x else x + Pow256(width), width);
  }

  // ---------------------------------------------------------------------
  // `String`: UTF-8 bytes; `String::from_utf8` on the way back.
  // ---------------------------------------------------------------------

  function EncodeString(s: string): Bytes {
    Utf8.Encode(s)
  }

  function DecodeString(bs: Bytes): (r: Result<string, PebbleError>)
    ensures r.Ok? <==> Utf8.Valid(bs)
    ensures r.Ok? ==> Utf8.Encode(r.value) == bs
  {
    match Utf8.Decode(bs)
    case None => Err(Invalid("invalid utf-8 sequence"))
    case Some(s) =>
      Utf8.EncodeDecode(bs);
      Ok(s)
  }

  lemma StringRoundTrip(s: string)
    ensures DecodeString(EncodeString(s)) == Ok(s)
  {
    Utf8.DecodeEncode(s);
  }

  // ---------------------------------------------------------------------
  // `[u8; N]`: the identity; a slice of another length panics (`expect`).
  // ---------------------------------------------------------------------

  function DecodeArray(bs: Bytes, n: nat): (r: Result<Bytes, PebbleError>)
    ensures r.Ok? <==> |bs| == n
    ensures r.Ok? ==> r.value == bs
    ensures r.Err? ==> r.error.Panic?
  {
    if |bs| == n then Ok(bs) else Err(Panic("Failed to deserlize slice"))
  }

  // ---------------------------------------------------------------------
  // `Vec<T>` and `HashSet<T>`: concatenation; decoding cuts `FIXED_SIZE`
  // chunks (the last one may be shorter) and stops at the first error.
  // ---------------------------------------------------------------------

  function EncodeVec<T>(c: Codec<T>, xs: seq<T>): Bytes {
    if |xs| == 0 then [] else c.enc(xs[0]) + EncodeVec(c, xs[1..])
  }

  /** `slice::chunks(size)` followed by `collect::<Result<_, _>>()`. */
  function DecodeChunks<T>(c: Codec<T>, size: nat, bs: Bytes): Result<seq<T>, PebbleError>
    requires size > 0
    decreases |bs|
  {
    if |bs| == 0 then Ok([])
    else
      var n := if |bs| < size then |bs| else size;
      match c.dec(bs[..n])
      case Err(e) => Err(e)
      case Ok(x) =>
        match DecodeChunks(c, size, bs[n..])
        case Err(e) => Err(e)
        case Ok(rest) => Ok([x] + rest)
  }

  function DecodeVec<T>(c: Codec<T>, bs: Bytes): (r: Result<seq<T>, PebbleError>)
    ensures c.fixedSize.None? ==> r == Err(Panic("FIXED_SIZE is required in order to use Vec<Pebble>"))
  {
    match c.fixedSize
    case None => Err(Panic("FIXED_SIZE is required in order to use Vec<Pebble>"))
    case Some(0) => Err(Panic("chunk size must be non-zero"))
    case Some(size) => DecodeChunks(c, size, bs)
  }

  lemma {:induction false} ChunksRoundTrip<T>(c: Codec<T>, n: nat, xs: seq<T>)
    requires n > 0 && LawfulOn(c, n, xs)
    ensures DecodeChunks(c, n, EncodeVec(c, xs)) == Ok(xs)
    ensures |EncodeVec(c, xs)| == n * |xs|
  {
    if |xs| > 0 {
      var e := EncodeVec(c, xs);
      assert LawfulOn(c, n, xs[1..]) by {
        forall i | 0 <= i < |xs[1..]|
          ensures |c.enc(xs[1..][i])| == n && c.dec(c.enc(xs[1..][i])) == Ok(xs[1..][i])
        {
          assert xs[1..][i] == xs[i + 1];
        }
      }
      ChunksRoundTrip(c, n, xs[1..]);
      assert |c.enc(xs[0])| == n;
      assert e[..n] == c.enc(xs[0]);
      assert e[n..] == EncodeVec(c, xs[1..]);
      assert [xs[0]] + xs[1..] == xs;
    }
  }

  /** `Vec<T>` round-trips when `T` has a non-zero fixed size. */
  lemma VecRoundTrip<T>(c: Codec<T>, n: nat, xs: seq<T>)
    requires n > 0 && FixedAndLawfulOn(c, n, xs)
    ensures DecodeVec(c, EncodeVec(c, xs)) == Ok(xs)
  {
    ChunksRoundTrip(c, n, xs);
  }

  /** `HashSet<T>`: encoded in the set's iteration order `xs` (an arbitrary
      enumeration), decoded into a set. */
  function DecodeSet<T(==)>(c: Codec<T>, bs: Bytes): (r: Result<set<T>, PebbleError>)
    ensures c.fixedSize.None? ==> r.Err? && r.error.Panic?
  {
    match DecodeVec(c, bs)
    case Err(e) => Err(e)
    case Ok(xs) => Ok(set i | 0 <= i < |xs| :: xs[i])
  }

  lemma SetRoundTrip<T>(c: Codec<T>, n: nat, xs: seq<T>)
    requires n > 0 && FixedAndLawfulOn(c, n, xs)
    ensures DecodeSet(c, EncodeVec(c, xs)) == Ok(set i | 0 <= i < |xs| :: xs[i])
  {
    VecRoundTrip(c, n, xs);
  }

  // ---------------------------------------------------------------------
  // Tuples `(K0, K1)`: K0 must have a fixed size (asserted); the layout is
  // K0 ‖ K1 and decoding splits at K0's size.
  // ---------------------------------------------------------------------

  function EncodePair<A, B>(c0: Codec<A>, c1: Codec<B>, v: (A, B)): (r: Bytes)
    requires c0.fixedSize.Some?
    ensures r == c0.enc(v.0) + c1.enc(v.1)
  {
    c0.enc(v.0) + c1.enc(v.1)
  }

  function DecodePair<A, B>(c0: Codec<A>, c1: Codec<B>, bs: Bytes): Result<(A, B), PebbleError>
    requires c0.fixedSize.Some?
  {
    var k := c0.fixedSize.value;
    if |bs| < k then Err(Panic("range end index out of range for slice"))
    else
      var a :- c0.dec(bs[..k]);
      var b :- c1.dec(bs[k..]);
      Ok((a, b))
  }

  lemma PairRoundTrip<A, B>(c0: Codec<A>, c1: Codec<B>, a: A, b: B)
    requires c0.fixedSize.Some? && |c0.enc(a)| == c0.fixedSize.value
    requires c0.dec(c0.enc(a)) == Ok(a) && c1.dec(c1.enc(b)) == Ok(b)
    ensures DecodePair(c0, c1, EncodePair(c0, c1, (a, b))) == Ok((a, b))
  {
    var e := EncodePair(c0, c1, (a, b));
    assert e[..|c0.enc(a)|] == c0.enc(a);
    assert e[|c0.enc(a)|..] == c1.enc(b);
  }

  /** A shorter input than K0's size panics on the slice. */
  lemma PairShortPanics<A, B>(c0: Codec<A>, c1: Codec<B>, bs: Bytes)
    requires c0.fixedSize.Some? && |bs| < c0.fixedSize.value
    ensures DecodePair(c0, c1, bs).Err? && DecodePair(c0, c1, bs).error.Panic?
  {
  }

  // ---------------------------------------------------------------------
  // `MultiPebble` buffer helpers.
  // ---------------------------------------------------------------------

  /** `get_bytes_k0_into`: both branches leave `dest` equal to K0's bytes. */
  function GetBytesK0Into<A>(c0: Codec<A>, src: A, dest: Bytes): (r: Bytes)
    ensures r == c0.enc(src)
  {
    var x := c0.enc(src);
    if |x| > |dest| then x else dest[..0] + x
  }

  /** `get_bytes_k1_into`: appends K1's bytes. */
  function GetBytesK1Into<B>(c1: Codec<B>, src: B, dest: Bytes): (r: Bytes)
    ensures |r| >= |dest| && r[..|dest|] == dest && r[|dest|..] == c1.enc(src)
  {
    dest + c1.enc(src)
  }

  /** Filling a reused buffer with K0 then K1 yields the tuple encoding,
      whatever the buffer held before. */
  lemma MultiPebbleBuildsPair<A, B>(c0: Codec<A>, c1: Codec<B>, a: A, b: B, scratch: Bytes)
    requires c0.fixedSize.Some?
    ensures GetBytesK1Into(c1, b, GetBytesK0Into(c0, a, scratch)) == EncodePair(c0, c1, (a, b))
  {
  }
}

=== FILE: prevouts.dfy ===
/** Prevouts of a block (src/inscriptions/utils.rs): the bounded
    first-in-first-out `PrevoutCache`, and `process_prevouts`, which finds
    the spent output behind every input in the cache, then the database,
    then the block's own outputs. */
module Prevouts {
  import opened Bytes
  import opened Wrappers
  import opened Locations
  import opened Keys
  import opened Tokens
  import opened Searcher
  import Reorg

  const PrevoutCacheCapacity: nat := 10_000_000

  /** What the indexer keeps of a spent output. */
  datatype TxPrevout = TxPrevout(scriptHash: FullHash, value: u64)

  datatype PrevoutCache = PrevoutCache(entries: map<OutPoint, TxPrevout>, order: seq<OutPoint>, capacity: nat)

  /** The queue holds every cached key exactly once. */
  predicate Wf(c: PrevoutCache) {
    && Distinct(c.order)
    && (forall k :: k in c.entries ==> k in c.order)
    && (forall i :: 0 <= i < |c.order| ==> c.order[i] in c.entries)
  }

  function NewCache(capacity: nat): (r: PrevoutCache)
    ensures Wf(r) && |r.entries| == 0 && r.capacity == capacity
  {
    PrevoutCache(map[], [], capacity)
  }

  lemma {:induction false} DistinctCard<T>(xs: seq<T>)
    requires Distinct(xs)
    ensures |set x | x in xs| == |xs|
  {
    if |xs| > 0 {
      var rest := xs[1..];
      assert Distinct(rest) by {
        forall i, j | 0 <= i < j < |rest| ensures rest[i] != rest[j] {
          assert rest[i] == xs[i + 1] && rest[j] == xs[j + 1];
        }
      }
      DistinctCard(rest);
      assert (set x | x in xs) == {xs[0]} + (set x | x in rest);
      assert xs[0] !in (set x | x in rest) by {
        forall k | 0 <= k < |rest| ensures rest[k] != xs[0] {
          assert rest[k] == xs[k + 1];
        }
      }
    }
  }

  /** The cache holds as many entries as the queue holds keys. */
  lemma WfSize(c: PrevoutCache)
    requires Wf(c)
    ensures |c.entries| == |c.order|
  {
    DistinctCard(c.order);
    assert c.entries.Keys == set x | x in c.order;
  }

  /** `PrevoutCache::insert`. */
  function Insert(c: PrevoutCache, key: OutPoint, value: TxPrevout): (r: PrevoutCache)
    ensures r.capacity == c.capacity
    ensures key in c.entries ==> r == c.(entries := c.entries[key := value])
  {
    if key in c.entries then c.(entries := c.entries[key := value])
    else
      var entries := c.entries[key := value];
      var order := c.order + [key];
      if |entries| > c.capacity then PrevoutCache(entries - {order[0]}, order[1..], c.capacity)
      else PrevoutCache(entries, order, c.capacity)
  }

  /** A new key goes to the back of the queue; past capacity the key at the
      front, the oldest, is evicted. */
  lemma InsertNew(c: PrevoutCache, key: OutPoint, value: TxPrevout)
    requires Wf(c) && key !in c.entries
    ensures var r := Insert(c, key, value);
      if |c.entries| + 1 > c.capacity
      then r.order == (c.order + [key])[1..] && r.entries == c.entries[key := value] - {(c.order + [key])[0]}
      else r.order == c.order + [key] && r.entries == c.entries[key := value]
  {
  }

  /** Dropping the front of the queue and its entry keeps them in step. */
  lemma PopFrontWf(c: PrevoutCache)
    requires Wf(c) && |c.order| > 0
    ensures Wf(PrevoutCache(c.entries - {c.order[0]}, c.order[1..], c.capacity))
  {
    var order := c.order;
    var r := PrevoutCache(c.entries - {order[0]}, order[1..], c.capacity);
    forall i, j | 0 <= i < j < |r.order| ensures r.order[i] != r.order[j] {
      assert r.order[i] == order[i + 1] && r.order[j] == order[j + 1];
    }
    forall k | k in r.entries ensures k in r.order {
      var j :| 0 <= j < |order| && order[j] == k;
      assert r.order[j - 1] == k;
    }
    forall i | 0 <= i < |r.order| ensures r.order[i] in r.entries {
      assert r.order[i] == order[i + 1] && order[i + 1] != order[0];
    }
  }

  /** Appending a new key to the back keeps them in step. */
  lemma PushBackWf(c: PrevoutCache, key: OutPoint, value: TxPrevout)
    requires Wf(c) && key !in c.entries
    ensures Wf(PrevoutCache(c.entries[key := value], c.order + [key], c.capacity))
  {
    var r := PrevoutCache(c.entries[key := value], c.order + [key], c.capacity);
    forall i, j | 0 <= i < j < |r.order| ensures r.order[i] != r.order[j] {
      if j == |c.order| {
        assert r.order[i] == c.order[i];
      } else {
        assert r.order[i] == c.order[i] && r.order[j] == c.order[j];
      }
    }
    forall i | 0 <= i < |r.order| ensures r.order[i] in r.entries {
      if i < |c.order| {
        assert r.order[i] == c.order[i];
      }
    }
  }

  /** Insertion keeps the queue and the map in step, and never lets the
      cache grow past its capacity. */
  lemma InsertWf(c: PrevoutCache, key: OutPoint, value: TxPrevout)
    requires Wf(c)
    ensures Wf(Insert(c, key, value))
    ensures |c.entries| <= c.capacity ==> |Insert(c, key, value).entries| <= c.capacity
  {
    if key !in c.entries {
      var pushed := PrevoutCache(c.entries[key := value], c.order + [key], c.capacity);
      PushBackWf(c, key, value);
      WfSize(c);
      WfSize(pushed);
      if |pushed.entries| > c.capacity {
        PopFrontWf(pushed);
        WfSize(Insert(c, key, value));
      }
    }
  }

  /** After an insertion into a cache with room for at least one entry, the
      key holds the new value. */
  lemma InsertThenGet(c: PrevoutCache, key: OutPoint, value: TxPrevout)
    requires Wf(c) && c.capacity > 0
    ensures key in Insert(c, key, value).entries && Insert(c, key, value).entries[key] == value
  {
    if key !in c.entries && |c.order| > 0 {
      assert c.order[0] in c.entries;
    }
    if key !in c.entries && |c.order| == 0 {
      WfSize(c);
    }
  }

  /** `insert_block_outputs`. */
  function InsertAll(c: PrevoutCache, kvs: seq<(OutPoint, TxPrevout)>): (r: PrevoutCache)
    ensures r.capacity == c.capacity
    decreases |kvs|
  {
    if |kvs| == 0 then c else InsertAll(Insert(c, kvs[0].0, kvs[0].1), kvs[1..])
  }

  lemma {:induction false} InsertAllWf(c: PrevoutCache, kvs: seq<(OutPoint, TxPrevout)>)
    requires Wf(c)
    ensures Wf(InsertAll(c, kvs))
    ensures |c.entries| <= c.capacity ==> |InsertAll(c, kvs).entries| <= c.capacity
    decreases |kvs|
  {
    if |kvs| > 0 {
      InsertWf(c, kvs[0].0, kvs[0].1);
      InsertAllWf(Insert(c, kvs[0].0, kvs[0].1), kvs[1..]);
    }
  }

  // ---------------------------------------------------------------------
  // `process_prevouts`
  // ---------------------------------------------------------------------

  /** A transaction of the block with its id. */
  datatype BlockTx = BlockTx(txid: Txid, tx: Tx)

  /** `is_coinbase`: a single input spending the null outpoint. */
  predicate IsCoinbase(tx: Tx) {
    |tx.inputs| == 1 && tx.inputs[0] == OutPoint(ZeroHash, 0xFFFF_FFFF)
  }

  /** The script library's `is_provably_unspendable` and the hash of a
      script, outside the model. */
  datatype ScriptOps = ScriptOps(unspendable: Bytes -> bool, hash: Bytes -> FullHash)

  /** One output's prevout record: `TxOut` into `TxPrevout`. */
  function PrevoutOf(out: TxOut, ops: ScriptOps): TxPrevout {
    TxPrevout(ops.hash(out.scriptPubkey), out.value)
  }

  /** Every output of the block with its outpoint, in block order. */
  function Outputs(txs: seq<BlockTx>): seq<(OutPoint, TxOut)>
    decreases |txs|
  {
    if |txs| == 0 then []
    else
      var outs := txs[0].tx.outputs;
      seq(|outs|, v requires 0 <= v < |outs| => (OutPoint(txs[0].txid, v % 0x1_0000_0000), outs[v])) + Outputs(txs[1..])
  }

  /** The first loop of `process_prevouts`: the spendable outputs as
      prevout records, in block order. */
  function Spendable(outs: seq<(OutPoint, TxOut)>, ops: ScriptOps): (r: seq<(OutPoint, TxPrevout)>)
    ensures forall j :: 0 <= j < |r| ==> exists i :: (0 <= i < |outs|
      && r[j] == (outs[i].0, PrevoutOf(outs[i].1, ops)) && !ops.unspendable(outs[i].1.scriptPubkey))
    ensures forall i :: 0 <= i < |outs| && !ops.unspendable(outs[i].1.scriptPubkey) ==>
      (outs[i].0, PrevoutOf(outs[i].1, ops)) in r
    decreases |outs|
  {
    if |outs| == 0 then []
    else
      var init := outs[..|outs| - 1];
      var (op, out) := outs[|outs| - 1];
      var rest := Spendable(init, ops);
      assert forall i :: 0 <= i < |init| ==> init[i] == outs[i];
      assert forall j :: 0 <= j < |rest| ==> exists i :: (0 <= i < |outs|
        && rest[j] == (outs[i].0, PrevoutOf(outs[i].1, ops)) && !ops.unspendable(outs[i].1.scriptPubkey)) by {
        forall j | 0 <= j < |rest| ensures exists i :: (0 <= i < |outs|
          && rest[j] == (outs[i].0, PrevoutOf(outs[i].1, ops)) && !ops.unspendable(outs[i].1.scriptPubkey))
        {
          var i :| 0 <= i < |init| && rest[j] == (init[i].0, PrevoutOf(init[i].1, ops)) && !ops.unspendable(init[i].1.scriptPubkey);
          assert init[i] == outs[i];
        }
      }
      if ops.unspendable(out.scriptPubkey) then rest
      else
        var r := rest + [(op, PrevoutOf(out, ops))];
        assert r[|rest|] == (outs[|outs| - 1].0, PrevoutOf(outs[|outs| - 1].1, ops));
        assert forall j :: 0 <= j < |rest| ==> r[j] == rest[j];
        r
  }

  function BlockPrevouts(txs: seq<BlockTx>, ops: ScriptOps): seq<(OutPoint, TxPrevout)> {
    Spendable(Outputs(txs), ops)
  }

  /** `unique()`: first occurrences, in order. */
  function Dedup(xs: seq<OutPoint>): (r: seq<OutPoint>)
    ensures Distinct(r) && forall x :: x in r <==> x in xs
    decreases |xs|
  {
    if |xs| == 0 then []
    else
      var init := Dedup(xs[..|xs| - 1]);
      var last := xs[|xs| - 1];
      assert forall x :: x in xs <==> x in xs[..|xs| - 1] || x == last by {
        assert xs == xs[..|xs| - 1] + [last];
      }
      if last in init then init else init + [last]
  }

  /** The inputs of the block's non-coinbase transactions, in order. */
  function Spent(txs: seq<BlockTx>): (r: seq<OutPoint>)
    ensures forall x :: x in r <==> exists t :: 0 <= t < |txs| && !IsCoinbase(txs[t].tx) && x in txs[t].tx.inputs
    decreases |txs|
  {
    if |txs| == 0 then []
    else
      var rest := Spent(txs[1..]);
      assert forall t :: 1 <= t < |txs| ==> txs[t] == txs[1..][t - 1];
      (if IsCoinbase(txs[0].tx) then [] else txs[0].tx.inputs) + rest
  }

  /** Where a spent output is found: the cache (as it was before this
      block), then the database, then this block's outputs. */
  function Source(key: OutPoint, cache: Option<PrevoutCache>, db: map<OutPoint, TxPrevout>, block: map<OutPoint, TxPrevout>): Option<TxPrevout> {
    if cache.Some? && key in cache.value.entries then Some(cache.value.entries[key])
    else if key in db then Some(db[key])
    else if key in block then Some(block[key])
    else None
  }

  /** The first loop: cache hits, and the keys the cache misses, in order. */
  function CacheSplit(keys: seq<OutPoint>, c: PrevoutCache): (r: (map<OutPoint, TxPrevout>, seq<OutPoint>))
    ensures forall k :: k in r.0 <==> k in keys && k in c.entries
    ensures forall k :: k in r.0 ==> r.0[k] == c.entries[k]
    ensures forall k :: k in r.1 <==> k in keys && k !in c.entries
    decreases |keys|
  {
    if |keys| == 0 then (map[], [])
    else
      var (hits, missing) := CacheSplit(keys[..|keys| - 1], c);
      var key := keys[|keys| - 1];
      assert forall x :: x in keys <==> x in keys[..|keys| - 1] || x == key by {
        assert keys == keys[..|keys| - 1] + [key];
      }
      if key in c.entries then (hits[key := c.entries[key]], missing) else (hits, missing + [key])
  }

  function CacheInsert(cache: Option<PrevoutCache>, key: OutPoint, value: TxPrevout): (r: Option<PrevoutCache>)
    ensures r.Some? == cache.Some?
    ensures cache.Some? && Wf(cache.value) ==> Wf(r.value)
    ensures cache.Some? && Wf(cache.value) && |cache.value.entries| <= cache.value.capacity ==> |r.value.entries| <= r.value.capacity
  {
    match cache
    case None => None
    case Some(c) =>
      if Wf(c) then
        InsertWf(c, key, value);
        Some(Insert(c, key, value))
      else Some(Insert(c, key, value))
  }

  /** The second loop: each missed key from the database, else from the
      block, else the whole call fails. */
  function Resolve(missing: seq<OutPoint>, db: map<OutPoint, TxPrevout>, block: map<OutPoint, TxPrevout>,
                   cache: Option<PrevoutCache>, acc: map<OutPoint, TxPrevout>): (r: Result<(map<OutPoint, TxPrevout>, Option<PrevoutCache>), string>)
    ensures r.Err? <==> exists i :: 0 <= i < |missing| && missing[i] !in db && missing[i] !in block
    ensures r.Ok? ==> forall k :: k in r.value.0 <==> k in acc || k in missing
    ensures r.Ok? ==> forall k :: k in missing ==> r.value.0[k] == if k in db then db[k] else block[k]
    ensures r.Ok? ==> forall k :: k in acc && k !in missing ==> r.value.0[k] == acc[k]
    ensures r.Ok? ==> r.value.1.Some? == cache.Some?
    ensures r.Ok? && cache.Some? && Wf(cache.value) ==> Wf(r.value.1.value)
    ensures r.Ok? && cache.Some? && Wf(cache.value) && |cache.value.entries| <= cache.value.capacity ==>
      |r.value.1.value.entries| <= r.value.1.value.capacity
    decreases |missing|
  {
    if |missing| == 0 then Ok((acc, cache))
    else
      var key := missing[0];
      assert forall i :: 1 <= i < |missing| ==> missing[i] == missing[1..][i - 1];
      assert forall k :: k in missing <==> k == key || k in missing[1..];
      if key in db then Resolve(missing[1..], db, block, CacheInsert(cache, key, db[key]), acc[key := db[key]])
      else if key in block then Resolve(missing[1..], db, block, CacheInsert(cache, key, block[key]), acc[key := block[key]])
      else Err("Missing prevout for key")
  }

  /** What `process_prevouts` hands back and queues for writing. */
  datatype Processed = Processed(
    result: map<OutPoint, TxPrevout>,
    cache: Option<PrevoutCache>,
    toWrite: map<OutPoint, TxPrevout>,
    toRemove: seq<OutPoint>)

  /** `process_prevouts`; the block's outputs go into the cache in block
      order. */
  function ProcessPrevouts(txs: seq<BlockTx>, db: map<OutPoint, TxPrevout>, cache: Option<PrevoutCache>, ops: ScriptOps): (r: Result<Processed, string>)
    ensures r.Ok? ==> Distinct(r.value.toRemove) && forall k :: k in r.value.toRemove <==> k in Spent(txs)
    ensures r.Ok? ==> r.value.toWrite == Reorg.ExtendMap(map[], BlockPrevouts(txs, ops))
    ensures r.Ok? && cache.Some? && Wf(cache.value) && |cache.value.entries| <= cache.value.capacity ==>
      r.value.cache.Some? && Wf(r.value.cache.value) && |r.value.cache.value.entries| <= r.value.cache.value.capacity
  {
    var kvs := BlockPrevouts(txs, ops);
    var block := Reorg.ExtendMap(map[], kvs);
    var keys := Dedup(Spent(txs));
    var (hits, missing) := Lookup(keys, cache);
    match Resolve(missing, db, block, cache, hits)
    case Err(e) => Err(e)
    case Ok((result, resolved)) =>
      var cache' := if resolved.Some? then Some(InsertAll(resolved.value, kvs)) else None;
      if cache.Some? && Wf(cache.value) then
        InsertAllWf(resolved.value, kvs);
        Ok(Processed(result, cache', block, keys))
      else Ok(Processed(result, cache', block, keys))
  }

  /** The cache loop, or every key missing when there is no cache. */
  function Lookup(keys: seq<OutPoint>, cache: Option<PrevoutCache>): (r: (map<OutPoint, TxPrevout>, seq<OutPoint>))
    ensures forall k :: k in r.0 <==> k in keys && cache.Some? && k in cache.value.entries
    ensures forall k :: k in r.0 ==> r.0[k] == cache.value.entries[k]
    ensures forall k :: k in r.1 <==> k in keys && !(cache.Some? && k in cache.value.entries)
  {
    if cache.Some? then CacheSplit(keys, cache.value) else (map[], keys)
  }

  /** The two lookup loops together, for any list of keys. */
  lemma LookupResolve(keys: seq<OutPoint>, db: map<OutPoint, TxPrevout>, block: map<OutPoint, TxPrevout>, cache: Option<PrevoutCache>)
    ensures var (hits, missing) := Lookup(keys, cache); var r := Resolve(missing, db, block, cache, hits);
      && (r.Err? <==> exists k :: k in keys && Source(k, cache, db, block).None?)
      && (r.Ok? ==> forall k :: k in r.value.0 <==> k in keys)
      && (r.Ok? ==> forall k :: k in r.value.0 ==> Source(k, cache, db, block) == Some(r.value.0[k]))
  {
    var (hits, missing) := Lookup(keys, cache);
    var r := Resolve(missing, db, block, cache, hits);
    if r.Err? {
      var i :| 0 <= i < |missing| && missing[i] !in db && missing[i] !in block;
      assert missing[i] in keys && Source(missing[i], cache, db, block).None?;
    } else {
      forall k | k in keys ensures Source(k, cache, db, block).Some? {
        if !(cache.Some? && k in cache.value.entries) {
          assert k in missing;
        }
      }
    }
  }

  /** Every spent output is looked up in the cache, then the database, then
      the block; the call fails exactly when one is in none of them. */
  lemma ProcessPrevoutsFinds(txs: seq<BlockTx>, db: map<OutPoint, TxPrevout>, cache: Option<PrevoutCache>, ops: ScriptOps)
    ensures var block := Reorg.ExtendMap(map[], BlockPrevouts(txs, ops)); var r := ProcessPrevouts(txs, db, cache, ops);
      && (r.Err? <==> exists k :: k in Spent(txs) && Source(k, cache, db, block).None?)
      && (r.Ok? ==> forall k :: k in r.value.result <==> k in Spent(txs))
      && (r.Ok? ==> forall k :: k in r.value.result ==> Source(k, cache, db, block) == Some(r.value.result[k]))
  {
    var block := Reorg.ExtendMap(map[], BlockPrevouts(txs, ops));
    var keys := Dedup(Spent(txs));
    LookupResolve(keys, db, block, cache);
    var (hits, missing) := Lookup(keys, cache);
    var rr := Resolve(missing, db, block, cache, hits);
    var r := ProcessPrevouts(txs, db, cache, ops);
    assert r.Err? <==> rr.Err?;
    assert r.Ok? ==> r.value.result == rr.value.0;
    assert forall k :: k in keys <==> k in Spent(txs);
  }

  /** Every prevout recorded for the block is a spendable output of it;
      provably unspendable outputs are never recorded. */
  lemma RecordedAreSpendable(txs: seq<BlockTx>, ops: ScriptOps, k: OutPoint)
    requires k in Reorg.ExtendMap(map[], BlockPrevouts(txs, ops))
    ensures exists i :: 0 <= i < |Outputs(txs)| && k == Outputs(txs)[i].0 && !ops.unspendable(Outputs(txs)[i].1.scriptPubkey)
  {
    var kvs := BlockPrevouts(txs, ops);
    var j :| 0 <= j < |kvs| && kvs[j].0 == k;
  }
}

=== FILE: raw_tx.dfy ===
/** Transactions of the block parser (proto/tx.rs): inputs, outputs and
    their serialized layout, which is also the byte stream hashed into the
    txid. Witnesses are kept on the inputs but never serialized. The script
    evaluation of outputs is not modelled. */
module Transactions {
  import opened Bytes
  import opened Wrappers
  import opened Locations
  import opened VarUints

  type Witness = seq<Bytes>

  /** `TxInput`. */
  datatype TxInput = TxInput(outpoint: OutPoint, scriptLen: VarUint, scriptSig: Bytes, seqNo: u32, witnessStack: Witness)

  /** `TxOutput`. */
  datatype TxOutput = TxOutput(value: u64, scriptLen: VarUint, scriptPubkey: Bytes)

  /** `RawTx` without its coin, which only drives script evaluation. */
  datatype RawTx = RawTx(version: u32, inCount: VarUint, inputs: seq<TxInput>, outCount: VarUint,
                         outputs: seq<TxOutput>, locktime: u32)

  /** `TxInput::to_bytes`: txid ‖ vout LE ‖ script length ‖ script ‖ sequence LE. */
  function InputBytes(i: TxInput): (r: Bytes)
    ensures |r| == 36 + |i.scriptLen.buf| + |i.scriptSig| + 4
    ensures r[..36] == EncodeOutPoint(i.outpoint)
  {
    EncodeOutPoint(i.outpoint) + i.scriptLen.buf + i.scriptSig + LeU32(i.seqNo)
  }

  /** `TxOutput::to_bytes`: value LE ‖ script length ‖ script. */
  function OutputBytes(o: TxOutput): (r: Bytes)
    ensures |r| == 8 + |o.scriptLen.buf| + |o.scriptPubkey|
    ensures r[..8] == LeU64(o.value)
  {
    LeU64(o.value) + o.scriptLen.buf + o.scriptPubkey
  }

  function InputsBytes(ins: seq<TxInput>): Bytes {
    if |ins| == 0 then [] else InputBytes(ins[0]) + InputsBytes(ins[1..])
  }

  function OutputsBytes(os: seq<TxOutput>): Bytes {
    if |os| == 0 then [] else OutputBytes(os[0]) + OutputsBytes(os[1..])
  }

  /** `EvaluatedTx::to_bytes`: the legacy layout, with no marker, flag or
      witness, so segwit transactions get their txid rather than their
      wtxid. */
  function TxBytes(tx: RawTx): Bytes {
    LeU32(tx.version) + tx.inCount.buf + InputsBytes(tx.inputs) + tx.outCount.buf +
    OutputsBytes(tx.outputs) + LeU32(tx.locktime)
  }

  /** The witnesses play no part in the serialized form. */
  lemma {:induction false} WitnessIgnored(ins: seq<TxInput>, ws: seq<Witness>)
    requires |ws| == |ins|
    ensures InputsBytes(ins) == InputsBytes(seq(|ins|, k requires 0 <= k < |ins| => ins[k].(witnessStack := ws[k])))
  {
    if |ins| > 0 {
      var js := seq(|ins|, k requires 0 <= k < |ins| => ins[k].(witnessStack := ws[k]));
      assert js[1..] == seq(|ins| - 1, k requires 0 <= k < |ins| - 1 => ins[1..][k].(witnessStack := ws[1..][k]));
      WitnessIgnored(ins[1..], ws[1..]);
    }
  }

  /** `TxOutpoint::to_bytes`: 36 bytes that decode back to the outpoint. */
  lemma OutpointBytes(op: OutPoint)
    ensures |EncodeOutPoint(op)| == 36 && DecodeOutPoint(EncodeOutPoint(op)) == Some(op)
  {
    OutPointRoundTrip(op);
  }

  // ---------------------------------------------------------------------
  // The txid stream
  // ---------------------------------------------------------------------

  /** The concatenation of a list of writes. */
  function Flatten(ws: seq<Bytes>): Bytes {
    if |ws| == 0 then [] else ws[0] + Flatten(ws[1..])
  }

  lemma {:induction false} FlattenAppend(a: seq<Bytes>, b: seq<Bytes>)
    ensures Flatten(a + b) == Flatten(a) + Flatten(b)
  {
    if |a| > 0 {
      assert (a + b)[1..] == a[1..] + b;
      FlattenAppend(a[1..], b);
    } else {
      assert a + b == b;
    }
  }

  function InputWrites(i: TxInput): seq<Bytes> {
    [i.outpoint.txid, LeU32(i.outpoint.vout), i.scriptLen.buf, i.scriptSig, LeU32(i.seqNo)]
  }

  function OutputWrites(o: TxOutput): seq<Bytes> {
    [LeU64(o.value), o.scriptLen.buf, o.scriptPubkey]
  }

  function InputsWrites(ins: seq<TxInput>): seq<Bytes> {
    if |ins| == 0 then [] else InputWrites(ins[0]) + InputsWrites(ins[1..])
  }

  function OutputsWrites(os: seq<TxOutput>): seq<Bytes> {
    if |os| == 0 then [] else OutputWrites(os[0]) + OutputsWrites(os[1..])
  }

  /** `EvaluatedTx::hash_to_engine`: the writes it makes to the hash
      engine, field by field. */
  function HashWrites(tx: RawTx): seq<Bytes> {
    [LeU32(tx.version), tx.inCount.buf] + InputsWrites(tx.inputs) + [tx.outCount.buf] +
    OutputsWrites(tx.outputs) + [LeU32(tx.locktime)]
  }

  lemma {:induction false} InputsStream(ins: seq<TxInput>)
    ensures Flatten(InputsWrites(ins)) == InputsBytes(ins)
  {
    if |ins| > 0 {
      var i := ins[0];
      FlattenAppend(InputWrites(i), InputsWrites(ins[1..]));
      InputsStream(ins[1..]);
      assert Flatten(InputWrites(i)) == InputBytes(i) by {
        assert Flatten(InputWrites(i)[4..]) == LeU32(i.seqNo);
        assert Flatten(InputWrites(i)[3..]) == i.scriptSig + LeU32(i.seqNo);
        assert Flatten(InputWrites(i)[2..]) == i.scriptLen.buf + i.scriptSig + LeU32(i.seqNo);
        assert Flatten(InputWrites(i)[1..]) == LeU32(i.outpoint.vout) + i.scriptLen.buf + i.scriptSig + LeU32(i.seqNo);
      }
    }
  }

  lemma {:induction false} OutputsStream(os: seq<TxOutput>)
    ensures Flatten(OutputsWrites(os)) == OutputsBytes(os)
  {
    if |os| > 0 {
      var o := os[0];
      FlattenAppend(OutputWrites(o), OutputsWrites(os[1..]));
      OutputsStream(os[1..]);
      assert Flatten(OutputWrites(o)) == OutputBytes(o) by {
        assert Flatten(OutputWrites(o)[2..]) == o.scriptPubkey;
        assert Flatten(OutputWrites(o)[1..]) == o.scriptLen.buf + o.scriptPubkey;
      }
    }
  }

  /** The hash engine sees exactly the bytes `to_bytes` produces, so the
      streamed txid equals the hash of the serialized transaction. */
  lemma HashStreamIsBytes(tx: RawTx)
    ensures Flatten(HashWrites(tx)) == TxBytes(tx)
  {
    var a := [LeU32(tx.version), tx.inCount.buf];
    var b := InputsWrites(tx.inputs);
    var c := [tx.outCount.buf];
    var d := OutputsWrites(tx.outputs);
    var e := [LeU32(tx.locktime)];
    FlattenAppend(a + b + c + d, e);
    FlattenAppend(a + b + c, d);
    FlattenAppend(a + b, c);
    FlattenAppend(a, b);
    InputsStream(tx.inputs);
    OutputsStream(tx.outputs);
    assert Flatten(a) == LeU32(tx.version) + tx.inCount.buf by {
      assert Flatten(a[1..]) == tx.inCount.buf;
    }
    assert Flatten(c) == tx.outCount.buf;
    assert Flatten(e) == LeU32(tx.locktime);
  }

  // ---------------------------------------------------------------------
  // Coinbase
  // ---------------------------------------------------------------------

  /** `is_coinbase`: the count says one input, and that input spends the
      null outpoint (all-zero txid, index 0xFFFFFFFF). The first input must
      exist when the count is one, as it does for every parsed
      transaction. */
  function IsCoinbase(tx: RawTx): (r: bool)
    requires tx.inCount.value == 1 ==> |tx.inputs| >= 1
    ensures |tx.inputs| == tx.inCount.value ==>
      (r <==> |tx.inputs| == 1 && tx.inputs[0].outpoint == OutPoint(ZeroHash, U32_MAX))
  {
    if tx.inCount.value == 1 then
      var input := tx.inputs[0];
      input.outpoint.txid == Zeros(32) && input.outpoint.vout == 0xFFFF_FFFF
    else false
  }
}

=== FILE: reorg.dfy ===
/** `ReorgCache` (src/reorg.rs): one undo log per recent block, and the
    replay that takes the token tables back when blocks are disconnected.
    The database is a record of maps; the `BTreeMap` of blocks is a
    sequence sorted by height. */
module Reorg {
  import opened Bytes
  import opened Wrappers
  import opened Locations
  import opened Keys
  import opened Tokens
  import Text

  const ReorgCacheMaxLen: nat := 30

  /** Of the block header only the height is read. */
  datatype BlockHeader = BlockHeader(number: u32, hash: Hash32)

  datatype ReorgBlock = ReorgBlock(tokenHistory: seq<TokenHistoryEntry>, lastHistoryId: u64, header: BlockHeader)

  datatype ReorgCache = ReorgCache(blocks: seq<(u32, ReorgBlock)>, len: nat)

  predicate Ascending(bs: seq<(u32, ReorgBlock)>) {
    forall i, j :: 0 <= i < j < |bs| ==> bs[i].0 < bs[j].0
  }

  /** What the cache keeps: heights in order and at most `len` blocks. */
  predicate Valid(c: ReorgCache) {
    Ascending(c.blocks) && |c.blocks| <= c.len && c.len > 0
  }

  /** `ReorgCache::new`. */
  function New(): (r: ReorgCache)
    ensures Valid(r) && r.blocks == [] && r.len == 30
  {
    ReorgCache([], ReorgCacheMaxLen)
  }

  /** `BTreeMap::insert`: the block takes its height's place, replacing an
      older block at that height. */
  function InsertBlock(bs: seq<(u32, ReorgBlock)>, h: u32, b: ReorgBlock): (r: seq<(u32, ReorgBlock)>)
    requires Ascending(bs)
    ensures Ascending(r)
    ensures forall i :: 0 <= i < |r| ==> r[i].0 == h || (|bs| > 0 && r[i].0 >= bs[0].0)
    decreases |bs|
  {
    if |bs| == 0 then [(h, b)]
    else if h < bs[0].0 then [(h, b)] + bs
    else if h == bs[0].0 then [(h, b)] + bs[1..]
    else
      var rest := InsertBlock(bs[1..], h, b);
      assert |bs| > 1 ==> bs[1].0 > bs[0].0;
      [bs[0]] + rest
  }

  /** The inserted block is present, every block at another height stays,
      and the length grows by one only when the height is new. */
  lemma {:induction false} InsertBlockKeeps(bs: seq<(u32, ReorgBlock)>, h: u32, b: ReorgBlock)
    requires Ascending(bs)
    ensures (h, b) in InsertBlock(bs, h, b)
    ensures forall e :: e in InsertBlock(bs, h, b) ==> e == (h, b) || (e in bs && e.0 != h)
    ensures forall e :: e in bs && e.0 != h ==> e in InsertBlock(bs, h, b)
    ensures |InsertBlock(bs, h, b)| <= |bs| + 1
    ensures (exists e :: e in bs && e.0 == h) ==> |InsertBlock(bs, h, b)| == |bs|
    decreases |bs|
  {
    if |bs| > 0 && h > bs[0].0 {
      InsertBlockKeeps(bs[1..], h, b);
      assert InsertBlock(bs, h, b) == [bs[0]] + InsertBlock(bs[1..], h, b);
      forall e | e in bs && e.0 != h
        ensures e in InsertBlock(bs, h, b)
      {
        if e != bs[0] {
          assert e in bs[1..];
        }
      }
      if exists e :: e in bs && e.0 == h {
        var e :| e in bs && e.0 == h;
        assert e in bs[1..];
      }
    } else if |bs| > 0 && h == bs[0].0 {
      forall e | e in bs && e.0 != h
        ensures e in bs[1..]
      {
        if e != bs[0] {
          var i :| 0 <= i < |bs| && bs[i] == e;
          assert bs[1..][i - 1] == e;
        }
      }
    } else if |bs| > 0 {
      forall e | e in bs
        ensures e.0 >= bs[0].0
      {
        var i :| 0 <= i < |bs| && bs[i] == e;
        assert i == 0 || bs[0].0 < bs[i].0;
      }
    }
  }

  /** Block `i` is not the one a full cache drops. */
  predicate Survives(c: ReorgCache, i: int) {
    0 <= i < |c.blocks| && (|c.blocks| == c.len ==> 0 < i)
  }

  /** The blocks a full cache keeps: all but the lowest. */
  function Kept(c: ReorgCache): (r: seq<(u32, ReorgBlock)>)
    requires Valid(c)
    ensures Ascending(r) && |r| < c.len
    ensures |c.blocks| == c.len ==> c.blocks[0] !in r
    ensures forall e :: e in r ==> e in c.blocks
    ensures forall i :: Survives(c, i) ==> c.blocks[i] in r
  {
    if |c.blocks| == c.len then
      var r := c.blocks[1..];
      assert forall i :: 0 <= i < |r| ==> r[i] == c.blocks[i + 1];
      assert forall i :: Survives(c, i) ==> c.blocks[i] == r[i - 1];
      r
    else c.blocks
  }

  /** `new_block`: when the cache is full the lowest height is dropped
      first. */
  function NewBlock(c: ReorgCache, header: BlockHeader, lastHistoryId: u64): (r: ReorgCache)
    requires Valid(c)
    ensures Valid(r) && r.len == c.len
    ensures (header.number, ReorgBlock([], lastHistoryId, header)) in r.blocks
    ensures |c.blocks| == c.len ==> c.blocks[0] !in r.blocks || c.blocks[0].0 == header.number
    ensures forall e :: e in r.blocks ==> e.1 == ReorgBlock([], lastHistoryId, header) || e in c.blocks
    ensures forall i :: Survives(c, i) && c.blocks[i].0 != header.number ==> c.blocks[i] in r.blocks
  {
    InsertBlockKeeps(Kept(c), header.number, ReorgBlock([], lastHistoryId, header));
    c.(blocks := InsertBlock(Kept(c), header.number, ReorgBlock([], lastHistoryId, header)))
  }

  /** The `added_*` / `removed_*` recorders: the entry goes to the undo log
      of the highest block; with no block the `unwrap` panics. */
  function Record(c: ReorgCache, e: TokenHistoryEntry): (r: Result<ReorgCache, string>)
    ensures r.Ok? <==> |c.blocks| > 0
    ensures r.Ok? ==> r.value.len == c.len && |r.value.blocks| == |c.blocks|
    ensures r.Ok? ==> var n := |c.blocks| - 1;
      && r.value.blocks[..n] == c.blocks[..n]
      && r.value.blocks[n].0 == c.blocks[n].0
      && r.value.blocks[n].1.tokenHistory == c.blocks[n].1.tokenHistory + [e]
      && r.value.blocks[n].1.lastHistoryId == c.blocks[n].1.lastHistoryId
  {
    if |c.blocks| == 0 then Err("called `Option::unwrap()` on a `None` value")
    else
      var n := |c.blocks| - 1;
      var (h, b) := c.blocks[n];
      Ok(c.(blocks := c.blocks[..n] + [(h, b.(tokenHistory := b.tokenHistory + [e]))]))
  }

  /** Several recorder calls in a row. */
  function RecordAll(c: ReorgCache, es: seq<TokenHistoryEntry>): (r: Result<ReorgCache, string>)
    decreases |es|
  {
    if |es| == 0 then Ok(c)
    else
      var c1 :- Record(c, es[0]);
      RecordAll(c1, es[1..])
  }

  /** Recording a sequence appends exactly that sequence to the highest
      block's log, keeps every other block, and fails only on an empty
      cache. */
  lemma {:induction false} RecordAllAppends(c: ReorgCache, es: seq<TokenHistoryEntry>)
    ensures RecordAll(c, es).Ok? <==> |es| == 0 || |c.blocks| > 0
    ensures |es| > 0 && RecordAll(c, es).Ok? ==> var r := RecordAll(c, es).value; var n := |c.blocks| - 1;
      && |r.blocks| == |c.blocks| && r.len == c.len
      && r.blocks[..n] == c.blocks[..n]
      && r.blocks[n].0 == c.blocks[n].0
      && r.blocks[n].1.tokenHistory == c.blocks[n].1.tokenHistory + es
    decreases |es|
  {
    if |es| > 0 && |c.blocks| > 0 {
      var c1 := Record(c, es[0]).value;
      RecordAllAppends(c1, es[1..]);
      var n := |c.blocks| - 1;
      if |es| > 1 {
        var r := RecordAll(c1, es[1..]).value;
        assert r.blocks[n].1.tokenHistory == c1.blocks[n].1.tokenHistory + es[1..];
        assert [es[0]] + es[1..] == es;
        assert c.blocks[n].1.tokenHistory + [es[0]] + es[1..] == c.blocks[n].1.tokenHistory + es;
      } else {
        assert RecordAll(c1, es[1..]) == Ok(c1);
        assert es == [es[0]];
      }
    }
  }

  // ---------------------------------------------------------------------
  // The database the replay writes.
  // ---------------------------------------------------------------------

  /** The tables `restore` reads and writes. Token metas are keyed by the
      lower-cased tick; of `outpoint_to_event` only the keys are kept. */
  datatype LedgerDb = LedgerDb(
    lastBlock: u32,
    lastHistoryId: u64,
    blockHashes: map<u32, Hash32>,
    tokenToMeta: map<Bytes, TokenMeta>,
    balances: map<AddressToken, TokenBalance>,
    transfers: map<AddressLocation, TransferProtoDB>,
    history: map<AddressTokenId, HistoryValue>,
    outpointToEvent: set<OutPoint>,
    prevouts: map<OutPoint, TxOut>)

  /** `DeployedUpdate`: the meta counter to take back, keyed by the
      lower-cased tick. */
  datatype DeployedUpdate =
    | UMint(tick: Bytes, amt: nat)
    | UTransfer(tick: Bytes)
    | UTransferred(tick: Bytes)

  /** The lists `restore` sorts the reversed log into. */
  datatype Buckets = Buckets(
    deployed: seq<Bytes>,
    minted: seq<(AddressToken, nat)>,
    updates: seq<DeployedUpdate>,
    transfers: seq<(Location, AddressToken, nat)>,
    transferred: seq<(AddressLocation, TransferProtoDB, FullHash)>,
    historyKeys: seq<AddressTokenId>,
    prevouts: seq<(OutPoint, TxOut)>)

  function Sort1(b: Buckets, e: TokenHistoryEntry): Buckets {
    match e
    case RemoveDeployed(tick) => b.(deployed := b.deployed + [LowerCase(tick)])
    case RemoveMint(receiver, amt) =>
      b.(updates := b.updates + [UMint(LowerCase(receiver.token), amt)], minted := b.minted + [(receiver, amt)])
    case RemoveTransfer(location, receiver, amt) =>
      b.(updates := b.updates + [UTransfer(LowerCase(receiver.token))], transfers := b.transfers + [(location, receiver, amt)])
    case RestoreTransferred(key, value, recipient) =>
      b.(updates := b.updates + [UTransferred(LowerCase(value.tick))], transferred := b.transferred + [(key, value, recipient)])
    case RemoveHistory(key) => b.(historyKeys := b.historyKeys + [key])
    case RestorePrevout(op, out) => b.(prevouts := b.prevouts + [(op, out)])
  }

  /** The loop over the log, in the order given. */
  function Sort(es: seq<TokenHistoryEntry>): Buckets
    decreases |es|
  {
    if |es| == 0 then Buckets([], [], [], [], [], [], [])
    else Sort1(Sort(es[..|es| - 1]), es[|es| - 1])
  }

  function MintEntries(es: seq<TokenHistoryEntry>): seq<(AddressToken, nat)>
    decreases |es|
  {
    if |es| == 0 then []
    else MintEntries(es[..|es| - 1]) + (if es[|es| - 1].RemoveMint? then [(es[|es| - 1].account, es[|es| - 1].amt)] else [])
  }

  /** Sorting keeps each kind of entry in the order it is given; fed the
      reversed log, the mints to take back come last-recorded first. */
  lemma {:induction false} SortKeepsOrder(es: seq<TokenHistoryEntry>)
    ensures Sort(es).minted == MintEntries(es)
    ensures |Sort(es).updates| == |Sort(es).minted| + |Sort(es).transfers| + |Sort(es).transferred|
    decreases |es|
  {
    if |es| > 0 {
      SortKeepsOrder(es[..|es| - 1]);
    }
  }

  // ---------------------------------------------------------------------
  // How a replay fails. `restore` returns two errors through `?` and a
  // third from `checked_sub(..).anyhow()?`; the rest are panics: the
  // `expect("Overflow")` on the transferable balance, and the debug-build
  // overflow check on `-=` and on `height - 1`.
  // ---------------------------------------------------------------------

  const DeploysMissing := "Some of deploys is not found"
  const AccountsMissing := "Some of accounts is not found"
  const CheckedSubFailed := "checked_sub returned None"
  const ExpectOverflow := "Overflow"
  const SubtractOverflow := "attempt to subtract with overflow"

  /** Whether a failure of the replay is a panic rather than an error
      returned through `?`. */
  predicate IsPanic(msg: string) {
    msg == ExpectOverflow || msg == SubtractOverflow
  }

  /** Every message the replay of a block can fail with. */
  predicate ReplayMessage(msg: string) {
    msg == DeploysMissing || msg == AccountsMissing || msg == CheckedSubFailed || IsPanic(msg)
  }

  /** Subtraction that fails with `failure` instead of going below zero. */
  function CheckedSub(a: nat, b: nat, failure: string): (r: Result<nat, string>)
    ensures r.Ok? <==> b <= a
    ensures r.Ok? ==> r.value + b == a
    ensures r.Err? ==> r.error == failure
  {
    if b <= a then Ok(a - b) else Err(failure)
  }

  /** `-=` on an integer counter (or a `Fixed128`): the debug-build overflow
      panic below zero. */
  function Sub(a: nat, b: nat): (r: Result<nat, string>)
    ensures r.Ok? <==> b <= a
    ensures r.Ok? ==> r.value + b == a
    ensures r.Err? ==> r.error == SubtractOverflow && IsPanic(r.error)
  {
    CheckedSub(a, b, SubtractOverflow)
  }

  /** One meta counter taken back. */
  function Decrement(m: TokenMeta, u: DeployedUpdate): (r: Result<TokenMeta, string>)
    ensures r.Err? ==> r.error == SubtractOverflow
    ensures r.Ok? ==> r.value.genesis == m.genesis && r.value.proto.tick == m.proto.tick && r.value.proto.max == m.proto.max
    ensures r.Ok? ==> r.value.proto.transactions + 1 == m.proto.transactions
    ensures r.Ok? && u.UMint? ==> r.value.proto.supply + u.amt == m.proto.supply && r.value.proto.mintCount + 1 == m.proto.mintCount
    ensures r.Ok? && u.UTransfer? ==> r.value.proto.transferCount + 1 == m.proto.transferCount
  {
    var p := m.proto;
    var transactions :- Sub(p.transactions, 1);
    match u
    case UMint(_, amt) =>
      var supply :- Sub(p.supply, amt);
      var mintCount :- Sub(p.mintCount, 1);
      Ok(m.(proto := p.(supply := supply, mintCount := mintCount, transactions := transactions)))
    case UTransfer(_) =>
      var transferCount :- Sub(p.transferCount, 1);
      Ok(m.(proto := p.(transferCount := transferCount, transactions := transactions)))
    case UTransferred(_) =>
      Ok(m.(proto := p.(transactions := transactions)))
  }

  predicate Known(deploys: map<Bytes, TokenMeta>, ups: seq<DeployedUpdate>) {
    forall i :: 0 <= i < |ups| ==> ups[i].tick in deploys
  }

  /** Which replay of a block's log is run: `AsWritten` is `restore` as the
      indexer has it, `Corrected` takes every meta update back on top of
      the earlier ones and never loads the burn address's account. */
  datatype Replay = AsWritten | Corrected

  /** The meta updates AS WRITTEN: every update starts again from the meta
      read before the replay, and the batch keeps the last value per tick,
      so of several updates to one tick only the last one counts. */
  function MetaUpdatesAsWritten(deploys: map<Bytes, TokenMeta>, ups: seq<DeployedUpdate>): (r: Result<map<Bytes, TokenMeta>, string>)
    requires Known(deploys, ups)
    ensures r.Ok? ==> forall t :: t in r.value ==> t in deploys && r.value[t].proto.transactions + 1 == deploys[t].proto.transactions
    ensures r.Err? ==> r.error == SubtractOverflow
    decreases |ups|
  {
    if |ups| == 0 then Ok(map[])
    else
      var done :- MetaUpdatesAsWritten(deploys, ups[..|ups| - 1]);
      var u := ups[|ups| - 1];
      var m :- Decrement(deploys[u.tick], u);
      Ok(done[u.tick := m])
  }

  /** The last update to `tick`, if any. */
  function LastUpdate(ups: seq<DeployedUpdate>, tick: Bytes): (r: Option<DeployedUpdate>)
    ensures r.Some? ==> r.value in ups && r.value.tick == tick
    ensures r.None? ==> forall i :: 0 <= i < |ups| ==> ups[i].tick != tick
    decreases |ups|
  {
    if |ups| == 0 then None
    else if ups[|ups| - 1].tick == tick then Some(ups[|ups| - 1])
    else
      var r := LastUpdate(ups[..|ups| - 1], tick);
      assert forall i :: 0 <= i < |ups| - 1 ==> ups[i] == ups[..|ups| - 1][i];
      r
  }

  /** As written, the replay fails exactly when one update cannot be taken
      back from the meta read before the replay, and then each tick's new
      meta is that meta with only its last update taken back. */
  lemma {:induction false} MetaUpdatesAsWrittenLast(deploys: map<Bytes, TokenMeta>, ups: seq<DeployedUpdate>, tick: Bytes)
    requires Known(deploys, ups)
    ensures MetaUpdatesAsWritten(deploys, ups).Ok? <==> forall i :: 0 <= i < |ups| ==> Decrement(deploys[ups[i].tick], ups[i]).Ok?
    ensures MetaUpdatesAsWritten(deploys, ups).Ok? ==>
      && (tick in MetaUpdatesAsWritten(deploys, ups).value <==> LastUpdate(ups, tick).Some?)
      && (LastUpdate(ups, tick).Some? ==>
            Decrement(deploys[tick], LastUpdate(ups, tick).value) == Ok(MetaUpdatesAsWritten(deploys, ups).value[tick]))
    decreases |ups|
  {
    if |ups| > 0 {
      var init := ups[..|ups| - 1];
      assert Known(deploys, init);
      assert forall i :: 0 <= i < |init| ==> init[i] == ups[i];
      MetaUpdatesAsWrittenLast(deploys, init, tick);
    }
  }

  /** The meta updates with each one applied on top of the previous ones. */
  function MetaUpdates(deploys: map<Bytes, TokenMeta>, ups: seq<DeployedUpdate>): (r: Result<map<Bytes, TokenMeta>, string>)
    requires Known(deploys, ups)
    ensures r.Ok? ==> r.value.Keys == deploys.Keys
    ensures r.Err? ==> r.error == SubtractOverflow
    decreases |ups|
  {
    if |ups| == 0 then Ok(deploys)
    else
      var done :- MetaUpdates(deploys, ups[..|ups| - 1]);
      var u := ups[|ups| - 1];
      var m :- Decrement(done[u.tick], u);
      Ok(done[u.tick := m])
  }

  /** The total of the mint updates to one tick. */
  function MintedOf(ups: seq<DeployedUpdate>, tick: Bytes): nat
    decreases |ups|
  {
    if |ups| == 0 then 0
    else
      var u := ups[|ups| - 1];
      MintedOf(ups[..|ups| - 1], tick) + (if u.UMint? && u.tick == tick then u.amt else 0)
  }

  function CountOf(ups: seq<DeployedUpdate>, tick: Bytes): nat
    decreases |ups|
  {
    if |ups| == 0 then 0
    else CountOf(ups[..|ups| - 1], tick) + (if ups[|ups| - 1].tick == tick then 1 else 0)
  }

  /** With the updates applied in turn, a tick's supply goes down by the sum
      of all its mints, and its transaction count by the number of its
      updates. */
  lemma {:induction false} MetaUpdatesTakeAllBack(deploys: map<Bytes, TokenMeta>, ups: seq<DeployedUpdate>, tick: Bytes)
    requires Known(deploys, ups) && tick in deploys
    requires MetaUpdates(deploys, ups).Ok?
    ensures MetaUpdates(deploys, ups).value[tick].proto.supply + MintedOf(ups, tick) == deploys[tick].proto.supply
    ensures MetaUpdates(deploys, ups).value[tick].proto.transactions + CountOf(ups, tick) == deploys[tick].proto.transactions
    decreases |ups|
  {
    if |ups| > 0 {
      assert Known(deploys, ups[..|ups| - 1]);
      MetaUpdatesTakeAllBack(deploys, ups[..|ups| - 1], tick);
    }
  }

  /** Two mints of 3 and 4 against a supply of 10: the replay as written
      leaves 6 where 3 was meant. */
  lemma MetaUpdatesAsWrittenLosesUpdates(m: TokenMeta, tick: Bytes)
    requires m.proto.supply == 10 && m.proto.mintCount == 2 && m.proto.transactions == 2
    ensures var ups := [UMint(tick, 3), UMint(tick, 4)];
      && MetaUpdatesAsWritten(map[tick := m], ups).Ok?
      && MetaUpdatesAsWritten(map[tick := m], ups).value[tick].proto.supply == 6
      && MetaUpdates(map[tick := m], ups).Ok?
      && MetaUpdates(map[tick := m], ups).value[tick].proto.supply == 3
  {
    var d := map[tick := m];
    var u1, u2 := UMint(tick, 3), UMint(tick, 4);
    var ups := [u1, u2];
    assert ups[..1] == [u1] && [u1][..0] == [];
    assert Known(d, [u1]) && Known(d, []);
    assert MetaUpdatesAsWritten(d, []) == Ok(map[]);
    assert MetaUpdates(d, []) == Ok(d);
    var m1 := Decrement(m, u1);
    assert m1.Ok? && m1.value.proto.supply == 7 && m1.value.proto.mintCount == 1 && m1.value.proto.transactions == 1;
    assert MetaUpdatesAsWritten(d, [u1]) == Ok(map[][tick := m1.value]);
    assert MetaUpdates(d, [u1]) == Ok(d[tick := m1.value]);
    var m2 := Decrement(m, u2);
    assert m2.Ok? && m2.value.proto.supply == 6;
    assert MetaUpdatesAsWritten(d, ups) == Ok(map[][tick := m1.value][tick := m2.value]);
    var m3 := Decrement(m1.value, u2);
    assert m3.Ok? && m3.value.proto.supply == 3;
    assert MetaUpdates(d, ups) == Ok(d[tick := m1.value][tick := m3.value]);
  }

  /** The accounts the replay loads AS WRITTEN: for a restored transfer both
      the sender's and the recipient's, even when the recipient is the burn
      address, whose account is never used. */
  function AccountKeysAsWritten(b: Buckets): (r: seq<AddressToken>)
    ensures |r| == |b.minted| + |b.transfers| + 2 * |b.transferred|
    ensures forall i :: 0 <= i < |b.transferred| ==> AddressToken(b.transferred[i].2, b.transferred[i].1.tick) in r
  {
    Minted(b.minted) + TransferAccounts(b.transfers) + BothParties(b.transferred)
  }

  /** The accounts the replay touches: the burn address is left out. */
  function AccountKeys(b: Buckets, opReturn: FullHash): (r: seq<AddressToken>)
    ensures |b.minted| + |b.transfers| <= |r| <= |AccountKeysAsWritten(b)|
    ensures r[..|b.minted| + |b.transfers|] == AccountKeysAsWritten(b)[..|b.minted| + |b.transfers|]
    ensures (forall i :: 0 <= i < |b.transferred| ==> b.transferred[i].2 != opReturn) ==> r == AccountKeysAsWritten(b)
  {
    Minted(b.minted) + TransferAccounts(b.transfers) + Parties(b.transferred, opReturn)
  }

  function Minted(xs: seq<(AddressToken, nat)>): (r: seq<AddressToken>)
    ensures |r| == |xs| && forall i :: 0 <= i < |xs| ==> r[i] == xs[i].0
  {
    seq(|xs|, i requires 0 <= i < |xs| => xs[i].0)
  }

  function TransferAccounts(xs: seq<(Location, AddressToken, nat)>): (r: seq<AddressToken>)
    ensures |r| == |xs| && forall i :: 0 <= i < |xs| ==> r[i] == xs[i].1
  {
    seq(|xs|, i requires 0 <= i < |xs| => xs[i].1)
  }

  function BothParties(xs: seq<(AddressLocation, TransferProtoDB, FullHash)>): (r: seq<AddressToken>)
    ensures |r| == 2 * |xs|
    ensures forall k :: k in r <==> exists i :: 0 <= i < |xs| && (k == AddressToken(xs[i].0.address, xs[i].1.tick) || k == AddressToken(xs[i].2, xs[i].1.tick))
  {
    if |xs| == 0 then []
    else
      var rest := BothParties(xs[1..]);
      assert forall i :: 1 <= i < |xs| ==> xs[i] == xs[1..][i - 1];
      [AddressToken(xs[0].0.address, xs[0].1.tick), AddressToken(xs[0].2, xs[0].1.tick)] + rest
  }

  function Parties(xs: seq<(AddressLocation, TransferProtoDB, FullHash)>, opReturn: FullHash): (r: seq<AddressToken>)
    ensures |r| <= 2 * |xs|
    ensures (forall i :: 0 <= i < |xs| ==> xs[i].2 != opReturn) ==> r == BothParties(xs)
    ensures forall k :: k in r <==> exists i :: 0 <= i < |xs| && (k == AddressToken(xs[i].0.address, xs[i].1.tick) || (xs[i].2 != opReturn && k == AddressToken(xs[i].2, xs[i].1.tick)))
  {
    if |xs| == 0 then []
    else
      var rest := Parties(xs[1..], opReturn);
      assert forall i :: 1 <= i < |xs| ==> xs[i] == xs[1..][i - 1];
      var sender := AddressToken(xs[0].0.address, xs[0].1.tick);
      if xs[0].2 == opReturn then [sender] + rest
      else [sender, AddressToken(xs[0].2, xs[0].1.tick)] + rest
  }

  /** The accounts the corrected replay needs are among those the replay as
      written loads. */
  lemma PartiesInBoth(xs: seq<(AddressLocation, TransferProtoDB, FullHash)>, opReturn: FullHash, k: AddressToken)
    requires k in Parties(xs, opReturn)
    ensures k in BothParties(xs)
  {
    var i :| 0 <= i < |xs| && (k == AddressToken(xs[i].0.address, xs[i].1.tick) || (xs[i].2 != opReturn && k == AddressToken(xs[i].2, xs[i].1.tick)));
    assert k == AddressToken(xs[i].0.address, xs[i].1.tick) || k == AddressToken(xs[i].2, xs[i].1.tick);
  }

  /** The accounts the replay loads. */
  function FetchKeys(b: Buckets, opReturn: FullHash, replay: Replay): (r: seq<AddressToken>)
    ensures |r| >= |b.minted| + |b.transfers|
    ensures forall i :: 0 <= i < |b.minted| ==> r[i] == b.minted[i].0
    ensures forall k :: k in Parties(b.transferred, opReturn) ==> k in r
  {
    match replay
    case AsWritten => PartiesLoadedAsWritten(b, opReturn); AccountKeysAsWritten(b)
    case Corrected => PartiesLoaded(b, opReturn); AccountKeys(b, opReturn)
  }

  lemma PartiesLoadedAsWritten(b: Buckets, opReturn: FullHash)
    ensures forall k :: k in Parties(b.transferred, opReturn) ==> k in AccountKeysAsWritten(b)
  {
    var r := AccountKeysAsWritten(b);
    forall k | k in Parties(b.transferred, opReturn) ensures k in r {
      PartiesInBoth(b.transferred, opReturn, k);
      var p := BothParties(b.transferred);
      var i :| 0 <= i < |p| && p[i] == k;
      assert r[|b.minted| + |b.transfers| + i] == k;
    }
  }

  lemma PartiesLoaded(b: Buckets, opReturn: FullHash)
    ensures forall k :: k in Parties(b.transferred, opReturn) ==> k in AccountKeys(b, opReturn)
  {
    var r := AccountKeys(b, opReturn);
    forall k | k in Parties(b.transferred, opReturn) ensures k in r {
      var p := Parties(b.transferred, opReturn);
      var i :| 0 <= i < |p| && p[i] == k;
      assert r[|b.minted| + |b.transfers| + i] == k;
    }
  }

  /** `multi_get` collected into `Option<HashMap>`: every key must be stored. */
  function FetchAccounts(balances: map<AddressToken, TokenBalance>, keys: seq<AddressToken>): (r: Result<map<AddressToken, TokenBalance>, string>)
    ensures r.Ok? <==> forall k :: k in keys ==> k in balances
    ensures r.Ok? ==> r.value.Keys == (set k | k in keys)
    ensures r.Ok? ==> forall k :: k in r.value ==> k in balances && r.value[k] == balances[k]
    ensures r.Err? ==> r.error == AccountsMissing
  {
    if forall k :: k in keys ==> k in balances then
      Ok(map k | k in keys :: balances[k])
    else Err(AccountsMissing)
  }

  /** A block that spent a transfer into the burn address cannot be replayed
      as written once the burn address has no account, which it never has:
      the account fetch fails. Leaving the burn address out, only the
      sender's account is needed. */
  lemma BurnRestoreAsWrittenFails(balances: map<AddressToken, TokenBalance>, key: AddressLocation, value: TransferProtoDB, opReturn: FullHash)
    requires AddressToken(opReturn, value.tick) !in balances
    requires AddressToken(key.address, value.tick) in balances
    ensures var b := Sort([RestoreTransferred(key, value, opReturn)]);
      && FetchAccounts(balances, AccountKeysAsWritten(b)).Err?
      && FetchAccounts(balances, AccountKeys(b, opReturn)).Ok?
  {
    var e := RestoreTransferred(key, value, opReturn);
    var b := Sort([e]);
    assert [e][..0] == [];
    assert Sort([e]) == Sort1(Sort([]), e);
    assert Sort([]) == Buckets([], [], [], [], [], [], []);
    assert b.minted == [] && b.transfers == [] && b.transferred == [(key, value, opReturn)];
    assert AddressToken(opReturn, value.tick) == AddressToken(b.transferred[0].2, b.transferred[0].1.tick);
    assert AddressToken(opReturn, value.tick) in AccountKeysAsWritten(b);
  }

  /** Taking back the mints: `checked_sub` on each balance. */
  function UndoMints(accounts: map<AddressToken, TokenBalance>, xs: seq<(AddressToken, nat)>): (r: Result<map<AddressToken, TokenBalance>, string>)
    requires forall i :: 0 <= i < |xs| ==> xs[i].0 in accounts
    ensures r.Ok? ==> r.value.Keys == accounts.Keys
    ensures r.Err? ==> r.error == CheckedSubFailed
    decreases |xs|
  {
    if |xs| == 0 then Ok(accounts)
    else
      var done :- UndoMints(accounts, xs[..|xs| - 1]);
      var (key, amt) := xs[|xs| - 1];
      var balance :- CheckedSub(done[key].balance, amt, CheckedSubFailed);
      Ok(done[key := done[key].(balance := balance)])
  }

  /** Taking back the inscribed transfers: the amount returns to the
      balance; the transferable balance and the count must cover it. */
  function UndoTransfers(accounts: map<AddressToken, TokenBalance>, xs: seq<(Location, AddressToken, nat)>): (r: Result<map<AddressToken, TokenBalance>, string>)
    ensures r.Ok? ==> r.value.Keys == accounts.Keys
    ensures r.Err? ==> IsPanic(r.error)
    decreases |xs|
  {
    if |xs| == 0 then Ok(accounts)
    else
      var done :- UndoTransfers(accounts, xs[..|xs| - 1]);
      var (_, key, amt) := xs[|xs| - 1];
      if key !in done then Ok(done)
      else
        var a := done[key];
        var transferable :- CheckedSub(a.transferable, amt, ExpectOverflow);
        var count :- Sub(a.transfersCount, 1);
        Ok(done[key := TokenBalance(a.balance + amt, transferable, count)])
  }

  /** Taking back the spent transfers: the sender's transfer reopens and the
      recipient, unless it is the burn address, gives the amount back. */
  function UndoTransferred(accounts: map<AddressToken, TokenBalance>, xs: seq<(AddressLocation, TransferProtoDB, FullHash)>, opReturn: FullHash)
    : (r: Result<map<AddressToken, TokenBalance>, string>)
    requires forall k :: k in Parties(xs, opReturn) ==> k in accounts
    ensures r.Ok? ==> r.value.Keys == accounts.Keys
    ensures r.Err? ==> r.error == CheckedSubFailed
    decreases |xs|
  {
    if |xs| == 0 then Ok(accounts)
    else
      assert forall k :: k in Parties(xs[..|xs| - 1], opReturn) ==> k in Parties(xs, opReturn) by {
        forall k | k in Parties(xs[..|xs| - 1], opReturn) ensures k in Parties(xs, opReturn) {
          var i :| 0 <= i < |xs| - 1 && (k == AddressToken(xs[..|xs| - 1][i].0.address, xs[..|xs| - 1][i].1.tick)
            || (xs[..|xs| - 1][i].2 != opReturn && k == AddressToken(xs[..|xs| - 1][i].2, xs[..|xs| - 1][i].1.tick)));
          assert xs[..|xs| - 1][i] == xs[i];
        }
      }
      var done :- UndoTransferred(accounts, xs[..|xs| - 1], opReturn);
      var (k, v, recipient) := xs[|xs| - 1];
      var sender := AddressToken(k.address, v.tick);
      var s := done[sender];
      var done1 := done[sender := s.(transferable := s.transferable + v.amt, transfersCount := s.transfersCount + 1)];
      if recipient == opReturn then Ok(done1)
      else
        var rk := AddressToken(recipient, v.tick);
        var balance :- CheckedSub(done1[rk].balance, v.amt, CheckedSubFailed);
        Ok(done1[rk := done1[rk].(balance := balance)])
  }

  function TransferLocations(xs: seq<(Location, AddressToken, nat)>): (r: set<AddressLocation>)
    ensures forall k :: k in r <==> exists i :: 0 <= i < |xs| && k == AddressLocation(xs[i].1.address, xs[i].0)
  {
    set i | 0 <= i < |xs| :: AddressLocation(xs[i].1.address, xs[i].0)
  }

  /** `extend`: later pairs win. */
  function ExtendMap<K, V>(m: map<K, V>, kvs: seq<(K, V)>): (r: map<K, V>)
    ensures r.Keys == m.Keys + (set i | 0 <= i < |kvs| :: kvs[i].0)
    decreases |kvs|
  {
    if |kvs| == 0 then m
    else
      var r := ExtendMap(m, kvs[..|kvs| - 1])[kvs[|kvs| - 1].0 := kvs[|kvs| - 1].1];
      assert forall i :: 0 <= i < |kvs| - 1 ==> kvs[..|kvs| - 1][i] == kvs[i];
      r
  }

  function Restored(xs: seq<(AddressLocation, TransferProtoDB, FullHash)>, removed: set<AddressLocation>): (r: seq<(AddressLocation, TransferProtoDB)>)
    ensures forall i :: 0 <= i < |r| ==> r[i].0 !in removed
    decreases |xs|
  {
    if |xs| == 0 then []
    else Restored(xs[..|xs| - 1], removed) + (if xs[|xs| - 1].0 in removed then [] else [(xs[|xs| - 1].0, xs[|xs| - 1].1)])
  }

  function Ticks(ups: seq<DeployedUpdate>): set<Bytes> {
    set u | u in ups :: u.tick
  }

  /** `multi_get` of the updated ticks' metas. */
  function DeploysOf(metas: map<Bytes, TokenMeta>, ups: seq<DeployedUpdate>): map<Bytes, TokenMeta> {
    map t | t in Ticks(ups) && t in metas :: metas[t]
  }

  /** The deploy metas after the replay: the counters of the updated ticks
      taken back, the ticks deployed in the block removed. */
  function RestoreMetas(metas: map<Bytes, TokenMeta>, b: Buckets, replay: Replay): (r: Result<map<Bytes, TokenMeta>, string>)
    ensures r.Ok? ==> forall t :: t in r.value <==> t in metas && t !in b.deployed
    ensures r.Ok? ==> forall i :: 0 <= i < |b.updates| ==> b.updates[i].tick in metas
    ensures r.Err? ==> r.error == DeploysMissing || r.error == SubtractOverflow
  {
    var ticks := Ticks(b.updates);
    if !(forall t :: t in ticks ==> t in metas) then Err(DeploysMissing)
    else
      var deploys := DeploysOf(metas, b.updates);
      assert Known(deploys, Text.Reverse(b.updates)) by {
        forall i | 0 <= i < |Text.Reverse(b.updates)| ensures Text.Reverse(b.updates)[i].tick in deploys {
          assert Text.Reverse(b.updates)[i] in b.updates;
        }
      }
      assert forall i :: 0 <= i < |b.updates| ==> b.updates[i].tick in ticks;
      var updated :- if replay == AsWritten then MetaUpdatesAsWritten(deploys, Text.Reverse(b.updates))
                     else MetaUpdates(deploys, Text.Reverse(b.updates));
      Ok(map t | t in metas && t !in b.deployed :: if t in updated then updated[t] else metas[t])
  }

  /** The balances after the replay: mints, inscribed transfers and spent
      transfers taken back on the accounts they touched. */
  function RestoreAccounts(balances: map<AddressToken, TokenBalance>, b: Buckets, opReturn: FullHash, replay: Replay)
    : (r: Result<map<AddressToken, TokenBalance>, string>)
    ensures r.Ok? ==> r.value.Keys == balances.Keys
    ensures r.Err? ==> r.error == AccountsMissing || r.error == CheckedSubFailed || IsPanic(r.error)
  {
    var keys := FetchKeys(b, opReturn, replay);
    var accounts :- FetchAccounts(balances, keys);
    assert forall i :: 0 <= i < |Text.Reverse(b.minted)| ==> Text.Reverse(b.minted)[i].0 in accounts by {
      forall i | 0 <= i < |Text.Reverse(b.minted)| ensures Text.Reverse(b.minted)[i].0 in accounts {
        var j := |b.minted| - 1 - i;
        assert Text.Reverse(b.minted)[i] == b.minted[j];
        assert keys[j] == b.minted[j].0;
      }
    }
    var accounts1 :- UndoMints(accounts, Text.Reverse(b.minted));
    var accounts2 :- UndoTransfers(accounts1, b.transfers);
    var accounts3 :- UndoTransferred(accounts2, b.transferred, opReturn);
    Ok(balances + accounts3)
  }

  /** The transfer table after the replay: spent transfers reopened, the
      transfers inscribed in the block removed. */
  function RestoreTransfers(transfers: map<AddressLocation, TransferProtoDB>, b: Buckets): (r: map<AddressLocation, TransferProtoDB>)
    ensures forall i :: 0 <= i < |b.transfers| ==> AddressLocation(b.transfers[i].1.address, b.transfers[i].0) !in r
    ensures forall k :: k in transfers && k !in TransferLocations(b.transfers) ==> k in r
  {
    var removed := TransferLocations(b.transfers);
    var extended := ExtendMap(transfers, Restored(b.transferred, removed));
    map k | k in extended && k !in removed :: extended[k]
  }

  /** The log of a block, sorted into buckets in replay order. */
  function BucketsOf(data: ReorgBlock): Buckets {
    Sort(Text.Reverse(data.tokenHistory))
  }

  /** Where a replay stopped: the database as far as it had been written,
      and the message. RocksDB tables are written as soon as they are
      changed, so nothing written before the failure is taken back. */
  datatype Halt = Halt(db: LedgerDb, msg: string)

  /** The writes `restore` makes before it reads any meta: the last block
      and history id, the block's hash, its history with the events it
      names, and the restored prevouts. */
  function Unwound(db: LedgerDb, height: u32, data: ReorgBlock, b: Buckets): (r: LedgerDb)
    requires height > 0
    ensures r.lastBlock + 1 == height && r.lastHistoryId == data.lastHistoryId
    ensures forall h :: h in r.blockHashes <==> h in db.blockHashes && h != height
    ensures forall k :: k in r.history <==> k in db.history && k !in b.historyKeys
    ensures r.tokenToMeta == db.tokenToMeta && r.balances == db.balances && r.transfers == db.transfers
  {
    var found := set k | k in b.historyKeys && k in db.history;
    var events := set k | k in found :: HistoryOutPoint(db.history[k].action);
    db.(lastBlock := height - 1,
        lastHistoryId := data.lastHistoryId,
        blockHashes := map h | h in db.blockHashes && h != height :: db.blockHashes[h],
        history := map k | k in db.history && k !in b.historyKeys :: db.history[k],
        outpointToEvent := db.outpointToEvent - events,
        prevouts := ExtendMap(db.prevouts, b.prevouts))
  }

  /** The replay of one block's log, popped at `height`. A failure keeps
      what was written before it: nothing when `height - 1` underflows,
      the unwound tables when the metas fail, and the metas too when the
      accounts fail. Balances and transfers are only written at the end. */
  function RestoreBlock(db: LedgerDb, height: u32, data: ReorgBlock, opReturn: FullHash, replay: Replay): (r: Result<LedgerDb, Halt>)
    ensures r.Ok? ==> r.value.lastBlock + 1 == height && r.value.lastHistoryId == data.lastHistoryId
    ensures r.Ok? ==> height !in r.value.blockHashes
    ensures r.Ok? ==> r.value.balances.Keys == db.balances.Keys
    ensures r.Err? <==> height == 0 || RestoreMetas(db.tokenToMeta, BucketsOf(data), replay).Err?
                        || RestoreAccounts(db.balances, BucketsOf(data), opReturn, replay).Err?
    ensures height == 0 ==> r.Err? && r.error.db == db
    ensures r.Err? && height > 0 ==> r.error.db.lastBlock + 1 == height && r.error.db.lastHistoryId == data.lastHistoryId
                                     && height !in r.error.db.blockHashes
    ensures r.Err? ==> r.error.db.balances == db.balances && r.error.db.transfers == db.transfers
    ensures r.Err? ==> ReplayMessage(r.error.msg)
    ensures r.Err? && height > 0 ==>
      var metas := RestoreMetas(db.tokenToMeta, BucketsOf(data), replay);
      r.error.db.tokenToMeta == if metas.Ok? then metas.value else db.tokenToMeta
  {
    match Sub(height, 1)
    case Err(e) => Err(Halt(db, e))
    case Ok(_) =>
      var b := BucketsOf(data);
      var db1 := Unwound(db, height, data, b);
      match RestoreMetas(db.tokenToMeta, b, replay)
      case Err(e) => Err(Halt(db1, e))
      case Ok(metas) =>
        var db2 := db1.(tokenToMeta := metas);
        match RestoreAccounts(db.balances, b, opReturn, replay)
        case Err(e) => Err(Halt(db2, e))
        case Ok(balances) => Ok(db2.(balances := balances, transfers := RestoreTransfers(db.transfers, b)))
  }

  /** Every spent transfer of the log lands in the `transferred` bucket. */
  lemma {:induction false} SortTransferred(es: seq<TokenHistoryEntry>, key: AddressLocation, value: TransferProtoDB, recipient: FullHash)
    requires RestoreTransferred(key, value, recipient) in es
    ensures (key, value, recipient) in Sort(es).transferred
    decreases |es|
  {
    if es[|es| - 1] != RestoreTransferred(key, value, recipient) {
      var i :| 0 <= i < |es| && es[i] == RestoreTransferred(key, value, recipient);
      assert es[..|es| - 1][i] == es[i];
      SortTransferred(es[..|es| - 1], key, value, recipient);
    }
  }

  /** As written, the meta of a tick updated in the block is the meta
      before the replay with only the block's last-recorded update to it
      taken back: the replay walks the log in recorded order and the batch
      keeps the last value written. */
  lemma RestoreMetasAsWritten(metas: map<Bytes, TokenMeta>, b: Buckets, tick: Bytes)
    requires RestoreMetas(metas, b, AsWritten).Ok? && tick in metas && tick !in b.deployed
    ensures var u := LastUpdate(Text.Reverse(b.updates), tick);
      && (u.None? ==> RestoreMetas(metas, b, AsWritten).value[tick] == metas[tick])
      && (u.Some? ==> Decrement(metas[tick], u.value) == Ok(RestoreMetas(metas, b, AsWritten).value[tick]))
  {
    var ups := Text.Reverse(b.updates);
    var deploys := DeploysOf(metas, b.updates);
    RestoreMetasAsWrittenUnfold(metas, b, tick);
    MetaUpdatesAsWrittenLast(deploys, ups, tick);
    if LastUpdate(ups, tick).Some? {
      DeployedTick(metas, b.updates, tick);
    }
  }

  /** A tick updated in the log is among the metas the replay reads. */
  lemma DeployedTick(metas: map<Bytes, TokenMeta>, updates: seq<DeployedUpdate>, tick: Bytes)
    requires tick in metas && LastUpdate(Text.Reverse(updates), tick).Some?
    ensures tick in DeploysOf(metas, updates) && DeploysOf(metas, updates)[tick] == metas[tick]
  {
    var ups := Text.Reverse(updates);
    var u := LastUpdate(ups, tick).value;
    var i :| 0 <= i < |ups| && ups[i] == u;
    assert ups[i] == updates[|updates| - 1 - i];
    assert u in updates;
  }

  /** What a successful replay as written computes for one tick. */
  lemma RestoreMetasAsWrittenUnfold(metas: map<Bytes, TokenMeta>, b: Buckets, tick: Bytes)
    requires RestoreMetas(metas, b, AsWritten).Ok? && tick in metas && tick !in b.deployed
    ensures Known(DeploysOf(metas, b.updates), Text.Reverse(b.updates))
    ensures MetaUpdatesAsWritten(DeploysOf(metas, b.updates), Text.Reverse(b.updates)).Ok?
    ensures var u := MetaUpdatesAsWritten(DeploysOf(metas, b.updates), Text.Reverse(b.updates)).value;
      RestoreMetas(metas, b, AsWritten).value[tick] == if tick in u then u[tick] else metas[tick]
  {
    KnownUpdates(metas, b.updates);
  }

  /** When every updated tick has a meta, the metas read cover the
      reversed updates. */
  lemma KnownUpdates(metas: map<Bytes, TokenMeta>, updates: seq<DeployedUpdate>)
    requires forall i :: 0 <= i < |updates| ==> updates[i].tick in metas
    ensures Known(DeploysOf(metas, updates), Text.Reverse(updates))
  {
    var ups := Text.Reverse(updates);
    forall i | 0 <= i < |ups| ensures ups[i].tick in DeploysOf(metas, updates) {
      assert ups[i] == updates[|updates| - 1 - i];
      assert ups[i].tick in Ticks(updates);
    }
  }

  /** The block replay as written: every tick's meta is its meta before the
      replay with only one of its updates taken back. */
  lemma RestoreBlockAsWrittenMetas(db: LedgerDb, height: u32, data: ReorgBlock, opReturn: FullHash, tick: Bytes)
    requires RestoreBlock(db, height, data, opReturn, AsWritten).Ok?
    requires tick in RestoreBlock(db, height, data, opReturn, AsWritten).value.tokenToMeta
    ensures tick in db.tokenToMeta
    ensures var u := LastUpdate(Text.Reverse(Sort(Text.Reverse(data.tokenHistory)).updates), tick);
      var m := RestoreBlock(db, height, data, opReturn, AsWritten).value.tokenToMeta[tick];
      && (u.None? ==> m == db.tokenToMeta[tick])
      && (u.Some? ==> Decrement(db.tokenToMeta[tick], u.value) == Ok(m))
  {
    var b := Sort(Text.Reverse(data.tokenHistory));
    RestoreMetasAsWritten(db.tokenToMeta, b, tick);
  }

  /** A block that spent a transfer into the burn address cannot be replayed
      as written: the burn address's account, which never exists, is
      fetched and the replay fails. It fails half-way: the block is gone
      from the last block, its hash and history are removed and the metas
      taken back, while every balance stays as it was. */
  lemma RestoreBlockAsWrittenBurnFails(db: LedgerDb, height: u32, data: ReorgBlock, opReturn: FullHash, key: AddressLocation, value: TransferProtoDB)
    requires RestoreTransferred(key, value, opReturn) in data.tokenHistory
    requires AddressToken(opReturn, value.tick) !in db.balances
    ensures var r := RestoreBlock(db, height, data, opReturn, AsWritten);
      && r.Err? && r.error.db.balances == db.balances
      && (height > 0 && RestoreMetas(db.tokenToMeta, BucketsOf(data), AsWritten).Ok? ==>
            && r.error.msg == AccountsMissing
            && r.error.db.lastBlock + 1 == height && height !in r.error.db.blockHashes
            && r.error.db.tokenToMeta == RestoreMetas(db.tokenToMeta, BucketsOf(data), AsWritten).value)
  {
    var b := Sort(Text.Reverse(data.tokenHistory));
    assert RestoreTransferred(key, value, opReturn) in Text.Reverse(data.tokenHistory) by {
      var i :| 0 <= i < |data.tokenHistory| && data.tokenHistory[i] == RestoreTransferred(key, value, opReturn);
      assert Text.Reverse(data.tokenHistory)[|data.tokenHistory| - 1 - i] == data.tokenHistory[i];
    }
    SortTransferred(Text.Reverse(data.tokenHistory), key, value, opReturn);
    var i :| 0 <= i < |b.transferred| && b.transferred[i] == (key, value, opReturn);
    assert AddressToken(opReturn, value.tick) in BothParties(b.transferred);
    assert AddressToken(opReturn, value.tick) in AccountKeysAsWritten(b);
    assert FetchAccounts(db.balances, FetchKeys(b, opReturn, AsWritten)).Err?;
  }

  function Last(c: ReorgCache): (u32, ReorgBlock)
    requires |c.blocks| > 0
  {
    c.blocks[|c.blocks| - 1]
  }

  /** Undoing one cached block. */
  type BlockStep = (LedgerDb, u32, ReorgBlock) -> Result<LedgerDb, Halt>

  /** Where `restore` stopped: the cache without the block whose replay
      failed (it was popped first), the database as far as it had been
      written, and the message. */
  datatype Stopped = Stopped(cache: ReorgCache, db: LedgerDb, msg: string)

  /** `restore`: pop and replay the highest block while its height is at
      least `height`. */
  function Restore(c: ReorgCache, db: LedgerDb, height: u32, opReturn: FullHash, replay: Replay): (r: Result<(ReorgCache, LedgerDb), Stopped>)
    ensures r.Ok? ==> r.value.0.len == c.len && |r.value.0.blocks| <= |c.blocks|
    ensures r.Err? ==> r.error.cache.len == c.len && |r.error.cache.blocks| < |c.blocks|
  {
    Pop(c, db, height, UndoStep(opReturn, replay))
  }

  /** `restore_block` as the step of the popping loop. */
  function UndoStep(opReturn: FullHash, replay: Replay): BlockStep {
    (d: LedgerDb, h: u32, data: ReorgBlock) => RestoreBlock(d, h, data, opReturn, replay)
  }

  /** The popping loop of `restore`, with the block undo `step` given. */
  function Pop(c: ReorgCache, db: LedgerDb, height: u32, step: BlockStep): (r: Result<(ReorgCache, LedgerDb), Stopped>)
    ensures r.Ok? ==> r.value.0.len == c.len && |r.value.0.blocks| <= |c.blocks|
    ensures r.Err? ==> r.error.cache.len == c.len && |r.error.cache.blocks| < |c.blocks|
    decreases |c.blocks|
  {
    if |c.blocks| == 0 || height > Last(c).0 then Ok((c, db))
    else
      var (h, data) := Last(c);
      var c1 := c.(blocks := c.blocks[..|c.blocks| - 1]);
      match step(db, h, data)
      case Err(halt) => Err(Stopped(c1, halt.db, halt.msg))
      case Ok(db1) => Pop(c1, db1, height, step)
  }

  /** A popping loop that stops leaves a prefix of the cache: the blocks
      popped are at `height` or above, and the first of them, the last one
      popped, is the block whose step failed, from the database the loop
      had reached. */
  lemma {:induction false} PopStopped(c: ReorgCache, db: LedgerDb, height: u32, step: BlockStep)
    requires Pop(c, db, height, step).Err?
    ensures var s := Pop(c, db, height, step).error; var k := |s.cache.blocks|;
      && k < |c.blocks| && s.cache.blocks == c.blocks[..k]
      && (forall i :: k <= i < |c.blocks| ==> c.blocks[i].0 >= height)
      && exists d :: step(d, c.blocks[k].0, c.blocks[k].1) == Err(Halt(s.db, s.msg))
    decreases |c.blocks|
  {
    var (h, data) := Last(c);
    var c1 := c.(blocks := c.blocks[..|c.blocks| - 1]);
    var s := Pop(c, db, height, step).error;
    if step(db, h, data).Err? {
      assert s.cache == c1;
      assert step(db, c.blocks[|c1.blocks|].0, c.blocks[|c1.blocks|].1) == Err(Halt(s.db, s.msg));
    } else {
      var db1 := step(db, h, data).value;
      assert Pop(c, db, height, step) == Pop(c1, db1, height, step);
      PopStopped(c1, db1, height, step);
      var k := |s.cache.blocks|;
      assert c1.blocks[..k] == c.blocks[..k];
      assert c1.blocks[k] == c.blocks[k];
      forall i | k <= i < |c.blocks|
        ensures c.blocks[i].0 >= height
      {
        if i < |c1.blocks| {
          assert c.blocks[i] == c1.blocks[i];
        }
      }
    }
  }

  /** A failed `restore` leaves the cache popped down to the block whose
      replay failed, that block popped too, and the database as that
      block's replay left it: when the block is above height 0 the last
      block, the history id and the block hash are already written. */
  lemma RestoreStopped(c: ReorgCache, db: LedgerDb, height: u32, opReturn: FullHash, replay: Replay)
    requires Restore(c, db, height, opReturn, replay).Err?
    ensures var s := Restore(c, db, height, opReturn, replay).error; var k := |s.cache.blocks|;
      && k < |c.blocks| && s.cache.blocks == c.blocks[..k]
      && (forall i :: k <= i < |c.blocks| ==> c.blocks[i].0 >= height)
      && (c.blocks[k].0 > 0 ==>
            s.db.lastBlock + 1 == c.blocks[k].0 && s.db.lastHistoryId == c.blocks[k].1.lastHistoryId
            && c.blocks[k].0 !in s.db.blockHashes)
      && ReplayMessage(s.msg)
  {
    var step := UndoStep(opReturn, replay);
    PopStopped(c, db, height, step);
    var s := Restore(c, db, height, opReturn, replay).error;
    var k := |s.cache.blocks|;
    var d :| step(d, c.blocks[k].0, c.blocks[k].1) == Err(Halt(s.db, s.msg));
    assert RestoreBlock(d, c.blocks[k].0, c.blocks[k].1, opReturn, replay) == Err(Halt(s.db, s.msg));
  }

  /** `kept` is a prefix of `blocks`: the dropped ones are at `height` or
      above, the highest one kept is below it. */
  predicate PoppedDownTo(blocks: seq<(u32, ReorgBlock)>, kept: seq<(u32, ReorgBlock)>, height: u32) {
    var k := |kept|;
    && k <= |blocks|
    && kept == blocks[..k]
    && (forall i :: k <= i < |blocks| ==> blocks[i].0 >= height)
    && (k == 0 || blocks[k - 1].0 < height)
  }

  /** What a successful popping loop keeps is the cache popped down to
      `height`. */
  lemma {:induction false} PopPrefix(c: ReorgCache, db: LedgerDb, height: u32, step: BlockStep)
    requires Pop(c, db, height, step).Ok?
    ensures PoppedDownTo(c.blocks, Pop(c, db, height, step).value.0.blocks, height)
    decreases |c.blocks|
  {
    if |c.blocks| == 0 || height > Last(c).0 {
      assert c.blocks[..|c.blocks|] == c.blocks;
    } else {
      var (h, data) := Last(c);
      var db1 := step(db, h, data).value;
      var c1 := c.(blocks := c.blocks[..|c.blocks| - 1]);
      assert Pop(c, db, height, step) == Pop(c1, db1, height, step);
      PopPrefix(c1, db1, height, step);
      var k := |Pop(c1, db1, height, step).value.0.blocks|;
      assert c1.blocks[..k] == c.blocks[..k];
      forall i | k <= i < |c.blocks|
        ensures c.blocks[i].0 >= height
      {
        if i < |c1.blocks| {
          assert c.blocks[i] == c1.blocks[i];
        }
      }
      if k > 0 {
        assert c.blocks[k - 1] == c1.blocks[k - 1];
      }
    }
  }

  /** The same for `restore` itself: a successful `restore(height)` pops
      exactly the cached blocks from the top down to the first one below
      `height`. */
  lemma RestorePrefix(c: ReorgCache, db: LedgerDb, height: u32, opReturn: FullHash, replay: Replay)
    requires Restore(c, db, height, opReturn, replay).Ok?
    ensures PoppedDownTo(c.blocks, Restore(c, db, height, opReturn, replay).value.0.blocks, height)
  {
    PopPrefix(c, db, height, UndoStep(opReturn, replay));
  }

  /** In a sorted cache, a successful `restore(height)` keeps exactly the
      blocks below `height`. */
  lemma RestoreKeepsLower(c: ReorgCache, db: LedgerDb, height: u32, opReturn: FullHash, replay: Replay)
    requires Ascending(c.blocks)
    requires Restore(c, db, height, opReturn, replay).Ok?
    ensures var kept := Restore(c, db, height, opReturn, replay).value.0.blocks;
      forall e :: e in kept <==> e in c.blocks && e.0 < height
  {
    PopKeepsLower(c, db, height, UndoStep(opReturn, replay));
  }

  lemma PopKeepsLower(c: ReorgCache, db: LedgerDb, height: u32, step: BlockStep)
    requires Ascending(c.blocks)
    requires Pop(c, db, height, step).Ok?
    ensures var kept := Pop(c, db, height, step).value.0.blocks;
      forall e :: e in kept <==> e in c.blocks && e.0 < height
  {
    var r := Pop(c, db, height, step);
    PopPrefix(c, db, height, step);
    KeptBelow(c.blocks, |r.value.0.blocks|, height);
  }

  lemma KeptBelow(bs: seq<(u32, ReorgBlock)>, k: nat, height: u32)
    requires Ascending(bs) && k <= |bs|
    requires forall i :: k <= i < |bs| ==> bs[i].0 >= height
    requires k == 0 || bs[k - 1].0 < height
    ensures forall e :: e in bs[..k] <==> e in bs && e.0 < height
  {
    forall e | e in bs[..k] ensures e in bs && e.0 < height {
      var i :| 0 <= i < k && bs[..k][i] == e;
      assert e == bs[i];
      assert bs[i].0 <= bs[k - 1].0;
    }
    forall e | e in bs && e.0 < height ensures e in bs[..k] {
      var i :| 0 <= i < |bs| && bs[i] == e;
      assert i < k;
      assert bs[..k][i] == e;
    }
  }

  /** `restore_all`: `restore(0)`, which empties the cache. A failure is
      either an error returned through `?` or a panic; `RunShutdown` says
      what `run` makes of each. */
  function RestoreAll(c: ReorgCache, db: LedgerDb, opReturn: FullHash, replay: Replay): (r: Result<(ReorgCache, LedgerDb), Stopped>)
    ensures r.Ok? ==> r.value.0.blocks == [] && r.value.0.len == c.len
    ensures r.Err? ==> r.error.cache.len == c.len && |r.error.cache.blocks| < |c.blocks|
                       && r.error.cache.blocks == c.blocks[..|r.error.cache.blocks|]
    ensures r.Err? ==> ReplayMessage(r.error.msg)
  {
    var r := Restore(c, db, 0, opReturn, replay);
    if r.Ok? then
      RestorePrefix(c, db, 0, opReturn, replay);
      r
    else
      RestoreStopped(c, db, 0, opReturn, replay);
      r
  }

  /** How `run` ends once indexing stops: it calls `restore_all`. */
  datatype Shutdown =
    | Flushed(db: LedgerDb)             // `Ok`, or an error dropped by `.ok()`; then `flush_all`
    | Crashed(db: LedgerDb, msg: string) // a panic: neither `.ok()` nor `flush_all` runs

  /** `run` after `index`: an error that `restore_all` returns through `?`
      is dropped and the database is flushed as the replay left it; a
      panic ends the indexer with only the writes made before it. */
  function RunShutdown(c: ReorgCache, db: LedgerDb, opReturn: FullHash, replay: Replay): (r: Shutdown)
    ensures var all := RestoreAll(c, db, opReturn, replay);
      && (r.Crashed? <==> all.Err? && IsPanic(all.error.msg))
      && (all.Ok? ==> r == Flushed(all.value.1))
      && (all.Err? ==> r.db == all.error.db)
      && (r.Flushed? && all.Err? ==>
            all.error.msg in {DeploysMissing, AccountsMissing, CheckedSubFailed})
  {
    match RestoreAll(c, db, opReturn, replay)
    case Ok((_, db1)) => Flushed(db1)
    case Err(s) => if IsPanic(s.msg) then Crashed(s.db, s.msg) else Flushed(s.db)
  }
}

=== FILE: runtime_state.dfy ===
/** `RuntimeTokenState`: the in-memory copy of the token tables the indexer
    keeps between blocks (src/tokens/runtime_state.rs). Next to the primary
    map of valid transfers, a secondary index groups the transfer locations
    by (owner address, outpoint) so that a spent outpoint finds its
    transfers without a scan. */
module RuntimeState {
  import opened Bytes
  import opened Wrappers
  import opened Locations
  import opened Keys
  import opened Tokens
  import Reorg

  datatype AddressOutPoint = AddressOutPoint(address: FullHash, outpoint: OutPoint)

  type Transfers = map<Location, (FullHash, TransferProtoDB)>

  type Index = map<AddressOutPoint, seq<Location>>

  datatype RuntimeTokenState = RuntimeTokenState(
    tokens: map<Bytes, TokenMeta>,
    balances: map<AddressToken, TokenBalance>,
    validTransfers: Transfers,
    byOutpoint: Index)

  function KeyOf(al: AddressLocation): AddressOutPoint {
    AddressOutPoint(al.address, al.location.outpoint)
  }

  /** The index key a stored transfer belongs under. */
  function StoredKey(vt: Transfers, l: Location): AddressOutPoint
    requires l in vt
  {
    AddressOutPoint(vt[l].0, l.outpoint)
  }

  /** The index and the primary map describe the same transfers: every
      listed location is stored under the key it is listed at, lists are
      non-empty and duplicate-free, and every stored transfer is listed. */
  predicate Indexed(s: RuntimeTokenState) {
    && (forall k :: k in s.byOutpoint ==>
          && |s.byOutpoint[k]| > 0
          && Distinct(s.byOutpoint[k])
          && (forall l :: l in s.byOutpoint[k] ==> l in s.validTransfers && StoredKey(s.validTransfers, l) == k))
    && (forall l :: l in s.validTransfers ==>
          StoredKey(s.validTransfers, l) in s.byOutpoint && l in s.byOutpoint[StoredKey(s.validTransfers, l)])
  }

  function Listed(idx: Index, k: AddressOutPoint): seq<Location> {
    if k in idx then idx[k] else []
  }

  /** `Vec::swap_remove`: the last element takes the removed one's place. */
  function SwapRemove<T>(xs: seq<T>, pos: nat): (r: seq<T>)
    requires pos < |xs|
    ensures |r| == |xs| - 1
    ensures pos < |r| ==> r[pos] == xs[|xs| - 1]
    ensures forall i :: 0 <= i < |r| && i != pos ==> r[i] == xs[i]
  {
    if pos == |xs| - 1 then xs[..pos] else xs[..pos] + [xs[|xs| - 1]] + xs[pos + 1..|xs| - 1]
  }

  /** Removing one element of a duplicate-free list by swapping leaves
      exactly the other elements, still without duplicates. */
  lemma SwapRemoveElements<T>(xs: seq<T>, pos: nat)
    requires pos < |xs| && Distinct(xs)
    ensures Distinct(SwapRemove(xs, pos))
    ensures forall x :: x in SwapRemove(xs, pos) <==> x in xs && x != xs[pos]
  {
    var r := SwapRemove(xs, pos);
    var last := |xs| - 1;
    // where each element of the result came from
    assert forall i :: 0 <= i < |r| ==> r[i] == xs[if i == pos then last else i];
    forall x | x in xs && x != xs[pos] ensures x in r {
      var j :| 0 <= j < |xs| && xs[j] == x;
      if j == last {
        assert r[pos] == x;
      } else {
        assert r[j] == x;
      }
    }
  }

  /** `iter().position`: the first index holding `x`. */
  function Position<T(==)>(xs: seq<T>, x: T): (r: Option<nat>)
    ensures r.Some? ==> r.value < |xs| && xs[r.value] == x
    ensures r.None? <==> x !in xs
    decreases |xs|
  {
    if |xs| == 0 then None
    else if xs[0] == x then Some(0)
    else match Position(xs[1..], x)
      case None => None
      case Some(i) => Some(i + 1)
  }

  /** `locs.iter().position(..)` followed by `swap_remove` when found. */
  function Shrunk(locs: seq<Location>, loc: Location): (r: seq<Location>)
    ensures loc !in locs ==> r == locs
  {
    match Position(locs, loc)
    case Some(pos) => SwapRemove(locs, pos)
    case None => locs
  }

  lemma ShrunkElements(locs: seq<Location>, loc: Location)
    requires Distinct(locs)
    ensures Distinct(Shrunk(locs, loc))
    ensures forall x :: x in Shrunk(locs, loc) <==> x in locs && x != loc
  {
    match Position(locs, loc)
    case Some(pos) => SwapRemoveElements(locs, pos);
    case None =>
  }

  /** One entry of the write loop (lines 87-100), also the body of the
      loading loop (lines 29-41): insert into the primary map and append to
      the index list, creating it if absent. */
  function Insert(s: RuntimeTokenState, al: AddressLocation, p: TransferProtoDB): (r: RuntimeTokenState)
    ensures al.location in r.validTransfers && StoredKey(r.validTransfers, al.location) == KeyOf(al)
    ensures KeyOf(al) in r.byOutpoint && al.location in r.byOutpoint[KeyOf(al)]
    ensures forall k :: k in r.byOutpoint && k != KeyOf(al) ==> k in s.byOutpoint && r.byOutpoint[k] == s.byOutpoint[k]
  {
    var k := KeyOf(al);
    s.(validTransfers := s.validTransfers[al.location := (al.address, p)],
       byOutpoint := s.byOutpoint[k := Listed(s.byOutpoint, k) + [al.location]])
  }

  function Written(ws: seq<(AddressLocation, TransferProtoDB)>): set<Location> {
    set i | 0 <= i < |ws| :: ws[i].0.location
  }

  function Removed(rs: seq<AddressLocation>): set<Location> {
    set i | 0 <= i < |rs| :: rs[i].location
  }

  function InsertAll(s: RuntimeTokenState, ws: seq<(AddressLocation, TransferProtoDB)>): (r: RuntimeTokenState)
    ensures r.validTransfers.Keys == s.validTransfers.Keys + Written(ws)
    ensures r.tokens == s.tokens && r.balances == s.balances
    decreases |ws|
  {
    if |ws| == 0 then s
    else
      var prefix := ws[..|ws| - 1];
      assert forall i :: 0 <= i < |prefix| ==> prefix[i] == ws[i];
      Insert(InsertAll(s, prefix), ws[|ws| - 1].0, ws[|ws| - 1].1)
  }

  /** One entry of the removal loop (lines 66-85): the location leaves the
      primary map whoever owns it, and leaves the list under the key built
      from the address named in the removal; an emptied list is dropped. */
  function Delete(s: RuntimeTokenState, al: AddressLocation): (r: RuntimeTokenState)
    ensures r.validTransfers == s.validTransfers - {al.location}
    ensures r.tokens == s.tokens && r.balances == s.balances
    ensures forall k :: k in r.byOutpoint && k != KeyOf(al) ==> k in s.byOutpoint && r.byOutpoint[k] == s.byOutpoint[k]
    ensures forall k :: k in s.byOutpoint && k != KeyOf(al) ==> k in r.byOutpoint
    ensures KeyOf(al) in r.byOutpoint ==> KeyOf(al) in s.byOutpoint
  {
    var loc := al.location;
    var k := KeyOf(al);
    var vt := s.validTransfers - {loc};
    if k !in s.byOutpoint then s.(validTransfers := vt)
    else
      var locs := s.byOutpoint[k];
      var rest := Shrunk(locs, loc);
      var idx := if |rest| == 0 then s.byOutpoint - {k} else s.byOutpoint[k := rest];
      s.(validTransfers := vt, byOutpoint := idx)
  }

  function DeleteAll(s: RuntimeTokenState, rs: seq<AddressLocation>): (r: RuntimeTokenState)
    ensures r.validTransfers == s.validTransfers - Removed(rs)
    ensures r.tokens == s.tokens && r.balances == s.balances
    decreases |rs|
  {
    if |rs| == 0 then s
    else
      var prefix := rs[..|rs| - 1];
      assert forall i :: 0 <= i < |prefix| ==> prefix[i] == rs[i];
      var r := Delete(DeleteAll(s, prefix), rs[|rs| - 1]);
      assert Removed(rs) == Removed(prefix) + {rs[|rs| - 1].location};
      r
  }

  /** `from_db` (lines 12-49): metas and balances are copied, transfers are
      loaded into both maps in one pass. */
  function FromDb(metas: seq<(Bytes, TokenMeta)>, balances: seq<(AddressToken, TokenBalance)>,
                  transfers: seq<(AddressLocation, TransferProtoDB)>): (r: RuntimeTokenState)
    ensures r.validTransfers.Keys == Written(transfers)
    ensures r.tokens.Keys == (set i | 0 <= i < |metas| :: metas[i].0)
  {
    InsertAll(RuntimeTokenState(Reorg.ExtendMap(map[], metas), Reorg.ExtendMap(map[], balances), map[], map[]), transfers)
  }

  /** `apply_tokens_delta` (lines 51-101): metas and balances overwrite by
      key, then every removal runs, then every write. */
  function ApplyTokensDelta(s: RuntimeTokenState, metas: seq<(Bytes, TokenMeta)>,
                            balances: seq<(AddressToken, TokenBalance)>,
                            toWrite: seq<(AddressLocation, TransferProtoDB)>,
                            toRemove: seq<AddressLocation>): (r: RuntimeTokenState)
    ensures r.tokens.Keys == s.tokens.Keys + (set i | 0 <= i < |metas| :: metas[i].0)
    ensures r.balances.Keys == s.balances.Keys + (set i | 0 <= i < |balances| :: balances[i].0)
    ensures r.validTransfers.Keys == (s.validTransfers.Keys - Removed(toRemove)) + Written(toWrite)
  {
    var s1 := s.(tokens := Reorg.ExtendMap(s.tokens, metas), balances := Reorg.ExtendMap(s.balances, balances));
    InsertAll(DeleteAll(s1, toRemove), toWrite)
  }

  /** The last write of a key is the value the map ends up with. */
  lemma {:induction false} ExtendMapLatest<K, V>(m: map<K, V>, kvs: seq<(K, V)>, i: nat)
    requires i < |kvs|
    requires forall j :: i < j < |kvs| ==> kvs[j].0 != kvs[i].0
    ensures Reorg.ExtendMap(m, kvs)[kvs[i].0] == kvs[i].1
    decreases |kvs|
  {
    if i < |kvs| - 1 {
      var prefix := kvs[..|kvs| - 1];
      assert prefix[i] == kvs[i];
      ExtendMapLatest(m, prefix, i);
    }
  }

  /** A key no entry mentions keeps its value. */
  lemma {:induction false} ExtendMapKeeps<K, V>(m: map<K, V>, kvs: seq<(K, V)>, k: K)
    requires k in m && forall j :: 0 <= j < |kvs| ==> kvs[j].0 != k
    ensures Reorg.ExtendMap(m, kvs)[k] == m[k]
    decreases |kvs|
  {
    if |kvs| > 0 {
      var prefix := kvs[..|kvs| - 1];
      assert forall j :: 0 <= j < |prefix| ==> prefix[j] == kvs[j];
      ExtendMapKeeps(m, prefix, k);
    }
  }

  /** Metas and balances in a delta overwrite what was there (lines 58-64):
      each key ends up with the last value the delta gives it, and keys the
      delta does not mention keep theirs. */
  lemma DeltaOverwrites(s: RuntimeTokenState, metas: seq<(Bytes, TokenMeta)>,
                        balances: seq<(AddressToken, TokenBalance)>,
                        toWrite: seq<(AddressLocation, TransferProtoDB)>,
                        toRemove: seq<AddressLocation>, i: nat, t: Bytes)
    requires i < |metas| && forall j :: i < j < |metas| ==> metas[j].0 != metas[i].0
    requires t in s.tokens && forall j :: 0 <= j < |metas| ==> metas[j].0 != t
    ensures ApplyTokensDelta(s, metas, balances, toWrite, toRemove).tokens[metas[i].0] == metas[i].1
    ensures ApplyTokensDelta(s, metas, balances, toWrite, toRemove).tokens[t] == s.tokens[t]
  {
    ExtendMapLatest(s.tokens, metas, i);
    ExtendMapKeeps(s.tokens, metas, t);
  }

  /** Removals run before writes: a location that a delta both removes and
      writes is a valid transfer afterwards, owned as the last write says. */
  lemma {:induction false} RemoveThenWrite(s: RuntimeTokenState, metas: seq<(Bytes, TokenMeta)>,
                                           balances: seq<(AddressToken, TokenBalance)>,
                                           toWrite: seq<(AddressLocation, TransferProtoDB)>,
                                           toRemove: seq<AddressLocation>, i: nat)
    requires i < |toWrite|
    requires forall j :: i < j < |toWrite| ==> toWrite[j].0.location != toWrite[i].0.location
    ensures var r := ApplyTokensDelta(s, metas, balances, toWrite, toRemove);
      && toWrite[i].0.location in r.validTransfers
      && r.validTransfers[toWrite[i].0.location] == (toWrite[i].0.address, toWrite[i].1)
  {
    var s1 := s.(tokens := Reorg.ExtendMap(s.tokens, metas), balances := Reorg.ExtendMap(s.balances, balances));
    InsertAllLatest(DeleteAll(s1, toRemove), toWrite, i);
  }

  lemma {:induction false} InsertAllLatest(s: RuntimeTokenState, ws: seq<(AddressLocation, TransferProtoDB)>, i: nat)
    requires i < |ws|
    requires forall j :: i < j < |ws| ==> ws[j].0.location != ws[i].0.location
    ensures InsertAll(s, ws).validTransfers[ws[i].0.location] == (ws[i].0.address, ws[i].1)
    decreases |ws|
  {
    if i < |ws| - 1 {
      var prefix := ws[..|ws| - 1];
      assert prefix[i] == ws[i];
      InsertAllLatest(s, prefix, i);
    }
  }

  /** Writing a location not yet stored keeps the index consistent. */
  lemma InsertIndexed(s: RuntimeTokenState, al: AddressLocation, p: TransferProtoDB)
    requires Indexed(s) && al.location !in s.validTransfers
    ensures Indexed(Insert(s, al, p))
  {
    var r := Insert(s, al, p);
    var k := KeyOf(al);
    var vt := r.validTransfers;
    // the location was in no list, so appending it keeps the list duplicate-free
    assert al.location !in Listed(s.byOutpoint, k);
    var locs := Listed(s.byOutpoint, k) + [al.location];
    assert r.byOutpoint[k] == locs;
    assert Distinct(locs) by {
      forall a, b | 0 <= a < b < |locs| ensures locs[a] != locs[b] {
        if b == |locs| - 1 {
          assert locs[a] in Listed(s.byOutpoint, k);
        }
      }
    }
    forall l | l in vt ensures StoredKey(vt, l) in r.byOutpoint && l in r.byOutpoint[StoredKey(vt, l)] {
      if l != al.location {
        assert StoredKey(vt, l) == StoredKey(s.validTransfers, l);
        if StoredKey(vt, l) == k {
          assert l in Listed(s.byOutpoint, k);
        }
      }
    }
  }

  /** Removing a transfer under the address it is stored with keeps the
      index consistent. */
  lemma DeleteIndexed(s: RuntimeTokenState, al: AddressLocation)
    requires Indexed(s)
    requires al.location in s.validTransfers ==> s.validTransfers[al.location].0 == al.address
    ensures Indexed(Delete(s, al))
  {
    var r := Delete(s, al);
    var k := KeyOf(al);
    if k in s.byOutpoint {
      ShrunkElements(s.byOutpoint[k], al.location);
    }
    forall k2 | k2 in r.byOutpoint && k2 != k ensures r.byOutpoint[k2] == s.byOutpoint[k2] {
    }
    forall l | l in r.validTransfers ensures StoredKey(r.validTransfers, l) == StoredKey(s.validTransfers, l) {
    }
  }

  /** Writes of fresh, pairwise distinct locations keep the index consistent. */
  lemma {:induction false} InsertAllIndexed(s: RuntimeTokenState, ws: seq<(AddressLocation, TransferProtoDB)>)
    requires Indexed(s)
    requires forall i :: 0 <= i < |ws| ==> ws[i].0.location !in s.validTransfers
    requires forall i, j :: 0 <= i < j < |ws| ==> ws[i].0.location != ws[j].0.location
    ensures Indexed(InsertAll(s, ws))
    decreases |ws|
  {
    if |ws| > 0 {
      var prefix := ws[..|ws| - 1];
      assert forall i :: 0 <= i < |prefix| ==> prefix[i] == ws[i];
      InsertAllIndexed(s, prefix);
      var last := ws[|ws| - 1];
      assert last.0.location !in Written(prefix);
      InsertIndexed(InsertAll(s, prefix), last.0, last.1);
    }
  }

  /** Removals naming the stored owner keep the index consistent. */
  lemma {:induction false} DeleteAllIndexed(s: RuntimeTokenState, rs: seq<AddressLocation>)
    requires Indexed(s)
    requires forall i :: 0 <= i < |rs| && rs[i].location in s.validTransfers ==> s.validTransfers[rs[i].location].0 == rs[i].address
    ensures Indexed(DeleteAll(s, rs))
    decreases |rs|
  {
    if |rs| > 0 {
      var prefix := rs[..|rs| - 1];
      assert forall i :: 0 <= i < |prefix| ==> prefix[i] == rs[i];
      DeleteAllIndexed(s, prefix);
      DeleteIndexed(DeleteAll(s, prefix), rs[|rs| - 1]);
    }
  }

  /** Loading from the database builds a consistent index, provided no
      location is stored under two addresses. */
  lemma FromDbIndexed(metas: seq<(Bytes, TokenMeta)>, balances: seq<(AddressToken, TokenBalance)>,
                      transfers: seq<(AddressLocation, TransferProtoDB)>)
    requires forall i, j :: 0 <= i < j < |transfers| ==> transfers[i].0.location != transfers[j].0.location
    ensures Indexed(FromDb(metas, balances, transfers))
  {
    var s := RuntimeTokenState(Reorg.ExtendMap(map[], metas), Reorg.ExtendMap(map[], balances), map[], map[]);
    InsertAllIndexed(s, transfers);
  }

  /** A delta keeps the index consistent when its removals name each
      transfer's stored owner and its writes are of pairwise distinct
      locations that are not valid transfers once the removals are done. */
  lemma ApplyTokensDeltaIndexed(s: RuntimeTokenState, metas: seq<(Bytes, TokenMeta)>,
                                balances: seq<(AddressToken, TokenBalance)>,
                                toWrite: seq<(AddressLocation, TransferProtoDB)>,
                                toRemove: seq<AddressLocation>)
    requires Indexed(s)
    requires forall i :: 0 <= i < |toRemove| && toRemove[i].location in s.validTransfers ==> s.validTransfers[toRemove[i].location].0 == toRemove[i].address
    requires forall i, j :: 0 <= i < j < |toWrite| ==> toWrite[i].0.location != toWrite[j].0.location
    requires forall i :: 0 <= i < |toWrite| ==> toWrite[i].0.location !in s.validTransfers || toWrite[i].0.location in Removed(toRemove)
    ensures Indexed(ApplyTokensDelta(s, metas, balances, toWrite, toRemove))
  {
    var s1 := s.(tokens := Reorg.ExtendMap(s.tokens, metas), balances := Reorg.ExtendMap(s.balances, balances));
    assert Indexed(s1);
    DeleteAllIndexed(s1, toRemove);
    var s2 := DeleteAll(s1, toRemove);
    InsertAllIndexed(s2, toWrite);
  }

  /** Without the freshness condition the index goes stale: writing a
      stored location again lists it twice. */
  lemma RewriteListsTwice(s: RuntimeTokenState, al: AddressLocation, p: TransferProtoDB, q: TransferProtoDB)
    requires Indexed(s) && al.location !in s.validTransfers
    ensures !Indexed(Insert(Insert(s, al, p), al, q))
  {
    var s1 := Insert(s, al, p);
    InsertIndexed(s, al, p);
    var k := KeyOf(al);
    var locs := s1.byOutpoint[k];
    var i :| 0 <= i < |locs| && locs[i] == al.location;
    var r := Insert(s1, al, q);
    assert r.byOutpoint[k] == locs + [al.location];
    assert r.byOutpoint[k][i] == r.byOutpoint[k][|locs|];
  }

  /** Without the stored-owner condition the index goes stale too: removing
      a transfer under another address leaves it listed under its owner. */
  lemma ForeignRemovalDangles(s: RuntimeTokenState, al: AddressLocation)
    requires Indexed(s) && al.location in s.validTransfers && s.validTransfers[al.location].0 != al.address
    ensures !Indexed(Delete(s, al))
  {
    var k := StoredKey(s.validTransfers, al.location);
    assert k != KeyOf(al);
    var r := Delete(s, al);
    assert k in r.byOutpoint && al.location in r.byOutpoint[k];
    assert al.location !in r.validTransfers;
  }
}

=== FILE: searcher.dfy ===
/** Satoshi offsets inside a transaction (src/inscriptions/searcher.rs):
    where each input's satoshis start among the outputs once the fee is
    taken from the last inputs, and which output an offset falls into. */
module Searcher {
  import opened Bytes
  import opened Wrappers
  import opened Locations
  import opened Tokens

  /** The part of a transaction these computations read. */
  datatype Tx = Tx(inputs: seq<OutPoint>, outputs: seq<TxOut>)

  function Sum(vs: seq<nat>): nat {
    if |vs| == 0 then 0 else vs[0] + Sum(vs[1..])
  }

  lemma SumAppend(a: seq<nat>, b: seq<nat>)
    ensures Sum(a + b) == Sum(a) + Sum(b)
  {
    if |a| == 0 {
      assert a + b == b;
    } else {
      assert (a + b)[0] == a[0] && (a + b)[1..] == a[1..] + b;
      SumAppend(a[1..], b);
    }
  }

  lemma SumSnoc(vs: seq<nat>, i: nat)
    requires i < |vs|
    ensures Sum(vs[..i + 1]) == Sum(vs[..i]) + vs[i]
  {
    assert vs[..i + 1] == vs[..i] + [vs[i]];
    SumAppend(vs[..i], [vs[i]]);
  }

  function Values(outs: seq<TxOut>): (r: seq<nat>)
    ensures |r| == |outs| && forall i :: 0 <= i < |outs| ==> r[i] == outs[i].value
  {
    seq(|outs|, i requires 0 <= i < |outs| => outs[i].value)
  }

  /** `a - b` on u64 values: it wraps when `b` is the larger. */
  function WrapSub(a: nat, b: nat): (r: u64)
    ensures b <= a < 0x1_0000_0000_0000_0000 ==> r == a - b
  {
    (a - b) % 0x1_0000_0000_0000_0000
  }

  // ---------------------------------------------------------------------
  // `calc_offsets`
  // ---------------------------------------------------------------------

  /** The value of each input's prevout, or `None` when one is missing. */
  function InputValues(inputs: seq<OutPoint>, txOuts: map<OutPoint, TxOut>): (r: Option<seq<nat>>)
    ensures r.None? <==> exists i :: 0 <= i < |inputs| && inputs[i] !in txOuts
    ensures r.Some? ==> |r.value| == |inputs| && forall i :: 0 <= i < |inputs| ==> r.value[i] == txOuts[inputs[i]].value
  {
    if forall i :: 0 <= i < |inputs| ==> inputs[i] in txOuts
    then Some(seq(|inputs|, i requires 0 <= i < |inputs| => txOuts[inputs[i]].value))
    else None
  }

  /** The `while let Some(input) = input_values.pop()` loop: the fee is
      taken from the last input backwards; an input the fee swallows whole
      is dropped, the first one it does not is shortened and kept. */
  function TrimFee(vs: seq<nat>, fee: nat): (r: seq<nat>)
    ensures |r| <= |vs|
    ensures forall i :: 0 <= i < |r| - 1 ==> r[i] == vs[i]
    ensures |r| > 0 ==> 0 < r[|r| - 1] <= vs[|r| - 1]
    decreases |vs|
  {
    if |vs| == 0 then []
    else
      var last := vs[|vs| - 1];
      if last > fee then vs[..|vs| - 1] + [last - fee]
      else TrimFee(vs[..|vs| - 1], fee - last)
  }

  /** What the inputs keep is their total less the fee, or nothing when
      the fee is as large as the total. */
  lemma {:induction false} TrimFeeSum(vs: seq<nat>, fee: nat)
    ensures Sum(TrimFee(vs, fee)) == if fee < Sum(vs) then Sum(vs) - fee else 0
    ensures TrimFee(vs, fee) == [] <==> fee >= Sum(vs)
    decreases |vs|
  {
    if |vs| > 0 {
      var init := vs[..|vs| - 1];
      var last := vs[|vs| - 1];
      assert Sum(vs) == Sum(init) + last by {
        assert vs == init + [last];
        SumAppend(init, [last]);
        assert Sum([last]) == last;
      }
      if last > fee {
        assert TrimFee(vs, fee) == init + [last - fee];
        SumAppend(init, [last - fee]);
        assert Sum([last - fee]) == last - fee;
      } else {
        assert TrimFee(vs, fee) == TrimFee(init, fee - last);
        TrimFeeSum(init, fee - last);
      }
    }
  }

  /** The fold from `vec![0]`: zero, then every running total. */
  function Running(vs: seq<nat>): (r: seq<nat>)
    ensures |r| == |vs| + 1 && r[0] == 0
    ensures forall i :: 0 <= i < |vs| ==> r[i + 1] == r[i] + vs[i]
    decreases |vs|
  {
    if |vs| == 0 then [0]
    else
      var acc := Running(vs[..|vs| - 1]);
      acc + [acc[|acc| - 1] + vs[|vs| - 1]]
  }

  /** Each entry of the fold is the sum of the values before it. */
  lemma {:induction false} RunningSums(vs: seq<nat>, i: nat)
    requires i <= |vs|
    ensures Running(vs)[i] == Sum(vs[..i])
  {
    if i > 0 {
      RunningSums(vs, i - 1);
      SumSnoc(vs, i - 1);
    }
  }

  lemma RunningMonotone(vs: seq<nat>, i: nat, j: nat)
    requires i <= j <= |vs|
    ensures Running(vs)[i] <= Running(vs)[j]
    decreases j - i
  {
    if i < j {
      RunningMonotone(vs, i, j - 1);
    }
  }

  /** `calc_offsets`: where each remaining input's satoshis start among the
      outputs. */
  function CalcOffsets(tx: Tx, txOuts: map<OutPoint, TxOut>): (r: Option<seq<nat>>)
    ensures r.None? <==> exists i :: 0 <= i < |tx.inputs| && tx.inputs[i] !in txOuts
    ensures r.Some? ==> |r.value| <= |tx.inputs| && (|r.value| > 0 ==> r.value[0] == 0)
  {
    match InputValues(tx.inputs, txOuts)
    case None => None
    case Some(vs) =>
      var kept := TrimFee(vs, WrapSub(Sum(vs), Sum(Values(tx.outputs))));
      Some(Running(kept)[..|kept|])
  }

  /** The offsets are the sums of the input values before each input, in
      non-decreasing order. */
  lemma CalcOffsetsArePrefixSums(tx: Tx, txOuts: map<OutPoint, TxOut>, i: nat, j: nat)
    requires CalcOffsets(tx, txOuts).Some?
    requires i <= j < |CalcOffsets(tx, txOuts).value|
    ensures var vs := InputValues(tx.inputs, txOuts).value;
      CalcOffsets(tx, txOuts).value[j] == Sum(vs[..j])
    ensures CalcOffsets(tx, txOuts).value[i] <= CalcOffsets(tx, txOuts).value[j]
  {
    var vs := InputValues(tx.inputs, txOuts).value;
    var kept := TrimFee(vs, WrapSub(Sum(vs), Sum(Values(tx.outputs))));
    RunningSums(kept, j);
    RunningMonotone(kept, i, j);
    assert kept[..j] == vs[..j];
  }

  /** When the outputs do not exceed the inputs, the kept inputs add up to
      exactly the outputs: the last offset plus what the last kept input
      keeps is the total output. */
  lemma CalcOffsetsCoverOutputs(tx: Tx, txOuts: map<OutPoint, TxOut>)
    requires CalcOffsets(tx, txOuts).Some?
    requires var vs := InputValues(tx.inputs, txOuts).value;
      Sum(Values(tx.outputs)) <= Sum(vs) < 0x1_0000_0000_0000_0000
    ensures var vs := InputValues(tx.inputs, txOuts).value;
      Sum(TrimFee(vs, Sum(vs) - Sum(Values(tx.outputs)))) == Sum(Values(tx.outputs))
  {
    var vs := InputValues(tx.inputs, txOuts).value;
    TrimFeeSum(vs, Sum(vs) - Sum(Values(tx.outputs)));
  }

  /** Outputs larger than inputs make the fee wrap to a value that
      swallows every input, so there are no offsets at all. */
  lemma WrappedFeeDropsEveryInput(tx: Tx, txOuts: map<OutPoint, TxOut>)
    requires CalcOffsets(tx, txOuts).Some?
    requires var vs := InputValues(tx.inputs, txOuts).value;
      Sum(vs) < Sum(Values(tx.outputs)) < 0x1_0000_0000_0000_0000
    ensures CalcOffsets(tx, txOuts) == Some([])
  {
    var vs := InputValues(tx.inputs, txOuts).value;
    TrimFeeSum(vs, WrapSub(Sum(vs), Sum(Values(tx.outputs))));
  }

  // ---------------------------------------------------------------------
  // `get_output_index_by_input`
  // ---------------------------------------------------------------------

  /** The `for (idx, vout)` loop from output `i` on: the first output the
      remaining offset falls inside. */
  function Locate(offset: nat, outs: seq<nat>, i: nat): (r: Option<(nat, nat)>)
    requires i <= |outs|
    ensures r.Some? ==> i <= r.value.0 < |outs| && r.value.1 < outs[r.value.0]
    decreases |outs| - i
  {
    if i == |outs| then None
    else if offset < outs[i] then Some((i, offset))
    else Locate(offset - outs[i], outs, i + 1)
  }

  /** The output found is the one whose range of satoshis holds the offset,
      and nothing is found exactly when the offset is past the end. */
  lemma {:induction false} LocateFinds(offset: nat, outs: seq<nat>, i: nat)
    requires i <= |outs|
    ensures Locate(offset, outs, i).None? <==> offset >= Sum(outs[i..])
    ensures Locate(offset, outs, i).Some? ==>
      var (j, rem) := Locate(offset, outs, i).value; Sum(outs[i..j]) + rem == offset
    decreases |outs| - i
  {
    if i < |outs| {
      assert outs[i..][1..] == outs[i + 1..];
      if offset >= outs[i] {
        LocateFinds(offset - outs[i], outs, i + 1);
        if Locate(offset, outs, i).Some? {
          var j := Locate(offset, outs, i).value.0;
          assert outs[i..j][1..] == outs[i + 1..j];
        }
      } else {
        assert outs[i..i] == [];
      }
    }
  }

  /** `get_output_index_by_input`: the output index and the offset within
      that output. */
  function OutputIndex(offset: Option<nat>, outs: seq<TxOut>): (r: Result<(nat, nat), string>)
    ensures offset.None? ==> r.Err?
    ensures offset.Some? ==> (r.Ok? <==> offset.value < Sum(Values(outs)))
    ensures r.Ok? ==> var (i, rem) := r.value;
      i < |outs| && rem < outs[i].value && Sum(Values(outs)[..i]) + rem == offset.value
  {
    if offset.None? then Err("leaked: offset is None")
    else if offset.value >= Sum(Values(outs)) then Err("leaked: offset is too large for total_output")
    else
      LocateFinds(offset.value, Values(outs), 0);
      assert Values(outs)[0..] == Values(outs);
      match Locate(offset.value, Values(outs), 0)
      case None => Err("leaked: offset exhausted")
      case Some(found) =>
        assert Values(outs)[0..found.0] == Values(outs)[..found.0];
        Ok(found)
  }

  lemma SumPrefixMonotone(vs: seq<nat>, i: nat, j: nat)
    requires i <= j <= |vs|
    ensures Sum(vs[..i]) <= Sum(vs[..j])
    decreases j - i
  {
    if i < j {
      SumPrefixMonotone(vs, i, j - 1);
      SumSnoc(vs, j - 1);
    }
  }

  /** At most one output holds a given offset. */
  lemma OutputIndexUnique(offset: nat, outs: seq<TxOut>, j: nat, rem: nat)
    requires OutputIndex(Some(offset), outs).Ok?
    requires j < |outs| && rem < outs[j].value && Sum(Values(outs)[..j]) + rem == offset
    ensures OutputIndex(Some(offset), outs).value == (j, rem)
  {
    var vs := Values(outs);
    var (i, r) := OutputIndex(Some(offset), outs).value;
    if i < j {
      SumSnoc(vs, i);
      SumPrefixMonotone(vs, i + 1, j);
    } else if j < i {
      SumSnoc(vs, j);
      SumPrefixMonotone(vs, j + 1, i);
    }
  }
}

=== FILE: server.dfy ===
/** The server's pure helpers: the history proof each block chains onto
    the previous one (src/server/mod.rs, electrs-indexer/src/server/mod.rs),
    how script hashes resolve to address strings
    (src/utils/address_fullhash.rs, src/utils/fullhash.rs), the events sent
    for stored history (src/server/structs.rs), and the small REST and
    configuration helpers (src/utils/redact.rs, src/rest/utils.rs,
    src/blockchain.rs). sha256 and the JSON serialiser are parameters. */
module Server {
  import opened Bytes
  import opened Wrappers
  import opened Locations
  import opened Keys
  import opened Tokens
  import Utf8

  const OpReturnAddress: string := "BURNED"
  const NonStandardAddress: string := "non-standard"

  // ---------------------------------------------------------------------
  // `FullHash` (src/utils/fullhash.rs)
  // ---------------------------------------------------------------------

  const Zero: FullHash := seq(32, _ => 0)

  /** `TryFrom<&[u8]>` and `TryFrom<Vec<u8>>`. */
  function FullHashFrom(v: Bytes): (r: Result<FullHash, string>)
    ensures r.Ok? <==> |v| == 32
    ensures r.Ok? ==> r.value == v
  {
    if |v| == 32 then Ok(v) else Err("Failed to convert &[u8] to FullHash")
  }

  /** `is_op_return_hash`: the hash equals OP_RETURN_HASH, which is the
      script hash of the text "BURNED". */
  predicate IsOpReturnHash(h: FullHash, scriptHash: Bytes -> FullHash) {
    h == scriptHash(Utf8.Encode(OpReturnAddress))
  }

  // ---------------------------------------------------------------------
  // Address strings (src/utils/address_fullhash.rs)
  // ---------------------------------------------------------------------

  /** `fullhash_to_address_str`. */
  function AddressStr(h: FullHash, stored: Option<string>, opReturn: FullHash): (r: string)
    ensures stored.Some? ==> r == stored.value
    ensures stored.None? && h == opReturn ==> r == OpReturnAddress
    ensures stored.None? && h != opReturn ==> r == NonStandardAddress
  {
    if stored.Some? then stored.value
    else if h == opReturn then OpReturnAddress
    else NonStandardAddress
  }

  function Lookup(m: map<FullHash, string>, h: FullHash): Option<string> {
    if h in m then Some(m[h]) else None
  }

  /** `AddressesFullHash::get`. */
  function AddressOf(m: map<FullHash, string>, h: FullHash, opReturn: FullHash): (r: string)
    ensures h in m ==> r == m[h]
    ensures h !in m ==> r == (if h == opReturn then OpReturnAddress else NonStandardAddress)
  {
    AddressStr(h, Lookup(m, h), opReturn)
  }

  /** The resolved address is never empty. */
  lemma AddressNeverEmpty(m: map<FullHash, string>, h: FullHash, opReturn: FullHash)
    requires forall k :: k in m ==> m[k] != []
    ensures AddressOf(m, h, opReturn) != []
  {
  }

  /** `load_addresses` of the electrs indexer, once the addresses are
      indexed: the keys without repetition, each with its stored address;
      the burn hash always reads "BURNED", a missing one "non-standard". */
  function LoadAddresses(keys: seq<FullHash>, db: map<FullHash, string>, opReturn: FullHash): (r: map<FullHash, string>)
    ensures r.Keys == set k | k in keys
    ensures forall k :: k in r ==> r[k] == if k == opReturn then OpReturnAddress else AddressOf(db, k, opReturn)
  {
    map k | k in keys :: if k == opReturn then OpReturnAddress else Lookup(db, k).UnwrapOr(NonStandardAddress)
  }

  /** The electrs loader and `AddressesFullHash::get` agree on every key
      but the burn hash, for which a stored address wins only in `get`. */
  lemma LoaderAgreesWithGet(keys: seq<FullHash>, db: map<FullHash, string>, opReturn: FullHash, k: FullHash)
    requires k in keys
    ensures k != opReturn || opReturn !in db ==> LoadAddresses(keys, db, opReturn)[k] == AddressOf(db, k, opReturn)
    ensures k == opReturn ==> LoadAddresses(keys, db, opReturn)[k] == OpReturnAddress
  {
  }

  // ---------------------------------------------------------------------
  // History proofs
  // ---------------------------------------------------------------------

  /** The record serialised for one history entry (`rest::types::History`):
      its height, its action with addresses resolved, and its key with the
      address resolved. */
  datatype RestHistory = RestHistory(height: u32, action: TokenHistoryDB, address: string, id: u64, tick: Tick)

  /** sha256, `serde_json::to_vec` of a record (which may fail) given the
      resolver for the addresses the action names, and the burn hash. */
  datatype Hashing = Hashing(
    sha256: Bytes -> Hash32,
    toJson: (RestHistory, Option<string>) -> Result<Bytes, string>,
    opReturn: FullHash)

  /** DEFAULT_HASH: sha256 of "null". */
  function DefaultHash(h: Hashing): Hash32 {
    h.sha256(Utf8.Encode("null"))
  }

  type Entry = (AddressTokenId, HistoryValue)

  /** The serialisations of the entries, concatenated in order; the
      address of each key is resolved by `resolve`. */
  function Serialized(history: seq<Entry>, resolve: FullHash -> Option<string>, h: Hashing): (r: Result<Bytes, string>)
    ensures r.Err? <==> exists i :: 0 <= i < |history| && Record(history[i], resolve, h).Err?
    decreases |history|
  {
    if |history| == 0 then Ok([])
    else
      var first :- Record(history[0], resolve, h);
      var rest :- Serialized(history[1..], resolve, h);
      assert forall i :: 1 <= i < |history| ==> history[i] == history[1..][i - 1];
      Ok(first + rest)
  }

  /** One entry's bytes: the key's address and the action's counter-party
      (if it has one) are resolved, and one that cannot be is the
      `unwrap` panic of the electrs version. */
  function Record(e: Entry, resolve: FullHash -> Option<string>, h: Hashing): Result<Bytes, string> {
    match resolve(e.0.address)
    case None => Err("called `Option::unwrap()` on a `None` value")
    case Some(address) =>
      var party := match CounterParty(e.1.action)
        case None => Ok(None)
        case Some(k) => if resolve(k).Some? then Ok(Some(resolve(k).value)) else Err("called `Option::unwrap()` on a `None` value");
      var resolved :- party;
      h.toJson(RestHistory(e.1.height, e.1.action, address, e.0.id, e.0.token), resolved)
  }

  /** One step of `Serialized`: the first record, then the rest. */
  lemma SerializedUnfold(hs: seq<Entry>, resolve: FullHash -> Option<string>, h: Hashing)
    requires |hs| > 0
    ensures Serialized(hs, resolve, h).Ok? <==> Record(hs[0], resolve, h).Ok? && Serialized(hs[1..], resolve, h).Ok?
    ensures Serialized(hs, resolve, h).Ok? ==>
      Serialized(hs, resolve, h).value == Record(hs[0], resolve, h).value + Serialized(hs[1..], resolve, h).value
  {
  }

  /** Serialising a concatenation is concatenating the serialisations. */
  lemma {:induction false} SerializedAppend(a: seq<Entry>, b: seq<Entry>, resolve: FullHash -> Option<string>, h: Hashing)
    requires Serialized(a, resolve, h).Ok? && Serialized(b, resolve, h).Ok?
    ensures Serialized(a + b, resolve, h).Ok?
    ensures Serialized(a + b, resolve, h).value == Serialized(a, resolve, h).value + Serialized(b, resolve, h).value
    decreases |a|
  {
    if |a| == 0 {
      assert a + b == b;
    } else {
      var ab := a + b;
      assert ab[0] == a[0] && ab[1..] == a[1..] + b;
      SerializedUnfold(a, resolve, h);
      SerializedAppend(a[1..], b, resolve, h);
      SerializedUnfold(ab, resolve, h);
      var first := Record(a[0], resolve, h).value;
      var tail := Serialized(a[1..], resolve, h).value;
      var right := Serialized(b, resolve, h).value;
      assert first + (tail + right) == (first + tail) + right;
    }
  }

  /** `generate_history_hash`: the hash of this block's history (or
      DEFAULT_HASH when it has none), chained onto the previous proof. */
  function HistoryHash(prev: Hash32, history: seq<Entry>, resolve: FullHash -> Option<string>, h: Hashing): (r: Result<Hash32, string>)
    ensures |history| == 0 ==> r == Ok(h.sha256(prev + DefaultHash(h)))
    ensures r.Ok? <==> Serialized(history, resolve, h).Ok?
    ensures r.Ok? && |history| > 0 ==> r.value == h.sha256(prev + h.sha256(Serialized(history, resolve, h).value))
  {
    var current :- if |history| == 0 then Ok(DefaultHash(h)) else
      var bytes :- Serialized(history, resolve, h);
      Ok(h.sha256(bytes));
    Ok(h.sha256(prev + current))
  }

  /** The resolver of src/server/mod.rs: `AddressesFullHash::get`, which
      always yields an address. */
  function Resolver(addresses: map<FullHash, string>, opReturn: FullHash): FullHash -> Option<string> {
    (k: FullHash) => Some(AddressOf(addresses, k, opReturn))
  }

  /** src/server/mod.rs: addresses resolve through `AddressesFullHash`,
      so only the serialiser can fail. */
  function GenerateHistoryHash(prev: Hash32, history: seq<Entry>, addresses: map<FullHash, string>, h: Hashing): (r: Result<Hash32, string>)
    ensures r.Err? <==> exists i :: 0 <= i < |history| && Record(history[i], Resolver(addresses, h.opReturn), h).Err?
    ensures |history| == 0 ==> r == Ok(h.sha256(prev + DefaultHash(h)))
  {
    HistoryHash(prev, history, Resolver(addresses, h.opReturn), h)
  }

  /** electrs-indexer/src/server/mod.rs: addresses are read from the map
      as they are, and a missing one is a panic. */
  function GenerateHistoryHashElectrs(prev: Hash32, history: seq<Entry>, addresses: map<FullHash, string>, h: Hashing): (r: Result<Hash32, string>)
    ensures (exists i :: 0 <= i < |history| && history[i].0.address !in addresses) ==> r.Err?
    ensures (exists i :: 0 <= i < |history| && CounterParty(history[i].1.action).Some? && CounterParty(history[i].1.action).value !in addresses) ==> r.Err?
    ensures |history| == 0 ==> r == Ok(h.sha256(prev + DefaultHash(h)))
  {
    HistoryHash(prev, history, (k: FullHash) => Lookup(addresses, k), h)
  }

  /** Every address the history names (key and counter-party) is in the map. */
  predicate Covered(history: seq<Entry>, addresses: map<FullHash, string>) {
    forall i :: 0 <= i < |history| ==>
      history[i].0.address in addresses &&
      (CounterParty(history[i].1.action).Some? ==> CounterParty(history[i].1.action).value in addresses)
  }

  /** Both versions compute the same proof when every address the history
      names is in the map. */
  lemma {:induction false} VersionsAgree(prev: Hash32, history: seq<Entry>, addresses: map<FullHash, string>, h: Hashing)
    requires Covered(history, addresses)
    ensures GenerateHistoryHash(prev, history, addresses, h) == GenerateHistoryHashElectrs(prev, history, addresses, h)
  {
    SameRecords(history, addresses, h);
  }

  lemma {:induction false} SameRecords(history: seq<Entry>, addresses: map<FullHash, string>, h: Hashing)
    requires Covered(history, addresses)
    ensures Serialized(history, Resolver(addresses, h.opReturn), h) == Serialized(history, (k: FullHash) => Lookup(addresses, k), h)
    decreases |history|
  {
    var r1 := Resolver(addresses, h.opReturn);
    var r2 := (k: FullHash) => Lookup(addresses, k);
    if |history| > 0 {
      var e := history[0];
      assert r1(e.0.address) == r2(e.0.address);
      var party := CounterParty(e.1.action);
      if party.Some? {
        assert r1(party.value) == r2(party.value);
      }
      assert Record(e, r1, h) == Record(e, r2, h);
      assert Covered(history[1..], addresses) by {
        forall i | 0 <= i < |history| - 1
          ensures history[1..][i] == history[i + 1]
        {
        }
      }
      SameRecords(history[1..], addresses, h);
    }
  }

  // ---------------------------------------------------------------------
  // Events (src/server/structs.rs)
  // ---------------------------------------------------------------------

  /** `TokenHistoryEvent`: a stored history record with the counter-party
      resolved to an address string. */
  datatype TokenHistoryEvent =
    | EDeploy(max: nat, lim: nat, dec: u8, txid: Txid, vout: u32)
    | EMint(amt: nat, txid: Txid, vout: u32)
    | EDeployTransfer(amt: nat, txid: Txid, vout: u32)
    | ESend(amt: nat, recipient: string, txid: Txid, vout: u32)
    | EReceive(amt: nat, sender: string, txid: Txid, vout: u32)
    | ESendReceive(amt: nat, txid: Txid, vout: u32)

  datatype HistoryValueEvent = HistoryValueEvent(height: u32, action: TokenHistoryEvent)

  function IntoEvent(v: TokenHistoryDB, addresses: map<FullHash, string>, opReturn: FullHash): (r: TokenHistoryEvent)
    ensures r.txid == v.txid && r.vout == v.vout
    ensures v.DbDeploy? <==> r.EDeploy?
    ensures v.DbMint? <==> r.EMint?
    ensures v.DbDeployTransfer? <==> r.EDeployTransfer?
    ensures v.DbSend? <==> r.ESend?
    ensures v.DbReceive? <==> r.EReceive?
    ensures v.DbSendReceive? <==> r.ESendReceive?
    ensures !v.DbDeploy? ==> r.amt == v.amt
    ensures v.DbDeploy? ==> r.max == v.max && r.lim == v.lim && r.dec == v.dec
    ensures v.DbSend? ==> r.recipient == AddressOf(addresses, v.recipient, opReturn)
    ensures v.DbReceive? ==> r.sender == AddressOf(addresses, v.sender, opReturn)
  {
    match v
    case DbDeploy(max, lim, dec, txid, vout) => EDeploy(max, lim, dec, txid, vout)
    case DbMint(amt, txid, vout) => EMint(amt, txid, vout)
    case DbDeployTransfer(amt, txid, vout) => EDeployTransfer(amt, txid, vout)
    case DbSend(amt, recipient, txid, vout) => ESend(amt, AddressOf(addresses, recipient, opReturn), txid, vout)
    case DbReceive(amt, sender, txid, vout) => EReceive(amt, AddressOf(addresses, sender, opReturn), txid, vout)
    case DbSendReceive(amt, txid, vout) => ESendReceive(amt, txid, vout)
  }

  function IntoValueEvent(v: HistoryValue, addresses: map<FullHash, string>, opReturn: FullHash): (r: HistoryValueEvent)
    ensures r.height == v.height
    ensures r.action.txid == v.action.txid && r.action.vout == v.action.vout
  {
    HistoryValueEvent(v.height, IntoEvent(v.action, addresses, opReturn))
  }

  /** Different records with resolved-apart counter-parties give different
      events: the event loses nothing but the hash behind an address. */
  lemma IntoEventInjective(v: TokenHistoryDB, w: TokenHistoryDB, addresses: map<FullHash, string>, opReturn: FullHash)
    requires IntoEvent(v, addresses, opReturn) == IntoEvent(w, addresses, opReturn)
    requires CounterParty(v).Some? && CounterParty(w).Some? ==>
      (AddressOf(addresses, CounterParty(v).value, opReturn) == AddressOf(addresses, CounterParty(w).value, opReturn)
       ==> CounterParty(v) == CounterParty(w))
    ensures v == w
  {
  }

  // ---------------------------------------------------------------------
  // REST helpers and configuration
  // ---------------------------------------------------------------------

  /** `RedactedStr`'s `Debug`: the quoted placeholder, never the text. */
  function Redacted(s: string): (r: string)
    ensures s == [] ==> r == "\"\""
    ensures s != [] ==> r == "\"****\""
    ensures forall i :: 0 <= i < |r| ==> r[i] == '"' || r[i] == '*'
  {
    if s == [] then "\"\"" else "\"****\""
  }

  /** Two inputs are told apart only by being empty or not. */
  lemma RedactedHidesText(s: string, t: string)
    requires (s == []) == (t == [])
    ensures Redacted(s) == Redacted(t)
  {
  }

  /** `page_size_default` and `first_page`. */
  const PageSizeDefault: nat := 6
  const FirstPage: nat := 1

  /** The page and page size of a request, the defaults standing in for a
      missing query field. */
  function Paging(page: Option<nat>, pageSize: Option<nat>): (r: (nat, nat))
    ensures page.Some? ==> r.0 == page.value
    ensures pageSize.Some? ==> r.1 == pageSize.value
    ensures page.None? ==> r.0 == 1
    ensures pageSize.None? ==> r.1 == 6
  {
    (page.UnwrapOr(FirstPage), pageSize.UnwrapOr(PageSizeDefault))
  }

  /** `validate_tick`: the tick must take four bytes of UTF-8. */
  function ValidateTick(tick: string): (r: Result<(), string>)
    ensures r.Ok? <==> |Utf8.Encode(tick)| == 4
    ensures r.Err? ==> r.error == "Wrong tick length"
  {
    if |Utf8.Encode(tick)| != 4 then Err("Wrong tick length") else Ok(())
  }

  /** A tick of four ASCII characters is valid; fewer or more are not. */
  lemma AsciiTickValid(tick: string)
    requires forall i :: 0 <= i < |tick| ==> tick[i] as int < 0x80
    ensures ValidateTick(tick).Ok? <==> |tick| == 4
  {
    Utf8.AsciiByteLen(tick);
  }

  datatype Blockchain = Dogecoin | DogecoinEv | Bellscoin | Pepecoin | Litecoin

  function AsciiLower(s: string): (r: string)
    ensures |r| == |s|
    ensures forall i :: 0 <= i < |s| ==> r[i] == if 'A' <= s[i] <= 'Z' then (s[i] as int + 32) as char else s[i]
  {
    seq(|s|, i requires 0 <= i < |s| => if 'A' <= s[i] <= 'Z' then (s[i] as int + 32) as char else s[i])
  }

  /** Every accepted (lower-case) name and the chain it selects. */
  const BlockchainNames: map<string, Blockchain> := map[
    "dogecoin" := Dogecoin, "doge" := Dogecoin,
    "dogecoinev" := DogecoinEv, "dev" := DogecoinEv, "dev20" := DogecoinEv, "dev-20" := DogecoinEv, "doge-ev" := DogecoinEv,
    "bellscoin" := Bellscoin, "bells" := Bellscoin,
    "pepecoin" := Pepecoin, "pepe" := Pepecoin,
    "litecoin" := Litecoin]

  /** `Blockchain::from_str`, after `to_ascii_lowercase`. */
  function ParseBlockchain(s: string): (r: Result<Blockchain, string>)
    ensures r.Ok? <==> AsciiLower(s) in BlockchainNames
    ensures r.Ok? ==> r.value == BlockchainNames[AsciiLower(s)]
    ensures r.Err? ==> r.error == "Unknown blockchain"
  {
    match AsciiLower(s)
    case "dogecoin" => Ok(Dogecoin)
    case "doge" => Ok(Dogecoin)
    case "dogecoinev" => Ok(DogecoinEv)
    case "dev" => Ok(DogecoinEv)
    case "dev20" => Ok(DogecoinEv)
    case "dev-20" => Ok(DogecoinEv)
    case "doge-ev" => Ok(DogecoinEv)
    case "bellscoin" => Ok(Bellscoin)
    case "bells" => Ok(Bellscoin)
    case "pepecoin" => Ok(Pepecoin)
    case "pepe" => Ok(Pepecoin)
    case "litecoin" => Ok(Litecoin)
    case _ => Err("Unknown blockchain")
  }

  /** Lower-casing twice is lower-casing once, so a name and its
      lower-cased form parse alike. */
  lemma ParseBlockchainCaseInsensitive(s: string)
    ensures AsciiLower(AsciiLower(s)) == AsciiLower(s)
    ensures ParseBlockchain(AsciiLower(s)) == ParseBlockchain(s)
  {
    assert AsciiLower(AsciiLower(s)) == AsciiLower(s);
  }
}

=== FILE: storage.dfy ===
/** `RocksTable` (packages/rocksdb-wrapper/src/storage.rs) over one column
    family, modelled as its entries kept in strictly ascending byte order of
    the keys, which is how RocksDB's default comparator presents them to
    iterators. Reads decode with the table's `Pebble` codecs; a stored value
    that fails to decode panics (`_panic`). */
module Storage {
  import opened Bytes
  import opened Wrappers
  import opened Pebble

  type Entry = (Bytes, Bytes)

  datatype Table = Table(entries: seq<Entry>)

  /** `asc`: strictly ascending keys; otherwise strictly descending. */
  predicate Before(a: Bytes, b: Bytes, asc: bool) {
    if asc then LexLess(a, b) else LexLess(b, a)
  }

  predicate Monotone(s: seq<Entry>, asc: bool) {
    forall i, j :: 0 <= i < j < |s| ==> Before(s[i].0, s[j].0, asc)
  }

  predicate Valid(t: Table) {
    Monotone(t.entries, true)
  }

  function Lookup(s: seq<Entry>, k: Bytes): (r: Option<Bytes>)
    ensures r.Some? <==> exists i :: 0 <= i < |s| && s[i].0 == k
    ensures r.Some? ==> (k, r.value) in s
  {
    if |s| == 0 then None
    else if s[0].0 == k then Some(s[0].1)
    else
      var r := Lookup(s[1..], k);
      assert forall i :: 1 <= i < |s| ==> s[i] == s[1..][i - 1];
      r
  }

  /** In a strictly ordered table a key occurs at most once, so the entry
      found for it is the only one. */
  lemma LookupUnique(s: seq<Entry>, asc: bool, k: Bytes, v: Bytes)
    requires Monotone(s, asc) && (k, v) in s
    ensures Lookup(s, k) == Some(v)
  {
    if s[0].0 != k {
      assert Monotone(s[1..], asc);
      var i :| 0 <= i < |s| && s[i] == (k, v);
      LookupUnique(s[1..], asc, k, v);
    } else if s[0].1 != v {
      var i :| 0 <= i < |s| && s[i] == (k, v);
      LexIrreflexive(k);
    }
  }

  /** The put of one key (`put_cf`): replaces its value or inserts it at its
      place in the order. */
  function Put(s: seq<Entry>, k: Bytes, v: Bytes): (r: seq<Entry>)
    requires Monotone(s, true)
    ensures Monotone(r, true)
    ensures (k, v) in r
    ensures forall e :: e in r ==> e == (k, v) || (e in s && e.0 != k)
    ensures forall e :: e in s && e.0 != k ==> e in r
  {
    if |s| == 0 then [(k, v)]
    else if s[0].0 == k then
      assert forall j :: 1 <= j < |s| ==> LexLess(k, s[j].0);
      assert s == [s[0]] + s[1..];
      LexIrreflexive(k);
      [(k, v)] + s[1..]
    else if LexLess(k, s[0].0) then
      assert forall j :: 0 <= j < |s| ==> LexLess(k, s[j].0) by {
        forall j | 0 <= j < |s| ensures LexLess(k, s[j].0) {
          if j > 0 { LexTransitive(k, s[0].0, s[j].0); }
        }
      }
      LexIrreflexive(k);
      [(k, v)] + s
    else
      LexConnected(k, s[0].0);
      assert Monotone(s[1..], true);
      var rest := Put(s[1..], k, v);
      assert forall e :: e in rest ==> LexLess(s[0].0, e.0);
      [s[0]] + rest
  }

  /** The delete of one key (`delete_cf`). */
  function Delete(s: seq<Entry>, k: Bytes): (r: seq<Entry>)
    requires Monotone(s, true)
    ensures Monotone(r, true)
    ensures forall e :: e in r <==> e in s && e.0 != k
  {
    if |s| == 0 then []
    else
      assert Monotone(s[1..], true);
      var rest := Delete(s[1..], k);
      if s[0].0 == k then rest
      else
        assert forall e :: e in rest ==> LexLess(s[0].0, e.0);
        [s[0]] + rest
  }

  // ---------------------------------------------------------------------
  // Typed point reads and writes.
  // ---------------------------------------------------------------------

  function DecodeStored<V>(vc: Codec<V>, raw: Bytes): Result<V, PebbleError> {
    match vc.dec(raw)
    case Ok(v) => Ok(v)
    case Err(e) => Err(Panic("Rocks get: " + e.msg))
  }

  /** `get`: the stored value for the key, decoded. */
  function Get<K, V>(t: Table, kc: Codec<K>, vc: Codec<V>, k: K): (r: Result<Option<V>, PebbleError>)
    ensures Lookup(t.entries, kc.enc(k)).None? ==> r == Ok(None)
    ensures r.Ok? && r.value.Some? ==> vc.dec(Lookup(t.entries, kc.enc(k)).value) == Ok(r.value.value)
  {
    match Lookup(t.entries, kc.enc(k))
    case None => Ok(None)
    case Some(raw) =>
      match DecodeStored(vc, raw)
      case Ok(v) => Ok(Some(v))
      case Err(e) => Err(e)
  }

  /** `set`: `put_cf` of the encoded pair. */
  function Set<K, V>(t: Table, kc: Codec<K>, vc: Codec<V>, k: K, v: V): (r: Table)
    requires Valid(t)
    ensures Valid(r)
  {
    Table(Put(t.entries, kc.enc(k), vc.enc(v)))
  }

  /** `remove`: `delete_cf` of the encoded key. */
  function Remove<K>(t: Table, kc: Codec<K>, k: K): (r: Table)
    requires Valid(t)
    ensures Valid(r)
    ensures forall e :: e in r.entries <==> e in t.entries && e.0 != kc.enc(k)
  {
    Table(Delete(t.entries, kc.enc(k)))
  }

  /** After `set(k, v)`, `get(k)` returns `v` whenever the value codec
      round-trips it; other keys are untouched. */
  lemma SetThenGet<K, V>(t: Table, kc: Codec<K>, vc: Codec<V>, k: K, v: V, other: K)
    requires Valid(t) && vc.dec(vc.enc(v)) == Ok(v)
    ensures Get(Set(t, kc, vc, k, v), kc, vc, k) == Ok(Some(v))
    ensures kc.enc(other) != kc.enc(k) ==>
      Get(Set(t, kc, vc, k, v), kc, vc, other) == Get(t, kc, vc, other)
  {
    PutLookup(t.entries, kc.enc(k), vc.enc(v), kc.enc(other));
  }

  /** After a put the key finds its new value, and every other key finds
      what it found before. */
  lemma PutLookup(s: seq<Entry>, k: Bytes, v: Bytes, x: Bytes)
    requires Monotone(s, true)
    ensures Lookup(Put(s, k, v), k) == Some(v)
    ensures x != k ==> Lookup(Put(s, k, v), x) == Lookup(s, x)
  {
    var r := Put(s, k, v);
    LookupUnique(r, true, k, v);
    if x != k {
      match Lookup(s, x)
      case None =>
      case Some(w) =>
        LookupUnique(r, true, x, w);
    }
  }

  lemma RemoveThenGet<K, V>(t: Table, kc: Codec<K>, vc: Codec<V>, k: K)
    requires Valid(t)
    ensures Get(Remove(t, kc, k), kc, vc, k) == Ok(None)
  {
  }

  /** `multi_get`: one answer per requested key, in the order requested. */
  function MultiGet<K, V>(t: Table, kc: Codec<K>, vc: Codec<V>, keys: seq<K>): (r: Result<seq<Option<V>>, PebbleError>)
    ensures r.Ok? ==> |r.value| == |keys|
    ensures r.Ok? ==> forall i :: 0 <= i < |keys| ==> Get(t, kc, vc, keys[i]) == Ok(r.value[i])
  {
    if |keys| == 0 then Ok([])
    else
      match Get(t, kc, vc, keys[0])
      case Err(e) => Err(e)
      case Ok(first) =>
        match MultiGet(t, kc, vc, keys[1..])
        case Err(e) => Err(e)
        case Ok(rest) =>
          assert forall i :: 1 <= i < |keys| ==> keys[i] == keys[1..][i - 1];
          Ok([first] + rest)
  }

  /** `multi_get_kv`: the found pairs in request order. Missing keys are
      dropped, or panic when `panicIfNotExists` is set. */
  function MultiGetKv<K, V>(t: Table, kc: Codec<K>, vc: Codec<V>, keys: seq<K>, panicIfNotExists: bool)
    : (r: Result<seq<(K, V)>, PebbleError>)
    ensures r.Ok? && panicIfNotExists ==> |r.value| == |keys|
    ensures r.Ok? ==> forall p :: p in r.value ==> p.0 in keys && Get(t, kc, vc, p.0) == Ok(Some(p.1))
    ensures r.Ok? ==> forall i :: 0 <= i < |keys| && Get(t, kc, vc, keys[i]).Ok? && Get(t, kc, vc, keys[i]).value.Some? ==>
      (keys[i], Get(t, kc, vc, keys[i]).value.value) in r.value
    ensures panicIfNotExists && (exists i :: 0 <= i < |keys| && Lookup(t.entries, kc.enc(keys[i])).None?) ==> r.Err?
  {
    if |keys| == 0 then Ok([])
    else
      match Get(t, kc, vc, keys[0])
      case Err(e) => Err(e)
      case Ok(found) =>
        if found.None? && panicIfNotExists then Err(Panic("Rocks multi_get: "))
        else
          match MultiGetKv(t, kc, vc, keys[1..], panicIfNotExists)
          case Err(e) => Err(e)
          case Ok(rest) =>
            assert forall i :: 1 <= i < |keys| ==> keys[i] == keys[1..][i - 1];
            if found.Some? then Ok([(keys[0], found.value)] + rest) else Ok(rest)
  }

  // ---------------------------------------------------------------------
  // Batches: `extend`, `remove_batch`, `retain`.
  // ---------------------------------------------------------------------

  /** The value of the last put of `k` in a batch, if any. */
  function LastPut(kvs: seq<Entry>, k: Bytes): Option<Bytes> {
    if |kvs| == 0 then None
    else if kvs[|kvs| - 1].0 == k then Some(kvs[|kvs| - 1].1)
    else LastPut(kvs[..|kvs| - 1], k)
  }

  /** `extend`: the puts of one write batch, applied in order. */
  function Extend(t: Table, kvs: seq<Entry>): (r: Table)
    requires Valid(t)
    ensures Valid(r)
  {
    if |kvs| == 0 then t
    else
      var before := Extend(t, kvs[..|kvs| - 1]);
      Table(Put(before.entries, kvs[|kvs| - 1].0, kvs[|kvs| - 1].1))
  }

  /** After `extend`, every key holds the value of its last put in the
      batch, and keys not in the batch are untouched. */
  lemma {:induction false} ExtendLastPutWins(t: Table, kvs: seq<Entry>, k: Bytes)
    requires Valid(t)
    ensures Lookup(Extend(t, kvs).entries, k) ==
      (if LastPut(kvs, k).Some? then LastPut(kvs, k) else Lookup(t.entries, k))
  {
    if |kvs| > 0 {
      var before := Extend(t, kvs[..|kvs| - 1]);
      var (k1, v1) := kvs[|kvs| - 1];
      var r := Extend(t, kvs).entries;
      ExtendLastPutWins(t, kvs[..|kvs| - 1], k);
      if k1 == k {
        LookupUnique(r, true, k, v1);
      } else {
        match Lookup(before.entries, k)
        case None =>
        case Some(w) =>
          LookupUnique(r, true, k, w);
      }
    }
  }

  /** `remove_batch`: the deletes of one write batch. */
  function RemoveBatch(t: Table, ks: seq<Bytes>): (r: Table)
    requires Valid(t)
    ensures Valid(r)
    ensures forall e :: e in r.entries <==> e in t.entries && e.0 !in ks
  {
    if |ks| == 0 then t
    else
      var before := RemoveBatch(t, ks[..|ks| - 1]);
      assert forall x :: x in ks <==> x in ks[..|ks| - 1] || x == ks[|ks| - 1];
      Table(Delete(before.entries, ks[|ks| - 1]))
  }

  /** `retain(f)`: deletes the entries that decode and fail `f`; an entry
      that does not decode is skipped by the `flat_map` and so kept. */
  function Retain<K, V>(t: Table, kc: Codec<K>, vc: Codec<V>, f: (K, V) -> bool): (r: Table)
    requires Valid(t)
    ensures Valid(r)
    ensures forall e :: e in r.entries <==> e in t.entries && Kept(kc, vc, f, e)
  {
    Table(RetainEntries(t.entries, kc, vc, f))
  }

  predicate Kept<K, V>(kc: Codec<K>, vc: Codec<V>, f: (K, V) -> bool, e: Entry) {
    !(kc.dec(e.0).Ok? && vc.dec(e.1).Ok? && !f(kc.dec(e.0).value, vc.dec(e.1).value))
  }

  function RetainEntries<K, V>(s: seq<Entry>, kc: Codec<K>, vc: Codec<V>, f: (K, V) -> bool): (r: seq<Entry>)
    requires Monotone(s, true)
    ensures Monotone(r, true)
    ensures forall e :: e in r <==> e in s && Kept(kc, vc, f, e)
  {
    if |s| == 0 then []
    else
      assert Monotone(s[1..], true);
      var rest := RetainEntries(s[1..], kc, vc, f);
      if Kept(kc, vc, f, s[0]) then
        assert forall e :: e in rest ==> LexLess(s[0].0, e.0);
        [s[0]] + rest
      else rest
  }

  // ---------------------------------------------------------------------
  // `range(bounds, reversed)`
  // ---------------------------------------------------------------------

  /** A `RangeBound` already turned into key bytes by `K::get_bytes`. */
  datatype Bound = Included(key: Bytes) | Excluded(key: Bytes) | Unbounded

  /** Which end of the caller's range a bound came from; `reversed` swaps
      them, and with them the comparison the end test uses. */
  datatype Position = Start | End

  /** The declarative reading of a range: the key lies within both bounds. */
  predicate InRange(k: Bytes, lo: Bound, hi: Bound) {
    && (lo.Included? ==> LexLe(lo.key, k))
    && (lo.Excluded? ==> LexLess(lo.key, k))
    && (hi.Included? ==> LexLe(k, hi.key))
    && (hi.Excluded? ==> LexLess(k, hi.key))
  }

  /** Entries with key ≥ `x` (forward seek), in table order. */
  function AtLeast(s: seq<Entry>, x: Bytes): (r: seq<Entry>)
    requires Monotone(s, true)
    ensures Monotone(r, true)
    ensures forall e :: e in r <==> e in s && LexLe(x, e.0)
  {
    if |s| == 0 then []
    else
      assert Monotone(s[1..], true);
      var rest := AtLeast(s[1..], x);
      if LexLe(x, s[0].0) then
        assert forall e :: e in rest ==> LexLess(s[0].0, e.0);
        [s[0]] + rest
      else rest
  }

  /** Entries with key ≤ `x`, in table order. */
  function AtMost(s: seq<Entry>, x: Bytes): (r: seq<Entry>)
    requires Monotone(s, true)
    ensures Monotone(r, true)
    ensures forall e :: e in r <==> e in s && LexLe(e.0, x)
  {
    if |s| == 0 then []
    else
      assert Monotone(s[1..], true);
      var rest := AtMost(s[1..], x);
      if LexLe(s[0].0, x) then
        assert forall e :: e in rest ==> LexLess(s[0].0, e.0);
        [s[0]] + rest
      else rest
  }

  function Reversed(s: seq<Entry>): (r: seq<Entry>)
    ensures |r| == |s| && forall i :: 0 <= i < |s| ==> r[i] == s[|s| - 1 - i]
  {
    if |s| == 0 then [] else Reversed(s[1..]) + [s[0]]
  }

  lemma ReversedMonotone(s: seq<Entry>)
    requires Monotone(s, true)
    ensures Monotone(Reversed(s), false)
    ensures forall e :: e in Reversed(s) <==> e in s
  {
    var r := Reversed(s);
    forall e | e in s ensures e in r {
      var i :| 0 <= i < |s| && s[i] == e;
      assert r[|s| - 1 - i] == e;
    }
  }

  /** RocksDB's iterator: `IteratorMode::From(start, Forward)` seeks the
      first key ≥ start, `From(start, Reverse)` the last key ≤ start and
      walks backwards; `Start` / `End` walk the whole table. */
  function Seek(t: Table, start: Bound, reversed: bool): (r: seq<Entry>)
    requires Valid(t)
  {
    if !reversed then
      if start.Unbounded? then t.entries else AtLeast(t.entries, start.key)
    else
      if start.Unbounded? then Reversed(t.entries) else Reversed(AtMost(t.entries, start.key))
  }

  /** `skip_while(k == start)` when the start bound is excluded. */
  function SkipStart(s: seq<Entry>, start: Bound): (r: seq<Entry>)
    ensures |r| <= |s| && r == s[|s| - |r|..]
  {
    if start.Excluded? && |s| > 0 && s[0].0 == start.key then SkipStart(s[1..], start) else s
  }

  /** The end test of `take_while`. */
  predicate EndTest(k: Bytes, endPosition: Position, end: Bound) {
    match end
    case Unbounded => true
    case Included(e) => if endPosition == End then LexLe(k, e) else LexLe(e, k)
    case Excluded(e) => if endPosition == End then LexLess(k, e) else LexLess(e, k)
  }

  function TakeEnd(s: seq<Entry>, endPosition: Position, end: Bound): (r: seq<Entry>)
    ensures |r| <= |s| && r == s[..|r|]
  {
    if |s| > 0 && EndTest(s[0].0, endPosition, end) then [s[0]] + TakeEnd(s[1..], endPosition, end) else []
  }

  /** `RocksTable::range` on raw keys, as written: bounds swapped when
      `reversed`, seek, skip an excluded start, take while the end test
      holds. */
  function Range(t: Table, lo: Bound, hi: Bound, reversed: bool): seq<Entry>
    requires Valid(t)
  {
    var start := if reversed then hi else lo;
    var end := if reversed then lo else hi;
    var endPosition := if reversed then Start else End;
    TakeEnd(SkipStart(Seek(t, start, reversed), start), endPosition, end)
  }

  lemma SeekFacts(t: Table, start: Bound, reversed: bool)
    requires Valid(t)
    ensures Monotone(Seek(t, start, reversed), !reversed)
    ensures forall e :: e in Seek(t, start, reversed) <==>
      e in t.entries && (start.Unbounded? || (if reversed then LexLe(e.0, start.key) else LexLe(start.key, e.0)))
  {
    if reversed {
      if start.Unbounded? {
        ReversedMonotone(t.entries);
      } else {
        ReversedMonotone(AtMost(t.entries, start.key));
      }
    }
  }

  /** In a strictly ordered sequence no later entry repeats the first key. */
  lemma FirstKeyUnique(s: seq<Entry>, asc: bool)
    requires Monotone(s, asc) && |s| > 0
    ensures forall j :: 1 <= j < |s| ==> s[j].0 != s[0].0
  {
    forall j | 1 <= j < |s| ensures s[j].0 != s[0].0 {
      assert Before(s[0].0, s[j].0, asc);
      LexIrreflexive(s[0].0);
    }
  }

  /** When every key lies at or past the start, only the first entry can
      carry the start key. */
  lemma OnlyFirstAtStart(s: seq<Entry>, x: Bytes, asc: bool)
    requires Monotone(s, asc) && |s| > 0 && s[0].0 != x
    requires forall e :: e in s ==> e.0 == x || Before(x, e.0, asc)
    ensures forall e :: e in s ==> e.0 != x
  {
    forall e | e in s ensures e.0 != x {
      var j :| 0 <= j < |s| && s[j] == e;
      if e.0 == x && j > 0 {
        assert s[0] in s;
        assert Before(s[0].0, s[j].0, asc);
        LexAsymmetric(s[0].0, x);
      }
    }
  }

  /** Skipping a leading entry equal to an excluded start removes exactly
      that key, because every other key lies strictly past the start. */
  lemma SkipStartFacts(s: seq<Entry>, start: Bound, asc: bool)
    requires Monotone(s, asc)
    requires start.Excluded? ==> forall e :: e in s ==> e.0 == start.key || Before(start.key, e.0, asc)
    ensures Monotone(SkipStart(s, start), asc)
    ensures forall e :: e in SkipStart(s, start) <==> e in s && !(start.Excluded? && e.0 == start.key)
  {
    if start.Excluded? && |s| > 0 {
      if s[0].0 == start.key {
        SkipFirstFacts(s, start, asc);
      } else {
        OnlyFirstAtStart(s, start.key, asc);
      }
    }
  }

  /** An excluded start found first is skipped, and nothing else is. */
  lemma SkipFirstFacts(s: seq<Entry>, start: Bound, asc: bool)
    requires Monotone(s, asc) && start.Excluded? && |s| > 0 && s[0].0 == start.key
    ensures SkipStart(s, start) == s[1..] && Monotone(s[1..], asc)
    ensures forall e :: e in s[1..] <==> e in s && e.0 != start.key
  {
    FirstKeyUnique(s, asc);
    if |s| > 1 {
      assert s[1..][0] == s[1];
    }
    forall e | e in s[1..]
      ensures e.0 != start.key
    {
      var j :| 0 <= j < |s[1..]| && s[1..][j] == e;
      assert e == s[j + 1];
    }
    assert s == [s[0]] + s[1..];
  }

  /** `take_while` keeps exactly the entries passing the end test, because
      along the iteration order the test can only go from true to false. */
  lemma {:induction false} TakeEndFacts(s: seq<Entry>, endPosition: Position, end: Bound, asc: bool)
    requires Monotone(s, asc)
    requires forall i, j :: 0 <= i < j < |s| && EndTest(s[j].0, endPosition, end) ==> EndTest(s[i].0, endPosition, end)
    ensures Monotone(TakeEnd(s, endPosition, end), asc)
    ensures forall e :: e in TakeEnd(s, endPosition, end) <==> e in s && EndTest(e.0, endPosition, end)
  {
    var r := TakeEnd(s, endPosition, end);
    assert Monotone(r, asc) by {
      forall i, j | 0 <= i < j < |r| ensures Before(r[i].0, r[j].0, asc) {
        assert r[i] == s[i] && r[j] == s[j];
      }
    }
    if |s| > 0 {
      if EndTest(s[0].0, endPosition, end) {
        assert Monotone(s[1..], asc);
        TakeEndFacts(s[1..], endPosition, end, asc);
        assert s == [s[0]] + s[1..];
      } else {
        forall e | e in s ensures !EndTest(e.0, endPosition, end) {
          var j :| 0 <= j < |s| && s[j] == e;
        }
      }
    }
  }

  /** The end test is closed toward the start of the iteration. */
  lemma EndTestClosed(s: seq<Entry>, endPosition: Position, end: Bound, asc: bool)
    requires Monotone(s, asc) && (endPosition == End <==> asc)
    ensures forall i, j :: 0 <= i < j < |s| && EndTest(s[j].0, endPosition, end) ==> EndTest(s[i].0, endPosition, end)
  {
    forall i, j | 0 <= i < j < |s| && EndTest(s[j].0, endPosition, end)
      ensures EndTest(s[i].0, endPosition, end)
    {
      assert Before(s[i].0, s[j].0, asc);
      if !end.Unbounded? {
        var e := end.key;
        if asc {
          LexLeTransitive(s[i].0, s[j].0, e);
          if end.Excluded? && s[j].0 != e { LexTransitive(s[i].0, s[j].0, e); }
        } else {
          LexLeTransitive(e, s[j].0, s[i].0);
          if end.Excluded? { LexTransitive(e, s[j].0, s[i].0); }
        }
      }
    }
  }

  /** A forward range yields, in ascending key order, exactly the entries
      whose keys lie within the bounds; a reversed range yields the same
      entries in descending order. */
  lemma RangeSemantics(t: Table, lo: Bound, hi: Bound, reversed: bool)
    requires Valid(t)
    ensures Monotone(Range(t, lo, hi, reversed), !reversed)
    ensures forall e :: e in Range(t, lo, hi, reversed) <==> e in t.entries && InRange(e.0, lo, hi)
  {
    var start := if reversed then hi else lo;
    var end := if reversed then lo else hi;
    var endPosition := if reversed then Start else End;
    var asc := !reversed;
    var it := Seek(t, start, reversed);
    SeekFacts(t, start, reversed);
    if start.Excluded? {
      forall e | e in it ensures e.0 == start.key || Before(start.key, e.0, asc) {
      }
    }
    SkipStartFacts(it, start, asc);
    var skipped := SkipStart(it, start);
    EndTestClosed(skipped, endPosition, end, asc);
    TakeEndFacts(skipped, endPosition, end, asc);
    assert Range(t, lo, hi, reversed) == TakeEnd(skipped, endPosition, end);
    forall e ensures e in Range(t, lo, hi, reversed) <==> e in t.entries && InRange(e.0, lo, hi) {
      KeyInRange(e.0, lo, hi, reversed);
    }
  }

  /** Past the seek, the skip and the end test is exactly within the
      bounds. */
  lemma KeyInRange(k: Bytes, lo: Bound, hi: Bound, reversed: bool)
    ensures var start := if reversed then hi else lo;
      var end := if reversed then lo else hi;
      var endPosition := if reversed then Start else End;
      (&& (start.Unbounded? || (if reversed then LexLe(k, start.key) else LexLe(start.key, k)))
       && !(start.Excluded? && k == start.key)
       && EndTest(k, endPosition, end))
      <==> InRange(k, lo, hi)
  {
    if !lo.Unbounded? {
      LexIrreflexive(lo.key);
    }
    if !hi.Unbounded? {
      LexIrreflexive(hi.key);
    }
  }
}

=== FILE: text.dfy ===
/** Text forms shared by the `Display` and `FromStr` implementations: the
    decimal form of unsigned integers (`{}` and `str::parse::<uN>`) and the
    lower-case hexadecimal form of byte strings (`{:02x}` per byte, and the
    reversed-byte display of Bitcoin transaction and block hashes). */
module Text {
  import opened Bytes
  import opened Wrappers

  predicate IsDigit(c: char) { '0' <= c <= '9' }

  predicate AllDigits(s: string) {
    forall i :: 0 <= i < |s| ==> IsDigit(s[i])
  }

  function ZeroPad(k: nat): (s: string)
    ensures |s| == k && AllDigits(s)
  {
    seq(k, _ => '0')
  }

  function DigitValue(c: char): nat
    requires IsDigit(c)
  {
    c as int - '0' as int
  }

  function DigitChar(d: nat): (c: char)
    requires d < 10
    ensures IsDigit(c) && DigitValue(c) == d
  {
    ('0' as int + d) as char
  }

  /** `{}` of an unsigned integer: decimal digits without leading zeros. */
  function Decimal(n: nat): (s: string)
    ensures |s| >= 1
    ensures AllDigits(s)
    ensures |s| > 1 ==> s[0] != '0'
  {
    if n < 10 then [DigitChar(n)] else Decimal(n / 10) + [DigitChar(n % 10)]
  }

  /** The number a string of decimal digits denotes. */
  function DigitsValue(s: string): nat
    requires AllDigits(s)
  {
    if |s| == 0 then 0 else 10 * DigitsValue(s[..|s| - 1]) + DigitValue(s[|s| - 1])
  }

  /** `str::parse::<uN>()` with `max` the largest value of the type: an
      optional leading `+`, then at least one decimal digit, and a value
      that fits. Leading zeros are accepted. */
  function ParseUint(s: string, max: nat): (r: Option<nat>)
    ensures r.Some? ==> r.value <= max
  {
    var digits := if |s| > 0 && s[0] == '+' then s[1..] else s;
    if |digits| == 0 then None
    else if !AllDigits(digits) then None
    else if DigitsValue(digits) > max then None
    else Some(DigitsValue(digits))
  }

  lemma {:induction false} DigitsOfDecimal(n: nat)
    ensures DigitsValue(Decimal(n)) == n
  {
    if n >= 10 {
      var s := Decimal(n);
      assert s[..|s| - 1] == Decimal(n / 10);
      DigitsOfDecimal(n / 10);
    }
  }

  /** Parsing the decimal form gives back the number. */
  lemma DecimalRoundTrip(n: nat, max: nat)
    requires n <= max
    ensures ParseUint(Decimal(n), max) == Some(n)
  {
    DigitsOfDecimal(n);
  }

  lemma {:induction false} DecimalInjective(m: nat, n: nat)
    requires Decimal(m) == Decimal(n)
    ensures m == n
  {
    DigitsOfDecimal(m);
    DigitsOfDecimal(n);
  }

  /** Leading zeros do not change the value, so `"000042"` parses as 42. */
  lemma {:induction false} LeadingZeros(k: nat, s: string)
    requires AllDigits(s)
    ensures AllDigits(ZeroPad(k) + s)
    ensures DigitsValue(ZeroPad(k) + s) == DigitsValue(s)
    decreases |s|
  {
    var z := ZeroPad(k);
    if |s| == 0 {
      assert z + s == z;
      ZerosValue(k);
    } else {
      assert (z + s)[..|z + s| - 1] == z + s[..|s| - 1];
      LeadingZeros(k, s[..|s| - 1]);
    }
  }

  lemma {:induction false} ZerosValue(k: nat)
    ensures DigitsValue(ZeroPad(k)) == 0
  {
    if k > 0 {
      assert ZeroPad(k)[..k - 1] == ZeroPad(k - 1);
      ZerosValue(k - 1);
    }
  }

  // ---------------------------------------------------------------------
  // Hexadecimal
  // ---------------------------------------------------------------------

  const HexDigits: string := "0123456789abcdef"

  function HexChar(d: nat): char
    requires d < 16
  {
    HexDigits[d]
  }

  /** A hexadecimal digit of either case, as `hex` decoders accept it. */
  function HexValue(c: char): Option<nat> {
    if '0' <= c <= '9' then Some(c as int - '0' as int)
    else if 'a' <= c <= 'f' then Some(c as int - 'a' as int + 10)
    else if 'A' <= c <= 'F' then Some(c as int - 'A' as int + 10)
    else None
  }

  /** Two zero-padded lower-case digits per byte, high nibble first. */
  function Hex(bs: Bytes): (s: string)
    ensures |s| == 2 * |bs|
    ensures forall i :: 0 <= i < |s| ==> HexValue(s[i]).Some?
  {
    if |bs| == 0 then "" else [HexChar(bs[0] / 16), HexChar(bs[0] % 16)] + Hex(bs[1..])
  }

  function FromHex(s: string): (r: Option<Bytes>)
    ensures r.Some? ==> 2 * |r.value| == |s|
    decreases |s|
  {
    if |s| == 0 then Some([])
    else if |s| == 1 then None
    else match (HexValue(s[0]), HexValue(s[1]), FromHex(s[2..]))
      case (Some(hi), Some(lo), Some(rest)) =>
        assert hi < 16 && lo < 16;
        Some([hi * 16 + lo] + rest)
      case _ => None
  }

  lemma HexValueOfChar(d: nat)
    requires d < 16
    ensures HexValue(HexChar(d)) == Some(d)
  {
  }

  lemma {:induction false} FromHexOfHex(bs: Bytes)
    ensures FromHex(Hex(bs)) == Some(bs)
  {
    if |bs| > 0 {
      var s := Hex(bs);
      var hi, lo := bs[0] / 16, bs[0] % 16;
      assert s[0] == HexChar(hi) && s[1] == HexChar(lo) && s[2..] == Hex(bs[1..]);
      HexValueOfChar(hi);
      HexValueOfChar(lo);
      FromHexOfHex(bs[1..]);
      Nibbles(bs[0]);
      FromHexStep(s);
      assert bs == [hi * 16 + lo] + bs[1..];
    }
  }

  /** Two digits, then the rest. */
  lemma FromHexStep(s: string)
    requires |s| >= 2 && HexValue(s[0]).Some? && HexValue(s[1]).Some? && FromHex(s[2..]).Some?
    ensures FromHex(s).Some?
    ensures FromHex(s).value == [HexValue(s[0]).value * 16 + HexValue(s[1]).value] + FromHex(s[2..]).value
  {
  }

  lemma Nibbles(b: u8)
    ensures b / 16 < 16 && (b / 16) * 16 + b % 16 == b
  {
  }

  function Reverse<T>(s: seq<T>): (r: seq<T>)
    ensures |r| == |s| && forall i :: 0 <= i < |s| ==> r[i] == s[|s| - 1 - i]
  {
    if |s| == 0 then [] else Reverse(s[1..]) + [s[0]]
  }

  lemma ReverseReverse<T>(s: seq<T>)
    ensures Reverse(Reverse(s)) == s
  {
  }

  /** `Display` of a `Txid` / `BlockHash`: the 32 bytes in reverse order, as
      64 lower-case hexadecimal digits. */
  function HashHex(h: Hash32): (s: string)
    ensures |s| == 64
    ensures forall i :: 0 <= i < |s| ==> HexValue(s[i]).Some?
  {
    Hex(Reverse(h))
  }

  /** `Txid::from_str`: exactly 64 hexadecimal digits, read back in reverse
      byte order. */
  function ParseHashHex(s: string): (r: Option<Hash32>)
    ensures r.Some? ==> |s| == 64
  {
    if |s| != 64 then None
    else match FromHex(s)
      case None => None
      case Some(bs) => Some(Reverse(bs))
  }

  lemma HashHexRoundTrip(h: Hash32)
    ensures ParseHashHex(HashHex(h)) == Some(h)
  {
    FromHexOfHex(Reverse(h));
    ReverseReverse(h);
  }
}

=== FILE: token_parser.dfy ===
/** `TokenCache` (src/tokens/parser.rs): inscriptions are read as BEL-20
    deploy, mint and transfer operations, queued as token actions, and then
    applied in order to the deployed tokens and the per-address balances,
    leaving one history record per effective action and, when a reorg cache
    is kept, one undo entry. */
module TokenParser {
  import opened Bytes
  import opened Wrappers
  import opened Locations
  import opened Keys
  import opened Tokens
  import Utf8
  import Reorg

  // ---------------------------------------------------------------------
  // Reading an inscription as a BEL-20 operation.
  // ---------------------------------------------------------------------

  /** `Brc4`: the `op` of the JSON object. */
  datatype Brc4 =
    | BMint(mint: Proto<MintWrapper>)
    | BDeploy(deploy: Proto<DeployWrapper>)
    | BTransfer(transfer: Proto<MintWrapper>)

  datatype Brc4ParseErr =
    | WrongContentType
    | WrongProtocol
    | DecimalEmpty
    | DecimalOverflow
    | DecimalPlusMinus
    | DecimalDotStartEnd
    | DecimalSpaces
    | InvalidDigit
    | InvalidUtf8
    | Unknown(msg: string)

  /** The media type: what comes before the first `;`. */
  function MediaType(contentType: string): string {
    Split(contentType, ';')[0]
  }

  predicate TextMedia(contentType: string) {
    MediaType(contentType) == "text/plain" || MediaType(contentType) == "application/json"
  }

  /** The decoder's error text, sorted into the error kinds. */
  function ClassifyJsonError(msg: string): (r: Brc4ParseErr)
    ensures r != WrongContentType && r != WrongProtocol && r != InvalidUtf8
    ensures r.Unknown? ==> r.msg == msg
  {
    if msg == "Invalid decimal: empty" then DecimalEmpty
    else if msg == "Invalid decimal: overflow from too many digits" then DecimalOverflow
    else if msg == MsgPlusMinus then DecimalPlusMinus
    else if msg == MsgDot then DecimalDotStartEnd
    else if msg == MsgSpaces then DecimalSpaces
    else if msg == "invalid digit found in string" then InvalidDigit
    else Unknown(msg)
  }

  /** The texts `bel_20_validate` fails with are the ones sorted into the
      sign, dot and space kinds; the size bound has no kind of its own. */
  lemma ValidateErrorsClassified(s: string, parseFixed: string -> Result<nat, string>)
    ensures StartsWith(s, '+') ==> ClassifyJsonError(Validate(s, parseFixed).error) == DecimalPlusMinus
    ensures StartsWith(s, '-') ==> ClassifyJsonError(Validate(s, parseFixed).error) == DecimalPlusMinus
    ensures !StartsWith(s, '+') && !StartsWith(s, '-') && EndsWith(s, '.') ==> ClassifyJsonError(Validate(s, parseFixed).error) == DecimalDotStartEnd
    ensures PlainText(s) && parseFixed(s).Ok? && parseFixed(s).value > FixedOf(U64_MAX)
      ==> ClassifyJsonError(Validate(s, parseFixed).error) == Unknown(MsgTooLarge)
  {
  }

  /** The operations the indexer acts on: BEL-20 only, a non-zero amount,
      and for a deploy at most 18 decimals and a non-zero maximum and
      limit, the limit defaulting to the maximum. */
  predicate Accepted(b: Brc4) {
    match b
    case BMint(p) => p.standard == Bel20 && p.wrapper.amt != 0
    case BTransfer(p) => p.standard == Bel20 && p.wrapper.amt != 0
    case BDeploy(p) =>
      && p.standard == Bel20
      && p.wrapper.dec <= MaxDec
      && p.wrapper.lim.UnwrapOr(p.wrapper.max) != 0
      && p.wrapper.max != 0
  }

  /** `try_parse`; the JSON decoder is a parameter. */
  function TryParse(contentType: string, content: Bytes, json: string -> Result<Brc4, string>): (r: Result<Brc4, Brc4ParseErr>)
    ensures !TextMedia(contentType) ==> r == Err(WrongContentType)
    ensures TextMedia(contentType) && Utf8.Decode(content).None? ==> r == Err(InvalidUtf8)
    ensures r.Ok? ==> Accepted(r.value) && TextMedia(contentType)
    ensures r.Ok? ==> Utf8.Decode(content).Some? && json(Utf8.Decode(content).value) == Ok(r.value)
    ensures TextMedia(contentType) && Utf8.Decode(content).Some? && json(Utf8.Decode(content).value).Ok?
      ==> (r.Ok? <==> Accepted(json(Utf8.Decode(content).value).value))
    ensures r.Err? && r.error == WrongProtocol ==> json(Utf8.Decode(content).value).Ok?
  {
    if !TextMedia(contentType) then Err(WrongContentType)
    else match Utf8.Decode(content)
      case None => Err(InvalidUtf8)
      case Some(data) =>
        match json(data)
        case Err(msg) => Err(ClassifyJsonError(msg))
        case Ok(b) => if Accepted(b) then Ok(b) else Err(WrongProtocol)
  }

  // ---------------------------------------------------------------------
  // The cache and its actions.
  // ---------------------------------------------------------------------

  /** `InscriptionTemplate`: what the inscription parser hands over. */
  datatype InscriptionTemplate = InscriptionTemplate(
    genesis: InscriptionId,
    location: Location,
    contentType: Option<string>,
    owner: FullHash,
    value: u64,
    content: Option<Bytes>,
    leaked: bool)

  /** `TokenAction`. Only BEL-20 operations are queued, so of the protocol
      value the payload is kept. */
  datatype TokenAction =
    | ADeploy(genesis: InscriptionId, proto: DeployProtoDB, owner: FullHash)
    | AMint(owner: FullHash, mint: MintWrapper, txid: Txid, vout: u32)
    | ATransfer(location: Location, owner: FullHash, transfer: MintWrapper, txid: Txid, vout: u32)
    | ATransferred(transferLocation: Location, recipient: FullHash, txid: Txid, vout: u32)

  /** `TokenCache`: tokens keyed by the lower-cased tick. */
  datatype TokenCache = TokenCache(
    tokens: map<Bytes, TokenMeta>,
    accounts: map<AddressToken, TokenBalance>,
    actions: seq<TokenAction>,
    allTransfers: map<Location, TransferProtoDB>,
    validTransfers: map<Location, (FullHash, TransferProtoDB)>)

  /** What the cache is given besides its own state: the burn address and
      `Fixed128::scale`, the number of decimals an amount was written with. */
  datatype Env = Env(opReturn: FullHash, scale: nat -> nat, json: string -> Result<Brc4, string>)

  /** `parse_token_action`: the cache after reading one inscription, and
      the transfer read, if it was one. */
  function ParseTokenAction(c: TokenCache, env: Env, inc: InscriptionTemplate, height: u32, created: u32)
    : (r: (TokenCache, Option<MintWrapper>))
    ensures inc.owner == env.opReturn || inc.leaked || inc.contentType.None? || inc.content.None? ==> r == (c, None)
    ensures r.0.tokens == c.tokens && r.0.accounts == c.accounts && r.0.validTransfers == c.validTransfers
    ensures |c.actions| <= |r.0.actions| <= |c.actions| + 1 && r.0.actions[..|c.actions|] == c.actions
    ensures |r.0.actions| == |c.actions| + 1 ==> inc.owner != env.opReturn && !inc.leaked
    ensures |r.0.actions| == |c.actions| + 1 ==> inc.contentType.Some? && inc.content.Some?
    ensures |r.0.actions| == |c.actions| + 1 ==> TryParse(inc.contentType.value, inc.content.value, env.json).Ok?
    ensures r.1.Some? <==> |r.0.actions| == |c.actions| + 1 && r.0.actions[|c.actions|].ATransfer?
    ensures r.1.Some? ==> var a := r.0.actions[|c.actions|];
      && a == ATransfer(inc.location, inc.owner, r.1.value, inc.location.outpoint.txid, inc.location.outpoint.vout)
      && r.0.allTransfers == c.allTransfers[inc.location := TransferProtoDB(r.1.value.tick, r.1.value.amt, height)]
    ensures r.1.None? ==> r.0.allTransfers == c.allTransfers
  {
    if inc.owner == env.opReturn || inc.leaked || inc.contentType.None? || inc.content.None? then (c, None)
    else match TryParse(inc.contentType.value, inc.content.value, env.json)
      case Err(_) => (c, None)
      case Ok(BDeploy(p)) =>
        var w := p.wrapper;
        var proto := DeployProtoDB(w.tick, w.max, w.lim.UnwrapOr(w.max), w.dec, 0, 0, 0, height, created, inc.owner, 1);
        (c.(actions := c.actions + [ADeploy(inc.genesis, proto, inc.owner)]), None)
      case Ok(BMint(p)) =>
        var op := inc.location.outpoint;
        (c.(actions := c.actions + [AMint(inc.owner, p.wrapper, op.txid, op.vout)]), None)
      case Ok(BTransfer(p)) =>
        var op := inc.location.outpoint;
        var t := p.wrapper;
        (c.(actions := c.actions + [ATransfer(inc.location, inc.owner, t, op.txid, op.vout)],
            allTransfers := c.allTransfers[inc.location := TransferProtoDB(t.tick, t.amt, height)]),
         Some(t))
  }

  /** A queued deploy starts with nothing minted, no transfers and one
      transaction, and its limit is the maximum unless one was given. */
  lemma ParsedDeploy(c: TokenCache, env: Env, inc: InscriptionTemplate, height: u32, created: u32)
    requires var r := ParseTokenAction(c, env, inc, height, created).0;
      |r.actions| == |c.actions| + 1 && r.actions[|c.actions|].ADeploy?
    ensures var a := ParseTokenAction(c, env, inc, height, created).0.actions[|c.actions|];
      var b := env.json(Utf8.Decode(inc.content.value).value).value;
      && b.BDeploy?
      && a.genesis == inc.genesis && a.owner == inc.owner
      && a.proto.tick == b.deploy.wrapper.tick && a.proto.max == b.deploy.wrapper.max
      && a.proto.lim == b.deploy.wrapper.lim.UnwrapOr(b.deploy.wrapper.max)
      && a.proto.dec == b.deploy.wrapper.dec <= MaxDec
      && a.proto.supply == 0 && a.proto.mintCount == 0 && a.proto.transferCount == 0
      && a.proto.transactions == 1 && a.proto.height == height && a.proto.created == created
      && a.proto.deployer == inc.owner
      && a.proto.max != 0 && a.proto.lim != 0
  {
  }

  /** `transferred`: a move of a transfer inscription is queued. */
  function Transferred(c: TokenCache, transferLocation: Location, recipient: FullHash, txid: Txid, vout: u32): (r: TokenCache)
    ensures r.actions == c.actions + [ATransferred(transferLocation, recipient, txid, vout)]
    ensures r.(actions := c.actions) == c
  {
    c.(actions := c.actions + [ATransferred(transferLocation, recipient, txid, vout)])
  }

  /** `burned_transfer`: a move into an `OP_RETURN` output, queued with the
      burn address as recipient. */
  function BurnedTransfer(c: TokenCache, env: Env, location: Location, txid: Txid, vout: u32): (r: TokenCache)
    ensures |r.actions| == |c.actions| + 1 && r.actions[..|c.actions|] == c.actions
    ensures r.actions[|c.actions|].ATransferred? && r.actions[|c.actions|].recipient == env.opReturn
    ensures r.(actions := c.actions) == c
  {
    Transferred(c, location, env.opReturn, txid, vout)
  }

  // ---------------------------------------------------------------------
  // `fill_tickers_and_users`.
  // ---------------------------------------------------------------------

  /** The transfer a move refers to: an open one first, a validated one
      otherwise. */
  function MovedTransfer(c: TokenCache, location: Location): Option<TransferProtoDB> {
    if location in c.allTransfers then Some(c.allTransfers[location])
    else if location in c.validTransfers then Some(c.validTransfers[location].1)
    else None
  }

  /** The tick one action needs loaded. */
  function ActionTick(c: TokenCache, a: TokenAction): Option<Tick> {
    match a
    case ADeploy(_, proto, _) => Some(proto.tick)
    case AMint(_, m, _, _) => Some(m.tick)
    case ATransfer(_, _, t, _, _) => Some(t.tick)
    case ATransferred(location, _, _, _) =>
      match MovedTransfer(c, location)
      case None => None
      case Some(v) => Some(v.tick)
  }

  /** The accounts one action needs loaded. */
  function ActionUsers(c: TokenCache, env: Env, a: TokenAction): set<(FullHash, Tick)> {
    match a
    case ADeploy(_, _, _) => {}
    case AMint(owner, m, _, _) => {(owner, m.tick)}
    case ATransfer(_, owner, t, _, _) => {(owner, t.tick)}
    case ATransferred(location, recipient, _, _) =>
      match MovedTransfer(c, location)
      case None => {}
      case Some(v) =>
        (if recipient != env.opReturn then {(recipient, v.tick)} else {})
        + (if location in c.validTransfers then {(c.validTransfers[location].0, v.tick)} else {})
  }

  /** The loop over the queued actions. */
  function FillTickersAndUsers(c: TokenCache, env: Env, actions: seq<TokenAction>): (r: (set<Tick>, set<(FullHash, Tick)>))
    decreases |actions|
  {
    if |actions| == 0 then ({}, {})
    else
      var (tickers, users) := FillTickersAndUsers(c, env, actions[..|actions| - 1]);
      var a := actions[|actions| - 1];
      var t := ActionTick(c, a);
      (tickers + (if t.Some? then {t.value} else {}), users + ActionUsers(c, env, a))
  }

  /** The loop collects exactly the ticks and accounts of the actions. */
  lemma {:induction false} FillTickersAndUsersExact(c: TokenCache, env: Env, actions: seq<TokenAction>)
    ensures forall t :: t in FillTickersAndUsers(c, env, actions).0 <==>
      exists i :: 0 <= i < |actions| && ActionTick(c, actions[i]) == Some(t)
    ensures forall u :: u in FillTickersAndUsers(c, env, actions).1 <==>
      exists i :: 0 <= i < |actions| && u in ActionUsers(c, env, actions[i])
    decreases |actions|
  {
    if |actions| > 0 {
      var init := actions[..|actions| - 1];
      FillTickersAndUsersExact(c, env, init);
      assert forall i :: 0 <= i < |init| ==> init[i] == actions[i];
    }
  }

  /** No account of the burn address is asked for, as long as no queued
      mint or transfer and no validated transfer belongs to it. */
  lemma NoBurnUsers(c: TokenCache, env: Env, actions: seq<TokenAction>)
    requires forall i :: 0 <= i < |actions| ==> OwnerNotBurn(env, actions[i])
    requires forall l :: l in c.validTransfers ==> c.validTransfers[l].0 != env.opReturn
    ensures forall u :: u in FillTickersAndUsers(c, env, actions).1 ==> u.0 != env.opReturn
  {
    FillTickersAndUsersExact(c, env, actions);
  }

  predicate OwnerNotBurn(env: Env, a: TokenAction) {
    (a.AMint? || a.ATransfer? || a.ADeploy?) ==> a.owner != env.opReturn
  }

  /** Every action `parse_token_action` queues belongs to an address other
      than the burn address, and a queued deploy has nothing minted. */
  lemma ParsedActionsGood(c: TokenCache, env: Env, inc: InscriptionTemplate, height: u32, created: u32)
    requires forall i :: 0 <= i < |c.actions| ==> ActionGood(env, c.actions[i])
    ensures var r := ParseTokenAction(c, env, inc, height, created).0;
      forall i :: 0 <= i < |r.actions| ==> ActionGood(env, r.actions[i])
  {
    var r := ParseTokenAction(c, env, inc, height, created).0;
    forall i | 0 <= i < |r.actions| ensures ActionGood(env, r.actions[i]) {
      if i < |c.actions| {
        assert r.actions[i] == r.actions[..|c.actions|][i];
      }
    }
  }

  // ---------------------------------------------------------------------
  // Applying one action.
  // ---------------------------------------------------------------------

  /** The outcome of one action: the cache, the history records and the
      undo entries it leaves. */
  datatype Step = Step(cache: TokenCache, history: seq<HistoryTokenAction>, undo: seq<TokenHistoryEntry>)

  function Skip(c: TokenCache): Step {
    Step(c, [], [])
  }

  function AccountOr(accounts: map<AddressToken, TokenBalance>, key: AddressToken): TokenBalance {
    if key in accounts then accounts[key] else ZeroBalance
  }

  function Min(a: nat, b: nat): nat {
    if a <= b then a else b
  }

  /** A deploy takes effect only on a vacant lower-cased tick. */
  function ApplyDeploy(c: TokenCache, genesis: InscriptionId, proto: DeployProtoDB, owner: FullHash): (r: Step)
    ensures LowerCase(proto.tick) in c.tokens ==> r == Skip(c)
    ensures LowerCase(proto.tick) !in c.tokens ==>
      && r.cache == c.(tokens := c.tokens[LowerCase(proto.tick) := TokenMeta(genesis, proto)])
      && r.history == [HDeploy(proto.tick, proto.max, proto.lim, proto.dec, owner, genesis.txid, genesis.index)]
      && r.undo == [RemoveDeployed(proto.tick)]
  {
    var lt := LowerCase(proto.tick);
    if lt in c.tokens then Skip(c)
    else
      Step(c.(tokens := c.tokens[lt := TokenMeta(genesis, proto)]),
        [HDeploy(proto.tick, proto.max, proto.lim, proto.dec, owner, genesis.txid, genesis.index)],
        [RemoveDeployed(proto.tick)])
  }

  /** Why a mint is skipped: the tick is not deployed, the amount has more
      decimals than the token, exceeds the limit, or the supply is full. */
  predicate MintSkipped(c: TokenCache, env: Env, m: MintWrapper) {
    var lt := LowerCase(m.tick);
    lt !in c.tokens
    || env.scale(m.amt) > c.tokens[lt].proto.dec
    || c.tokens[lt].proto.lim < m.amt
    || c.tokens[lt].proto.supply == c.tokens[lt].proto.max
  }

  /** A mint credits what is left of the supply, at most the amount asked
      for; the owner's account is created if missing. */
  function ApplyMint(c: TokenCache, env: Env, owner: FullHash, m: MintWrapper, txid: Txid, vout: u32): (r: Result<Step, string>)
    ensures MintSkipped(c, env, m) ==> r == Ok(Skip(c))
    ensures r.Err? <==> !MintSkipped(c, env, m) && c.tokens[LowerCase(m.tick)].proto.supply > c.tokens[LowerCase(m.tick)].proto.max
    ensures r.Ok? && !MintSkipped(c, env, m) ==>
      var lt := LowerCase(m.tick);
      var p := c.tokens[lt].proto;
      var amt := Min(m.amt, p.max - p.supply);
      var key := AddressToken(owner, p.tick);
      && lt in r.value.cache.tokens
      && r.value.cache.tokens[lt].proto == p.(supply := p.supply + amt, mintCount := p.mintCount + 1, transactions := p.transactions + 1)
      && r.value.cache.tokens[lt].genesis == c.tokens[lt].genesis
      && r.value.cache.tokens[lt].proto.supply <= p.max
      && r.value.cache.accounts == c.accounts[key := Credit(AccountOr(c.accounts, key), amt)]
      && r.value.cache.tokens.Keys == c.tokens.Keys
      && r.value.cache.allTransfers == c.allTransfers && r.value.cache.validTransfers == c.validTransfers
      && r.value.history == [HMint(p.tick, amt, owner, txid, vout)]
      && r.value.undo == [RemoveMint(key, amt)]
      && amt <= m.amt && (m.amt > 0 ==> amt > 0)
  {
    var lt := LowerCase(m.tick);
    if MintSkipped(c, env, m) then Ok(Skip(c))
    else
      var meta := c.tokens[lt];
      var p := meta.proto;
      if p.supply > p.max then Err("attempt to subtract with overflow")
      else
        var amt := Min(m.amt, p.max - p.supply);
        var key := AddressToken(owner, p.tick);
        var p1 := p.(supply := p.supply + amt, mintCount := p.mintCount + 1, transactions := p.transactions + 1);
        Ok(Step(
          c.(tokens := c.tokens[lt := meta.(proto := p1)], accounts := c.accounts[key := Credit(AccountOr(c.accounts, key), amt)]),
          [HMint(p.tick, amt, owner, txid, vout)],
          [RemoveMint(key, amt)]))
  }

  /** A completed token, whose whole supply is minted, takes no more mints
      whatever the amount: the cache is left as it was. */
  lemma CompletedTakesNoMint(c: TokenCache, env: Env, owner: FullHash, m: MintWrapper, txid: Txid, vout: u32)
    requires LowerCase(m.tick) in c.tokens && IsCompleted(c.tokens[LowerCase(m.tick)].proto)
    ensures ApplyMint(c, env, owner, m, txid, vout) == Ok(Skip(c))
  {
  }

  /** Why an inscribed transfer is skipped once it is taken out of the open
      transfers: the tick is not deployed, too many decimals, no account, or
      not enough balance. */
  predicate TransferSkipped(c: TokenCache, env: Env, owner: FullHash, t: MintWrapper) {
    var lt := LowerCase(t.tick);
    lt !in c.tokens
    || env.scale(t.amt) > c.tokens[lt].proto.dec
    || AddressToken(owner, c.tokens[lt].proto.tick) !in c.accounts
    || t.amt > c.accounts[AddressToken(owner, c.tokens[lt].proto.tick)].balance
  }

  /** An inscribed transfer moves the amount from the owner's balance to
      the transferable balance and becomes a valid transfer; it is taken
      out of the open transfers even when it is skipped. */
  function ApplyTransfer(c: TokenCache, env: Env, location: Location, owner: FullHash, t: MintWrapper, txid: Txid, vout: u32): (r: Step)
    ensures location !in c.allTransfers ==> r == Skip(c)
    ensures location in c.allTransfers ==> r.cache.allTransfers == c.allTransfers - {location}
    ensures location in c.allTransfers && TransferSkipped(c, env, owner, t) ==>
      r == Skip(c.(allTransfers := c.allTransfers - {location}))
    ensures location in c.allTransfers && !TransferSkipped(c, env, owner, t) ==>
      var lt := LowerCase(t.tick);
      var p := c.tokens[lt].proto;
      var key := AddressToken(owner, p.tick);
      && r.cache.accounts == c.accounts[key := Inscribe(c.accounts[key], t.amt)]
      && r.cache.validTransfers == c.validTransfers[location := (owner, c.allTransfers[location])]
      && r.cache.tokens == c.tokens[lt := c.tokens[lt].(proto := p.(transferCount := p.transferCount + 1, transactions := p.transactions + 1))]
      && r.history == [HDeployTransfer(p.tick, t.amt, owner, txid, vout)]
      && r.undo == [RemoveTransfer(location, key, t.amt)]
    ensures r.cache.actions == c.actions
  {
    if location !in c.allTransfers then Skip(c)
    else
      var data := c.allTransfers[location];
      var c1 := c.(allTransfers := c.allTransfers - {location});
      if TransferSkipped(c, env, owner, t) then Skip(c1)
      else
        var lt := LowerCase(t.tick);
        var meta := c.tokens[lt];
        var p := meta.proto;
        var key := AddressToken(owner, p.tick);
        Step(
          c1.(accounts := c.accounts[key := Inscribe(c.accounts[key], t.amt)],
              validTransfers := c.validTransfers[location := (owner, data)],
              tokens := c.tokens[lt := meta.(proto := p.(transferCount := p.transferCount + 1, transactions := p.transactions + 1))]),
          [HDeployTransfer(p.tick, t.amt, owner, txid, vout)],
          [RemoveTransfer(location, key, t.amt)])
  }

  /** A spent transfer: the sender's transferable balance goes to the
      recipient's balance, or nowhere when it is burnt. The tick must be
      deployed and the sender must hold the transfer, or the indexer
      panics. */
  function ApplyTransferred(c: TokenCache, env: Env, location: Location, recipient: FullHash, txid: Txid, vout: u32): (r: Result<Step, string>)
    ensures location !in c.validTransfers ==> r == Ok(Skip(c))
    ensures location in c.validTransfers && LowerCase(c.validTransfers[location].1.tick) !in c.tokens
      ==> r == Err("Tick must exist")
    ensures r.Ok? && location in c.validTransfers ==>
      var (sender, v) := c.validTransfers[location];
      var lt := LowerCase(v.tick);
      && lt in c.tokens
      && var from := AddressToken(sender, c.tokens[lt].proto.tick);
      && from in c.accounts && c.accounts[from].transfersCount > 0 && v.amt <= c.accounts[from].transferable
    ensures r.Ok? && location in c.validTransfers ==>
      var (sender, v) := c.validTransfers[location];
      var lt := LowerCase(v.tick);
      var p := c.tokens[lt].proto;
      var from := AddressToken(sender, p.tick);
      var released := c.accounts[from := Release(c.accounts[from], v.amt)];
      && r.value.cache.validTransfers == c.validTransfers - {location}
      && r.value.cache.allTransfers == c.allTransfers
      && r.value.cache.tokens == c.tokens[lt := c.tokens[lt].(proto := p.(transactions := p.transactions + 1))]
      && (recipient == env.opReturn ==> r.value.cache.accounts == released)
      && (recipient != env.opReturn ==> var to := AddressToken(recipient, p.tick);
            r.value.cache.accounts == released[to := Credit(AccountOr(released, to), v.amt)])
      && r.value.history == [HSend(p.tick, v.amt, recipient, sender, txid, vout)]
      && r.value.undo == [RestoreTransferred(AddressLocation(sender, location), TransferProtoDB(p.tick, v.amt, v.height), recipient)]
    ensures r.Ok? ==> r.value.cache.actions == c.actions
  {
    if location !in c.validTransfers then Ok(Skip(c))
    else
      var (sender, v) := c.validTransfers[location];
      var lt := LowerCase(v.tick);
      if lt !in c.tokens then Err("Tick must exist")
      else
        var meta := c.tokens[lt];
        var p := meta.proto;
        var from := AddressToken(sender, p.tick);
        if from !in c.accounts then Err("called `Option::unwrap()` on a `None` value")
        else if c.accounts[from].transfersCount == 0 || c.accounts[from].transferable < v.amt then
          Err("Invalid transfer sender balance")
        else
          var released := c.accounts[from := Release(c.accounts[from], v.amt)];
          var accounts :=
            if recipient == env.opReturn then released
            else
              var to := AddressToken(recipient, p.tick);
              released[to := Credit(AccountOr(released, to), v.amt)];
          Ok(Step(
            c.(tokens := c.tokens[lt := meta.(proto := p.(transactions := p.transactions + 1))],
               accounts := accounts,
               validTransfers := c.validTransfers - {location}),
            [HSend(p.tick, v.amt, recipient, sender, txid, vout)],
            [RestoreTransferred(AddressLocation(sender, location), TransferProtoDB(p.tick, v.amt, v.height), recipient)]))
  }

  function ApplyAction(c: TokenCache, env: Env, a: TokenAction): (r: Result<Step, string>)
    ensures r.Ok? ==> r.value.cache.actions == c.actions
    ensures r.Ok? ==> |r.value.history| <= 1 && |r.value.undo| == |r.value.history|
  {
    match a
    case ADeploy(genesis, proto, owner) => Ok(ApplyDeploy(c, genesis, proto, owner))
    case AMint(owner, m, txid, vout) => ApplyMint(c, env, owner, m, txid, vout)
    case ATransfer(location, owner, t, txid, vout) => Ok(ApplyTransfer(c, env, location, owner, t, txid, vout))
    case ATransferred(location, recipient, txid, vout) => ApplyTransferred(c, env, location, recipient, txid, vout)
  }

  // ---------------------------------------------------------------------
  // `process_token_actions`.
  // ---------------------------------------------------------------------

  /** The undo entries go to the reorg cache when there is one. */
  function RecordUndo(reorg: Option<Reorg.ReorgCache>, es: seq<TokenHistoryEntry>): (r: Result<Option<Reorg.ReorgCache>, string>)
    ensures reorg.None? ==> r == Ok(None)
    ensures reorg.Some? ==> (r.Ok? <==> Reorg.RecordAll(reorg.value, es).Ok?)
    ensures r.Ok? && reorg.Some? ==> r.value == Some(Reorg.RecordAll(reorg.value, es).value)
  {
    match reorg
    case None => Ok(None)
    case Some(rc) =>
      match Reorg.RecordAll(rc, es)
      case Err(e) => Err(e)
      case Ok(rc1) => Ok(Some(rc1))
  }

  /** One action applied by `process_token_actions`. */
  function StepOf(env: Env): (TokenCache, TokenAction) -> Result<Step, string> {
    (c: TokenCache, a: TokenAction) => ApplyAction(c, env, a)
  }

  /** The actions applied in order by `step`, with the history and the undo
      entries of each in turn. */
  function Drain(step: (TokenCache, TokenAction) -> Result<Step, string>, c: TokenCache, actions: seq<TokenAction>, reorg: Option<Reorg.ReorgCache>)
    : (r: Result<(TokenCache, seq<HistoryTokenAction>, Option<Reorg.ReorgCache>), string>)
    ensures r.Ok? ==> (reorg.None? <==> r.value.2.None?)
    decreases |actions|
  {
    if |actions| == 0 then Ok((c, [], reorg))
    else
      var s :- step(c, actions[0]);
      var reorg1 :- RecordUndo(reorg, s.undo);
      var rest :- Drain(step, s.cache, actions[1..], reorg1);
      Ok((rest.0, s.history + rest.1, rest.2))
  }

  /** `process_token_actions`: the queue is drained. */
  function ProcessTokenActions(c: TokenCache, env: Env, reorg: Option<Reorg.ReorgCache>)
    : (r: Result<(TokenCache, seq<HistoryTokenAction>, Option<Reorg.ReorgCache>), string>)
    ensures r.Ok? ==> r.value.0.actions == []
  {
    var res :- Drain(StepOf(env), c, c.actions, reorg);
    Ok((res.0.(actions := []), res.1, res.2))
  }

  /** Draining two runs of actions is draining their concatenation: the
      history is that of the first run followed by that of the second. */
  lemma {:induction false} DrainAppend(step: (TokenCache, TokenAction) -> Result<Step, string>, c: TokenCache,
                                       xs: seq<TokenAction>, ys: seq<TokenAction>, reorg: Option<Reorg.ReorgCache>)
    requires Drain(step, c, xs, reorg).Ok?
    ensures var (c1, h1, reorg1) := Drain(step, c, xs, reorg).value;
      Drain(step, c, xs + ys, reorg) ==
        match Drain(step, c1, ys, reorg1)
        case Err(e) => Err(e)
        case Ok((c2, h2, reorg2)) => Ok((c2, h1 + h2, reorg2))
    decreases |xs|
  {
    if |xs| == 0 {
      assert xs + ys == ys;
      match Drain(step, c, ys, reorg)
      case Err(e) =>
      case Ok((c2, h2, r2)) =>
        assert [] + h2 == h2;
    } else {
      var s := step(c, xs[0]).value;
      var reorg1 := RecordUndo(reorg, s.undo).value;
      assert (xs + ys)[0] == xs[0];
      assert (xs + ys)[1..] == xs[1..] + ys;
      DrainAppend(step, s.cache, xs[1..], ys, reorg1);
      var (c1, h1, r1) := Drain(step, s.cache, xs[1..], reorg1).value;
      match Drain(step, c1, ys, r1)
      case Err(e) =>
        assert Drain(step, s.cache, xs[1..] + ys, reorg1) == Err(e);
      case Ok((c2, h2, r2)) =>
        assert s.history + (h1 + h2) == (s.history + h1) + h2;
    }
  }

  /** Each action of the drained queue leaves its own history records, in
      the order of the queue. */
  lemma {:induction false} DrainHistory(step: (TokenCache, TokenAction) -> Result<Step, string>, c: TokenCache,
                                        actions: seq<TokenAction>, reorg: Option<Reorg.ReorgCache>)
    requires Drain(step, c, actions, reorg).Ok? && |actions| > 0
    ensures var s := step(c, actions[|actions| - 1]);
      var init := Drain(step, c, actions[..|actions| - 1], reorg);
      && init.Ok?
      && step(init.value.0, actions[|actions| - 1]).Ok?
      && Drain(step, c, actions, reorg).value.1 == init.value.1 + step(init.value.0, actions[|actions| - 1]).value.history
  {
    var n := |actions| - 1;
    var xs, ys := actions[..n], [actions[n]];
    assert xs + ys == actions;
    if Drain(step, c, xs, reorg).Err? {
      DrainErrPrefix(step, c, xs, ys, reorg);
    } else {
      DrainAppend(step, c, xs, ys, reorg);
      var (c1, h1, r1) := Drain(step, c, xs, reorg).value;
      assert ys[1..] == [];
      var s1 := step(c1, ys[0]);
      assert s1.Ok?;
      assert Drain(step, c1, ys, r1).value.1 == s1.value.history + [];
    }
  }

  /** A failure in a prefix is a failure of the whole run. */
  lemma {:induction false} DrainErrPrefix(step: (TokenCache, TokenAction) -> Result<Step, string>, c: TokenCache,
                                          xs: seq<TokenAction>, ys: seq<TokenAction>, reorg: Option<Reorg.ReorgCache>)
    requires Drain(step, c, xs, reorg).Err?
    ensures Drain(step, c, xs + ys, reorg).Err?
    decreases |xs|
  {
    assert |xs| > 0;
    assert (xs + ys)[0] == xs[0];
    assert (xs + ys)[1..] == xs[1..] + ys;
    var s := step(c, xs[0]);
    if s.Ok? {
      var reorg1 := RecordUndo(reorg, s.value.undo);
      if reorg1.Ok? {
        DrainErrPrefix(step, s.value.cache, xs[1..], ys, reorg1.value);
      }
    }
  }

  // ---------------------------------------------------------------------
  // Invariants.
  // ---------------------------------------------------------------------

  /** No token has minted past its maximum. */
  predicate SupplyBounded(c: TokenCache) {
    forall t :: t in c.tokens ==> c.tokens[t].proto.supply <= c.tokens[t].proto.max
  }

  /** Every token sits under its own lower-cased tick. */
  predicate TicksKeyed(c: TokenCache) {
    forall t :: t in c.tokens ==> t == LowerCase(c.tokens[t].proto.tick)
  }

  /** The burn address holds no account and no validated transfer. */
  predicate NoBurn(c: TokenCache, env: Env) {
    && (forall k :: k in c.accounts ==> k.address != env.opReturn)
    && (forall l :: l in c.validTransfers ==> c.validTransfers[l].0 != env.opReturn)
  }

  predicate Good(c: TokenCache, env: Env) {
    SupplyBounded(c) && TicksKeyed(c) && NoBurn(c, env)
  }

  /** Deploys come with no supply: that is how `parse_token_action` makes
      them. */
  predicate ActionGood(env: Env, a: TokenAction) {
    OwnerNotBurn(env, a) && (a.ADeploy? ==> a.proto.supply <= a.proto.max)
  }

  lemma DeployGood(c: TokenCache, env: Env, genesis: InscriptionId, proto: DeployProtoDB, owner: FullHash)
    requires Good(c, env) && proto.supply <= proto.max
    ensures Good(ApplyDeploy(c, genesis, proto, owner).cache, env)
  {
    LowerCaseFacts(LowerCase(proto.tick), proto.tick);
  }

  lemma MintGood(c: TokenCache, env: Env, owner: FullHash, m: MintWrapper, txid: Txid, vout: u32)
    requires Good(c, env) && owner != env.opReturn
    ensures ApplyMint(c, env, owner, m, txid, vout).Ok?
    ensures Good(ApplyMint(c, env, owner, m, txid, vout).value.cache, env)
  {
    if !MintSkipped(c, env, m) {
      var lt := LowerCase(m.tick);
      var r := ApplyMint(c, env, owner, m, txid, vout).value.cache;
      assert forall t :: t in r.tokens && t != lt ==> r.tokens[t] == c.tokens[t];
    }
  }

  lemma TransferGood(c: TokenCache, env: Env, location: Location, owner: FullHash, t: MintWrapper, txid: Txid, vout: u32)
    requires Good(c, env) && owner != env.opReturn
    ensures Good(ApplyTransfer(c, env, location, owner, t, txid, vout).cache, env)
  {
    if location in c.allTransfers && !TransferSkipped(c, env, owner, t) {
      var lt := LowerCase(t.tick);
      var r := ApplyTransfer(c, env, location, owner, t, txid, vout).cache;
      assert forall x :: x in r.tokens && x != lt ==> r.tokens[x] == c.tokens[x];
    }
  }

  lemma TransferredGood(c: TokenCache, env: Env, location: Location, recipient: FullHash, txid: Txid, vout: u32)
    requires Good(c, env)
    ensures ApplyTransferred(c, env, location, recipient, txid, vout).Ok? ==>
      Good(ApplyTransferred(c, env, location, recipient, txid, vout).value.cache, env)
  {
    if location in c.validTransfers && ApplyTransferred(c, env, location, recipient, txid, vout).Ok? {
      var lt := LowerCase(c.validTransfers[location].1.tick);
      var r := ApplyTransferred(c, env, location, recipient, txid, vout).value.cache;
      assert forall x :: x in r.tokens && x != lt ==> r.tokens[x] == c.tokens[x];
    }
  }

  /** One action keeps the invariants, and with them only a spent transfer
      can fail. */
  lemma ApplyActionGood(c: TokenCache, env: Env, a: TokenAction)
    requires Good(c, env) && ActionGood(env, a)
    ensures !a.ATransferred? ==> ApplyAction(c, env, a).Ok?
    ensures ApplyAction(c, env, a).Ok? ==> Good(ApplyAction(c, env, a).value.cache, env)
  {
    match a
    case ADeploy(genesis, proto, owner) => DeployGood(c, env, genesis, proto, owner);
    case AMint(owner, m, txid, vout) => MintGood(c, env, owner, m, txid, vout);
    case ATransfer(location, owner, t, txid, vout) => TransferGood(c, env, location, owner, t, txid, vout);
    case ATransferred(location, recipient, txid, vout) => TransferredGood(c, env, location, recipient, txid, vout);
  }

  /** `process_token_actions` keeps the invariants: in particular no
      supply passes its maximum and the burn address never gets an
      account. */
  lemma ProcessGood(c: TokenCache, env: Env, reorg: Option<Reorg.ReorgCache>)
    requires Good(c, env)
    requires forall i :: 0 <= i < |c.actions| ==> ActionGood(env, c.actions[i])
    ensures ProcessTokenActions(c, env, reorg).Ok? ==> Good(ProcessTokenActions(c, env, reorg).value.0, env)
  {
    DrainGood(c, env, c.actions, reorg);
  }

  /** The invariants hold after any run of actions. */
  lemma {:induction false} DrainGood(c: TokenCache, env: Env, actions: seq<TokenAction>, reorg: Option<Reorg.ReorgCache>)
    requires Good(c, env)
    requires forall i :: 0 <= i < |actions| ==> ActionGood(env, actions[i])
    ensures Drain(StepOf(env), c, actions, reorg).Ok? ==> Good(Drain(StepOf(env), c, actions, reorg).value.0, env)
    decreases |actions|
  {
    if |actions| > 0 {
      ApplyActionGood(c, env, actions[0]);
      var s := StepOf(env)(c, actions[0]);
      if s.Ok? {
        var reorg1 := RecordUndo(reorg, s.value.undo);
        if reorg1.Ok? {
          assert forall i :: 0 <= i < |actions[1..]| ==> actions[1..][i] == actions[i + 1];
          DrainGood(s.value.cache, env, actions[1..], reorg1.value);
        }
      }
    }
  }

  /** An inscribed transfer keeps every account's total: what leaves the
      balance is now transferable. */
  lemma TransferConserves(c: TokenCache, env: Env, location: Location, owner: FullHash, t: MintWrapper, txid: Txid, vout: u32)
    ensures var r := ApplyTransfer(c, env, location, owner, t, txid, vout).cache;
      && r.accounts.Keys == c.accounts.Keys
      && forall k :: k in r.accounts ==> r.accounts[k].balance + r.accounts[k].transferable == c.accounts[k].balance + c.accounts[k].transferable
  {
  }

  /** A spent transfer moves exactly its amount: the sender's transferable
      balance loses it and, unless it is burnt, the recipient's balance
      gains it; no other account changes. */
  lemma TransferredMoves(c: TokenCache, env: Env, location: Location, recipient: FullHash, txid: Txid, vout: u32)
    requires ApplyTransferred(c, env, location, recipient, txid, vout).Ok?
    requires location in c.validTransfers
    ensures var r := ApplyTransferred(c, env, location, recipient, txid, vout).value.cache;
      var (sender, v) := c.validTransfers[location];
      var tick := c.tokens[LowerCase(v.tick)].proto.tick;
      var from, to := AddressToken(sender, tick), AddressToken(recipient, tick);
      && (from != to ==> r.accounts[from].transferable + v.amt == c.accounts[from].transferable)
      && (from != to && recipient != env.opReturn ==> r.accounts[to].balance == AccountOr(c.accounts, to).balance + v.amt)
      && (recipient == env.opReturn ==> r.accounts.Keys == c.accounts.Keys)
      && (forall k :: k in c.accounts && k != from && k != to ==> k in r.accounts && r.accounts[k] == c.accounts[k])
  {
  }

  // ---------------------------------------------------------------------
  // Undo inverts do: the entries an action records take the ledger back
  // through the replay of src/reorg.rs.
  // ---------------------------------------------------------------------

  /** Taking back a mint restores the account (a fresh account stays, at
      zero) and the token's counters. */
  lemma MintUndone(c: TokenCache, env: Env, owner: FullHash, m: MintWrapper, txid: Txid, vout: u32)
    requires TicksKeyed(c)
    requires ApplyMint(c, env, owner, m, txid, vout).Ok? && !MintSkipped(c, env, m)
    ensures var s := ApplyMint(c, env, owner, m, txid, vout).value;
      var key := s.undo[0].account;
      var amt := s.undo[0].amt;
      var lt := LowerCase(m.tick);
      && s.undo == [RemoveMint(key, amt)]
      && LowerCase(key.token) == lt
      && Reorg.UndoMints(s.cache.accounts, [(key, amt)]) == Ok(c.accounts[key := AccountOr(c.accounts, key)])
      && Reorg.Decrement(s.cache.tokens[lt], Reorg.UMint(lt, amt)) == Ok(c.tokens[lt])
  {
    var s := ApplyMint(c, env, owner, m, txid, vout).value;
    var key := s.undo[0].account;
    var amt := s.undo[0].amt;
    var xs: seq<(AddressToken, nat)> := [(key, amt)];
    assert xs[..0] == [];
    assert Reorg.UndoMints(s.cache.accounts, []) == Ok(s.cache.accounts);
    var prior := AccountOr(c.accounts, key);
    assert s.cache.accounts[key] == Credit(prior, amt);
    assert Reorg.CheckedSub(s.cache.accounts[key].balance, amt, Reorg.CheckedSubFailed) == Ok(prior.balance);
    assert s.cache.accounts[key := s.cache.accounts[key].(balance := prior.balance)] == c.accounts[key := prior];
  }

  /** Taking back an inscribed transfer restores the owner's account and
      the token's counters. */
  lemma TransferUndone(c: TokenCache, env: Env, location: Location, owner: FullHash, t: MintWrapper, txid: Txid, vout: u32)
    requires TicksKeyed(c)
    requires location in c.allTransfers && !TransferSkipped(c, env, owner, t)
    ensures var s := ApplyTransfer(c, env, location, owner, t, txid, vout);
      var lt := LowerCase(t.tick);
      var key := s.undo[0].account;
      && s.undo == [RemoveTransfer(location, key, t.amt)]
      && LowerCase(key.token) == lt
      && Reorg.UndoTransfers(s.cache.accounts, [(location, key, t.amt)]) == Ok(c.accounts)
      && Reorg.Decrement(s.cache.tokens[lt], Reorg.UTransfer(lt)) == Ok(c.tokens[lt])
  {
    var s := ApplyTransfer(c, env, location, owner, t, txid, vout);
    var key := s.undo[0].account;
    var x: (Location, AddressToken, nat) := (location, key, t.amt);
    assert [x][..0] == [];
    assert Reorg.UndoTransfers(s.cache.accounts, []) == Ok(s.cache.accounts);
    assert s.cache.accounts[key := c.accounts[key]] == c.accounts;
  }

  /** Taking back a spent transfer reopens the sender's transferable
      balance and takes the amount back from the recipient (a fresh account
      stays, at zero); the token's count goes back. */
  lemma TransferredUndone(c: TokenCache, env: Env, location: Location, recipient: FullHash, txid: Txid, vout: u32)
    requires TicksKeyed(c)
    requires location in c.validTransfers
    requires ApplyTransferred(c, env, location, recipient, txid, vout).Ok?
    ensures var s := ApplyTransferred(c, env, location, recipient, txid, vout).value;
      var e := s.undo[0];
      var lt := LowerCase(c.validTransfers[location].1.tick);
      var to := AddressToken(recipient, e.value.tick);
      var before := if recipient == env.opReturn then c.accounts else c.accounts[to := AccountOr(c.accounts, to)];
      && s.undo == [RestoreTransferred(e.key, e.value, recipient)]
      && LowerCase(e.value.tick) == lt
      && Reorg.UndoTransferred(s.cache.accounts, [(e.key, e.value, recipient)], env.opReturn) == Ok(before)
      && Reorg.Decrement(s.cache.tokens[lt], Reorg.UTransferred(lt)) == Ok(c.tokens[lt])
  {
    var s := ApplyTransferred(c, env, location, recipient, txid, vout).value;
    var e := s.undo[0];
    var x: (AddressLocation, TransferProtoDB, FullHash) := (e.key, e.value, recipient);
    assert [x][..0] == [];
    assert Reorg.UndoTransferred(s.cache.accounts, [], env.opReturn) == Ok(s.cache.accounts);
    var (sender, v) := c.validTransfers[location];
    var lt := LowerCase(v.tick);
    var p := c.tokens[lt].proto;
    var from := AddressToken(sender, p.tick);
    var to := AddressToken(recipient, p.tick);
    var released := c.accounts[from := Release(c.accounts[from], v.amt)];
    var reopened := s.cache.accounts[from := s.cache.accounts[from].(transferable := s.cache.accounts[from].transferable + v.amt,
                                                                      transfersCount := s.cache.accounts[from].transfersCount + 1)];
    if recipient == env.opReturn {
      assert reopened == c.accounts;
    } else {
      assert reopened[to].balance == AccountOr(c.accounts, to).balance + v.amt;
      assert reopened[to := reopened[to].(balance := AccountOr(c.accounts, to).balance)] == c.accounts[to := AccountOr(c.accounts, to)];
    }
  }
}

=== FILE: tokens.dfy ===
/** The token protocol values and the ledger records
    (src/tokens/proto.rs, src/tokens/structs.rs, src/db/structs.rs,
    core/src/types/history_token_action.rs). Amounts are `Fixed128` values,
    written here as natural numbers of 10^-18 units. */
module Tokens {
  import opened Bytes
  import opened Wrappers
  import opened Locations
  import opened Keys
  import Utf8

  /** One whole token in `Fixed128` units. */
  const Unit: nat := 1_000_000_000_000_000_000

  /** `Fixed128::from(n)` for an integer `n`. */
  function FixedOf(n: nat): (r: nat)
    ensures n <= r && (r == 0 <==> n == 0)
  {
    n * Unit
  }

  // ---------------------------------------------------------------------
  // Protocol values (src/tokens/proto.rs).
  // ---------------------------------------------------------------------

  const DefaultDec: u8 := 18
  const MaxDec: u8 := 18

  predicate StartsWith(s: string, c: char) { |s| > 0 && s[0] == c }
  predicate EndsWith(s: string, c: char) { |s| > 0 && s[|s| - 1] == c }

  /** No sign, no dot and no space at either end. */
  predicate PlainText(s: string) {
    !StartsWith(s, '+') && !StartsWith(s, '-') && !StartsWith(s, '.') && !EndsWith(s, '.')
    && !StartsWith(s, ' ') && !EndsWith(s, ' ')
  }

  const MsgPlusMinus := "value cannot start from + or -"
  const MsgDot := "value cannot start or end with ."
  const MsgSpaces := "value cannot contain spaces"
  const MsgTooLarge := "value is too large"

  /** `bel_20_validate`: the text checks, then `Fixed128::from_str`
      (a parameter here), then the `u64::MAX` bound. */
  function Validate(s: string, parseFixed: string -> Result<nat, string>): (r: Result<nat, string>)
    ensures (StartsWith(s, '+') || StartsWith(s, '-')) ==> r == Err(MsgPlusMinus)
    ensures !StartsWith(s, '+') && !StartsWith(s, '-') && (StartsWith(s, '.') || EndsWith(s, '.')) ==> r == Err(MsgDot)
    ensures r.Ok? <==> PlainText(s) && parseFixed(s).Ok? && parseFixed(s).value <= FixedOf(U64_MAX)
    ensures r.Ok? ==> r.value == parseFixed(s).value
  {
    if StartsWith(s, '+') || StartsWith(s, '-') then Err(MsgPlusMinus)
    else if StartsWith(s, '.') || EndsWith(s, '.') then Err(MsgDot)
    else if StartsWith(s, ' ') || EndsWith(s, ' ') then Err(MsgSpaces)
    else match parseFixed(s)
      case Ok(v) => if v > FixedOf(U64_MAX) then Err(MsgTooLarge) else Ok(v)
      case Err(e) => Err(e)
  }

  /** `bel_20_option_decimal`: an absent value stays absent. */
  function ValidateOption(s: Option<string>, parseFixed: string -> Result<nat, string>): (r: Result<Option<nat>, string>)
    ensures s.None? ==> r == Ok(None)
    ensures s.Some? ==> (r.Ok? <==> Validate(s.value, parseFixed).Ok?)
  {
    match s
    case None => Ok(None)
    case Some(v) =>
      match Validate(v, parseFixed)
      case Ok(x) => Ok(Some(x))
      case Err(e) => Err(e)
  }

  /** `bel_20_tick`: the UTF-8 bytes of the text, which must be four. */
  function DecodeTick(s: string): (r: Result<Tick, string>)
    ensures r.Ok? <==> TickFromStr(s).Some?
    ensures r.Ok? ==> r.value == Utf8.Encode(s)
  {
    var v := Utf8.Encode(s);
    if |v| != 4 then Err("invalid token tick") else Ok(v)
  }

  /** A tick of four ASCII characters is accepted, and only then among
      ASCII texts. */
  lemma AsciiTickLength(s: string)
    requires forall i :: 0 <= i < |s| ==> s[i] as int < 0x80
    ensures DecodeTick(s).Ok? <==> |s| == 4
  {
    Utf8.AsciiByteLen(s);
  }

  /** The `p` tag of a protocol value. */
  datatype Standard = Bel20 | Drc20

  datatype MintWrapper = MintWrapper(tick: Tick, amt: nat)

  datatype DeployWrapper = DeployWrapper(tick: Tick, max: nat, lim: Option<nat>, dec: u8)

  /** `MintProto`, `DeployProto`, `TransferProto`: a wrapper under its tag. */
  datatype Proto<W> = Proto(standard: Standard, wrapper: W)

  /** The tag a blockchain name accepts. */
  predicate Supported(standard: Standard, blockchain: string) {
    (standard == Bel20 && blockchain == "bells") || (standard == Drc20 && blockchain == "doge")
  }

  /** `*Proto::value`: the wrapper, if the tag suits the blockchain. */
  function Value<W>(p: Proto<W>, blockchain: string): (r: Result<W, string>)
    ensures r.Ok? <==> Supported(p.standard, blockchain)
    ensures r.Ok? ==> r.value == p.wrapper
  {
    if Supported(p.standard, blockchain) then Ok(p.wrapper) else Err("Unsupported type")
  }

  /** `Brc4Value`. */
  datatype Brc4Value =
    | MintValue(tick: Tick, amt: nat)
    | TransferValue(tick: Tick, amt: nat)
    | DeployValue(tick: Tick, max: nat, lim: nat, dec: u8)

  /** `TryFrom<&DeployProto> for Brc4Value`: an absent limit is the maximum. */
  function DeployToValue(p: Proto<DeployWrapper>, blockchain: string): (r: Result<Brc4Value, string>)
    ensures r.Ok? <==> Supported(p.standard, blockchain)
    ensures r.Ok? ==> r.value.DeployValue?
    ensures r.Ok? ==> r.value.tick == p.wrapper.tick && r.value.max == p.wrapper.max && r.value.dec == p.wrapper.dec
    ensures r.Ok? && p.wrapper.lim.None? ==> r.value.lim == p.wrapper.max
    ensures r.Ok? && p.wrapper.lim.Some? ==> r.value.lim == p.wrapper.lim.value
  {
    var w :- Value(p, blockchain);
    Ok(DeployValue(w.tick, w.max, w.lim.UnwrapOr(w.max), w.dec))
  }

  function MintToValue(p: Proto<MintWrapper>, blockchain: string): (r: Result<Brc4Value, string>)
    ensures r.Ok? <==> Supported(p.standard, blockchain)
    ensures r.Ok? ==> r.value == MintValue(p.wrapper.tick, p.wrapper.amt)
  {
    var w :- Value(p, blockchain);
    Ok(MintValue(w.tick, w.amt))
  }

  function TransferToValue(p: Proto<MintWrapper>, blockchain: string): (r: Result<Brc4Value, string>)
    ensures r.Ok? <==> Supported(p.standard, blockchain)
    ensures r.Ok? ==> r.value == TransferValue(p.wrapper.tick, p.wrapper.amt)
  {
    var w :- Value(p, blockchain);
    Ok(TransferValue(w.tick, w.amt))
  }

  /** `TransferProtoDB`: a transfer inscription's tick and amount, and the
      height it was inscribed at. */
  datatype TransferProtoDB = TransferProtoDB(tick: Tick, amt: nat, height: u32)

  function TransferFromProto(p: Proto<MintWrapper>, height: u32, blockchain: string): (r: Result<TransferProtoDB, string>)
    ensures r.Ok? <==> Supported(p.standard, blockchain)
  {
    var w :- Value(p, blockchain);
    Ok(TransferProtoDB(w.tick, w.amt, height))
  }

  /** `From<TransferProtoDB> for TransferProto`: `bel-20` on "bells",
      `drc-20` everywhere else. */
  function TransferToProto(v: TransferProtoDB, blockchain: string): Proto<MintWrapper> {
    Proto(if blockchain == "bells" then Bel20 else Drc20, MintWrapper(v.tick, v.amt))
  }

  /** Converting a stored transfer to its protocol value and back keeps it
      exactly on the two supported blockchains and fails elsewhere. */
  lemma TransferProtoRoundTrip(v: TransferProtoDB, blockchain: string)
    ensures TransferFromProto(TransferToProto(v, blockchain), v.height, blockchain).Ok?
      <==> (blockchain == "bells" || blockchain == "doge")
    ensures blockchain == "bells" || blockchain == "doge" ==>
      TransferFromProto(TransferToProto(v, blockchain), v.height, blockchain) == Ok(v)
  {
  }

  /** `DeployProtoDB`: a deployed token's parameters and counters. */
  datatype DeployProtoDB = DeployProtoDB(
    tick: Tick, max: nat, lim: nat, dec: u8, supply: nat,
    transferCount: nat, mintCount: nat, height: u32, created: u32,
    deployer: FullHash, transactions: nat)

  /** `is_completed`: the whole supply is minted. */
  predicate IsCompleted(p: DeployProtoDB) {
    p.supply == p.max
  }

  datatype TokenMeta = TokenMeta(genesis: InscriptionId, proto: DeployProtoDB)

  /** `TokenBalance`; `Default` is all zero. */
  datatype TokenBalance = TokenBalance(balance: nat, transferable: nat, transfersCount: nat)

  const ZeroBalance := TokenBalance(0, 0, 0)

  /** Tokens received: `balance += amt`. */
  function Credit(b: TokenBalance, amt: nat): (r: TokenBalance)
    ensures r.balance == b.balance + amt
    ensures r.transferable == b.transferable && r.transfersCount == b.transfersCount
  {
    b.(balance := b.balance + amt)
  }

  /** An inscribed transfer moves `amt` from the balance to the transferable
      balance and counts one more open transfer; the total is kept. */
  function Inscribe(b: TokenBalance, amt: nat): (r: TokenBalance)
    requires amt <= b.balance
    ensures r.balance + r.transferable == b.balance + b.transferable
    ensures r.transferable == b.transferable + amt && r.transfersCount == b.transfersCount + 1
  {
    TokenBalance(b.balance - amt, b.transferable + amt, b.transfersCount + 1)
  }

  /** A spent transfer leaves the sender's transferable balance and closes
      one open transfer. */
  function Release(b: TokenBalance, amt: nat): (r: TokenBalance)
    requires b.transfersCount > 0 && amt <= b.transferable
    ensures r.balance == b.balance
    ensures r.transferable + amt == b.transferable && r.transfersCount + 1 == b.transfersCount
  {
    TokenBalance(b.balance, b.transferable - amt, b.transfersCount - 1)
  }

  // ---------------------------------------------------------------------
  // History records.
  // ---------------------------------------------------------------------

  /** `HistoryTokenAction`: what a processed token action did. */
  datatype HistoryTokenAction =
    | HDeploy(tick: Tick, max: nat, lim: nat, dec: u8, recipient: FullHash, txid: Txid, vout: u32)
    | HMint(tick: Tick, amt: nat, recipient: FullHash, txid: Txid, vout: u32)
    | HDeployTransfer(tick: Tick, amt: nat, recipient: FullHash, txid: Txid, vout: u32)
    | HSend(tick: Tick, amt: nat, recipient: FullHash, sender: FullHash, txid: Txid, vout: u32)

  /** `sender()`. */
  function Sender(a: HistoryTokenAction): (r: Option<FullHash>)
    ensures r.Some? <==> a.HSend?
  {
    match a
    case HSend(_, _, _, sender, _, _) => Some(sender)
    case _ => None
  }

  /** `TokenHistoryDB`: a history record as stored under one address. */
  datatype TokenHistoryDB =
    | DbDeploy(max: nat, lim: nat, dec: u8, txid: Txid, vout: u32)
    | DbMint(amt: nat, txid: Txid, vout: u32)
    | DbDeployTransfer(amt: nat, txid: Txid, vout: u32)
    | DbSend(amt: nat, recipient: FullHash, txid: Txid, vout: u32)
    | DbReceive(amt: nat, sender: FullHash, txid: Txid, vout: u32)
    | DbSendReceive(amt: nat, txid: Txid, vout: u32)

  datatype HistoryValue = HistoryValue(height: u32, action: TokenHistoryDB)

  /** `from_token_history`: a send to oneself becomes `SendReceive`. */
  function FromTokenHistory(a: HistoryTokenAction): TokenHistoryDB {
    match a
    case HDeploy(_, max, lim, dec, _, txid, vout) => DbDeploy(max, lim, dec, txid, vout)
    case HMint(_, amt, _, txid, vout) => DbMint(amt, txid, vout)
    case HDeployTransfer(_, amt, _, txid, vout) => DbDeployTransfer(amt, txid, vout)
    case HSend(_, amt, recipient, sender, txid, vout) =>
      if sender == recipient then DbSendReceive(amt, txid, vout) else DbSend(amt, recipient, txid, vout)
  }

  /** `address()`: the other party of a send or a receive. */
  function CounterParty(h: TokenHistoryDB): (r: Option<FullHash>)
    ensures r.Some? <==> h.DbSend? || h.DbReceive?
  {
    match h
    case DbReceive(_, sender, _, _) => Some(sender)
    case DbSend(_, recipient, _, _) => Some(recipient)
    case _ => None
  }

  /** `outpoint()`. */
  function HistoryOutPoint(h: TokenHistoryDB): OutPoint {
    OutPoint(h.txid, h.vout)
  }

  function ActionOutPoint(a: HistoryTokenAction): OutPoint {
    OutPoint(a.txid, a.vout)
  }

  /** `from_token_history` keeps the outpoint; a send is `SendReceive`
      exactly when sender and recipient agree, and otherwise names the
      recipient as its counter-party; it never yields `Receive`, and only
      a send has a counter-party. */
  lemma FromTokenHistoryFacts(a: HistoryTokenAction)
    ensures HistoryOutPoint(FromTokenHistory(a)) == ActionOutPoint(a)
    ensures !FromTokenHistory(a).DbReceive?
    ensures FromTokenHistory(a).DbSendReceive? <==> a.HSend? && a.sender == a.recipient
    ensures CounterParty(FromTokenHistory(a)).Some? <==> a.HSend? && a.sender != a.recipient
    ensures CounterParty(FromTokenHistory(a)).Some? ==> CounterParty(FromTokenHistory(a)).value == a.recipient
    ensures Sender(a).Some? <==> FromTokenHistory(a).DbSend? || FromTokenHistory(a).DbSendReceive?
    ensures !a.HDeploy? ==> FromTokenHistory(a).amt == a.amt
    ensures a.HDeploy? ==> FromTokenHistory(a) == DbDeploy(a.max, a.lim, a.dec, a.txid, a.vout)
  {
  }

  // ---------------------------------------------------------------------
  // Undo records (`TokenHistoryEntry` of src/reorg.rs).
  // ---------------------------------------------------------------------

  /** A spendable output as the prevout table stores it. */
  datatype TxOut = TxOut(value: u64, scriptPubkey: Bytes)

  datatype TokenHistoryEntry =
    | RemoveDeployed(tick: Tick)
    | RemoveMint(account: AddressToken, amt: nat)
    | RemoveTransfer(location: Location, account: AddressToken, amt: nat)
    | RestoreTransferred(key: AddressLocation, value: TransferProtoDB, recipient: FullHash)
    | RemoveHistory(historyKey: AddressTokenId)
    | RestorePrevout(outpoint: OutPoint, txout: TxOut)
}

=== FILE: utf8.dfy ===
/** UTF-8 as Rust's `str` uses it: `as_bytes` is the encoding, `len()` is
    the encoded byte length and `String::from_utf8` / `str::from_utf8`
    accept exactly the well-formed byte sequences of the Unicode standard
    (table 3-7, "Well-Formed UTF-8 Byte Sequences", of chapter 3 of the
    Unicode Standard). A Dafny `char` is a Unicode scalar value. */
module Utf8 {
  import opened Bytes
  import opened Wrappers

  function EncodeChar(c: char): (r: Bytes)
    ensures 1 <= |r| <= 4
    ensures (c as int < 0x80) <==> |r| == 1
  {
    var n := c as int;
    if n < 0x80 then [n]
    else if n < 0x800 then [0xC0 + n / 64, 0x80 + n % 64]
    else if n < 0x1_0000 then [0xE0 + n / 4096, 0x80 + (n / 64) % 64, 0x80 + n % 64]
    else [0xF0 + n / 262144, 0x80 + (n / 4096) % 64, 0x80 + (n / 64) % 64, 0x80 + n % 64]
  }

  /** `str::as_bytes`. */
  function Encode(s: string): Bytes {
    if |s| == 0 then [] else EncodeChar(s[0]) + Encode(s[1..])
  }

  /** `str::len`: the number of bytes of the encoding. */
  function ByteLen(s: string): nat {
    |Encode(s)|
  }

  predicate Cont(b: u8) { 0x80 <= b < 0xC0 }

  /** The scalar value at the front of `bs` and the number of bytes it
      occupies, or `None` when the front is not well-formed. */
  function DecodeFirst(bs: Bytes): (r: Option<(char, nat)>)
    requires |bs| > 0
    ensures r.Some? ==> 1 <= r.value.1 <= |bs|
  {
    var b0: int := bs[0];
    if b0 < 0x80 then Some((b0 as char, 1))
    else if 0xC2 <= b0 <= 0xDF then
      if |bs| >= 2 && Cont(bs[1]) then
        Some((Scalar2(b0, bs[1]) as char, 2))
      else None
    else if 0xE0 <= b0 <= 0xEF then
      var lo := if b0 == 0xE0 then 0xA0 else 0x80;
      var hi := if b0 == 0xED then 0x9F else 0xBF;
      if |bs| >= 3 && lo <= bs[1] <= hi && Cont(bs[2]) then
        Some((Scalar3(b0, bs[1], bs[2]) as char, 3))
      else None
    else if 0xF0 <= b0 <= 0xF4 then
      var lo := if b0 == 0xF0 then 0x90 else 0x80;
      var hi := if b0 == 0xF4 then 0x8F else 0xBF;
      if |bs| >= 4 && lo <= bs[1] <= hi && Cont(bs[2]) && Cont(bs[3]) then
        Some((Scalar4(b0, bs[1], bs[2], bs[3]) as char, 4))
      else None
    else None
  }

  function Scalar2(b0: int, b1: int): int {
    (b0 - 0xC0) * 64 + (b1 - 0x80)
  }

  function Scalar3(b0: int, b1: int, b2: int): int {
    (b0 - 0xE0) * 4096 + (b1 - 0x80) * 64 + (b2 - 0x80)
  }

  function Scalar4(b0: int, b1: int, b2: int, b3: int): int {
    (b0 - 0xF0) * 262144 + (b1 - 0x80) * 4096 + (b2 - 0x80) * 64 + (b3 - 0x80)
  }

  /** `String::from_utf8`: `None` on ill-formed input. */
  function Decode(bs: Bytes): Option<string>
    decreases |bs|
  {
    if |bs| == 0 then Some("")
    else match DecodeFirst(bs)
      case None => None
      case Some((c, n)) =>
        match Decode(bs[n..])
        case None => None
        case Some(rest) => Some([c] + rest)
  }

  predicate Valid(bs: Bytes) {
    Decode(bs).Some?
  }

  lemma Width2(n: int)
    requires 0x80 <= n < 0x800
    ensures 0xC2 <= 0xC0 + n / 64 <= 0xDF && 0x80 <= 0x80 + n % 64 < 0xC0
    ensures Scalar2(0xC0 + n / 64, 0x80 + n % 64) == n
  {
  }

  lemma Width3(n: int)
    requires 0x800 <= n < 0x1_0000 && !(0xD800 <= n < 0xE000)
    ensures var b0, b1 := 0xE0 + n / 4096, 0x80 + (n / 64) % 64;
      && 0xE0 <= b0 <= 0xEF
      && (if b0 == 0xE0 then 0xA0 else 0x80) <= b1 <= (if b0 == 0xED then 0x9F else 0xBF)
      && Scalar3(b0, b1, 0x80 + n % 64) == n
  {
  }

  lemma Width4(n: int)
    requires 0x1_0000 <= n < 0x11_0000
    ensures var b0, b1 := 0xF0 + n / 262144, 0x80 + (n / 4096) % 64;
      && 0xF0 <= b0 <= 0xF4
      && (if b0 == 0xF0 then 0x90 else 0x80) <= b1 <= (if b0 == 0xF4 then 0x8F else 0xBF)
      && Scalar4(b0, b1, 0x80 + (n / 64) % 64, 0x80 + n % 64) == n
  {
  }

  lemma DecodeFirstOfEncodeChar(c: char, rest: Bytes)
    ensures DecodeFirst(EncodeChar(c) + rest) == Some((c, |EncodeChar(c)|))
  {
    var n := c as int;
    if 0x80 <= n < 0x800 {
      Width2(n);
    } else if 0x800 <= n < 0x1_0000 {
      Width3(n);
    } else if 0x1_0000 <= n {
      Width4(n);
    }
  }

  lemma Unwidth2(b0: int, b1: int)
    requires 0xC2 <= b0 <= 0xDF && 0x80 <= b1 < 0xC0
    ensures var n := Scalar2(b0, b1); 0x80 <= n < 0x800 && b0 == 0xC0 + n / 64 && b1 == 0x80 + n % 64
  {
  }

  lemma Unwidth3(b0: int, b1: int, b2: int)
    requires 0xE0 <= b0 <= 0xEF && 0x80 <= b2 < 0xC0
    requires (if b0 == 0xE0 then 0xA0 else 0x80) <= b1 <= (if b0 == 0xED then 0x9F else 0xBF)
    ensures var n := Scalar3(b0, b1, b2);
      && 0x800 <= n < 0x1_0000 && !(0xD800 <= n < 0xE000)
      && b0 == 0xE0 + n / 4096 && b1 == 0x80 + (n / 64) % 64 && b2 == 0x80 + n % 64
  {
  }

  lemma Unwidth4(b0: int, b1: int, b2: int, b3: int)
    requires 0xF0 <= b0 <= 0xF4 && 0x80 <= b2 < 0xC0 && 0x80 <= b3 < 0xC0
    requires (if b0 == 0xF0 then 0x90 else 0x80) <= b1 <= (if b0 == 0xF4 then 0x8F else 0xBF)
    ensures var n := Scalar4(b0, b1, b2, b3);
      && 0x1_0000 <= n < 0x11_0000
      && b0 == 0xF0 + n / 262144 && b1 == 0x80 + (n / 4096) % 64
      && b2 == 0x80 + (n / 64) % 64 && b3 == 0x80 + n % 64
  {
    var n := Scalar4(b0, b1, b2, b3);
    var q1 := (b0 - 0xF0) * 4096 + (b1 - 0x80) * 64 + (b2 - 0x80);
    var q2 := (b0 - 0xF0) * 64 + (b1 - 0x80);
    assert n == q1 * 64 + (b3 - 0x80);
    assert n / 64 == q1 && n % 64 == b3 - 0x80;
    assert q1 == q2 * 64 + (b2 - 0x80);
    assert q1 / 64 == q2 && q1 % 64 == b2 - 0x80;
    assert n == q2 * 4096 + (b2 - 0x80) * 64 + (b3 - 0x80);
    assert n / 4096 == q2;
    assert q2 % 64 == b1 - 0x80;
    assert n / 262144 == b0 - 0xF0;
  }

  lemma EncodeCharOfDecodeFirst(bs: Bytes)
    requires |bs| > 0 && DecodeFirst(bs).Some?
    ensures EncodeChar(DecodeFirst(bs).value.0) == bs[..DecodeFirst(bs).value.1]
  {
    var k := DecodeFirst(bs).value.1;
    if k == 2 {
      Unwidth2(bs[0], bs[1]);
    } else if k == 3 {
      Unwidth3(bs[0], bs[1], bs[2]);
    } else if k == 4 {
      Unwidth4(bs[0], bs[1], bs[2], bs[3]);
    }
  }

  /** Encoding and then decoding gives back the string. */
  lemma {:induction false} DecodeEncode(s: string)
    ensures Decode(Encode(s)) == Some(s)
  {
    if |s| > 0 {
      var e := EncodeChar(s[0]);
      DecodeFirstOfEncodeChar(s[0], Encode(s[1..]));
      assert (e + Encode(s[1..]))[|e|..] == Encode(s[1..]);
      DecodeEncode(s[1..]);
      assert [s[0]] + s[1..] == s;
    }
  }

  /** Decoding is canonical: a well-formed byte string is the encoding of
      what it decodes to, so no two byte strings decode alike. */
  lemma {:induction false} EncodeDecode(bs: Bytes)
    requires Decode(bs).Some?
    ensures Encode(Decode(bs).value) == bs
    decreases |bs|
  {
    if |bs| > 0 {
      var first := DecodeFirst(bs).value;
      var n := first.1;
      var rest := Decode(bs[n..]).value;
      assert Decode(bs).value == [first.0] + rest;
      EncodeDecode(bs[n..]);
      EncodeCharOfDecodeFirst(bs);
      EncodeCons(first.0, rest);
      assert bs == bs[..n] + bs[n..];
    }
  }

  lemma EncodeCons(c: char, s: string)
    ensures Encode([c] + s) == EncodeChar(c) + Encode(s)
  {
    assert ([c] + s)[1..] == s;
  }

  lemma {:induction false} EncodeAppend(s: string, t: string)
    ensures Encode(s + t) == Encode(s) + Encode(t)
  {
    if |s| > 0 {
      assert (s + t)[0] == s[0];
      assert (s + t)[1..] == s[1..] + t;
      EncodeAppend(s[1..], t);
    } else {
      assert s + t == t;
    }
  }

  /** On ASCII text the encoding is one byte per character. */
  lemma {:induction false} AsciiByteLen(s: string)
    requires forall i :: 0 <= i < |s| ==> s[i] as int < 0x80
    ensures ByteLen(s) == |s|
    ensures forall i :: 0 <= i < |s| ==> Encode(s)[i] == s[i] as int
  {
    if |s| > 0 {
      AsciiByteLen(s[1..]);
      assert Encode(s) == [s[0] as int] + Encode(s[1..]);
    }
  }
}

=== FILE: varint.dfy ===
/** The VARINT of Bitcoin Core's block index (`read_varint` in both
    versions of the block-index reader): base-128 digits, most significant
    first, with the high bit marking that another digit follows and one
    added for every such continuation, which makes each number's form
    unique. It is not the CompactSize of `VarUints`. */
module CoreVarInt {
  import opened Bytes
  import opened Wrappers

  datatype VarIntError =
    | UnexpectedEof   // `read_u8` ran out of input
    | SizeTooLarge    // the `panic!("size too large")` of the reader

  /** The loop of `read_varint`, with `n` the number read so far. The end
      of input is checked before the overflow guard, as the byte is read
      first. */
  function ReadAcc(bs: Bytes, n: u64): (r: Result<(u64, Bytes), VarIntError>)
    ensures r.Ok? ==> |r.value.1| < |bs| && r.value.1 == bs[|bs| - |r.value.1|..]
    decreases |bs|
  {
    if |bs| == 0 then Err(UnexpectedEof)
    else if n > U64_MAX / 128 then Err(SizeTooLarge)
    else
      var ch := bs[0];
      var m := n * 128 + ch % 128;
      if ch >= 128 then
        if m == U64_MAX then Err(SizeTooLarge)
        else ReadAcc(bs[1..], m + 1)
      else Ok((m, bs[1..]))
  }

  /** `read_varint`: the number and the rest of the input. */
  function ReadVarInt(bs: Bytes): Result<(u64, Bytes), VarIntError> {
    ReadAcc(bs, 0)
  }

  /** Bitcoin Core's `WriteVarInt`, the form `read_varint` inverts: the
      digits of `n`, each but the last with the high bit, where every
      digit before the last stands for one less than it would in plain
      base 128. `cont` sets the high bit of the last digit too. */
  function Enc(n: nat, cont: bool): (r: Bytes)
    ensures |r| > 0
  {
    var hi := if cont then 128 else 0;
    if n <= 127 then [n + hi] else Enc(n / 128 - 1, true) + [n % 128 + hi]
  }

  function WriteVarInt(n: u64): Bytes {
    Enc(n, false)
  }

  /** Splitting off and putting back the last base-128 digit. */
  lemma LastDigit(a: nat, c: nat)
    requires c < 128
    ensures (a * 128 + c) / 128 == a && (a * 128 + c) % 128 == c
  {
  }

  lemma SplitDigit(m: nat)
    ensures m == (m / 128) * 128 + m % 128 && m % 128 < 128
    ensures m <= U64_MAX ==> m / 128 <= U64_MAX / 128
  {
  }

  /** Reading the continuation digits of `m` leaves `m + 1` in the
      accumulator, as the next digit expects. */
  lemma {:induction false} ContPrefix(m: nat, tail: Bytes)
    requires m < U64_MAX
    ensures ReadAcc(Enc(m, true) + tail, 0) == ReadAcc(tail, m + 1)
  {
    if m <= 127 {
      assert (Enc(m, true) + tail)[1..] == tail;
    } else {
      var q := m / 128 - 1;
      var b := m % 128 + 128;
      assert Enc(m, true) + tail == Enc(q, true) + ([b] + tail);
      ContPrefix(q, [b] + tail);
      ContStep(m, tail);
    }
  }

  /** One continuation digit: the accumulator `m / 128` becomes `m + 1`. */
  lemma ContStep(m: nat, tail: Bytes)
    requires 127 < m < U64_MAX
    ensures ReadAcc([m % 128 + 128] + tail, m / 128) == ReadAcc(tail, m + 1)
  {
    SplitDigit(m);
    assert ([m % 128 + 128] + tail)[1..] == tail;
  }

  /** Every u64 written as Bitcoin Core writes it reads back, and the
      reader stops right after it. */
  lemma RoundTrip(n: u64, rest: Bytes)
    ensures ReadVarInt(WriteVarInt(n) + rest) == Ok((n, rest))
  {
    if n <= 127 {
      assert (WriteVarInt(n) + rest)[1..] == rest;
    } else {
      var q := n / 128 - 1;
      SplitDigit(n);
      assert WriteVarInt(n) + rest == Enc(q, true) + ([n % 128] + rest);
      ContPrefix(q, [n % 128] + rest);
      assert ([n % 128] + rest)[1..] == rest;
    }
  }

  /** The converse: whatever the reader accepts is the written form of the
      number it returns, so each number has exactly one form. `pre` is
      the part already consumed when the accumulator holds `a`. */
  lemma {:induction false} ReadIsWritten(pre: Bytes, bs: Bytes, a: u64)
    requires (a == 0 && pre == []) || (a > 0 && pre == Enc(a - 1, true))
    requires ReadAcc(bs, a).Ok?
    ensures pre + bs == WriteVarInt(ReadAcc(bs, a).value.0) + ReadAcc(bs, a).value.1
    decreases |bs|
  {
    var ch := bs[0];
    var m := a * 128 + ch % 128;
    NextDigit(pre, a, ch);
    assert pre + bs == (pre + [ch]) + bs[1..];
    if ch >= 128 {
      ReadIsWritten(pre + [ch], bs[1..], m + 1);
    }
  }

  /** One more digit after the consumed part of `a` is the written form of
      the new accumulator. */
  lemma NextDigit(pre: Bytes, a: nat, ch: u8)
    requires (a == 0 && pre == []) || (a > 0 && pre == Enc(a - 1, true))
    ensures pre + [ch] == Enc(a * 128 + ch % 128, ch >= 128)
  {
    LastDigit(a, ch % 128);
  }

  /** Both directions together: the reader accepts `bs` with value `n`
      and rest `rest` exactly when `bs` is `n` written out followed by
      `rest`. */
  lemma Unique(bs: Bytes, n: u64, rest: Bytes)
    ensures ReadVarInt(bs) == Ok((n, rest)) <==> bs == WriteVarInt(n) + rest
  {
    if ReadVarInt(bs) == Ok((n, rest)) {
      ReadIsWritten([], bs, 0);
    }
    if bs == WriteVarInt(n) + rest {
      RoundTrip(n, rest);
    }
  }

  /** A continuation byte at the very end of the input is an end of input. */
  lemma TruncatedFails()
    ensures ReadVarInt([0x80]) == Err(UnexpectedEof)
  {
  }
}

=== FILE: varuint.dfy ===
/** Bitcoin's CompactSize integer (`VarUint` of the block parser): a first
    byte up to 0xfc is the value, and 0xfd, 0xfe and 0xff announce a
    little-endian u16, u32 or u64. The raw bytes are kept beside the value,
    so a non-canonical form is written back exactly as it was read. */
module VarUints {
  import opened Bytes
  import opened Wrappers
  import Text

  /** `VarUint`: the value and the bytes it was read from or built as. */
  datatype VarUint = VarUint(value: u64, buf: Bytes)

  /** The message of `io::ErrorKind::UnexpectedEof` from `read_exact`. */
  const EofError: string := "failed to fill whole buffer"

  /** How many value bytes follow a first byte. */
  function Width(first: u8): nat {
    if first <= 0xfc then 0 else if first == 0xfd then 2 else if first == 0xfe then 4 else 8
  }

  /** `read_u16/u32/u64::<LittleEndian>`: `n` bytes, or the end of input. */
  function ReadLe(bs: Bytes, n: nat): (r: Result<(nat, Bytes), string>)
    ensures r.Err? <==> |bs| < n
    ensures r.Ok? ==> r.value.0 < Pow256(n) && bs == LeBytes(r.value.0, n) + r.value.1
  {
    if |bs| < n then Err(EofError)
    else
      LeBytesOfValue(bs[..n]);
      assert bs == bs[..n] + bs[n..];
      Ok((LeValue(bs[..n]), bs[n..]))
  }

  function FromU8(v: u8): VarUint {
    VarUint(v, [v])
  }

  function FromU16(v: u16): VarUint {
    assert Pow256(2) == 0x1_0000;
    VarUint(v, [0xfd] + LeBytes(v, 2))
  }

  function FromU32(v: u32): VarUint {
    assert Pow256(4) == 0x1_0000_0000;
    VarUint(v, [0xfe] + LeBytes(v, 4))
  }

  function FromU64(v: u64): VarUint {
    assert Pow256(8) == 0x1_0000_0000_0000_0000;
    VarUint(v, [0xff] + LeBytes(v, 8))
  }

  /** `VarUint::read_from`: the value and the rest of the input. The bytes
      kept are exactly the bytes consumed, and the input runs out only when
      it is shorter than the first byte announces. */
  function ReadFrom(bs: Bytes): (r: Result<(VarUint, Bytes), string>)
    ensures r.Err? <==> |bs| == 0 || |bs| < 1 + Width(bs[0])
    ensures r.Ok? ==> bs == r.value.0.buf + r.value.1
    ensures r.Ok? ==> |r.value.0.buf| == 1 + Width(bs[0])
    ensures r.Ok? && bs[0] <= 0xfc ==> r.value.0.value == bs[0]
    ensures r.Ok? && bs[0] > 0xfc ==> r.value.0.value == LeValue(bs[1..1 + Width(bs[0])])
  {
    if |bs| == 0 then Err(EofError)
    else if bs[0] <= 0xfc then
      assert bs == [bs[0]] + bs[1..];
      Ok((FromU8(bs[0]), bs[1..]))
    else ReadWide(bs)
  }

  /** `read_from` after a marker byte: the value is the little-endian
      integer of the width the marker announces. */
  function ReadWide(bs: Bytes): (r: Result<(VarUint, Bytes), string>)
    requires |bs| > 0 && bs[0] > 0xfc
    ensures r.Err? <==> |bs| < 1 + Width(bs[0])
    ensures r.Ok? ==> bs == r.value.0.buf + r.value.1
    ensures r.Ok? ==> |r.value.0.buf| == 1 + Width(bs[0])
    ensures r.Ok? ==> r.value.0.value == LeValue(bs[1..1 + Width(bs[0])])
  {
    var first := bs[0];
    match ReadLe(bs[1..], Width(first))
    case Err(e) => Err(e)
    case Ok((v, rest)) =>
      assert Pow256(2) == 0x1_0000 && Pow256(4) == 0x1_0000_0000 && Pow256(8) == 0x1_0000_0000_0000_0000;
      LeRoundTrip(v, Width(first));
      assert bs[1..] == LeBytes(v, Width(first)) + rest;
      assert bs[1..1 + Width(first)] == LeBytes(v, Width(first));
      assert bs == [first] + bs[1..];
      var x := if first == 0xfd then FromU16(v) else if first == 0xfe then FromU32(v) else FromU64(v);
      Ok((x, rest))
  }

  /** What `read_from` reads depends only on its own bytes: the same bytes
      in front of any other input give the same value. */
  lemma PrefixDecides(bs: Bytes, rest: Bytes)
    requires ReadFrom(bs).Ok?
    ensures ReadFrom(ReadFrom(bs).value.0.buf + rest) == Ok((ReadFrom(bs).value.0, rest))
  {
    var x := ReadFrom(bs).value.0;
    var bs2 := x.buf + rest;
    assert bs2[0] == bs[0];
    assert bs2[1..1 + Width(bs[0])] == bs[1..1 + Width(bs[0])];
  }

  /** Each `From` builds bytes that `read_from` turns back into the same
      value and bytes; for `From<u8>` only below 0xfd, since 0xfd..0xff are
      the markers. */
  lemma FromU8RoundTrip(v: u8, rest: Bytes)
    requires v <= 0xfc
    ensures ReadFrom(FromU8(v).buf + rest) == Ok((FromU8(v), rest))
  {
    assert (FromU8(v).buf + rest)[1..] == rest;
  }

  lemma FromU16RoundTrip(v: u16, rest: Bytes)
    ensures ReadFrom(FromU16(v).buf + rest) == Ok((FromU16(v), rest))
  {
    var bs := FromU16(v).buf + rest;
    assert Pow256(2) == 0x1_0000;
    assert bs[1..3] == LeBytes(v, 2);
    LeRoundTrip(v, 2);
  }

  lemma FromU32RoundTrip(v: u32, rest: Bytes)
    ensures ReadFrom(FromU32(v).buf + rest) == Ok((FromU32(v), rest))
  {
    var bs := FromU32(v).buf + rest;
    assert Pow256(4) == 0x1_0000_0000;
    assert bs[1..5] == LeBytes(v, 4);
    LeRoundTrip(v, 4);
  }

  lemma FromU64RoundTrip(v: u64, rest: Bytes)
    ensures ReadFrom(FromU64(v).buf + rest) == Ok((FromU64(v), rest))
  {
    var bs := FromU64(v).buf + rest;
    assert Pow256(8) == 0x1_0000_0000_0000_0000;
    assert bs[1..9] == LeBytes(v, 8);
    LeRoundTrip(v, 8);
  }

  /** A value below 0xfd written in the long forms still reads back as the
      same number, and `to_bytes` keeps the long form. */
  lemma NonCanonicalKept(v: u8, rest: Bytes)
    ensures ReadFrom(FromU64(v).buf + rest).Ok?
    ensures ReadFrom(FromU64(v).buf + rest).value.0.value == v
    ensures |ReadFrom(FromU64(v).buf + rest).value.0.buf| == 9
  {
    FromU64RoundTrip(v, rest);
  }

  /** `Display`: the value in decimal. */
  function Display(v: VarUint): (s: string)
    ensures Text.ParseUint(s, U64_MAX) == Some(v.value)
  {
    Text.DecimalRoundTrip(v.value, U64_MAX);
    Text.Decimal(v.value)
  }
}

=== FILE: wrappers.dfy ===
/** Failure-compatible wrappers mirroring Rust's `Option` and `Result`, so
    that `:-` can stand for the `?` operator of the modelled code. */
module Wrappers {

  datatype Option<+T> = None | Some(value: T) {
    predicate IsFailure() { None? }

    function PropagateFailure<U>(): Option<U>
      requires None?
    {
      None
    }

    function Extract(): T
      requires Some?
    {
      value
    }

    function UnwrapOr(default: T): T {
      if Some? then value else default
    }
  }

  datatype Result<+T, +E> = Ok(value: T) | Err(error: E) {
    predicate IsFailure() { Err? }

    function PropagateFailure<U>(): Result<U, E>
      requires Err?
    {
      Err(error)
    }

    function Extract(): T
      requires Ok?
    {
      value
    }

    function ToOption(): Option<T> {
      if Ok? then Some(value) else None
    }
  }

  /** No element occurs twice. */
  predicate Distinct<T(==)>(xs: seq<T>) {
    forall i, j :: 0 <= i < j < |xs| ==> xs[i] != xs[j]
  }
}

=== FILE: xor_reader.dfy ===
/** The de-obfuscating reader of block files (`XorReader`): since Bitcoin
    Core 28.0 the blk*.dat files may be XOR-ed with the key stored in
    xor.dat, byte `p` of the file with key byte `p mod |key|`. The wrapped
    reader is replaced by the bytes it returns from each call. */
module XorReaders {
  import opened Bytes
  import opened Wrappers

  /** `XorReader` without its inner reader: the key, if any, and the
      absolute position in the file. */
  datatype XorReader = XorReader(key: Option<Bytes>, pos: nat)

  /** The panic of `%` by a zero-length key. */
  const RemainderByZero: string := "attempt to calculate the remainder with a divisor of zero"

  /** `XorReader::new`: reading starts at offset 0. */
  function New(key: Option<Bytes>): (r: XorReader)
    ensures r.key == key && r.pos == 0
  {
    XorReader(key, 0)
  }

  function Pow2(k: nat): (r: nat)
    ensures r >= 1
  {
    if k == 0 then 1 else 2 * Pow2(k - 1)
  }

  /** Bitwise exclusive or of the low `k` bits, lowest bit first. */
  function XorBits(a: nat, b: nat, k: nat): (r: nat)
    ensures r < Pow2(k)
  {
    if k == 0 then 0 else (a % 2 + b % 2) % 2 + 2 * XorBits(a / 2, b / 2, k - 1)
  }

  /** `^` on `u8`. */
  function Xor(a: u8, b: u8): u8 {
    assert Pow2(8) == 256;
    XorBits(a, b, 8)
  }

  /** Exclusive or with zero keeps a number that fits in `k` bits. */
  lemma {:induction false} XorBitsZero(a: nat, k: nat)
    requires a < Pow2(k)
    ensures XorBits(a, 0, k) == a
  {
    if k > 0 {
      XorBitsZero(a / 2, k - 1);
    }
  }

  lemma {:induction false} XorBitsTwice(a: nat, b: nat, k: nat)
    ensures XorBits(XorBits(a, b, k), b, k) == XorBits(a, 0, k)
  {
    if k > 0 {
      var c := XorBits(a, b, k);
      var d := (a % 2 + b % 2) % 2;
      var c1 := XorBits(a / 2, b / 2, k - 1);
      assert c % 2 == d && c / 2 == c1;
      XorBitsTwice(a / 2, b / 2, k - 1);
      assert (d + b % 2) % 2 == a % 2;
    }
  }

  /** `(a ^ b) ^ b == a`. */
  lemma XorTwice(a: u8, b: u8)
    ensures Xor(Xor(a, b), b) == a
  {
    assert Pow2(8) == 256;
    XorBitsTwice(a, b, 8);
    XorBitsZero(a, 8);
  }

  /** `a ^ 0 == a`. */
  lemma XorZero(a: u8)
    ensures Xor(a, 0) == a
  {
    assert Pow2(8) == 256;
    XorBitsZero(a, 8);
  }

  /** The bytes at file offsets `pos ..` with the key applied. */
  function Unmask(key: Bytes, pos: nat, data: Bytes): (r: Bytes)
    requires |key| > 0
    ensures |r| == |data|
    ensures forall i :: 0 <= i < |data| ==> r[i] == Xor(data[i], key[(pos + i) % |key|])
  {
    seq(|data|, i requires 0 <= i < |data| => Xor(data[i], key[(pos + i) % |key|]))
  }

  /** `Read::read`: the inner reader delivered `data`; each byte is XOR-ed
      with the key byte for its absolute offset, and the position moves
      past them. An empty key divides by zero as soon as a byte arrives. */
  method Read(r: XorReader, data: Bytes) returns (res: Result<(XorReader, Bytes), string>)
    ensures res.Err? <==> r.key == Some([]) && |data| > 0
    ensures res.Ok? ==> res.value.0 == r.(pos := r.pos + |data|)
    ensures res.Ok? && r.key.None? ==> res.value.1 == data
    ensures res.Ok? && r.key.Some? && |r.key.value| > 0 ==> res.value.1 == Unmask(r.key.value, r.pos, data)
  {
    var buf := data;
    if r.key.Some? {
      var key := r.key.value;
      if |key| == 0 && |data| > 0 {
        return Err(RemainderByZero);
      }
      var i := 0;
      while i < |data|
        invariant 0 <= i <= |data| && |buf| == |data|
        invariant forall j :: 0 <= j < i ==> buf[j] == Xor(data[j], key[(r.pos + j) % |key|])
        invariant forall j :: i <= j < |data| ==> buf[j] == data[j]
      {
        buf := buf[i := Xor(buf[i], key[(i + r.pos) % |key|])];
        i := i + 1;
      }
      if |key| > 0 {
        assert buf == Unmask(key, r.pos, data);
      }
    }
    return Ok((r.(pos := r.pos + |data|), buf));
  }

  /** `Seek::seek`: the position becomes whatever the inner reader reports
      after seeking. */
  function Seek(r: XorReader, newPos: nat): (res: (XorReader, nat))
    ensures res.0.key == r.key && res.0.pos == newPos && res.1 == newPos
  {
    (r.(pos := newPos), newPos)
  }

  /** XOR with the same key stream undoes itself: obfuscating and reading
      back give the original bytes. */
  lemma UnmaskTwice(key: Bytes, pos: nat, data: Bytes)
    requires |key| > 0
    ensures Unmask(key, pos, Unmask(key, pos, data)) == data
  {
    var once := Unmask(key, pos, data);
    var twice := Unmask(key, pos, once);
    forall i | 0 <= i < |data|
      ensures twice[i] == data[i]
    {
      XorTwice(data[i], key[(pos + i) % |key|]);
    }
  }

  /** Reading in two pieces gives the same bytes as reading at once, since
      the position carries the key phase over. */
  lemma UnmaskSplit(key: Bytes, pos: nat, a: Bytes, b: Bytes)
    requires |key| > 0
    ensures Unmask(key, pos, a + b) == Unmask(key, pos, a) + Unmask(key, pos + |a|, b)
  {
    var whole := Unmask(key, pos, a + b);
    var parts := Unmask(key, pos, a) + Unmask(key, pos + |a|, b);
    forall i | 0 <= i < |a + b|
      ensures whole[i] == parts[i]
    {
      if i >= |a| {
        assert pos + |a| + (i - |a|) == pos + i;
      }
    }
  }

  /** A key of one zero byte, or of zeros only, leaves the bytes as they
      are. */
  lemma ZeroKeyIsIdentity(n: nat, pos: nat, data: Bytes)
    requires n > 0
    ensures Unmask(Zeros(n), pos, data) == data
  {
    var r := Unmask(Zeros(n), pos, data);
    forall i | 0 <= i < |data|
      ensures r[i] == data[i]
    {
      XorZero(data[i]);
    }
  }
}
